=== FILE: README.md ===
# Trinity News Indexer — a Dafny model of the pipeline's logic

The Trinity News Indexer turns scanned issues of the Trinity College
student newspaper into a searchable PostgreSQL database. Loaders read text
files into `newspapers` and `articles`. Enrichment stages then add entities,
sentiment scores, topics, embeddings and geocoded places. A query tool
federates those indices. This project models the part of that pipeline that
is logic rather than plumbing, once the machine-learning models, the
geocoder, the vector search and the database server are reduced to
parameters:

- `Wrappers` holds `Option` and `Result`, which stand for Python's `None`
  returns and raised exceptions.
- `Text` holds ASCII character classes and string helpers: strip, whitespace
  collapse, `split()`, split on a character, join, substring search and
  decimal printing.
- `Tables` holds keyed tables as maps and scanned tables as ordered
  sequences. It defines the write disciplines the stages use: insert-if-absent
  (`ON CONFLICT DO NOTHING`), upsert (`DO UPDATE`), plain insert and
  `UPDATE ... WHERE`. It also defines the two LIMIT/OFFSET pagers: one bounded
  by a count read up front, one that stops at the first empty page.
- `NerEntities`: entity extraction over article bodies. This covers text
  cleaning, the greedy merge of adjacent same-label tokens, the
  one-character filter, paging, and the per-article commit loop.
- `Embedder`: the embedding stage. Its pager walks a filter that the stage
  itself falsifies while the offset keeps growing. A keyset variant of the
  pager does not skip rows.
- `Sentiment`: the sentiment stage. This covers the label-to-scores mapping,
  the 512-character truncation, skipping an article on a model failure, and
  the conflict-ignoring insert.
- `Tokenize`, `LdaArticles` and `LdaSummaries`: the two topic-model stages.
  This covers the stop-word tokenizers, preprocessing in order, the topic
  upsert, bigram alignment, the topic-string update and the
  commit/rollback.
- `SummaryRows` and `NerSummary`: the summary entity stage. It pages over
  `summary IS NOT NULL` and overwrites `summary_ner_entities`.
- `Geo`: the geocoding stage. This covers the `GPE` filter, the shape of a
  geocoder result, the truthy-coordinates store gate, and plain inserts
  that collide on a re-run. It also covers the ways the pass raises before
  its commit: a geocoder error, and a row the table refuses.
- `VectorIndex`: the index build. It builds the id and vector lists in
  lockstep, and its dimension guard runs before anything is added or written.
- `Query`: the query tool. This covers first-entity selection, the `LOC`
  gate, position-to-id mapping, the Postgres array literal, the sentiment
  query text and the gating of the federated legs. It also covers two ways
  the tool raises: a `BYTEA` vector that has no `strip`, and a caught
  lookup error that leaves the transaction aborted.
- `ArticleDivider`: the line-driven article state machine of the splitter.
- `CleanLines`: the line-preserving cleaner, `clean_text_with_newlines`, as
  written (`CleanTextWithNewlines`) and with the hyphen join corrected
  (`CleanTextJoiningAll`).
- `FilenameDate` and `Toc`: the day/month/year file-name search, and the
  table-of-contents and hyperlink loader.
- `Segmented`: the Title/Body article loader with its newspaper
  get-or-insert.

Characters are ASCII. `\w` is `[A-Za-z0-9_]`, and `\s`, `str.isalpha`,
`str.lower`, `split()` and `strip()` behave as they do on ASCII text.
The points where the source commits or rolls back are modelled. A
statement that raises is modelled where the source's handling of it
matters: a stage that catches it, a transaction it leaves aborted, or a
commit it prevents. Which statements the server refuses is a parameter,
except where the schema fixes it (the `geocoded_locations` columns and the
`BYTEA` type of `faiss_vector`; `VARCHAR(255)` refuses a longer value
only when a character past the 255th is not a space, and otherwise cuts
it to 255). A rollback does not give back the values a `SERIAL` sequence
has handed out, so in both newspaper loaders (the table-of-contents
loader and the segmented loader) the next `newspaper_id` keeps its
advance when a run is rolled back or never committed. A refused insert
is taken to use up no id.

## Model

| member | source | states |
|---|---|---|
| Text.Keep | 6_NER_to_database.py:78 | a negated character class removed by `re.sub` keeps only allowed characters of the input, and leaves text of allowed characters unchanged |
| Text.Strip | 6_NER_to_database.py:80 | the stripped text is the input minus its leading and trailing whitespace, has none at either end, is empty exactly when the input is blank, and leaves edge-free text unchanged |
| Text.StripPadded | 4_segmented_to_db.py:110-111 | stripping removes exactly the whitespace padding around an edge-free text |
| Text.CollapseSpace | 6_NER_to_database.py:80 | every whitespace run becomes one plain space: the result never lengthens the text, holds no other whitespace and no two spaces in a row, and starts or ends with whitespace exactly when the input does |
| Text.CollapseSpaceFixpoint | TOC_HYPERLINK_GET.py:65 | already single-spaced text with plain spaces is left unchanged |
| Text.CollapseSpaceKeeps | 6_NER_to_database.py:80 | every non-whitespace character of the input is kept, all of them and in order |
| Text.Words | 7_LDA_to_DB.py:38 | `split()` gives non-empty whitespace-free words |
| Text.WordsEmpty | 3_article_divider.py:45 | a text has no words exactly when it is all whitespace |
| Text.WordsJoin | 3_article_divider.py:45 | words joined by single spaces split back into the same words |
| Text.JoinSplitOn | 9_FAISS_to_DB.py:16 | joining the comma-split pieces with the comma gives the text back |
| Text.SplitOnJoin | 9_FAISS_to_DB.py:16 | splitting a join of comma-free pieces gives the pieces back |
| Text.JoinCount | QUERYTOOL1.py:119 | joining n separator-free pieces puts n - 1 separators in the text |
| Text.StripChars | 9_FAISS_to_DB.py:16 | `strip('[]')` never lengthens, leaves no bracket at either end, and leaves bracket-free edges alone |
| Text.StripCharsIdempotent | 9_FAISS_to_DB.py:16 | stripping brackets twice is stripping them once |
| Text.StripCharsSlice | 9_FAISS_to_DB.py:16 | the result is a slice of the input, and every character cut off at either end is a bracket |
| Text.Find | 4_segmented_to_db.py:62 | the position returned is the first occurrence at or after the start, and `None` means there is none |
| Text.FindFirst | 4_segmented_to_db.py:62 | an occurrence right after a prefix that holds none is the one found |
| Text.NatToString | 4_segmented_to_db.py:84-88 | `str(n)` is a non-empty run of digits with no leading zero |
| Text.DigitsValueOfNatToString | 4_segmented_to_db.py:84-88 | `int(str(n)) == n` |
| Text.RemoveAll | 3_article_divider.py:50 | `replace(title, "")` never lengthens the line |
| Text.RemoveAllUnchanged | 3_article_divider.py:50 | a line that does not hold the title, or an empty title, is left unchanged, and a line that holds a non-empty title gets shorter |
| Tables.Page | 6_NER_to_database.py:115 | `LIMIT`/`OFFSET` gives at most `limit` rows, the slice at the offset, and nothing past the end |
| Tables.CountPager | 6_NER_to_database.py:113-119 | no page is longer than the batch size |
| Tables.CountPagerCovers | 8_sentiment_analysis_to_DB.py:45-55 | counting first and paging up to the count returns every row once, in scan order |
| Tables.EmptyStopPager | 20.1_LDA_to_DB_SUMMARIES.py:65-74 | every page is non-empty and no longer than the batch size |
| Tables.EmptyStopPagerCovers | 11_NER_TO_SUMMARY.py:87-105 | paging until the first empty page returns every row once, in scan order |
| Tables.InsertIfAbsent | 8_sentiment_analysis_to_DB.py:91-97 | `ON CONFLICT DO NOTHING` adds exactly the new keys with their first written value and never changes an existing row |
| Tables.InsertIfAbsentIdempotent | 8_sentiment_analysis_to_DB.py:91-97 | repeating the same inserts changes nothing |
| Tables.Upsert | 7_LDA_to_DB.py:72-78 | `ON CONFLICT DO UPDATE` leaves every written key at its last value and every other key unchanged |
| Tables.UpsertIdempotent | 7_LDA_to_DB.py:72-78 | repeating the same upserts changes nothing |
| Tables.InsertAllOk | 10_GEO_to_DB.py:50-53 | plain inserts go through exactly when every key is new to the table and written once |
| Tables.InsertAllContents | 10_GEO_to_DB.py:50-53 | successful plain inserts keep every old row and add exactly the written rows |
| Tables.InsertAllAgain | 10_GEO_to_DB.py:50-53 | running the same non-empty inserts again hits the primary key and loses the transaction |
| Tables.InsertAll | 10_GEO_to_DB.py:50-53 | successful plain inserts keep every old row as it was, and an insert whose key is already in the table raises |
| Tables.UpdateEachRows | 20.1_LDA_to_DB_SUMMARIES.py:130-134 | after a sequence of updates each written row holds the last value written for its key and every other row is unchanged |
| Tables.UpdateEach | 20.1_LDA_to_DB_SUMMARIES.py:130-134 | `UPDATE ... WHERE` never adds or removes a row |
| NerEntities.CleanText | 6_NER_to_database.py:74-81 | the cleaned text holds only `a`-`z` and plain spaces, no space at either end and never two in a row |
| NerEntities.CleanTextIdempotent | 6_NER_to_database.py:74-81 | cleaning an already cleaned text changes nothing |
| NerEntities.CombineEntities | 6_NER_to_database.py:84-103 | the result is empty exactly when the input is, is never longer than the input, and no entity in it is continued (same label, start one past its end) by the next |
| NerEntities.CombineFromFixpoint | 6_NER_to_database.py:88-101 | a list in which no entity continues the one before passes through the merge loop unchanged |
| NerEntities.CombineEntitiesIdempotent | 6_NER_to_database.py:84-103 | merging twice is merging once |
| NerEntities.CombineNewYork | 6_NER_to_database.py:91-94 | LOC "New" at 0..3 followed by LOC "York" at 4..8 become the single LOC "New York" at 0..8 |
| NerEntities.MergeRun | 6_NER_to_database.py:93-94 | a merged chain keeps the label and start of its first token and takes the end of its last |
| NerEntities.ChainSnoc | 6_NER_to_database.py:91-94 | a continuing token extends a chain, and the merge grows by one space and the token's word and takes its end |
| NerEntities.RunsFlatten | 6_NER_to_database.py:88-101 | the maximal chains of the input, concatenated in order, give back the input |
| NerEntities.RunsAreChains | 6_NER_to_database.py:88-101 | inside each chain every token continues the one before it |
| NerEntities.RunsAreMaximal | 6_NER_to_database.py:95-97 | the first token of a chain never continues the last token of the chain before it |
| NerEntities.MergeRuns | 6_NER_to_database.py:88-101 | one merged entity per chain, in chain order, each with its chain's first label and start and its last end |
| NerEntities.CombineEntitiesMergesRuns | 6_NER_to_database.py:84-103 | the result is the merge of each maximal chain of the input, in order: no token is reordered, dropped or duplicated |
| NerEntities.StoreEntities | 6_NER_to_database.py:125-137 | every row carries the article id and a word longer than one character; every such entity has its row; every row comes from such an entity |
| NerEntities.StoreEntitiesAppend | 6_NER_to_database.py:128-134 | storing a list stores its parts one after the other, so rows keep the list order |
| NerEntities.FetchArticles | 6_NER_to_database.py:106-122 | no page holds more than the batch size |
| NerEntities.FetchFromPrefix | 6_NER_to_database.py:113-122 | with failing page queries the fetched rows are a prefix of the table: a failure only cuts the pass short |
| NerEntities.FetchFromAllOk | 6_NER_to_database.py:113-119 | without failures the pages are those at offsets 0, bs, 2bs, ... below the count read once |
| NerEntities.FetchArticlesCovers | 6_NER_to_database.py:106-119 | over an unchanged table without failures every article is fetched exactly once, in scan order |
| NerEntities.ArticleRows | 6_NER_to_database.py:140-162 | an article's rows carry its id, words longer than one character, and values that fit the column types |
| NerEntities.NewRows | 6_NER_to_database.py:141-142 | every new row belongs to one of the processed articles and is a storable entity |
| NerEntities.ProcessArticles | 6_NER_to_database.py:140-162 | the entity table only grows: the old rows stay in front and the articles' rows follow |
| NerEntities.ProcessArticlesAppend | 6_NER_to_database.py:141-142 | processing pages one after the other is processing them as one list |
| NerEntities.ProcessOneArticle | 6_NER_to_database.py:143-160 | an article whose model call and inserts succeed adds exactly its stored rows, committed as a unit |
| NerSummary.Project | 11_NER_TO_SUMMARY.py:97 | one stored entity per model entity, same order, with `entity_group` as the type and `word` as the value |
| NerSummary.ProjectAppend | 11_NER_TO_SUMMARY.py:97 | the projection distributes over concatenation, so it keeps the model's order |
| NerSummary.ProcessItemsOk | 11_NER_TO_SUMMARY.py:93-102 | a page is processed exactly when every model call on it succeeds |
| NerSummary.ProcessItemsKeeps | 11_NER_TO_SUMMARY.py:72-79 | the updates write only `summary_ner_entities`: ids and summaries stay |
| NerSummary.ProcessItemsWrites | 11_NER_TO_SUMMARY.py:93-100 | with every model call succeeding, a page is the sequence of overwrites keyed by article id, in fetch order |
| NerSummary.ProcessItemsFetchable | 11_NER_TO_SUMMARY.py:65 | the column written is outside the paging filter, so the list the pager reads is unchanged |
| NerSummary.LoopIsSequential | 11_NER_TO_SUMMARY.py:87-105 | pages at offsets 0, bs, ... until the first empty one process the fetched list once, in order, with `total_summaries` its length |
| NerSummary.RunErrorPath | 11_NER_TO_SUMMARY.py:110-126 | one failing model call leaves the table as it was (no commit); otherwise the pass counts every non-NULL summary |
| NerSummary.RunIsUpdateEach | 11_NER_TO_SUMMARY.py:83-105 | the committed pass is one round of overwrites keyed by article id, one per non-NULL summary |
| NerSummary.RunStores | 11_NER_TO_SUMMARY.py:72-105 | with distinct ids, each row with a summary holds the projection of the model's entities for it and each row without one is untouched |
| NerSummary.RunTwice | 11_NER_TO_SUMMARY.py:72-79 | re-running with the same model output leaves the column as the first run wrote it |
| NerSummary.Run | 11_NER_TO_SUMMARY.py:110-126 | the pass keeps every row with its id and summary: only `summary_ner_entities` can change |
| Embedder.Where | 5_sentence_transformer.py:53-54 | the filtered rows all satisfy the condition and are no more than the table's |
| Embedder.WhereSubset | 5_sentence_transformer.py:53 | the filter keeps only rows of the table |
| Embedder.WhereComplete | 5_sentence_transformer.py:53 | the filter keeps every row of the table that satisfies it |
| Embedder.WhereAscending | 5_sentence_transformer.py:54 | filtering a table in ascending id order keeps the order |
| Embedder.Eligible | 5_sentence_transformer.py:53 | every eligible row has a NULL `embedding_vector` |
| Embedder.NextBatch | 5_sentence_transformer.py:51-57 | at most `batch_size` rows of the table, all with a NULL `embedding_vector`, in ascending id order, and empty exactly when the offset is past the eligible rows |
| Embedder.Pairs | 5_sentence_transformer.py:80 | `zip` pairs ids and vectors by position and is as long as the shorter list |
| Embedder.ApplyUpdates | 5_sentence_transformer.py:84-88 | the updates keep every row's id and content |
| Embedder.ApplyUpdatesRows | 5_sentence_transformer.py:84-88 | a written row holds the last vector written for it in both columns; every other row is untouched |
| Embedder.BatchPairedByPosition | 5_sentence_transformer.py:73-88 | the row of the j-th batch id carries the j-th vector in both columns, and rows outside the batch are untouched |
| Embedder.Pass | 5_sentence_transformer.py:64-95 | the table is the committed batches applied in order, and each committed batch succeeded in full and holds at most `batch_size` updates |
| Embedder.ApplyBatches | 5_sentence_transformer.py:84-90 | committed batches keep every row's id, and keep the ids ascending |
| Embedder.Attempt | 5_sentence_transformer.py:72-90 | one round stops exactly when the fetched batch is empty, and a round that commits succeeded in full with at most `batch_size` updates |
| Embedder.PassTrace | 5_sentence_transformer.py:71-95 | batch k of a pass is what round k commits on the table holding the earlier batches; the round after the last commit raises exactly when the pass failed, so an error keeps the batches committed before it and loses only the open one |
| Embedder.EligibleIdsAfterUpdates | 5_sentence_transformer.py:53-88 | the written ids leave the filter and nothing enters it |
| Embedder.EligibleAfterUpdatesSeq | 5_sentence_transformer.py:53-88 | the eligible rows after a batch are those before it with the written ids removed, in place |
| Embedder.RemoveSlice | 5_sentence_transformer.py:54-55 | removing the ids of a slice of the ascending eligible rows removes exactly that slice |
| Embedder.PassStepEligible | 5_sentence_transformer.py:51-90 | one successful batch at an offset removes exactly that slice of the eligible rows |
| Embedder.PassLeavesDrift | 5_sentence_transformer.py:48-61 | with nothing failing, the rows left eligible are exactly those the advancing offset skipped over |
| Embedder.Processed | 5_sentence_transformer.py:58-61 | a drifting pass embeds no more rows than were eligible |
| Embedder.DriftLeftLength | 5_sentence_transformer.py:58-61 | the rows left behind number the eligible rows minus those embedded |
| Embedder.ProcessedFallsShort | 5_sentence_transformer.py:51-61 | with more eligible rows than one batch, fewer than all are embedded |
| Embedder.PassSkipsRows | 5_sentence_transformer.py:51-61 | with more eligible rows than one batch and nothing failing, the pass still ends with unembedded rows |
| Embedder.DriftExample | 5_sentence_transformer.py:51-61 | 250 eligible rows in batches of 100: ranks 101-200 are left behind and 150 are embedded |
| Embedder.KeysetBatchCovers | 5_sentence_transformer.py:51-56 | a keyset batch holds every eligible id between its bound and its last id |
| Embedder.KeysetPass | 5_sentence_transformer.py:64-95 | the corrected pass applies its committed batches in order, keeps the table's length and never makes a row eligible |
| Embedder.KeysetPassComplete | 5_sentence_transformer.py:48-61 | with nothing failing, the corrected pass leaves no eligible row above its starting bound |
| Sentiment.Truncate | 8_sentiment_analysis_to_DB.py:66 | the model sees the first min(length, 512) characters of the summary |
| Sentiment.ScoresOf | 8_sentiment_analysis_to_DB.py:69-79 | POSITIVE puts the score in the positive column, NEGATIVE in the negative one, any other label in the neutral one; the compound column is always the score, and the three label columns add up to it |
| Sentiment.OneColumnCarriesScore | 8_sentiment_analysis_to_DB.py:72-77 | exactly one of the positive, negative and neutral columns can be non-zero |
| Sentiment.ArticleData | 8_sentiment_analysis_to_DB.py:61-82 | an article's rows all carry its id, one per model result; a NULL summary or a failing model call contributes none |
| Sentiment.BatchData | 8_sentiment_analysis_to_DB.py:60-83 | every batch row belongs to an article of the batch; a failing article is skipped and the others still contribute |
| Sentiment.BatchDataAppend | 8_sentiment_analysis_to_DB.py:61 | the batch rows follow the batch order |
| Sentiment.Run | 8_sentiment_analysis_to_DB.py:58-100 | an existing row is never changed, and every new key belongs to an article of some page |
| Sentiment.InsertIfAbsentAppend | 8_sentiment_analysis_to_DB.py:84-86 | inserting the pages one after another is inserting all their rows at once |
| Sentiment.RunAllOk | 8_sentiment_analysis_to_DB.py:58-97 | with every insert succeeding, the pass is one conflict-ignoring insert of all rows in page order |
| Sentiment.RunTwiceIsRunOnce | 8_sentiment_analysis_to_DB.py:91-97 | re-running over the same pages adds and changes nothing |
| Sentiment.AllDataOfCountPager | 8_sentiment_analysis_to_DB.py:43-55 | with the count read once over an unchanged table, the pages visit every article once, in scan order |
| SummaryRows.Fetchable | 11_NER_TO_SUMMARY.py:64-66 | no more pairs than rows, and none when no row has a summary |
| SummaryRows.FetchableComplete | 11_NER_TO_SUMMARY.py:65 | every row with a summary is fetched |
| SummaryRows.FetchableSound | 11_NER_TO_SUMMARY.py:65 | every fetched pair is the id and summary of some row |
| SummaryRows.FetchableDistinct | 11_NER_TO_SUMMARY.py:65 | distinct row ids give distinct fetched ids |
| SummaryRows.FetchableUnchanged | 20.1_LDA_to_DB_SUMMARIES.py:51 | tables that agree on ids and summaries fetch the same pairs: writing other columns does not move the filter |
| SummaryRows.FetchedRow | 11_NER_TO_SUMMARY.py:93-100 | with distinct ids a fetched id names exactly one row, and the fetched summary is that row's |
| LdaArticles.PreprocessArticles | 7_LDA_to_DB.py:37-46 | one document per fetched article, same order and id, holding that article's tokens; a NULL content stops the stage |
| LdaArticles.PreprocessAppend | 7_LDA_to_DB.py:44 | preprocessing two fetched lists is preprocessing their concatenation |
| LdaArticles.DocWritesLast | 7_LDA_to_DB.py:72-78 | a document's writes touch exactly its article's keys for its topics, each ending at the topic's last weight |
| LdaArticles.WritesKeys | 7_LDA_to_DB.py:68-78 | a key is written exactly when it pairs some document's article id with a topic of that document's distribution |
| LdaArticles.WritesWeight | 7_LDA_to_DB.py:68-78 | with distinct article ids, the weight last written for (article of document i, topic t) is the last weight document i gives t |
| LdaArticles.StoreLdaTopics | 7_LDA_to_DB.py:65-81 | a failing statement keeps the table as it was; otherwise written keys hold their last weight, other keys are unchanged, and each document's topics sit under its own article |
| LdaArticles.StoreTwice | 7_LDA_to_DB.py:72-80 | storing the same distributions again leaves the table as it is |
| LdaArticles.RunLda | 7_LDA_to_DB.py:41-81 | a NULL content writes nothing, and no existing key is removed |
| LdaArticles.RunLdaStoresUnderArticle | 7_LDA_to_DB.py:44-78 | with distinct ids, the i-th article's topics are stored under that article with the weights of the i-th distribution |
| LdaSummaries.DocsOf | 20.1_LDA_to_DB_SUMMARIES.py:70-72 | one document per fetched summary, same order, with its id and its lemmatized tokens |
| LdaSummaries.DocsOfAppend | 20.1_LDA_to_DB_SUMMARIES.py:70-72 | documents of two pages are the documents of their concatenation |
| LdaSummaries.DocsOfPagesFlatten | 20.1_LDA_to_DB_SUMMARIES.py:65-74 | appending each page's documents gives the documents of all fetched rows in order |
| LdaSummaries.PreprocessSummariesCovers | 20.1_LDA_to_DB_SUMMARIES.py:60-77 | pages of 100 until the first empty one give one document per non-NULL summary, in table order |
| LdaSummaries.CreateBigrams | 20.1_LDA_to_DB_SUMMARIES.py:80-97 | same length, and every index keeps its article id and gets the phrased tokens of its own document |
| LdaSummaries.Entry | 20.1_LDA_to_DB_SUMMARIES.py:127 | every entry starts with "Topic " |
| LdaSummaries.TopicString | 20.1_LDA_to_DB_SUMMARIES.py:127 | the string is empty exactly when there are no topics, and otherwise starts with "Topic " |
| LdaSummaries.TopicStringCommas | 20.1_LDA_to_DB_SUMMARIES.py:127 | with a comma-free float format, n topics give exactly n - 1 commas |
| LdaSummaries.TopicUpdates | 20.1_LDA_to_DB_SUMMARIES.py:120-134 | one update per document, addressed to that document's article |
| LdaSummaries.StoreSummaryTopics | 20.1_LDA_to_DB_SUMMARIES.py:116-141 | a failing update rolls back all; only `summary_topics` changes, only on documents' rows, and with distinct ids each gets its own document's string |
| LdaSummaries.RunOnSummariesStores | 20.1_LDA_to_DB_SUMMARIES.py:60-141 | with distinct ids and no error, the row of the i-th non-NULL summary receives the i-th document's topic string; rows with a NULL summary are untouched |
| LdaSummaries.RunOnSummaries | 20.1_LDA_to_DB_SUMMARIES.py:147-174 | the pass keeps every row with its id and summary: only `summary_topics` can change |
| Geo.FetchEntities | 10_GEO_to_DB.py:34-36 | no more pairs than entities, and every `GPE` entity's (id, value) is fetched |
| Geo.FetchEntitiesSound | 10_GEO_to_DB.py:35 | every fetched pair comes from an entity whose type is exactly `GPE` |
| Geo.FetchEntitiesDistinct | 10_GEO_to_DB.py:35 | distinct entity ids give distinct fetched ids |
| Geo.GeocodeEntity | 10_GEO_to_DB.py:39-46 | three `None`s exactly when the geocoder finds nothing; otherwise its latitude, longitude and display name |
| Geo.Inserts | 10_GEO_to_DB.py:64-69 | no more rows than fetched entities |
| Geo.InsertsComplete | 10_GEO_to_DB.py:67-68 | every entity whose latitude and longitude are both truthy gets its row |
| Geo.InsertsSound | 10_GEO_to_DB.py:64-69 | every row belongs to a fetched entity that passed the gate and carries its result |
| Geo.InsertsDistinct | 10_GEO_to_DB.py:64-68 | distinct fetched ids give rows with distinct keys |
| Geo.RunStores | 10_GEO_to_DB.py:56-74 | when the geocoder answers every name, the table accepts every gated row and no geocoded entity has a row yet, the pass commits: each geocoded entity gets its own result's row (the display name as `VARCHAR(255)` keeps it), no other entity gets one, and the old rows stay |
| Geo.ZeroDropped | 10_GEO_to_DB.py:67 | a result at latitude or longitude exactly 0 is dropped |
| Geo.RunConflict | 10_GEO_to_DB.py:50-53 | a geocoded entity that already has a row makes the insert raise before the commit, so the table is unchanged |
| Geo.RunTwice | 10_GEO_to_DB.py:50-53 | a second run after an accepted one that stored anything hits the primary key and changes nothing |
| Geo.Run | 10_GEO_to_DB.py:56-74 | a geocoder error or a refused row raises before the commit and leaves the table as it was; a pass that changes the table keeps every old row |
| Geo.AcceptedRuns | 10_GEO_to_DB.py:64-71 | when the geocoder answers every `GPE` name and the table accepts every gated row, the pass does not raise |
| Geo.RunGeocoderRaises | 10_GEO_to_DB.py:64-71 | a geocoder error on any `GPE` name leaves the table as it was |
| Geo.RunRefused | 10_GEO_to_DB.py:64-71 | a row the table refuses, for any geocoded entity, leaves the table as it was |
| Geo.LongNameRefused | DB_CREATOR2.py:87-93 | a display name of 256 characters whose last is not a space does not fit `geocoding_source VARCHAR(255)`, so its row is refused |
| Geo.SpacePaddedNameStored | DB_CREATOR2.py:87-93 | a display name with only spaces past the 255th character is accepted, and stored cut to its first 255 characters |
| Geo.Fit | DB_CREATOR2.py:87-93 | the stored name is the first `min(n, 255)` characters, and for an accepted name only spaces are cut off |
| Query.ExtractEntity | QUERYTOOL1.py:56-61 | (word, label) of the first recognised entity, and two `None`s exactly when the model recognises nothing |
| Query.LocationFromDb | QUERYTOOL1.py:187-207 | both coordinates are present or both absent; present exactly when the query succeeds with a row, and then they are that first row's |
| Query.ExtractLocation | QUERYTOOL1.py:210-214 | coordinates come back only for a first entity labelled exactly `LOC`, and then they are the database's answer for its word |
| Query.FaissVectors | QUERYTOOL1.py:64-77 | the fetch raises exactly when some stored value is not text (a `BYTEA` value or NULL has no `strip`); otherwise ids and vectors are parallel, the i-th id and the i-th parsed vector coming from the i-th row |
| Query.FaissVectorsBracketed | QUERYTOOL1.py:64-77 | rows holding vectors printed as `[x1,...,xn]` are fetched and read back as the printed numbers, row by row, up to the first field that does not read; one number per field exactly when every field reads |
| Query.FaissVectorsBytea | QUERYTOOL1.py:70-73 | one stored `BYTEA` value makes the fetch raise |
| Query.MapPositionsAsWritten | QUERYTOOL1.py:92 | each returned position is read as a Python index, counting from the end when negative; the lookup fails only on a position outside the list |
| Query.PaddingRepeatsLastId | QUERYTOOL1.py:91-92 | with one stored vector, whatever its id, the padding positions `-1` make the written mapping report that id five times, the corrected one once |
| Query.PaddingDropped | QUERYTOOL1.py:91-92 | the corrected mapping reports no id for positions that are all padding |
| Query.MapPositions | QUERYTOOL1.py:91-92 | every reported id is a stored id, no more ids than positions, and one per position when all are real neighbours |
| Query.MapPositionsAgree | QUERYTOOL1.py:91-92 | when every position is a real neighbour the written and the corrected mapping agree |
| Query.SearchFaiss | QUERYTOOL1.py:80-92 | as written: a fetch that raises makes the search raise; no stored vectors gives no results; with stored vectors the search answers exactly when they form a matrix, the question has their width and every returned position is a valid Python index, and then it reports one id per returned position, `article_ids[idx]` with negative positions counting from the end |
| Query.SearchFaissCorrected | QUERYTOOL1.py:80-92 | the search with padding dropped raises exactly when the fetch raises or the stored vectors and the question do not fit FAISS; it reports stored ids, no more than the positions returned, and one per position when all are real neighbours |
| Query.SearchFaissAgree | QUERYTOOL1.py:91-92 | when FAISS returns only real neighbours, the search as written and the corrected one agree |
| Query.SearchFaissPads | QUERYTOOL1.py:91-92 | one stored vector and a question of its width: the search as written reports its id five times, the corrected search once |
| Query.PostgresVector | QUERYTOOL1.py:117-119 | the literal is wrapped in braces, and the empty vector gives `{}` |
| Query.PostgresVectorFields | QUERYTOOL1.py:119 | with a printer that writes no comma, n elements give n - 1 commas and the text between the braces splits back into the printed elements |
| Query.SentimentConditions | QUERYTOOL1.py:141-145 | one condition per given threshold, the positive one first and the negative one last |
| Query.SentimentQueryAsWritten | QUERYTOOL1.py:139-148 | without thresholds the query is the base text unchanged |
| Query.SentimentMissingConnector | QUERYTOOL1.py:146 | a positive threshold is glued straight onto the `%s` placeholder, with no connector |
| Query.SentimentQuery | QUERYTOOL1.py:139-148 | without thresholds the query is the base text unchanged |
| Query.SentimentQueryConnected | QUERYTOOL1.py:141-146 | the corrected query puts " AND " before every given condition, in order |
| Query.QueryAll | QUERYTOOL1.py:152-182 | the call answers exactly when the FAISS, entity, geospatial, similarity and sentiment legs all answer, the location lookup did not raise and an entity id was obtained; the answer holds each leg's result |
| Query.EntityLeg | QUERYTOOL1.py:158-162 | the entity search runs with the extracted word and label exactly when both are non-empty; otherwise the leg is empty |
| Query.GeoLeg | QUERYTOOL1.py:164-166 | a non-empty geospatial leg is the nearby search at the first row's coordinates for a `LOC` entity, both non-zero; a lookup that raises gives an empty leg |
| Query.QueryAllLookupRaises | QUERYTOOL1.py:187-214 | a `LOC` question whose lookup raises gets no coordinates, and the whole query raises because the transaction is left aborted |
| Query.QueryAllByteaRaises | QUERYTOOL1.py:152-155 | one stored `BYTEA` vector makes the whole query raise |
| Query.QueryAllDimensionRaises | QUERYTOOL1.py:87-91 | a question embedded at a width other than the stored vectors' makes the FAISS search, and so the whole query, raise |
| ArticleDivider.Render | 3_article_divider.py:61-64 | four output entries per record |
| ArticleDivider.RenderBlocks | 3_article_divider.py:61-64 | entries 4i to 4i+3 are the i-th record's separator, `Title: ` line, `Body: ` line and closing separator |
| ArticleDivider.Emit | 3_article_divider.py:52-64 | every record written has a stripped title and body that are not both empty |
| ArticleDivider.WriteArticle | 3_article_divider.py:36-64 | every record written has a stripped title and body that are not both empty |
| ArticleDivider.FirstFiveWordsBlank | 3_article_divider.py:44-47 | the first-five-words title is empty exactly when the line is blank, and is already stripped |
| ArticleDivider.WriteArticleSkips | 3_article_divider.py:52-58 | a section is skipped exactly when its title and every body line are blank |
| ArticleDivider.BlankTitleFromBody | 3_article_divider.py:40-63 | a blank title becomes the first at most five words of the first body line, joined by single spaces; every occurrence of that title is removed from the line, which is stripped, and the record's body is the stripped concatenation of the edited lines |
| ArticleDivider.LoneBodyLineBecomesTitle | 3_article_divider.py:53-54 | a blank-titled section whose only body line strips to `Body:` is written with the title `Body:`, so the first skip test never fires |
| ArticleDivider.OutputRecords | 3_article_divider.py:61-93 | every record of a file has a stripped title and body, not both empty, and stands in the output as its four lines |
| ArticleDivider.RecordCount | 3_article_divider.py:69-89 | at most one record per separator line, and at most one for a file without any |
| ArticleDivider.SectionKeepsRecords | 3_article_divider.py:76-86 | inside a section nothing is written and the open flag stays |
| ArticleDivider.BodyAccumulates | 3_article_divider.py:77-86 | without a `Body:` line the body grows by the section's body lines, and a `Title:` line discards nothing |
| ArticleDivider.MarkerDiscardsBody | 3_article_divider.py:81-82 | after the last `Body:` line the body is exactly the body lines that follow it |
| ArticleDivider.LastTitleWins | 3_article_divider.py:77-78 | a section's title is the text of its last `Title:` line, stripped |
| ArticleDivider.NoTitleKeepsTitle | 3_article_divider.py:77-78 | a section without a `Title:` line keeps the title it started with |
| ArticleDivider.SectionIndependent | 3_article_divider.py:69-74 | reading a section depends only on the title and body it starts with |
| ArticleDivider.FeedAppend | 3_article_divider.py:67 | reading two stretches of lines one after the other is reading their concatenation |
| ArticleDivider.LastSectionFlushed | 3_article_divider.py:69-89 | a file's records are those written before its last separator followed by the last section's record, flushed at the end |
| ArticleDivider.Step | 3_article_divider.py:67-86 | one line adds at most one record and never changes a written one; only a separator line writes, and it opens a section with no title and no body |
| ArticleDivider.Feed | 3_article_divider.py:67-86 | the records written so far are never changed |
| ArticleDivider.ProcessFile | 3_article_divider.py:21-93 | every record of a file has a stripped title and body, not both empty |
| CleanLines.JoinHyphens | 1_article_divider.py:38 | the written join never lengthens the text |
| CleanLines.JoinsBrokenWord | 1_article_divider.py:38 | a word, `-`, a newline and a word become the two words glued together, and the scan resumes after the second word |
| CleanLines.JoinHyphensUnchanged | 1_article_divider.py:38 | the written join leaves the text unchanged exactly when it holds no hyphen line break, and shortens it otherwise |
| CleanLines.ChainedBreak | 1_article_divider.py:38 | "a-\nb-\nc" holds two breaks; the written join gives "ab-\nc", the corrected one "abc" |
| CleanLines.JoinAllHyphens | 1_article_divider.py:38 | the corrected join never lengthens the text |
| CleanLines.JoinAllHyphensRemovesBreaks | 1_article_divider.py:38 | the corrected join removes one `-` and one newline per hyphen line break and keeps every other character, in order, leaving no break behind |
| CleanLines.JoinAllHyphensNoBreak | 1_article_divider.py:38 | text with no hyphen line break passes through the corrected join unchanged |
| CleanLines.CollapseBlanks | 1_article_divider.py:41 | no tab and no two spaces remain, a leading blank stays a leading blank, and every character is a space or one of the input's |
| CleanLines.CollapseBlanksKeeps | 1_article_divider.py:41 | every character other than a space or tab is kept, in order |
| CleanLines.CollapseBlanksTidy | 1_article_divider.py:41 | text without tabs or double spaces is left as it is |
| CleanLines.SplitLines | 1_article_divider.py:44 | non-empty text has at least one line and no line holds a line break |
| CleanLines.JoinSplitLines | 1_article_divider.py:44 | text whose only breaks are `\n`, not ending in one, is its lines joined by newlines |
| CleanLines.SplitLinesClean | 1_article_divider.py:44 | every line of clean, tidy text is clean and tidy |
| CleanLines.JoinLinesClean | 1_article_divider.py:44 | clean, tidy lines joined by newlines stay clean and tidy |
| CleanLines.JoinHyphensFrom | 1_article_divider.py:38 | the written join only deletes: every character it returns occurs in its input |
| CleanLines.CleanTextCharacters | 1_article_divider.py:30-46 | every character of `clean_text_with_newlines` as written is one the filter keeps, and no tab or double space is left; the same holds with the corrected join |
| CleanLines.CleanTextLinesStripped | 1_article_divider.py:30-46 | every newline-separated line of `clean_text_with_newlines` as written is stripped; the same holds with the corrected join |
| CleanLines.CleanersAgreeWithoutBreaks | 1_article_divider.py:30-46 | on text whose filtered form holds no hyphen line break, the written cleaner and the corrected one return the same text |
| CleanLines.CleanTextWithNewlines | 1_article_divider.py:30-46 | the cleaner as written returns only characters the filter keeps, no tab and no double space, and every newline-separated line is stripped |
| FilenameDate.MatchAt | TOC_HYPERLINK_GET.py:80 | a match found at an index has one or two day digits there, a month word and four year digits, and none is found past the end |
| FilenameDate.Search | TOC_HYPERLINK_GET.py:80 | the result is the match at the leftmost index that has one, and no match anywhere gives `None` |
| FilenameDate.SearchFinds | 4_segmented_to_db.py:82 | a name laid out as digit-free text, a day, one space, a month word, one space and four digits is found with exactly those groups |
| Toc.DaysIn | TOC_HYPERLINK_GET.py:86 | every month has 28 to 31 days |
| Toc.MonthNumber | TOC_HYPERLINK_GET.py:86 | a month number is returned exactly when the word, ignoring case, is that month's full English name |
| Toc.Parse | TOC_HYPERLINK_GET.py:82-88 | a date comes back exactly when the month word names a month, the year prints as four digits and the day exists in that month; it is then a calendar date with the re-printed day and year |
| Toc.PublicationDate | TOC_HYPERLINK_GET.py:79-90 | always a calendar date, and 1900-01-01 when the name holds no day, month and year |
| Toc.PublicationDateOf | TOC_HYPERLINK_GET.py:79-90 | for a name laid out as text, day, month word and year, the date is that calendar date when it exists and the fallback otherwise |
| Toc.TocSpan | TOC_HYPERLINK_GET.py:56 | a span is found only when the text holds "Masthead" |
| Toc.Toc | TOC_HYPERLINK_GET.py:56-65 | present exactly when the markers are; then stripped, single-spaced with plain spaces, and empty exactly when the span is blank |
| Toc.TocSpanOf | TOC_HYPERLINK_GET.py:56 | the span is the text between the first "Masthead" and the first "Persistent Link" after it |
| Toc.TocOf | TOC_HYPERLINK_GET.py:56-65 | contents written between the markers come back without their padding and with each whitespace run made one space |
| Toc.LinkAt | TOC_HYPERLINK_GET.py:57 | a link found at an index sits there and starts with "http://" or "https://" |
| Toc.Hyperlink | TOC_HYPERLINK_GET.py:57-61 | the address starts with a scheme, is longer than it and holds no whitespace; `None` exactly when no index starts a link |
| Toc.LinkSpan | TOC_HYPERLINK_GET.py:57-61 | a link is the scheme and a non-empty run of non-whitespace, unchanged by the strip |
| Toc.LinkAtOf | TOC_HYPERLINK_GET.py:57 | a scheme followed by non-whitespace that whitespace or the end of text closes is matched whole |
| Toc.HyperlinkOf | TOC_HYPERLINK_GET.py:57-61 | an address whose scheme no earlier "http" precedes is found whole |
| Toc.HyperlinkAt | TOC_HYPERLINK_GET.py:57 | the leftmost link is the one returned |
| Toc.FileRow | TOC_HYPERLINK_GET.py:75-102 | a row is attempted exactly for a text file whose contents and address are both non-empty, and carries "Trinity Journal", the file's date, its contents and its address |
| Toc.Insert | TOC_HYPERLINK_GET.py:36-51 | nothing is committed; the transaction aborts when it already had or the row is refused, leaving the sequence alone, and otherwise the row is pending and has taken the next serial id |
| Toc.FeedPending | TOC_HYPERLINK_GET.py:75-105 | the loop never commits; it stays healthy exactly when no row is refused, and then holds every attempted row, in order, the sequence having advanced once per row |
| Toc.Commit | TOC_HYPERLINK_GET.py:107 | an aborted transaction commits nothing; otherwise the pending rows follow the committed ones; the sequence keeps its advance either way |
| Toc.UncommittedRunLost | TOC_HYPERLINK_GET.py:70-107 | as written no run stores a row, even when rows were inserted and none was refused, and the committing loader would have stored them; the sequence still advances once per inserted row |
| Toc.ProcessFilesStores | TOC_HYPERLINK_GET.py:70-107 | with the commit, a run appends every attempted row in file order, each with its serial id, when none is refused, and keeps the rows as they were otherwise |
| Toc.FeedFile | TOC_HYPERLINK_GET.py:99-101 | one file inserts at most one row, taking one serial id when the row is accepted, and never commits or clears an abort |
| Toc.Feed | TOC_HYPERLINK_GET.py:75-105 | the loop commits nothing, an aborted transaction stays aborted, pending rows only grow, and the sequence advances once per row added |
| Toc.ProcessFilesAsWritten | TOC_HYPERLINK_GET.py:70-107 | as written the rows after a run are the rows before it, and the sequence has advanced once per accepted insert |
| Toc.ProcessFiles | TOC_HYPERLINK_GET.py:70-107 | with the commit, a run keeps the old rows in front of anything it adds, and the sequence never moves back |
| Tokenize.TokensOf | 7_LDA_to_DB.py:38 | no more tokens than words; every kept word gives its token; when all are kept there is one token per word |
| Tokenize.TokensOfSound | 7_LDA_to_DB.py:38 | every token is the final step applied to the lower-case form of a kept word |
| Tokenize.TokensOfAppend | 20.1_LDA_to_DB_SUMMARIES.py:56 | tokenizing two word lists one after the other is tokenizing their concatenation, so the word order is kept |
| Tokenize.PlainTokensShape | 7_LDA_to_DB.py:38 | every token of the article stage is a lower-case alphabetic word that is not a stop word |
| Tokenize.Tokens | 7_LDA_to_DB.py:37-38 | `preprocess_text` gives no more tokens than the text has words |
| VectorIndex.ParseVector | 9_FAISS_to_DB.py:16 | empty text gives the empty vector; otherwise the comma-separated fields read as numbers, in order, stopping at the first field that does not read |
| VectorIndex.ReadFields | 9_FAISS_to_DB.py:16 | the numbers are the readings of the leading fields, and reading stops only at a field that does not read |
| VectorIndex.ReadFieldsAll | 9_FAISS_to_DB.py:16 | one number per field exactly when every field reads |
| VectorIndex.UnreadableFieldFailsBuild | 9_FAISS_to_DB.py:16-26 | a row printed with the index's number of fields, one of which does not read, gives a shorter vector, so the width assertion stops the build |
| VectorIndex.DecodeVector | 9_FAISS_to_DB.py:13-16 | a NULL value raises, and a value decodes exactly when it is present and UTF-8 |
| VectorIndex.Collect | 9_FAISS_to_DB.py:10-19 | ids and vectors are built in lockstep, the i-th vector being the decoding of the i-th row; the loop fails exactly when some value is NULL or not UTF-8, and the error names the first such row |
| VectorIndex.Width | 9_FAISS_to_DB.py:22-26 | a width exists exactly when there are rows and they all have the first one's width |
| VectorIndex.Build | 9_FAISS_to_DB.py:26-33 | on success the file holds the grown index, which keeps its dimension and old vectors and gains exactly the fetched ones, in order |
| VectorIndex.BuildGuard | 9_FAISS_to_DB.py:13-29 | the build succeeds exactly when there are rows, no value is NULL, every value is UTF-8 and every vector has the index's dimension |
| VectorIndex.RunPipelineIndex | 9_FAISS_to_DB.py:51-55 | a successful pipeline run holds exactly the decoded vectors, all of width 768, in fetch order |
| VectorIndex.RunPipeline | 9_FAISS_to_DB.py:40-55 | a successful run builds an index of dimension 768 with one vector per fetched row, and the file on disk holds that index |
| VectorIndex.ParseBracketed | 9_FAISS_to_DB.py:15-16 | text written as `[x1,...,xn]` with comma-free fields parses back to the fields read as numbers, one per field exactly when every field reads |
| Segmented.Lookup | 4_segmented_to_db.py:42-48 | `None` exactly when no row has the title and date; otherwise the id of a row that has them |
| Segmented.LookupAppend | 4_segmented_to_db.py:42-48 | an appended row is found only when no earlier row has its key |
| Segmented.GetOrInsert | 4_segmented_to_db.py:40-59 | `None` exactly when the transaction was aborted or the date is refused, and the transaction is then aborted; otherwise no article changes and the key now looks up to the returned id; the sequence advances by exactly the number of rows inserted |
| Segmented.GetOrInsertExisting | 4_segmented_to_db.py:42-48 | an existing row's id is returned and nothing is inserted |
| Segmented.GetOrInsertNew | 4_segmented_to_db.py:50-56 | without a row for the key exactly one row is appended, with the next serial id, which is returned |
| Segmented.GetOrInsertTwice | 4_segmented_to_db.py:40-59 | a second call with the same key returns the same answer and changes nothing |
| Segmented.GetOrInsertValid | 4_segmented_to_db.py:50-56 | returned ids are at least 1, so `if not newspaper_id` skips exactly the failures, and serial ids stay below the next one |
| Segmented.DateTextRereads | 4_segmented_to_db.py:84-88 | the stored date text is found again by the file-name pattern with the same month and the day and year re-printed as integers, so a leading zero is dropped |
| Segmented.PieceFrom | 4_segmented_to_db.py:62 | a match ends past where the search began and within the text, and both groups are stripped |
| Segmented.SplitStripped | 4_segmented_to_db.py:107-111 | every split title and body is stripped |
| Segmented.SplitSkip | 4_segmented_to_db.py:62 | a character that does not start "Title:" is passed over |
| Segmented.PieceFromIs | 4_segmented_to_db.py:62 | the match is the first "Title:", the first "Body:" after it and the first "\nTitle:" after the body, or the end |
| Segmented.SplitArticles | 4_segmented_to_db.py:62 | `findall` never returns more matches than there are characters to search, since each match ends past where its search began |
| Segmented.SplitRender | 4_segmented_to_db.py:62-111 | articles written as `Title: t` / `Body: b` blocks joined by newlines split back into the same (title, body) pairs, in order, when each title is stripped and holds no "Body:" and each body is non-empty, stripped and holds no "\nTitle:" |
| Segmented.SkipsUndated | 4_segmented_to_db.py:75-94 | a file not ending in `.txt` or without a date in its name changes nothing |
| Segmented.AbortedProcess | 4_segmented_to_db.py:57-100 | in an aborted transaction every file is a no-op |
| Segmented.RefusedFile | 4_segmented_to_db.py:57-100 | a refused date aborts the transaction as written; the corrected loader passes over the file |
| Segmented.StoresDated | 4_segmented_to_db.py:97-118 | a dated file with an accepted date gets its newspaper row (inserted with the next serial id when missing) and its articles appended under that row's id |
| Segmented.AbortedLoop | 4_segmented_to_db.py:72-121 | once aborted, the transaction stays as it is for the remaining files |
| Segmented.RefusedAborts | 4_segmented_to_db.py:72-121 | one refused file anywhere leaves the transaction aborted at the end |
| Segmented.RefusedDateLosesRun | 4_segmented_to_db.py:57-121 | as written, one refused date makes the final commit roll back every other file's newspapers and articles, while the newspaper sequence keeps one consumed id per rolled-back insert |
| Segmented.RolledBackInsertUsesId | 4_segmented_to_db.py:50-121 | a file that inserts a new newspaper followed by a refused file: nothing is stored, but the next serial id is one higher |
| Segmented.IsolatedIgnoresRefused | 4_segmented_to_db.py:72-118 | the corrected loop does the same as it would with the refused files removed |
| Segmented.RunIsolatedIgnoresRefused | 4_segmented_to_db.py:72-121 | the corrected run stores the same as a run over the accepted files only |
| Segmented.LoopStores | 4_segmented_to_db.py:72-118 | with no refused file both loops agree, never abort, keep serial ids and append exactly the dated files' articles in listing order |
| Segmented.RunAgrees | 4_segmented_to_db.py:72-121 | with every date accepted, the run as written commits what the corrected one commits |
| Segmented.RunIsolatedStores | 4_segmented_to_db.py:72-121 | the corrected run adds, after the existing articles, exactly the articles of the accepted dated files, file by file in listing order |
| Segmented.ProcessFile | 4_segmented_to_db.py:75-118 | a file only appends articles, so the existing ones stay in front; it only adds newspapers, advancing the sequence by one per row added; in the corrected loader a file leaves the transaction's abort state as it was |
| Segmented.Loop | 4_segmented_to_db.py:72-118 | the file loop only appends articles, advances the sequence by one per newspaper added, and in the corrected loader it leaves the transaction's abort state as it was |
| Segmented.Run | 4_segmented_to_db.py:64-121 | a run never loses an existing article, and the newspaper sequence never moves back |
| Segmented.RunIsolated | 4_segmented_to_db.py:64-121 | a corrected run never loses an existing article |

## Left out

- Connections and I/O are not modelled: psycopg2 connections, `settings.ini`, directory listing, file reads and writes, chardet encoding detection, logging, progress bars and printing. Tables are maps and sequences. A file's text and its name are inputs.
- The machine-learning models and external services are parameters: the NER and sentiment pipelines, the sentence encoder, the LDA model, the bigram phraser, the dictionary filter, the WordNet lemmatizer, the stop-word list, FAISS ranking, Nominatim and OpenAI. No geocode cache is modelled, because the code has none: `geocode_entity` calls the geocoder once per entity.
- How PostgreSQL reads a date text into a DATE is a parameter. So are whether the server refuses a row and whether a statement fails, except in `Geo`, where a refused row follows the `geocoded_locations` column types (Geo.Refused).
- Floating-point numbers are not modelled. Printing with `{score:.4f}` or `str(float)` is a parameter, and so is reading one field as a number in `np.fromstring` (which may fail, ending the parse). The byte layout of `tobytes()` and the distance computations (L2 ranking, `earth_distance`) are left out. Scores copied unchanged from a model are `real`.
- There is no round trip between the embedding stage and the index build. The embedding stage writes raw array bytes, while the index build decodes the column as UTF-8 bracketed text. The two formats do not meet, so none is claimed.
- The Unicode behaviour of `\w`, `\s`, `isalpha`, `lower` and `strip` is left out; the model uses the ASCII behaviour. Month names are read in the English locale.
- `process_file` in 1_article_divider.py (lines 66-121) and all of 2_article_divider.py are defined by lookbehind and lazy DOTALL regular expressions, and no regex engine is modelled.
- Schema keys follow the conflict targets the stages use, not the DDL. `entity_sentiments` has no unique constraint on `entity_id` (DB_CREATOR2.py:96-103), and `topics` has no `article_id` column (DB_CREATOR2.py:72-77), so on the real schema those statements would fail.
- Broken or unreachable code is not modelled:
  - the code after `return` in QUERYTOOL1.py:218-231;
  - the call to the undefined `create_standardized_output` (QUERYTOOL1.py:256), which would raise. The undefined `get_entity_id_from_input` (QUERYTOOL1.py:172) is the `entityId` parameter of Query.QueryAll, and `None` there is the `NameError` it raises;
  - the missing `configparser` import in 10_GEO_to_DB.py;
  - the `ValueError` branch in 4_segmented_to_db.py:89-91, which cannot fire because both captured groups are digits.
- Query.QueryAll: whether the legs raise on the real schema is left to their parameters. `search_nearby_locations` and `extract_location_from_db` name a `location_name` column that `geocoded_locations` lacks (DB_CREATOR2.py:87-93), and `find_similar_sentences` applies `cube_distance` to the `BYTEA` column `embedding_vector`; `lookup`, `nearby` and `similar` say whether each statement raises.
- Geo.RunStores: `NUMERIC(9, 6)` rounds a stored coordinate to six decimals; the model stores the geocoder's value unrounded, and only its range decides whether the row is refused.
- SQL string interpolation and injection (QUERYTOOL1.py:109, 143-145) concern the SQL engine and are left out.
- The pagers without `ORDER BY` (6_, 8_, 11_, 20.1_) assume the scan returns rows in the same order on every page, and that nothing else writes the table during a pass.
- Segmented.SplitRender: the round trip is proved only for articles whose body is non-empty. With an empty body, the whitespace skip after `Body:` consumes the newline of the next `\nTitle:`, so the lazy body group runs on into the next article.
- Segmented.StoresDated: an article insert that fails would raise out of the loop before the commit, so nothing would be stored. Article inserts are modelled as always succeeding.
- NerSummary.Loop takes the fetched list as a parameter. `NerSummary.ProcessItemsFetchable` shows that re-fetching each page gives the same list, because the stage does not write the column it filters on.

## Findings

| source | as written | input that shows it | evidently intended | confidence | as-written member | corrected member |
|---|---|---|---|---|---|---|
| 5_sentence_transformer.py:51-61 | the pager adds `batch_size` to the offset while embedded rows leave the `embedding_vector IS NULL` filter | 250 eligible rows with a batch size of 100: ranks 1-100 and 201-250 are embedded, ranks 101-200 are skipped | every eligible row embedded in one pass (page from the first remaining row or by keyset) | not executed | Embedder.PassSkipsRows | Embedder.KeysetPassComplete |
| QUERYTOOL1.py:83-92 | FAISS pads a result with position -1 when fewer than k = 5 vectors are stored, and `article_ids[-1]` is the last id; latent while `faiss_vector` is `BYTEA`, since the fetch raises first (Query.FaissVectorsBytea) | one stored vector with id 42: the search reports 42 five times | padding positions dropped | not executed | Query.SearchFaissPads | Query.SearchFaissCorrected |
| QUERYTOOL1.py:139-146 | the sentiment conditions are appended straight after the `WHERE ... = %s` text with no connector | `min_pos = 0.5` gives `... = %ssentiment_pos >= 0.5` | the conditions preceded by ` AND ` | not executed | Query.SentimentMissingConnector | Query.SentimentQueryConnected |
| 1_article_divider.py:38 | the hyphen-break substitution consumes the second word's character, so a chained break is missed | `a-\nb-\nc` becomes `ab-\nc` | `abc`, every hyphen line break joined | not executed | CleanLines.ChainedBreak | CleanLines.JoinAllHyphensRemovesBreaks |
| TOC_HYPERLINK_GET.py:100-107 | the connection is closed without a commit, so every inserted row is discarded | any directory with one file holding a table of contents and a web address | the inserted rows committed | not executed | Toc.UncommittedRunLost | Toc.ProcessFilesStores |
| 4_segmented_to_db.py:57-59, 97-100, 121 | a refused date leaves the transaction aborted; every later statement fails and the final commit rolls back all files | files `1 May 1999.txt` and `31 June 1999.txt`, where the server refuses `31 June 1999` | only the file with the refused date skipped | not executed | Segmented.RefusedDateLosesRun | Segmented.RunIsolatedIgnoresRefused |

=== FILE: article_divider.dfy ===
/** The line-driven article splitter of 3_article_divider.py: a separator
    line opens a section, a `Title:` line sets the section's title, a
    `Body:` line discards the body gathered so far, and every other line
    is body text; each section is written out as a four-line record when it
    has any content. */
module ArticleDivider {
  import opened Wrappers
  import opened Text

  /** The line that opens a section, and the first line of every record. */
  const Separator: string := "===================================="

  datatype LineKind = SeparatorLine | TitleLine | BodyMarker | BodyLine

  /** How the loop reads a line (lines keep their newline): a separator
      anywhere in the line wins, then a `Title:` prefix, then `Body:`. */
  function KindOf(line: string): LineKind {
    if Contains(line, Separator) then SeparatorLine
    else if StartsWith(line, "Title:") then TitleLine
    else if StartsWith(line, "Body:") then BodyMarker
    else BodyLine
  }

  /** `line.replace("Title:", "").strip()`. */
  function TitleOf(line: string): string {
    Strip(RemoveAll(line, "Title:"))
  }

  /** One written article. */
  datatype Record = Record(title: string, body: string)

  /** The four entries appended for a record. */
  function RecordLines(r: Record): seq<string> {
    [Separator, "Title: " + r.title, "Body: " + r.body, Separator + "\n"]
  }

  /** The output list: the records' entries, record after record. */
  function Render(rs: seq<Record>): (out: seq<string>)
    ensures |out| == 4 * |rs|
  {
    if rs == [] then [] else RecordLines(rs[0]) + Render(rs[1..])
  }

  /** Entries `4i .. 4i+3` of the output are the `i`-th record's four lines. */
  lemma {:induction false} RenderBlocks(rs: seq<Record>)
    ensures forall i :: 0 <= i < |rs| ==> Render(rs)[4 * i..4 * i + 4] == RecordLines(rs[i])
  {
    if rs != [] {
      RenderBlocks(rs[1..]);
      var out := Render(rs);
      var rest := Render(rs[1..]);
      assert out == RecordLines(rs[0]) + rest;
      forall i | 0 <= i < |rs| ensures out[4 * i..4 * i + 4] == RecordLines(rs[i]) {
        if i > 0 {
          assert out[4 * i..4 * i + 4] == rest[4 * (i - 1)..4 * (i - 1) + 4];
          assert rs[1..][i - 1] == rs[i];
        }
      }
    }
  }

  /** What every written record satisfies: title and body stripped, and not
      both empty. */
  predicate Written(r: Record) {
    NoEdgeSpace(r.title) && NoEdgeSpace(r.body) && (r.title != [] || r.body != [])
  }

  // ------------------------------------------------------- write_article

  /** At most the first five words of a line, joined by single spaces. */
  function FirstFiveWords(line: string): string {
    var ws := Words(Strip(line));
    Join(ws[..if |ws| < 5 then |ws| else 5], " ")
  }

  /** The two skip tests and the record itself. */
  function Emit(title: string, body: seq<string>): (r: Option<Record>)
    ensures r.Some? ==> Written(r.value)
  {
    if Strip(title) == [] && |body| == 1 && Strip(body[0]) == "Body:" then None
    else if Strip(title) == [] && Strip(Concat(body)) == [] then None
    else Some(Record(Strip(title), Strip(Concat(body))))
  }

  /** `write_article`: a blank title is replaced by the first five words of
      the first body line, which are then removed from that line; a section
      with no content is skipped. */
  function WriteArticle(title: Option<string>, body: seq<string>): (r: Option<Record>)
    ensures r.Some? ==> Written(r.value)
  {
    var t := title.GetOr("");
    if Strip(t) == [] && body != [] && FirstFiveWords(body[0]) != [] then
      var derived := Strip(FirstFiveWords(body[0]));
      Emit(derived, body[0 := Strip(RemoveAll(body[0], derived))])
    else
      Emit(t, body)
  }

  /** The first `k` words of the stripped line, as `FirstFiveWords` takes them. */
  lemma {:induction false} LeadingWords(line: string, k: nat)
    requires k <= |Words(Strip(line))|
    ensures var ws := Words(Strip(line))[..k];
            forall i :: 0 <= i < |ws| ==> |ws[i]| > 0 && NoSpace(ws[i])
  {
    var all := Words(Strip(line));
    var ws := all[..k];
    forall i | 0 <= i < |ws| ensures |ws[i]| > 0 && NoSpace(ws[i]) {
      assert ws[i] == all[i];
    }
  }

  /** A stripped text is all whitespace only when it is empty. */
  lemma {:induction false} StripAllSpace(s: string)
    ensures AllSpace(Strip(s)) <==> AllSpace(s)
  {
    var r := Strip(s);
    if r != [] {
      assert !IsSpace(r[0]);
    }
  }

  /** The first-five-words title of a line is non-empty exactly when the
      line has a non-space character, and it is already stripped. */
  lemma {:induction false} FirstFiveWordsBlank(line: string)
    ensures FirstFiveWords(line) == [] <==> AllSpace(line)
    ensures Strip(FirstFiveWords(line)) == FirstFiveWords(line)
  {
    var all := Words(Strip(line));
    var k := if |all| < 5 then |all| else 5;
    LeadingWords(line, k);
    JoinWordsNoEdgeSpace(all[..k]);
    assert all == [] <==> AllSpace(line) by {
      WordsEmpty(Strip(line));
      StripAllSpace(line);
    }
    assert all[..k] == [] <==> all == [];
  }

  /** A section is skipped exactly when its title and every body line are
      blank. */
  lemma {:induction false} WriteArticleSkips(title: Option<string>, body: seq<string>)
    ensures WriteArticle(title, body).None? <==>
              AllSpace(title.GetOr("")) && forall i :: 0 <= i < |body| ==> AllSpace(body[i])
  {
    var t := title.GetOr("");
    ConcatAllSpace(body);
    if body != [] {
      FirstFiveWordsBlank(body[0]);
    }
    if Strip(t) == [] && body != [] && FirstFiveWords(body[0]) != [] {
      var derived := Strip(FirstFiveWords(body[0]));
      assert derived != [];
      assert !AllSpace(body[0]);
    }
  }

  /** A blank title is replaced by the first at most five words of the
      first body line, when that line has any; every occurrence of that
      title is then removed from the line, and the record's body is the
      stripped concatenation of the edited lines. */
  lemma {:induction false} BlankTitleFromBody(title: Option<string>, body: seq<string>)
    requires AllSpace(title.GetOr("")) && body != [] && !AllSpace(body[0])
    ensures var r := WriteArticle(title, body);
            var ws := Words(Strip(body[0]));
            r.Some? && |Words(r.value.title)| == (if |ws| < 5 then |ws| else 5) &&
            Words(r.value.title) == ws[..|Words(r.value.title)|] &&
            r.value.body == Strip(Concat(body[0 := Strip(RemoveAll(body[0], r.value.title))]))
  {
    var all := Words(Strip(body[0]));
    var k := if |all| < 5 then |all| else 5;
    var derived := FirstFiveWords(body[0]);
    FirstFiveWordsBlank(body[0]);
    WriteArticleSkips(title, body);
    assert Strip(title.GetOr("")) == [];
    assert WriteArticle(title, body).value.title == derived by {
      assert Strip(derived) == derived;
    }
    assert Words(derived) == all[..k] by {
      LeadingWords(body[0], k);
      WordsJoin(all[..k]);
    }
  }

  /** The first skip test can never fire: a blank-titled section whose only
      body line strips to `Body:` has already taken `Body:` as its title. */
  lemma {:induction false} LoneBodyLineBecomesTitle(line: string)
    requires Strip(line) == "Body:"
    ensures WriteArticle(None, [line]).Some? && WriteArticle(None, [line]).value.title == "Body:"
  {
    hide FirstFiveWords, Words, Join;
    var w := "Body:";
    assert NoSpace(w) && Strip(w) == w;
    LoneWord(line, w);
  }

  /** A line that strips to one word has that word as its first five. */
  lemma {:induction false} LoneWord(line: string, w: string)
    requires Strip(line) == w && w != [] && NoSpace(w)
    ensures FirstFiveWords(line) == w
  {
    WordsJoin([w]);
    assert Join([w], " ") == w;
    assert Words(Strip(line)) == [w];
  }

  // ------------------------------------------------------- process_file

  /** The loop's variables: the records written so far, the open section's
      title and body, and whether a section is open. */
  datatype State = State(records: seq<Record>, title: Option<string>, body: seq<string>, open: bool)

  const Start: State := State([], None, [], false)

  /** The records with the open section written out. */
  function Flush(st: State): seq<Record> {
    match WriteArticle(st.title, st.body)
    case None => st.records
    case Some(r) => st.records + [r]
  }

  /** One iteration of the loop. */
  function Step(st: State, line: string): (r: State)
    ensures |st.records| <= |r.records| <= |st.records| + 1 && r.records[..|st.records|] == st.records
    ensures KindOf(line) != SeparatorLine ==> r.records == st.records
    ensures KindOf(line) == SeparatorLine ==> r.open && r.title.None? && r.body == []
  {
    match KindOf(line)
    case SeparatorLine => State(if st.open then Flush(st) else st.records, None, [], true)
    case TitleLine => st.(title := Some(TitleOf(line)))
    case BodyMarker => st.(body := [])
    case BodyLine => st.(body := st.body + [line])
  }

  /** The loop over `lines`, from `st`. */
  function Feed(st: State, lines: seq<string>): (r: State)
    ensures |st.records| <= |r.records| && r.records[..|st.records|] == st.records
    decreases |lines|
  {
    if lines == [] then st else Step(Feed(st, lines[..|lines| - 1]), lines[|lines| - 1])
  }

  /** `process_file`: the records written for the file's lines, the last
      section flushed at the end. */
  function ProcessFile(lines: seq<string>): (rs: seq<Record>)
    ensures forall i :: 0 <= i < |rs| ==> Written(rs[i])
  {
    FeedWritten(Start, lines);
    Flush(Feed(Start, lines))
  }

  /** The list joined with newlines into the output file. */
  function OutputLines(lines: seq<string>): seq<string> {
    Render(ProcessFile(lines))
  }

  /** The number of separator lines. */
  function Separators(lines: seq<string>): nat
    decreases |lines|
  {
    if lines == [] then 0
    else Separators(lines[..|lines| - 1]) + (if KindOf(lines[|lines| - 1]) == SeparatorLine then 1 else 0)
  }

  /** The loop over non-empty input is one more step after the loop over
      all but the last line. */
  lemma FeedLast(st: State, lines: seq<string>)
    requires lines != []
    ensures Feed(st, lines) == Step(Feed(st, lines[..|lines| - 1]), lines[|lines| - 1])
  {
  }

  lemma {:induction false} FeedWritten(st: State, lines: seq<string>)
    requires forall i :: 0 <= i < |st.records| ==> Written(st.records[i])
    ensures forall i :: 0 <= i < |Feed(st, lines).records| ==> Written(Feed(st, lines).records[i])
    decreases |lines|
  {
    if lines != [] {
      FeedWritten(st, lines[..|lines| - 1]);
    }
  }

  /** Every record of the output has stripped title and body, not both
      empty, and stands in the output as its four lines. */
  lemma {:induction false} OutputRecords(lines: seq<string>)
    ensures var rs := ProcessFile(lines);
            |OutputLines(lines)| == 4 * |rs| &&
            forall i :: 0 <= i < |rs| ==> Written(rs[i]) && OutputLines(lines)[4 * i..4 * i + 4] == RecordLines(rs[i])
  {
    FeedWritten(Start, lines);
    RenderBlocks(ProcessFile(lines));
  }

  lemma {:induction false} FeedCount(lines: seq<string>)
    ensures var st := Feed(Start, lines);
            (st.open <==> Separators(lines) > 0) &&
            |st.records| + (if st.open then 1 else 0) <= Separators(lines)
    decreases |lines|
  {
    if lines != [] {
      FeedCount(lines[..|lines| - 1]);
    }
  }

  /** At most one record per separator line, and at most one for a file
      without any. */
  lemma {:induction false} RecordCount(lines: seq<string>)
    ensures |ProcessFile(lines)| <= if Separators(lines) == 0 then 1 else Separators(lines)
  {
    FeedCount(lines);
  }

  // ------------------------------------------------------------ sections

  predicate NoSeparator(seg: seq<string>) {
    forall i :: 0 <= i < |seg| ==> KindOf(seg[i]) != SeparatorLine
  }

  /** The body lines of a stretch, in order. */
  function BodyLines(seg: seq<string>): (b: seq<string>)
    ensures |b| <= |seg|
    decreases |seg|
  {
    if seg == [] then []
    else if KindOf(seg[|seg| - 1]) == BodyLine then BodyLines(seg[..|seg| - 1]) + [seg[|seg| - 1]]
    else BodyLines(seg[..|seg| - 1])
  }

  lemma {:induction false} InitNoSeparator(seg: seq<string>)
    requires seg != [] && NoSeparator(seg)
    ensures NoSeparator(seg[..|seg| - 1]) && KindOf(seg[|seg| - 1]) != SeparatorLine
  {
    assert forall i :: 0 <= i < |seg| - 1 ==> seg[..|seg| - 1][i] == seg[i];
  }

  /** Inside a section the written records and the open flag stay put. */
  lemma {:induction false} SectionKeepsRecords(st: State, seg: seq<string>)
    requires NoSeparator(seg)
    ensures Feed(st, seg).records == st.records && Feed(st, seg).open == st.open
    decreases |seg|
  {
    if seg != [] {
      InitNoSeparator(seg);
      SectionKeepsRecords(st, seg[..|seg| - 1]);
    }
  }

  /** Without a `Body:` line a section's body grows by its body lines; a
      `Title:` line discards nothing. */
  lemma {:induction false} BodyAccumulates(st: State, seg: seq<string>)
    requires NoSeparator(seg)
    requires forall i :: 0 <= i < |seg| ==> KindOf(seg[i]) != BodyMarker
    ensures Feed(st, seg).body == st.body + BodyLines(seg)
    decreases |seg|
  {
    if seg != [] {
      InitNoSeparator(seg);
      var init := seg[..|seg| - 1];
      assert forall i :: 0 <= i < |init| ==> init[i] == seg[i];
      BodyAccumulates(st, init);
    }
  }

  /** After the last `Body:` line the body is exactly the body lines that
      follow it: whatever came before it is discarded. */
  lemma BodyLinesEmpty()
    ensures BodyLines([]) == []
  {
  }

  /** The body lines of a non-empty stretch: those before its last line,
      then the last line when it is a body line. */
  lemma BodyLinesLast(seg: seq<string>)
    requires seg != []
    ensures BodyLines(seg) ==
              if KindOf(seg[|seg| - 1]) == BodyLine then BodyLines(seg[..|seg| - 1]) + [seg[|seg| - 1]]
              else BodyLines(seg[..|seg| - 1])
  {
  }

  lemma {:induction false} MarkerDiscardsBody(st: State, seg: seq<string>, k: nat)
    requires NoSeparator(seg)
    requires k < |seg| && KindOf(seg[k]) == BodyMarker
    requires forall j :: k < j < |seg| ==> KindOf(seg[j]) != BodyMarker
    ensures Feed(st, seg).body == BodyLines(seg[k + 1..])
    decreases |seg|
  {
    hide Feed, BodyLines;
    var init := seg[..|seg| - 1];
    FeedLast(st, seg);
    if k == |seg| - 1 {
      assert seg[k + 1..] == [];
      BodyLinesEmpty();
    } else {
      InitNoSeparator(seg);
      assert forall j :: 0 <= j < |init| ==> init[j] == seg[j];
      MarkerDiscardsBody(st, init, k);
      var after := seg[k + 1..];
      assert after[..|after| - 1] == init[k + 1..];
      assert after[|after| - 1] == seg[|seg| - 1];
      BodyLinesLast(after);
    }
  }

  /** The section's title is the one of its last `Title:` line. */
  lemma {:induction false} LastTitleWins(st: State, seg: seq<string>, k: nat)
    requires NoSeparator(seg)
    requires k < |seg| && KindOf(seg[k]) == TitleLine
    requires forall j :: k < j < |seg| ==> KindOf(seg[j]) != TitleLine
    ensures Feed(st, seg).title == Some(TitleOf(seg[k]))
    decreases |seg|
  {
    if k < |seg| - 1 {
      var init := seg[..|seg| - 1];
      InitNoSeparator(seg);
      assert forall j :: 0 <= j < |init| ==> init[j] == seg[j];
      LastTitleWins(st, init, k);
    }
  }

  /** A section without a `Title:` line keeps the title it started with. */
  lemma {:induction false} NoTitleKeepsTitle(st: State, seg: seq<string>)
    requires NoSeparator(seg)
    requires forall j :: 0 <= j < |seg| ==> KindOf(seg[j]) != TitleLine
    ensures Feed(st, seg).title == st.title
    decreases |seg|
  {
    if seg != [] {
      var init := seg[..|seg| - 1];
      InitNoSeparator(seg);
      assert forall j :: 0 <= j < |init| ==> init[j] == seg[j];
      NoTitleKeepsTitle(st, init);
    }
  }

  /** Reading a section depends only on the title and body it starts with. */
  lemma {:induction false} SectionIndependent(st1: State, st2: State, seg: seq<string>)
    requires NoSeparator(seg)
    requires st1.title == st2.title && st1.body == st2.body
    ensures Feed(st1, seg).title == Feed(st2, seg).title && Feed(st1, seg).body == Feed(st2, seg).body
    decreases |seg|
  {
    if seg != [] {
      InitNoSeparator(seg);
      SectionIndependent(st1, st2, seg[..|seg| - 1]);
    }
  }

  lemma {:induction false} FeedAppend(st: State, a: seq<string>, b: seq<string>)
    ensures Feed(st, a + b) == Feed(Feed(st, a), b)
    decreases |b|
  {
    hide Step;
    if b == [] {
      assert a + b == a;
    } else {
      var ab := a + b;
      assert ab[..|ab| - 1] == a + b[..|b| - 1];
      assert ab[|ab| - 1] == b[|b| - 1];
      FeedAppend(st, a, b[..|b| - 1]);
    }
  }

  /** The record a section yields when read from its separator on. */
  function SectionRecord(seg: seq<string>): seq<Record> {
    var st := Feed(State([], None, [], true), seg);
    match WriteArticle(st.title, st.body)
    case None => []
    case Some(r) => [r]
  }

  /** The records of a file are those written before its last separator
      (none when that is the first separator) followed by the last
      section's record, flushed at the end of input. */
  lemma {:induction false} LastSectionFlushed(pre: seq<string>, sep: string, seg: seq<string>)
    requires KindOf(sep) == SeparatorLine && NoSeparator(seg)
    ensures ProcessFile(pre + [sep] + seg) ==
              (if Separators(pre) > 0 then ProcessFile(pre) else []) + SectionRecord(seg)
  {
    var x := Feed(Start, pre);
    FeedCount(pre);
    FeedAppend(Start, pre + [sep], seg);
    FeedAppend(Start, pre, [sep]);
    assert Feed(x, [sep]) == Step(x, sep) by { assert [sep][..0] == []; }
    var y := Step(x, sep);
    SectionKeepsRecords(y, seg);
    SectionIndependent(y, State([], None, [], true), seg);
  }
}

=== FILE: clean_lines.dfy ===
/** Line-preserving text cleaning (`clean_text_with_newlines` in
    1_article_divider.py): drop every character outside `\w`, `. , ! ? ' "`,
    `-` and whitespace; join a word broken by a hyphen at the end of a line;
    squeeze runs of spaces and tabs to one space; strip every line and join
    the lines with single newlines. */
module CleanLines {
  import opened Text

  // ------------------------------------------------------------ filtering

  /** The characters the first substitution keeps. */
  predicate Allowed(c: char) {
    IsWordChar(c) || c == '.' || c == ',' || c == '!' || c == '?' || c == '\'' || c == '"' || c == '-' || IsSpace(c)
  }

  predicate AllAllowed(s: string) { forall i :: 0 <= i < |s| ==> Allowed(s[i]) }

  // ------------------------------------------------------- hyphen breaks

  /** Length of the leading run of word characters. */
  function WordRun(s: string): (n: nat)
    ensures n <= |s|
    ensures forall i :: 0 <= i < n ==> IsWordChar(s[i])
    ensures n < |s| ==> !IsWordChar(s[n])
  {
    if s == [] || !IsWordChar(s[0]) then 0 else 1 + WordRun(s[1..])
  }

  /** A word character, `-`, a newline and a word character start at `i`. */
  predicate BreakAt(s: string, i: int) {
    0 <= i && i + 3 < |s| && IsWordChar(s[i]) && s[i + 1] == '-' && s[i + 2] == '\n' && IsWordChar(s[i + 3])
  }

  predicate NoBreak(s: string) { forall i :: 0 <= i < |s| ==> !BreakAt(s, i) }

  /** The number of hyphen line breaks in `s`. */
  function Breaks(s: string): nat {
    if s == [] then 0 else (if BreakAt(s, 0) then 1 else 0) + Breaks(s[1..])
  }

  /** `re.sub(r'(\w+)-\n(\w+)', r'\1\2', s)` as written: the scan looks for
      a word followed by `-`, a newline and a word, glues the two words, and
      resumes after the second word, so a break right after that word is
      passed over. */
  function JoinHyphens(s: string): (r: string)
    ensures |r| <= |s|
    decreases |s|
  {
    if s == [] then []
    else if !IsWordChar(s[0]) then [s[0]] + JoinHyphens(s[1..])
    else
      var n := WordRun(s);
      if n + 2 < |s| && s[n] == '-' && s[n + 1] == '\n' && IsWordChar(s[n + 2]) then
        var m := WordRun(s[n + 2..]);
        s[..n] + s[n + 2..n + 2 + m] + JoinHyphens(s[n + 2 + m..])
      else
        s[..n] + JoinHyphens(s[n..])
  }

  /** A word broken by a hyphen at the end of a line is glued back, and the
      scan carries on after the second half. */
  lemma {:induction false} JoinsBrokenWord(u: string, v: string, q: string)
    requires u != [] && v != []
    requires forall i :: 0 <= i < |u| ==> IsWordChar(u[i])
    requires forall i :: 0 <= i < |v| ==> IsWordChar(v[i])
    requires q == [] || !IsWordChar(q[0])
    ensures JoinHyphens(u + "-\n" + v + q) == u + v + JoinHyphens(q)
  {
    var s := u + ("-\n" + (v + q));
    assert s == u + "-\n" + v + q;
    JoinsBrokenWordIn(s, u, v, q);
  }

  lemma {:induction false} JoinsBrokenWordIn(s: string, u: string, v: string, q: string)
    requires u != [] && v != []
    requires forall i :: 0 <= i < |u| ==> IsWordChar(u[i])
    requires forall i :: 0 <= i < |v| ==> IsWordChar(v[i])
    requires q == [] || !IsWordChar(q[0])
    requires s == u + ("-\n" + (v + q))
    ensures JoinHyphens(s) == u + v + JoinHyphens(q)
  {
    hide JoinHyphens, WordRun;
    var rest := v + q;
    var mid := "-\n" + rest;
    var n := |u|;
    var m := |v|;
    assert WordRun(s) == n by { WordRunOf(u, mid); }
    assert WordRun(s[n + 2..]) == m by {
      assert s[n + 2..] == rest;
      WordRunOf(v, q);
    }
    assert n + 2 < |s| && s[n] == '-' && s[n + 1] == '\n' && IsWordChar(s[n + 2]) by {
      assert mid[0] == '-' && mid[1] == '\n' && mid[2] == v[0];
      assert s[n] == mid[0] && s[n + 1] == mid[1] && s[n + 2] == mid[2];
    }
    JoinStep(s, n, m);
    assert s[..n] == u;
    assert s[n + 2..] == rest;
    assert s[n + 2..n + 2 + m] == rest[..m] == v;
    assert s[n + 2 + m..] == rest[m..] == q;
  }

  /** One gluing step of the written scan. */
  lemma {:induction false} JoinStep(s: string, n: nat, m: nat)
    requires 0 < n == WordRun(s) && n + 2 < |s| && s[n] == '-' && s[n + 1] == '\n' && IsWordChar(s[n + 2])
    requires m == WordRun(s[n + 2..])
    ensures JoinHyphens(s) == s[..n] + s[n + 2..n + 2 + m] + JoinHyphens(s[n + 2 + m..])
  {
    hide WordRun;
    assert IsWordChar(s[0]);
  }

  /** The leading word run of `u + q` is `u` when `q` does not start with a
      word character. */
  lemma {:induction false} WordRunOf(u: string, q: string)
    requires forall i :: 0 <= i < |u| ==> IsWordChar(u[i])
    requires q == [] || !IsWordChar(q[0])
    ensures WordRun(u + q) == |u|
  {
    if u != [] {
      assert (u + q)[1..] == u[1..] + q;
      WordRunOf(u[1..], q);
    } else {
      assert u + q == q;
    }
  }

  /** Breaks below a word run's end are impossible, and the one at its last
      character is the one the scan tests. */
  lemma {:induction false} NoBreakSplit(s: string, n: nat)
    requires 0 < n <= |s| && n == WordRun(s)
    ensures NoBreak(s) <==>
              !(n + 2 < |s| && s[n] == '-' && s[n + 1] == '\n' && IsWordChar(s[n + 2])) && NoBreak(s[n..])
  {
    var t := s[n..];
    var glued := n + 2 < |s| && s[n] == '-' && s[n + 1] == '\n' && IsWordChar(s[n + 2]);
    forall i | n <= i < |s| ensures BreakAt(s, i) <==> BreakAt(t, i - n) {
      if i + 3 < |s| {
        assert t[i - n] == s[i] && t[i - n + 1] == s[i + 1] && t[i - n + 2] == s[i + 2] && t[i - n + 3] == s[i + 3];
      }
    }
    forall i | 0 <= i < n - 1 ensures !BreakAt(s, i) {
      assert IsWordChar(s[i + 1]);
    }
    assert BreakAt(s, n - 1) <==> glued;
    if !glued && NoBreak(t) {
      forall i | 0 <= i < |s| ensures !BreakAt(s, i) {
        if i >= n { assert !BreakAt(t, i - n); }
      }
    }
    if NoBreak(s) {
      forall j | 0 <= j < |t| ensures !BreakAt(t, j) {
        assert !BreakAt(s, j + n);
      }
    }
  }

  /** The written scan leaves the text unchanged exactly when it holds no
      hyphen line break; otherwise it gets shorter. */
  lemma {:induction false} JoinHyphensUnchanged(s: string)
    ensures |JoinHyphens(s)| == |s| <==> NoBreak(s)
    ensures NoBreak(s) ==> JoinHyphens(s) == s
    decreases |s|
  {
    if s == [] {
    } else if !IsWordChar(s[0]) {
      var t := s[1..];
      JoinHyphensUnchanged(t);
      NoBreakTail(s);
      assert JoinHyphens(s) == [s[0]] + JoinHyphens(t);
      assert s == [s[0]] + t;
    } else {
      var n := WordRun(s);
      NoBreakSplit(s, n);
      var t := s[n..];
      if n + 2 < |s| && s[n] == '-' && s[n + 1] == '\n' && IsWordChar(s[n + 2]) {
        var m := WordRun(s[n + 2..]);
        var rest := s[n + 2 + m..];
        assert JoinHyphens(s) == s[..n] + s[n + 2..n + 2 + m] + JoinHyphens(rest);
        assert |JoinHyphens(rest)| <= |rest|;
        assert |JoinHyphens(s)| < |s|;
      } else {
        JoinHyphensUnchanged(t);
        assert JoinHyphens(s) == s[..n] + JoinHyphens(t);
        assert s == s[..n] + t;
      }
    }
  }

  /** A text starting with a non-word character has no break at its head. */
  lemma {:induction false} NoBreakTail(s: string)
    requires s != [] && !IsWordChar(s[0])
    ensures NoBreak(s) <==> NoBreak(s[1..])
  {
    var t := s[1..];
    assert !BreakAt(s, 0);
    forall i | 1 <= i < |s| ensures BreakAt(s, i) <==> BreakAt(t, i - 1) {
      if i + 3 < |s| {
        assert t[i - 1] == s[i] && t[i] == s[i + 1] && t[i + 1] == s[i + 2] && t[i + 2] == s[i + 3];
      }
    }
    if NoBreak(t) {
      forall i | 0 <= i < |s| ensures !BreakAt(s, i) {
        if i >= 1 { assert !BreakAt(t, i - 1); }
      }
    }
    if NoBreak(s) {
      forall i | 0 <= i < |t| ensures !BreakAt(t, i) {
        assert !BreakAt(s, i + 1);
      }
    }
  }

  /** The join a regular expression with a look-ahead, `(\w)-\n(?=\w)`,
      performs: every hyphen line break between word characters is removed,
      including one right after a glued word. */
  function JoinAllHyphens(s: string): (r: string)
    ensures |r| <= |s|
    decreases |s|
  {
    if s == [] then []
    else if BreakAt(s, 0) then [s[0]] + JoinAllHyphens(s[3..])
    else [s[0]] + JoinAllHyphens(s[1..])
  }

  predicate NotHyphenOrNewline(c: char) { c != '-' && c != '\n' }

  /** The corrected join removes one `-` and one newline per hyphen line
      break of the input and keeps every other character, in order. */
  lemma {:induction false} JoinAllHyphensRemovesBreaks(s: string)
    ensures var r := JoinAllHyphens(s);
            |s| - |r| == 2 * Breaks(s) &&
            Count(s, '-') - Count(r, '-') == Breaks(s) &&
            Count(s, '\n') - Count(r, '\n') == Breaks(s) &&
            Keep(r, NotHyphenOrNewline) == Keep(s, NotHyphenOrNewline)
    decreases |s|
  {
    hide JoinAllHyphens, Breaks, Count, Keep;
    if s == [] {
      NoGap();
    } else if BreakAt(s, 0) {
      var t := s[3..];
      JoinAllHyphensRemovesBreaks(t);
      BreakStep(s);
      HyphenGap();
      StepMeasures(s[0], "-\n", 1, t, JoinAllHyphens(t), Breaks(t));
    } else {
      var t := s[1..];
      JoinAllHyphensRemovesBreaks(t);
      PlainStep(s);
      NoGap();
      assert s == [s[0]] + [] + t;
      StepMeasures(s[0], [], 0, t, JoinAllHyphens(t), Breaks(t));
    }
  }

  /** The corrected join at a break: the head, then the rest after `-\n`. */
  lemma {:induction false} BreakStep(s: string)
    requires BreakAt(s, 0)
    ensures s == [s[0]] + "-\n" + s[3..]
    ensures JoinAllHyphens(s) == [s[0]] + JoinAllHyphens(s[3..])
    ensures Breaks(s) == 1 + Breaks(s[3..])
  {
    var t := s[3..];
    assert s[1..][1..] == s[2..] && s[2..][1..] == t;
    assert !BreakAt(s[1..], 0) && !BreakAt(s[2..], 0);
    assert Breaks(s[2..]) == Breaks(t);
    assert Breaks(s[1..]) == Breaks(s[2..]);
  }

  lemma PlainStep(s: string)
    requires s != [] && !BreakAt(s, 0)
    ensures JoinAllHyphens(s) == [s[0]] + JoinAllHyphens(s[1..])
    ensures Breaks(s) == Breaks(s[1..])
  {
  }

  lemma NoGap()
    ensures JoinAllHyphens([]) == [] && Breaks([]) == 0
    ensures Count([], '-') == 0 && Count([], '\n') == 0 && Keep([], NotHyphenOrNewline) == []
  {
  }

  lemma HyphenGap()
    ensures Count("-\n", '-') == 1 && Count("-\n", '\n') == 1 && Keep("-\n", NotHyphenOrNewline) == []
  {
    assert "-\n"[1..] == "\n" && "\n"[1..] == [];
  }

  /** The measures of one step: a kept head `c`, a removed `gap` holding `h`
      hyphens and `h` newlines, and a rest `t` that became `rt`. */
  lemma {:induction false} StepMeasures(c: char, gap: string, h: nat, t: string, rt: string, k: nat)
    requires |gap| == 2 * h && Count(gap, '-') == h && Count(gap, '\n') == h && Keep(gap, NotHyphenOrNewline) == []
    requires |t| - |rt| == 2 * k && Count(t, '-') - Count(rt, '-') == k && Count(t, '\n') - Count(rt, '\n') == k
    requires Keep(rt, NotHyphenOrNewline) == Keep(t, NotHyphenOrNewline)
    ensures var s, r := [c] + gap + t, [c] + rt;
            |s| - |r| == 2 * (h + k) &&
            Count(s, '-') - Count(r, '-') == h + k &&
            Count(s, '\n') - Count(r, '\n') == h + k &&
            Keep(r, NotHyphenOrNewline) == Keep(s, NotHyphenOrNewline)
  {
    CountAppend([c] + gap, t, '-');
    CountAppend([c] + gap, t, '\n');
    CountAppend([c], gap, '-');
    CountAppend([c], gap, '\n');
    CountAppend([c], rt, '-');
    CountAppend([c], rt, '\n');
    KeepAppend([c] + gap, t, NotHyphenOrNewline);
    KeepAppend([c], gap, NotHyphenOrNewline);
    KeepAppend([c], rt, NotHyphenOrNewline);
  }

  /** Text with no hyphen line break passes through either join unchanged. */
  lemma {:induction false} JoinAllHyphensNoBreak(s: string)
    requires NoBreak(s)
    ensures JoinAllHyphens(s) == s
    decreases |s|
  {
    if s != [] {
      assert forall i :: 0 <= i < |s| - 1 ==> (BreakAt(s[1..], i) <==> BreakAt(s, i + 1));
      JoinAllHyphensNoBreak(s[1..]);
      assert s == [s[0]] + s[1..];
    }
  }

  /** A word hyphenated over three lines: the written scan joins only the
      first break, the corrected one joins both. */
  lemma {:induction false} ChainedBreak()
    ensures Breaks("a-\nb-\nc") == 2
    ensures JoinHyphens("a-\nb-\nc") == "ab-\nc"
    ensures JoinAllHyphens("a-\nb-\nc") == "abc"
  {
    hide JoinHyphens, JoinAllHyphens, Breaks;
    var s, t, u := "a-\nb-\nc", "b-\nc", "c";
    assert BreakAt(s, 0) && s[3..] == t;
    assert BreakAt(t, 0) && t[3..] == u;
    assert !BreakAt(u, 0) && u[1..] == [];
    BreakStep(s);
    BreakStep(t);
    PlainStep(u);
    NoGap();
    assert "a" + "b" + "c" == "abc";
    var q := "-\nc";
    assert s == "a" + "-\n" + "b" + q;
    assert !IsWordChar(q[0]);
    JoinsBrokenWord("a", "b", q);
    assert NoBreak(q) by {
      assert !BreakAt(q, 0);
    }
    JoinHyphensUnchanged(q);
    assert "a" + "b" + q == "ab-\nc";
  }

  // ------------------------------------------------------- spaces, tabs

  predicate IsBlank(c: char) { c == ' ' || c == '\t' }

  /** Length of the leading run of spaces and tabs. */
  function BlankRun(s: string): (n: nat)
    ensures n <= |s|
    ensures forall i :: 0 <= i < n ==> IsBlank(s[i])
    ensures n < |s| ==> !IsBlank(s[n])
  {
    if s == [] || !IsBlank(s[0]) then 0 else 1 + BlankRun(s[1..])
  }

  /** No tab and no two spaces in a row. */
  predicate Tidy(s: string) {
    (forall i :: 0 <= i < |s| ==> s[i] != '\t') &&
    (forall i :: 0 <= i < |s| - 1 ==> !(s[i] == ' ' && s[i + 1] == ' '))
  }

  /** `re.sub(r'[ \t]+', ' ', s)`: each run of spaces and tabs becomes one
      space; newlines are left alone. */
  function CollapseBlanks(s: string): (r: string)
    ensures Tidy(r)
    ensures |s| > 0 ==> |r| > 0 && (IsBlank(r[0]) <==> IsBlank(s[0]))
    ensures forall i :: 0 <= i < |r| ==> r[i] == ' ' || r[i] in s
    decreases |s|
  {
    if s == [] then []
    else if IsBlank(s[0]) then [' '] + CollapseBlanks(s[BlankRun(s)..])
    else [s[0]] + CollapseBlanks(s[1..])
  }

  predicate NotBlank(c: char) { !IsBlank(c) }

  /** Squeezing keeps every character other than a space or tab, in order. */
  lemma {:induction false} CollapseBlanksKeeps(s: string)
    ensures Keep(CollapseBlanks(s), NotBlank) == Keep(s, NotBlank)
    decreases |s|
  {
    if s != [] {
      var r := CollapseBlanks(s);
      if IsBlank(s[0]) {
        var n := BlankRun(s);
        CollapseBlanksKeeps(s[n..]);
        assert s == s[..n] + s[n..];
        KeepAppend(s[..n], s[n..], NotBlank);
        BlanksKeepNothing(s[..n]);
        KeepAppend([' '], CollapseBlanks(s[n..]), NotBlank);
      } else {
        CollapseBlanksKeeps(s[1..]);
        assert s == [s[0]] + s[1..];
        KeepAppend([s[0]], s[1..], NotBlank);
        KeepAppend([s[0]], CollapseBlanks(s[1..]), NotBlank);
      }
    }
  }

  lemma {:induction false} BlanksKeepNothing(s: string)
    requires forall i :: 0 <= i < |s| ==> IsBlank(s[i])
    ensures Keep(s, NotBlank) == []
  {
    if s != [] {
      assert forall i :: 0 <= i < |s| - 1 ==> s[1..][i] == s[i + 1];
      BlanksKeepNothing(s[1..]);
    }
  }

  /** Tidy text is left as it is. */
  lemma {:induction false} CollapseBlanksTidy(s: string)
    requires Tidy(s)
    ensures CollapseBlanks(s) == s
    decreases |s|
  {
    if s != [] {
      var t := s[1..];
      assert Tidy(t) by {
        assert forall i :: 0 <= i < |t| ==> t[i] == s[i + 1];
      }
      CollapseBlanksTidy(t);
      if IsBlank(s[0]) {
        assert s[0] == ' ';
        assert BlankRun(s) == 1 by {
          if |s| > 1 { assert s[1] != ' ' && s[1] != '\t'; }
        }
      }
      assert s == [s[0]] + t;
    }
  }

  // -------------------------------------------------------------- lines

  /** The line boundaries of `str.splitlines()` among ASCII characters. */
  predicate IsLineBreak(c: char) {
    c == '\n' || c == '\r' || c == '\U{0B}' || c == '\U{0C}' || ('\U{1C}' <= c <= '\U{1E}')
  }

  predicate NoLineBreak(s: string) { forall i :: 0 <= i < |s| ==> !IsLineBreak(s[i]) }

  /** Length of the leading run of characters that end no line. */
  function LineLen(s: string): (n: nat)
    ensures n <= |s|
    ensures forall i :: 0 <= i < n ==> !IsLineBreak(s[i])
    ensures n < |s| ==> IsLineBreak(s[n])
  {
    if s == [] || IsLineBreak(s[0]) then 0 else 1 + LineLen(s[1..])
  }

  /** `str.splitlines()`: the lines without their terminators; `\r\n` ends
      one line, and a final terminator opens no empty last line. */
  function SplitLines(s: string): (ls: seq<string>)
    ensures s != [] <==> ls != []
    ensures forall i :: 0 <= i < |ls| ==> NoLineBreak(ls[i])
    decreases |s|
  {
    if s == [] then []
    else
      var n := LineLen(s);
      if n == |s| then [s]
      else
        var k := if s[n] == '\r' && n + 1 < |s| && s[n + 1] == '\n' then n + 2 else n + 1;
        [s[..n]] + SplitLines(s[k..])
  }

  /** Text whose only line break is `\n`, and which does not end in one,
      is its lines joined by newlines. */
  lemma {:induction false} JoinSplitLines(s: string)
    requires forall i :: 0 <= i < |s| ==> IsLineBreak(s[i]) ==> s[i] == '\n'
    requires s == [] || s[|s| - 1] != '\n'
    ensures Join(SplitLines(s), "\n") == s
    decreases |s|
  {
    if s != [] {
      var n := LineLen(s);
      if n < |s| {
        var t := s[n + 1..];
        assert s[n] == '\n' && n + 1 < |s|;
        assert t != [] && t[|t| - 1] != '\n' by { assert t[|t| - 1] == s[|s| - 1]; }
        assert forall i :: 0 <= i < |t| ==> IsLineBreak(t[i]) ==> t[i] == '\n' by {
          forall i | 0 <= i < |t| ensures IsLineBreak(t[i]) ==> t[i] == '\n' {
            assert t[i] == s[n + 1 + i];
          }
        }
        JoinSplitLines(t);
        SplitLinesStep(s, n, n + 1);
        Around(s, n);
        JoinSplitLinesStep(s, s[..n], t, SplitLines(t));
      }
    }
  }

  /** A text is what comes before position `n`, the character there, and
      what comes after. */
  lemma {:induction false} Around(s: string, n: nat)
    requires n < |s|
    ensures s == s[..n] + [s[n]] + s[n + 1..]
  {
  }

  lemma {:induction false} JoinSplitLinesStep(s: string, a: string, t: string, rest: seq<string>)
    requires rest != [] && Join(rest, "\n") == t
    requires s == a + ['\n'] + t
    ensures Join([a] + rest, "\n") == s
  {
    JoinCons(a, rest, "\n");
    assert "\n" == ['\n'];
  }

  /** One step of `SplitLines` past the first terminator. */
  lemma {:induction false} SplitLinesStep(s: string, n: nat, k: nat)
    requires s != [] && n == LineLen(s) && n < |s|
    requires k == if s[n] == '\r' && n + 1 < |s| && s[n + 1] == '\n' then n + 2 else n + 1
    ensures k <= |s| && SplitLines(s) == [s[..n]] + SplitLines(s[k..])
  {
    hide LineLen;
  }

  /** Both cleanliness properties survive taking a substring. */
  lemma {:induction false} SubstringClean(s: string, a: nat, b: nat)
    requires a <= b <= |s| && AllAllowed(s) && Tidy(s)
    ensures AllAllowed(s[a..b]) && Tidy(s[a..b])
  {
    var t := s[a..b];
    assert forall i :: 0 <= i < |t| ==> t[i] == s[a + i];
  }

  lemma {:induction false} SplitLinesClean(s: string)
    requires AllAllowed(s) && Tidy(s)
    ensures forall i :: 0 <= i < |SplitLines(s)| ==> AllAllowed(SplitLines(s)[i]) && Tidy(SplitLines(s)[i])
    decreases |s|
  {
    if s != [] {
      var n := LineLen(s);
      if n < |s| {
        var k := if s[n] == '\r' && n + 1 < |s| && s[n + 1] == '\n' then n + 2 else n + 1;
        SplitLinesStep(s, n, k);
        SubstringClean(s, k, |s|);
        SplitLinesClean(s[k..]);
        SplitLinesCleanCons(s[..n], SplitLines(s[k..])) by { SubstringClean(s, 0, n); }
      }
    }
  }

  lemma {:induction false} SplitLinesCleanCons(a: string, rest: seq<string>)
    requires AllAllowed(a) && Tidy(a)
    requires forall i :: 0 <= i < |rest| ==> AllAllowed(rest[i]) && Tidy(rest[i])
    ensures forall i :: 0 <= i < |[a] + rest| ==> AllAllowed(([a] + rest)[i]) && Tidy(([a] + rest)[i])
  {
    var ls := [a] + rest;
    forall i | 0 <= i < |ls| ensures AllAllowed(ls[i]) && Tidy(ls[i]) {
      if i > 0 { assert ls[i] == rest[i - 1]; }
    }
  }

  lemma {:induction false} JoinLinesClean(ls: seq<string>)
    requires forall i :: 0 <= i < |ls| ==> AllAllowed(ls[i]) && Tidy(ls[i])
    ensures AllAllowed(Join(ls, "\n")) && Tidy(Join(ls, "\n"))
  {
    if |ls| > 1 {
      JoinLinesClean(ls[1..]);
      var a := ls[0];
      var b := Join(ls[1..], "\n");
      var j := a + "\n" + b;
      assert Join(ls, "\n") == j;
      forall i | 0 <= i < |j| ensures Allowed(j[i]) && j[i] != '\t' {
        if i < |a| { assert j[i] == a[i]; }
        else if i > |a| { assert j[i] == b[i - |a| - 1]; }
      }
      forall i | 0 <= i < |j| - 1 ensures !(j[i] == ' ' && j[i + 1] == ' ') {
        if i + 1 < |a| { assert j[i] == a[i] && j[i + 1] == a[i + 1]; }
        else if i > |a| { assert j[i] == b[i - |a| - 1] && j[i + 1] == b[i - |a|]; }
        else if i == |a| { assert j[i] == '\n'; }
        else { assert j[i + 1] == '\n'; }
      }
    }
  }

  // ------------------------------------------------------------ pipeline

  /** The last two substitutions and the line strip, applied to the text
      after the hyphen join: blank runs squeezed, then every line stripped. */
  function LinesOf(joined: string): seq<string> {
    var ls := SplitLines(CollapseBlanks(joined));
    seq(|ls|, i requires 0 <= i < |ls| => Strip(ls[i]))
  }

  /** `clean_text_with_newlines` as written: filter, the hyphen join of
      line 38 (`JoinHyphens`), squeeze, strip every line, join with `\n`. */
  function CleanTextWithNewlines(text: string): (r: string)
    ensures AllAllowed(r) && Tidy(r)
    ensures var ls := SplitOn(r, '\n');
            forall i :: 0 <= i < |ls| ==> NoEdgeSpace(ls[i])
  {
    WrittenJoinAllowed(text);
    LinesOfCharacters(JoinHyphens(Keep(text, Allowed)));
    LinesOfStripped(JoinHyphens(Keep(text, Allowed)));
    Join(LinesOf(JoinHyphens(Keep(text, Allowed))), "\n")
  }

  /** The same cleaner with the corrected join, which removes every hyphen
      line break. */
  function CleanTextJoiningAll(text: string): string {
    Join(LinesOf(JoinAllHyphens(Keep(text, Allowed))), "\n")
  }

  /** Every character the written join returns comes from its input: the
      scan only deletes. */
  lemma {:induction false} JoinHyphensFrom(s: string)
    ensures forall c :: c in JoinHyphens(s) ==> c in s
    decreases |s|
  {
    hide JoinHyphens;
    if s == [] {
      JoinHyphensEmpty();
    } else if !IsWordChar(s[0]) {
      JoinHyphensFrom(s[1..]);
      JoinHyphensSkip(s);
    } else {
      var n := WordRun(s);
      if n + 2 < |s| && s[n] == '-' && s[n + 1] == '\n' && IsWordChar(s[n + 2]) {
        var m := WordRun(s[n + 2..]);
        JoinStep(s, n, m);
        JoinHyphensFrom(s[n + 2 + m..]);
        forall c | c in JoinHyphens(s) ensures c in s {
          if c in s[..n] {
            var i :| 0 <= i < n && s[..n][i] == c;
            assert s[i] == c;
          } else if c in s[n + 2..n + 2 + m] {
            var i :| 0 <= i < m && s[n + 2..n + 2 + m][i] == c;
            assert s[n + 2 + i] == c;
          } else {
            assert c in s[n + 2 + m..];
            var i :| 0 <= i < |s| - (n + 2 + m) && s[n + 2 + m..][i] == c;
            assert s[n + 2 + m + i] == c;
          }
        }
      } else {
        JoinWordStep(s, n);
        JoinHyphensFrom(s[n..]);
        forall c | c in JoinHyphens(s) ensures c in s {
          if c in s[..n] {
            var i :| 0 <= i < n && s[..n][i] == c;
            assert s[i] == c;
          } else {
            var i :| 0 <= i < |s| - n && s[n..][i] == c;
            assert s[n + i] == c;
          }
        }
      }
    }
  }

  lemma JoinHyphensEmpty()
    ensures JoinHyphens([]) == []
  {
  }

  lemma JoinHyphensSkip(s: string)
    requires s != [] && !IsWordChar(s[0])
    ensures JoinHyphens(s) == [s[0]] + JoinHyphens(s[1..])
  {
  }

  /** A word not followed by a hyphen line break is copied as it is. */
  lemma {:induction false} JoinWordStep(s: string, n: nat)
    requires s != [] && IsWordChar(s[0]) && n == WordRun(s)
    requires !(n + 2 < |s| && s[n] == '-' && s[n + 1] == '\n' && IsWordChar(s[n + 2]))
    ensures 0 < n && JoinHyphens(s) == s[..n] + JoinHyphens(s[n..])
  {
    hide WordRun;
  }

  /** A hyphen join that only deletes characters keeps the filtered text
      within the allowed characters. */
  lemma {:induction false} WrittenJoinAllowed(text: string)
    ensures AllAllowed(JoinHyphens(Keep(text, Allowed)))
  {
    hide Keep, JoinHyphens;
    var kept := Keep(text, Allowed);
    var joined := JoinHyphens(kept);
    JoinHyphensFrom(kept);
    forall i | 0 <= i < |joined| ensures Allowed(joined[i]) {
      assert joined[i] in joined;
      var j :| 0 <= j < |kept| && kept[j] == joined[i];
    }
  }

  /** The corrected join keeps the filtered text within the allowed
      characters. */
  lemma {:induction false} CorrectedJoinAllowed(text: string)
    ensures AllAllowed(JoinAllHyphens(Keep(text, Allowed)))
  {
    hide Keep, JoinAllHyphens;
    var kept := Keep(text, Allowed);
    var joined := JoinAllHyphens(kept);
    JoinAllHyphensRemovesBreaks(kept);
    forall i | 0 <= i < |joined| ensures Allowed(joined[i]) {
      if NotHyphenOrNewline(joined[i]) {
        KeptCharIn(joined, i, NotHyphenOrNewline);
        KeptCharFrom(kept, joined[i], NotHyphenOrNewline);
      }
    }
  }

  /** After a join that leaves only allowed characters, the rest of the
      cleaner yields allowed characters, no tab and no double space. */
  lemma {:induction false} LinesOfCharacters(joined: string)
    requires AllAllowed(joined)
    ensures AllAllowed(Join(LinesOf(joined), "\n")) && Tidy(Join(LinesOf(joined), "\n"))
  {
    hide SplitLines;
    var squeezed := CollapseBlanks(joined);
    assert AllAllowed(squeezed);
    SplitLinesClean(squeezed);
    var ls := SplitLines(squeezed);
    var stripped := LinesOf(joined);
    forall i | 0 <= i < |stripped| ensures AllAllowed(stripped[i]) && Tidy(stripped[i]) {
      var a := LeadingSpaces(ls[i]);
      SubstringClean(ls[i], a, a + |stripped[i]|);
    }
    JoinLinesClean(stripped);
  }

  /** Every character of the cleaned text is one the filter keeps, no tab
      is left and no two spaces stand together; with either hyphen join. */
  lemma {:induction false} CleanTextCharacters(text: string)
    ensures AllAllowed(CleanTextWithNewlines(text)) && Tidy(CleanTextWithNewlines(text))
    ensures AllAllowed(CleanTextJoiningAll(text)) && Tidy(CleanTextJoiningAll(text))
  {
    hide Keep, JoinHyphens, JoinAllHyphens, LinesOf;
    WrittenJoinAllowed(text);
    LinesOfCharacters(JoinHyphens(Keep(text, Allowed)));
    CorrectedJoinAllowed(text);
    LinesOfCharacters(JoinAllHyphens(Keep(text, Allowed)));
  }

  /** The two cleaners differ only on text with a hyphen line break: when
      the filtered text has none, they agree. */
  lemma {:induction false} CleanersAgreeWithoutBreaks(text: string)
    requires NoBreak(Keep(text, Allowed))
    ensures CleanTextWithNewlines(text) == CleanTextJoiningAll(text)
  {
    hide Keep, LinesOf;
    JoinHyphensUnchanged(Keep(text, Allowed));
    JoinAllHyphensNoBreak(Keep(text, Allowed));
  }

  /** A kept character of `s` is in `Keep(s, p)`. */
  lemma {:induction false} KeptCharIn(s: string, i: nat, p: char -> bool)
    requires i < |s| && p(s[i])
    ensures s[i] in Keep(s, p)
  {
    if i > 0 {
      assert s[1..][i - 1] == s[i];
      KeptCharIn(s[1..], i - 1, p);
    }
  }

  /** A character of `Keep(s, p)` comes from `s`. */
  lemma {:induction false} KeptCharFrom(s: string, c: char, p: char -> bool)
    requires c in Keep(s, p)
    ensures c in s
  {
    var k := Keep(s, p);
    var j :| 0 <= j < |k| && k[j] == c;
  }

  /** After any join, every newline-separated line of the result is
      stripped. */
  lemma {:induction false} LinesOfStripped(joined: string)
    ensures var ls := SplitOn(Join(LinesOf(joined), "\n"), '\n');
            forall i :: 0 <= i < |ls| ==> NoEdgeSpace(ls[i])
  {
    hide CollapseBlanks, SplitLines;
    var stripped := LinesOf(joined);
    var ls := SplitLines(CollapseBlanks(joined));
    if stripped == [] {
      assert Join(stripped, "\n") == [];
      assert SplitOn([], '\n') == [[]];
    } else {
      forall i | 0 <= i < |stripped| ensures '\n' !in stripped[i] {
        var a := LeadingSpaces(ls[i]);
        var t := stripped[i];
        assert forall j :: 0 <= j < |t| ==> t[j] == ls[i][a + j];
      }
      SplitOnJoin(stripped, '\n');
    }
  }

  /** Every newline-separated line of the cleaned text is stripped, with
      either hyphen join. */
  lemma {:induction false} CleanTextLinesStripped(text: string)
    ensures var ls := SplitOn(CleanTextWithNewlines(text), '\n');
            forall i :: 0 <= i < |ls| ==> NoEdgeSpace(ls[i])
    ensures var ls := SplitOn(CleanTextJoiningAll(text), '\n');
            forall i :: 0 <= i < |ls| ==> NoEdgeSpace(ls[i])
  {
    hide Keep, JoinHyphens, JoinAllHyphens, LinesOf;
    LinesOfStripped(JoinHyphens(Keep(text, Allowed)));
    assert CleanTextWithNewlines(text) == Join(LinesOf(JoinHyphens(Keep(text, Allowed))), "\n");
    LinesOfStripped(JoinAllHyphens(Keep(text, Allowed)));
    assert CleanTextJoiningAll(text) == Join(LinesOf(JoinAllHyphens(Keep(text, Allowed))), "\n");
  }
}

=== FILE: embedder.dfy ===
/** The embedding stage (5_sentence_transformer.py): the batch generator that
    pages over `embedding_vector IS NULL ORDER BY article_id` with a growing
    offset, and the per-batch update/commit loop.

    The `articles` table is kept in primary-key order, so the generator's
    `ORDER BY article_id` is the order of the sequence. The sentence encoder
    and the database's update failures are parameters. */
module Embedder {
  import opened Wrappers
  import opened Tables

  /** The `tobytes()` image of a vector; its byte layout is not modelled. */
  datatype Bytes = RawBytes(v: seq<real>)

  /** A row of `articles` as this stage sees it: id, content, and the two
      embedding columns. */
  datatype Row = Row(id: int, content: Option<string>, embedding: Option<Bytes>, embeddingArray: Option<seq<real>>)

  /** One `UPDATE ... WHERE article_id = id` of the batch loop. */
  type Update = (int, seq<real>)

  /** Row order by strictly ascending `article_id`. */
  predicate IdsAscending(t: seq<Row>) {
    forall i, j :: 0 <= i < j < |t| ==> t[i].id < t[j].id
  }

  function IdSet(t: seq<Row>): set<int> {
    set i | 0 <= i < |t| :: t[i].id
  }

  /** The rows satisfying `p`, in table order (a `WHERE` clause). */
  function Where(t: seq<Row>, p: Row -> bool): (r: seq<Row>)
    ensures |r| <= |t|
    ensures forall i :: 0 <= i < |r| ==> p(r[i])
  {
    if t == [] then []
    else if p(t[0]) then [t[0]] + Where(t[1..], p)
    else Where(t[1..], p)
  }

  /** The filter keeps only rows of the table ... */
  lemma {:induction false} WhereSubset(t: seq<Row>, p: Row -> bool)
    ensures forall i :: 0 <= i < |Where(t, p)| ==> Where(t, p)[i] in t
  {
    if t != [] {
      WhereSubset(t[1..], p);
      var w := Where(t[1..], p);
      forall i | 0 <= i < |w| ensures w[i] in t {
        assert w[i] in t[1..];
      }
    }
  }

  /** ... and every row of the table that satisfies `p`. */
  lemma {:induction false} WhereComplete(t: seq<Row>, p: Row -> bool)
    ensures forall i :: 0 <= i < |t| && p(t[i]) ==> t[i] in Where(t, p)
  {
    if t != [] {
      WhereComplete(t[1..], p);
      forall i | 0 <= i < |t| && p(t[i]) ensures t[i] in Where(t, p) {
        if i > 0 { assert t[i] == t[1..][i - 1]; }
      }
    }
  }

  lemma {:induction false} WhereAppend(x: seq<Row>, y: seq<Row>, p: Row -> bool)
    ensures Where(x + y, p) == Where(x, p) + Where(y, p)
  {
    if x != [] {
      assert (x + y)[0] == x[0] && (x + y)[1..] == x[1..] + y;
      WhereAppend(x[1..], y, p);
      AppendAssoc([x[0]], Where(x[1..], p), Where(y, p));
    } else {
      assert x + y == y;
    }
  }

  /** A filter that keeps every row changes nothing; one that keeps none empties. */
  lemma {:induction false} WhereAllOrNone(x: seq<Row>, p: Row -> bool)
    ensures (forall i :: 0 <= i < |x| ==> p(x[i])) ==> Where(x, p) == x
    ensures (forall i :: 0 <= i < |x| ==> !p(x[i])) ==> Where(x, p) == []
  {
    if x != [] {
      WhereAllOrNone(x[1..], p);
      assert forall i :: 0 <= i < |x| - 1 ==> x[1..][i] == x[i + 1];
      assert [x[0]] + x[1..] == x;
    }
  }

  lemma {:induction false} WhereAscending(t: seq<Row>, p: Row -> bool)
    requires IdsAscending(t)
    ensures IdsAscending(Where(t, p))
  {
    if t != [] {
      SliceAscending(t, 1, |t|);
      WhereAscending(t[1..], p);
      var e := Where(t[1..], p);
      WhereSubset(t[1..], p);
      if p(t[0]) {
        var e' := [t[0]] + e;
        forall i, j | 0 <= i < j < |e'| ensures e'[i].id < e'[j].id {
          if i == 0 {
            assert e'[j] == e[j - 1] && e[j - 1] in t[1..];
          } else {
            assert e'[i] == e[i - 1] && e'[j] == e[j - 1];
          }
        }
      }
    }
  }

  lemma {:induction false} SliceAscending(t: seq<Row>, a: nat, b: nat)
    requires IdsAscending(t) && a <= b <= |t|
    ensures IdsAscending(t[a..b])
  {
    forall i, j | 0 <= i < j < b - a ensures t[a..b][i].id < t[a..b][j].id {
      assert t[a..b][i] == t[a + i] && t[a..b][j] == t[a + j];
    }
  }

  /** `WHERE embedding_vector IS NULL`, in table order. */
  function Eligible(t: seq<Row>): (e: seq<Row>)
    ensures |e| <= |t|
    ensures forall i :: 0 <= i < |e| ==> e[i].embedding.None?
  {
    Where(t, (r: Row) => r.embedding.None?)
  }

  /** The ids of the rows the filter admits. */
  function EligibleIds(t: seq<Row>): set<int> {
    set i | 0 <= i < |t| && t[i].embedding.None? :: t[i].id
  }

  // ------------------------------------------------------------ generator

  /** One query of `article_batch_generator`: the eligible rows at `offset`,
      at most `batchSize` of them, in ascending id order. */
  function NextBatch(t: seq<Row>, offset: nat, batchSize: nat): (b: seq<Row>)
    requires IdsAscending(t)
    ensures |b| <= batchSize
    ensures forall i :: 0 <= i < |b| ==> b[i].embedding.None? && b[i] in t
    ensures IdsAscending(b)
    ensures b == [] <==> offset >= |Eligible(t)| || batchSize == 0
  {
    var e := Eligible(t);
    WhereAscending(t, (r: Row) => r.embedding.None?);
    WhereSubset(t, (r: Row) => r.embedding.None?);
    if offset < |e| then
      SliceAscending(e, offset, Min(offset + batchSize, |e|));
      Page(e, offset, batchSize)
    else Page(e, offset, batchSize)
  }

  // -------------------------------------------------------------- updates

  /** Both embedding columns set from the same vector. */
  function Embed(r: Row, v: seq<real>): Row {
    r.(embedding := Some(RawBytes(v)), embeddingArray := Some(v))
  }

  /** `zip(article_ids, embeddings)`: pairs by position, as long as the shorter list. */
  function Pairs(ids: seq<int>, vs: seq<seq<real>>): (ps: seq<Update>)
    ensures |ps| == Min(|ids|, |vs|)
    ensures forall i :: 0 <= i < |ps| ==> ps[i] == (ids[i], vs[i])
  {
    seq(Min(|ids|, |vs|), i requires 0 <= i < Min(|ids|, |vs|) => (ids[i], vs[i]))
  }

  function Ids(b: seq<Row>): (ids: seq<int>)
    ensures |ids| == |b| && forall i :: 0 <= i < |b| ==> ids[i] == b[i].id
  {
    seq(|b|, i requires 0 <= i < |b| => b[i].id)
  }

  function Contents(b: seq<Row>): (cs: seq<Option<string>>)
    ensures |cs| == |b|
  {
    seq(|b|, i requires 0 <= i < |b| => b[i].content)
  }

  function RowId(r: Row): int { r.id }

  /** The batch's updates, one statement after another. */
  function ApplyUpdates(t: seq<Row>, ps: seq<Update>): (r: seq<Row>)
    ensures |r| == |t|
    ensures forall i :: 0 <= i < |t| ==> r[i].id == t[i].id && r[i].content == t[i].content
  {
    UpdateEachRows(t, ps, RowId, Embed);
    UpdateEach(t, ps, RowId, Embed)
  }

  /** After the updates, a row whose id was written holds, in both columns,
      the last vector written for it; every other row is untouched. */
  lemma {:induction false} ApplyUpdatesRows(t: seq<Row>, ps: seq<Update>)
    ensures forall i :: 0 <= i < |t| ==>
              ApplyUpdates(t, ps)[i] == if t[i].id in KeysOf(ps) then Embed(t[i], LastFor(ps, t[i].id)) else t[i]
  {
    UpdateEachRows(t, ps, RowId, Embed);
  }

  /** The batch loop pairs ids and vectors by position: after the updates,
      the row of the `j`-th batch id carries the `j`-th vector in both
      columns, and rows outside the batch are untouched. */
  lemma {:induction false} BatchPairedByPosition(t: seq<Row>, b: seq<Row>, vs: seq<seq<real>>)
    requires IdsAscending(b) && |vs| == |b|
    ensures var r := ApplyUpdates(t, Pairs(Ids(b), vs));
            forall i, j :: 0 <= i < |t| && 0 <= j < |b| && t[i].id == b[j].id ==>
              r[i].embedding == Some(RawBytes(vs[j])) && r[i].embeddingArray == Some(vs[j])
    ensures var r := ApplyUpdates(t, Pairs(Ids(b), vs));
            forall i :: 0 <= i < |t| && t[i].id !in IdSet(b) ==> r[i] == t[i]
  {
    var ps := Pairs(Ids(b), vs);
    ApplyUpdatesRows(t, ps);
    assert KeysOf(ps) == IdSet(b) by {
      forall k | k in IdSet(b) ensures k in KeysOf(ps) {
        var j :| 0 <= j < |b| && b[j].id == k;
        assert ps[j].0 == k;
      }
    }
    forall i, j | 0 <= i < |t| && 0 <= j < |b| && t[i].id == b[j].id
      ensures ApplyUpdates(t, ps)[i].embedding == Some(RawBytes(vs[j])) && ApplyUpdates(t, ps)[i].embeddingArray == Some(vs[j])
    {
      LastForDistinct(ps, j);
    }
  }

  // ----------------------------------------------------------------- pass

  /** Every update of a batch succeeds. */
  predicate AllOk(ps: seq<Update>, updateOk: Update -> bool) {
    forall i :: 0 <= i < |ps| ==> updateOk(ps[i])
  }

  /** The committed batches applied in commit order. */
  function ApplyBatches(t: seq<Row>, committed: seq<seq<Update>>): (r: seq<Row>)
    ensures |r| == |t| && forall i :: 0 <= i < |t| ==> r[i].id == t[i].id
    ensures IdsAscending(t) ==> IdsAscending(r)
    decreases |committed|
  {
    if committed == [] then t else ApplyBatches(ApplyUpdates(t, committed[0]), committed[1..])
  }

  /** The result of a run: the table as committed, the updates of each
      committed batch in commit order, and whether the run ended on an error. */
  datatype Outcome = Outcome(table: seq<Row>, committed: seq<seq<Update>>, failed: bool)

  /** What one round of the batch loop does: the generator is exhausted,
      the round raises (the encoder or an update statement), or it commits
      these updates. */
  datatype Round = Done | Fails | Commits(ps: seq<Update>)

  /** One round of `process_articles_in_batches` at generator state
      `offset`: fetch a batch, stop on an empty one, encode it, update row
      by row. */
  function Attempt(t: seq<Row>, offset: nat, batchSize: nat,
                   encode: seq<Option<string>> -> Option<seq<seq<real>>>,
                   updateOk: Update -> bool): (r: Round)
    requires IdsAscending(t)
    ensures r.Commits? ==> AllOk(r.ps, updateOk) && |r.ps| <= batchSize
    ensures r.Done? <==> NextBatch(t, offset, batchSize) == []
  {
    var b := NextBatch(t, offset, batchSize);
    if b == [] then Done
    else match encode(Contents(b))
      case None => Fails
      case Some(vs) =>
        var ps := Pairs(Ids(b), vs);
        if AllOk(ps, updateOk) then Commits(ps) else Fails
  }

  /** `process_articles_in_batches` from the generator state `offset`: run
      rounds, committing each, until the generator is exhausted or a round
      raises. An error discards the uncommitted batch and ends the run. */
  function Pass(t: seq<Row>, offset: nat, batchSize: nat,
                encode: seq<Option<string>> -> Option<seq<seq<real>>>,
                updateOk: Update -> bool): (o: Outcome)
    requires batchSize > 0 && IdsAscending(t)
    ensures o.table == ApplyBatches(t, o.committed)
    ensures forall k :: 0 <= k < |o.committed| ==> AllOk(o.committed[k], updateOk) && |o.committed[k]| <= batchSize
    decreases |t| - offset
  {
    match Attempt(t, offset, batchSize, encode, updateOk)
    case Done => Outcome(t, [], false)
    case Fails => Outcome(t, [], true)
    case Commits(ps) =>
      var t' := ApplyUpdates(t, ps);
      assert IdsAscending(t') by {
        forall i, j | 0 <= i < j < |t'| ensures t'[i].id < t'[j].id {
          assert t'[i].id == t[i].id && t'[j].id == t[j].id;
        }
      }
      var o := Pass(t', offset + batchSize, batchSize, encode, updateOk);
      Outcome(o.table, [ps] + o.committed, o.failed)
  }

  /** The generator state at round `j`: the offset grows by one batch per
      round. */
  function Shifted(offset: nat, j: nat, batchSize: nat): nat { offset + j * batchSize }

  lemma ShiftedStep(offset: nat, j: nat, batchSize: nat)
    requires j > 0
    ensures Shifted(offset, j, batchSize) == Shifted(offset + batchSize, j - 1, batchSize)
  {
    assert j * batchSize == batchSize + (j - 1) * batchSize;
  }

  /** A pass is its first round followed, after a commit, by the rest of
      the pass. */
  lemma {:induction false} PassRound(t: seq<Row>, offset: nat, batchSize: nat,
                                     encode: seq<Option<string>> -> Option<seq<seq<real>>>,
                                     updateOk: Update -> bool)
    requires batchSize > 0 && IdsAscending(t)
    ensures var o := Pass(t, offset, batchSize, encode, updateOk);
            match Attempt(t, offset, batchSize, encode, updateOk)
            case Done => o == Outcome(t, [], false)
            case Fails => o == Outcome(t, [], true)
            case Commits(ps) =>
              IdsAscending(ApplyUpdates(t, ps)) &&
              var o' := Pass(ApplyUpdates(t, ps), offset + batchSize, batchSize, encode, updateOk);
              o == Outcome(o'.table, [ps] + o'.committed, o'.failed)
  {
    hide NextBatch, Attempt;
    match Attempt(t, offset, batchSize, encode, updateOk)
    case Done =>
    case Fails =>
    case Commits(ps) =>
      var t' := ApplyUpdates(t, ps);
      assert IdsAscending(t') by {
        forall i, j | 0 <= i < j < |t'| ensures t'[i].id < t'[j].id {
          assert t'[i].id == t[i].id && t'[j].id == t[j].id;
        }
      }
  }

  lemma ApplyBatchesNil(t: seq<Row>)
    ensures ApplyBatches(t, []) == t
  {
  }

  lemma ApplyBatchesCons(t: seq<Row>, ps: seq<Update>, rest: seq<seq<Update>>)
    ensures ApplyBatches(t, [ps] + rest) == ApplyBatches(ApplyUpdates(t, ps), rest)
  {
    assert ([ps] + rest)[1..] == rest;
  }

  /** The trace of a pass: its `j`-th committed batch is what round `j`
      commits, starting from the table holding the earlier batches at
      generator state `offset + j * batchSize`; the round after the last
      commit raises exactly when the pass failed, and is the exhausted
      generator otherwise. So a pass that fails in round `k` keeps the
      first `k` batches and the table they make, and nothing else. */
  lemma {:induction false} PassTrace(t: seq<Row>, offset: nat, batchSize: nat,
                                     encode: seq<Option<string>> -> Option<seq<seq<real>>>,
                                     updateOk: Update -> bool)
    requires batchSize > 0 && IdsAscending(t)
    ensures var o := Pass(t, offset, batchSize, encode, updateOk);
            forall j :: 0 <= j < |o.committed| ==>
              Attempt(ApplyBatches(t, o.committed[..j]), Shifted(offset, j, batchSize), batchSize, encode, updateOk)
                == Commits(o.committed[j])
    ensures var o := Pass(t, offset, batchSize, encode, updateOk);
            Attempt(o.table, Shifted(offset, |o.committed|, batchSize), batchSize, encode, updateOk)
              == if o.failed then Fails else Done
    decreases |t| - offset
  {
    hide Pass, Attempt, NextBatch, ApplyUpdates, ApplyBatches;
    var o := Pass(t, offset, batchSize, encode, updateOk);
    PassRound(t, offset, batchSize, encode, updateOk);
    assert Shifted(offset, 0, batchSize) == offset;
    match Attempt(t, offset, batchSize, encode, updateOk)
    case Done =>
      assert o == Outcome(t, [], false);
    case Fails =>
      assert o == Outcome(t, [], true);
    case Commits(ps) =>
      var t' := ApplyUpdates(t, ps);
      var o' := Pass(t', offset + batchSize, batchSize, encode, updateOk);
      assert o == Outcome(o'.table, [ps] + o'.committed, o'.failed);
      PassTrace(t', offset + batchSize, batchSize, encode, updateOk);
      forall j | 0 <= j < |o.committed|
        ensures Attempt(ApplyBatches(t, o.committed[..j]), Shifted(offset, j, batchSize), batchSize, encode, updateOk)
                  == Commits(o.committed[j])
      {
        if j == 0 {
          assert o.committed[..j] == [];
          ApplyBatchesNil(t);
        } else {
          assert o.committed[..j] == [ps] + o'.committed[..j - 1];
          ApplyBatchesCons(t, ps, o'.committed[..j - 1]);
          ShiftedStep(offset, j, batchSize);
        }
      }
      ShiftedStep(offset, |o.committed|, batchSize);
  }

  // ------------------------------------------------------ what a batch does

  /** The written ids leave the filter; nothing enters it. */
  lemma {:induction false} EligibleIdsAfterUpdates(t: seq<Row>, ps: seq<Update>)
    ensures EligibleIds(ApplyUpdates(t, ps)) == EligibleIds(t) - KeysOf(ps)
  {
    var u := ApplyUpdates(t, ps);
    ApplyUpdatesRows(t, ps);
    forall x | x in EligibleIds(u) ensures x in EligibleIds(t) - KeysOf(ps) {
      var i :| 0 <= i < |u| && u[i].embedding.None? && u[i].id == x;
    }
    forall x | x in EligibleIds(t) - KeysOf(ps) ensures x in EligibleIds(u) {
      var i :| 0 <= i < |t| && t[i].embedding.None? && t[i].id == x;
      assert u[i] == t[i];
    }
  }

  /** Pointwise form of a batch's effect on the filter. */
  lemma {:induction false} EligibleOfMarked(t: seq<Row>, u: seq<Row>, s: set<int>)
    requires |u| == |t|
    requires forall i :: 0 <= i < |t| ==> (t[i].id in s ==> u[i].embedding.Some?) && (t[i].id !in s ==> u[i] == t[i])
    ensures Eligible(u) == Where(Eligible(t), (r: Row) => r.id !in s)
  {
    if t != [] {
      assert forall i :: 0 <= i < |t| - 1 ==> t[1..][i] == t[i + 1] && u[1..][i] == u[i + 1];
      EligibleOfMarked(t[1..], u[1..], s);
      var e := Where(t[1..], (r: Row) => r.embedding.None?);
      if t[0].embedding.None? {
        WhereAppend([t[0]], e, (r: Row) => r.id !in s);
      }
    }
  }

  /** The written rows leave the filter, in place: the eligible sequence after
      the batch is the one before with the written ids removed. */
  lemma {:induction false} EligibleAfterUpdatesSeq(t: seq<Row>, ps: seq<Update>)
    ensures Eligible(ApplyUpdates(t, ps)) == Where(Eligible(t), (r: Row) => r.id !in KeysOf(ps))
  {
    ApplyUpdatesRows(t, ps);
    EligibleOfMarked(t, ApplyUpdates(t, ps), KeysOf(ps));
  }

  /** Removing the ids of a slice of an id-ascending sequence removes exactly
      that slice. */
  lemma RemoveSlice(e: seq<Row>, a: nat, b: nat)
    requires IdsAscending(e) && a <= b <= |e|
    ensures Where(e, (r: Row) => r.id !in IdSet(e[a..b])) == e[..a] + e[b..]
  {
    var s := IdSet(e[a..b]);
    var x, y, z := e[..a], e[a..b], e[b..];
    Split3(e, a, b);
    WhereAppend(x + y, z, (r: Row) => r.id !in s);
    WhereAppend(x, y, (r: Row) => r.id !in s);
    RemoveSliceParts(e, a, b);
  }

  lemma {:induction false} RemoveSliceParts(e: seq<Row>, a: nat, b: nat)
    requires IdsAscending(e) && a <= b <= |e|
    ensures Where(e[..a], (r: Row) => r.id !in IdSet(e[a..b])) == e[..a]
    ensures Where(e[a..b], (r: Row) => r.id !in IdSet(e[a..b])) == []
    ensures Where(e[b..], (r: Row) => r.id !in IdSet(e[a..b])) == e[b..]
  {
    var s := IdSet(e[a..b]);
    forall i | 0 <= i < a ensures e[..a][i].id !in s {
      assert e[..a][i] == e[i];
      forall j | 0 <= j < b - a ensures e[i].id != e[a..b][j].id {
        assert e[a..b][j] == e[a + j];
      }
    }
    forall i | 0 <= i < |e| - b ensures e[b..][i].id !in s {
      assert e[b..][i] == e[b + i];
      forall j | 0 <= j < b - a ensures e[b + i].id != e[a..b][j].id {
        assert e[a..b][j] == e[a + j];
      }
    }
    WhereAllOrNone(e[..a], (r: Row) => r.id !in s);
    WhereAllOrNone(e[a..b], (r: Row) => r.id !in s);
    WhereAllOrNone(e[b..], (r: Row) => r.id !in s);
  }

  /** With one vector per batch row, the batch writes exactly its ids. */
  lemma {:induction false} KeysOfBatch(b: seq<Row>, vs: seq<seq<real>>)
    requires |vs| == |b|
    ensures KeysOf(Pairs(Ids(b), vs)) == IdSet(b)
  {
    var ps := Pairs(Ids(b), vs);
    forall k | k in IdSet(b) ensures k in KeysOf(ps) {
      var j :| 0 <= j < |b| && b[j].id == k;
      assert ps[j].0 == k;
    }
  }

  // -------------------------------------------------------- the drifting pass

  /** An encoder that never raises and returns one vector per input. */
  ghost predicate EncoderTotal(encode: seq<Option<string>> -> Option<seq<seq<real>>>) {
    forall xs :: encode(xs).Some? && |encode(xs).value| == |xs|
  }

  /** What stays eligible after a pass in which every step succeeds: each
      batch leaves the filter in place while the offset still advances past
      it, so the rows that slide into the skipped offsets are never fetched. */
  function DriftLeft(e: seq<Row>, offset: nat, batchSize: nat): (r: seq<Row>)
    requires batchSize > 0
    decreases |e| - offset
  {
    if offset >= |e| then e
    else
      var end := Min(offset + batchSize, |e|);
      DriftLeft(e[..offset] + e[end..], offset + batchSize, batchSize)
  }

  /** One successful batch at `offset` removes that slice of the eligible rows. */
  lemma {:induction false} PassStepEligible(t: seq<Row>, offset: nat, batchSize: nat, vs: seq<seq<real>>)
    requires batchSize > 0 && IdsAscending(t)
    requires NextBatch(t, offset, batchSize) != [] && |vs| == |NextBatch(t, offset, batchSize)|
    ensures var t' := ApplyUpdates(t, Pairs(Ids(NextBatch(t, offset, batchSize)), vs));
            IdsAscending(t') &&
            Eligible(t') == Eligible(t)[..offset] + Eligible(t)[Min(offset + batchSize, |Eligible(t)|)..]
  {
    var e := Eligible(t);
    var b := NextBatch(t, offset, batchSize);
    var ps := Pairs(Ids(b), vs);
    var t' := ApplyUpdates(t, ps);
    var end := Min(offset + batchSize, |e|);
    assert b == e[offset..end];
    forall i, j | 0 <= i < j < |t'| ensures t'[i].id < t'[j].id {
      assert t'[i].id == t[i].id && t'[j].id == t[j].id;
    }
    KeysOfBatch(b, vs);
    EligibleAfterUpdatesSeq(t, ps);
    WhereAscending(t, (r: Row) => r.embedding.None?);
    RemoveSlice(e, offset, end);
  }

  /** One successful batch of a pass, then the rest of the pass. */
  lemma {:induction false} PassStep(t: seq<Row>, offset: nat, batchSize: nat,
                                    encode: seq<Option<string>> -> Option<seq<seq<real>>>,
                                    updateOk: Update -> bool)
    requires batchSize > 0 && IdsAscending(t) && NextBatch(t, offset, batchSize) != []
    requires EncoderTotal(encode) && forall u :: updateOk(u)
    ensures var b := NextBatch(t, offset, batchSize);
            var ps := Pairs(Ids(b), encode(Contents(b)).value);
            var t' := ApplyUpdates(t, ps);
            IdsAscending(t') &&
            Pass(t, offset, batchSize, encode, updateOk) ==
              Outcome(Pass(t', offset + batchSize, batchSize, encode, updateOk).table,
                      [ps] + Pass(t', offset + batchSize, batchSize, encode, updateOk).committed,
                      Pass(t', offset + batchSize, batchSize, encode, updateOk).failed)
  {
    var b := NextBatch(t, offset, batchSize);
    var ps := Pairs(Ids(b), encode(Contents(b)).value);
    assert AllOk(ps, updateOk);
    PassStepEligible(t, offset, batchSize, encode(Contents(b)).value);
  }

  /** With a total encoder and no failing statement, the rows a pass leaves
      eligible are exactly `DriftLeft` of the rows eligible at the start. */
  lemma {:induction false} PassLeavesDrift(t: seq<Row>, offset: nat, batchSize: nat,
                                           encode: seq<Option<string>> -> Option<seq<seq<real>>>,
                                           updateOk: Update -> bool)
    requires batchSize > 0 && IdsAscending(t)
    requires EncoderTotal(encode) && forall u :: updateOk(u)
    ensures !Pass(t, offset, batchSize, encode, updateOk).failed
    ensures Eligible(Pass(t, offset, batchSize, encode, updateOk).table) == DriftLeft(Eligible(t), offset, batchSize)
    decreases |t| - offset
  {
    hide Pass, DriftLeft;
    var e := Eligible(t);
    var b := NextBatch(t, offset, batchSize);
    if b == [] {
      PassDone(t, offset, batchSize, encode, updateOk);
      DriftDone(e, offset, batchSize);
    } else {
      var vs := encode(Contents(b)).value;
      var ps := Pairs(Ids(b), vs);
      var t' := ApplyUpdates(t, ps);
      PassStep(t, offset, batchSize, encode, updateOk);
      PassStepEligible(t, offset, batchSize, vs);
      PassLeavesDrift(t', offset + batchSize, batchSize, encode, updateOk);
      DriftStep(e, offset, batchSize);
    }
  }

  /** A pass whose next batch is empty stops with nothing committed. */
  lemma {:induction false} PassDone(t: seq<Row>, offset: nat, batchSize: nat,
                                    encode: seq<Option<string>> -> Option<seq<seq<real>>>,
                                    updateOk: Update -> bool)
    requires batchSize > 0 && IdsAscending(t) && NextBatch(t, offset, batchSize) == []
    ensures Pass(t, offset, batchSize, encode, updateOk) == Outcome(t, [], false)
  {
  }

  /** Past the end, nothing more drifts. */
  lemma {:induction false} DriftDone(e: seq<Row>, offset: nat, batchSize: nat)
    requires batchSize > 0 && offset >= |e|
    ensures DriftLeft(e, offset, batchSize) == e
  {
  }

  /** One drifting step removes the slice at the offset. */
  lemma {:induction false} DriftStep(e: seq<Row>, offset: nat, batchSize: nat)
    requires batchSize > 0 && offset < |e|
    ensures DriftLeft(e, offset, batchSize) ==
              DriftLeft(e[..offset] + e[Min(offset + batchSize, |e|)..], offset + batchSize, batchSize)
  {
  }

  /** How many rows a drifting pass over `n` eligible rows embeds. */
  function Processed(n: nat, offset: nat, batchSize: nat): (k: nat)
    requires batchSize > 0
    ensures k <= n
    ensures offset <= n ==> k + offset <= n || k <= batchSize
    decreases n - offset
  {
    if offset >= n then 0
    else
      var b := Min(batchSize, n - offset);
      b + Processed(n - b, offset + batchSize, batchSize)
  }

  lemma {:induction false} DriftLeftLength(e: seq<Row>, offset: nat, batchSize: nat)
    requires batchSize > 0
    ensures |DriftLeft(e, offset, batchSize)| == |e| - Processed(|e|, offset, batchSize)
    decreases |e| - offset
  {
    if offset < |e| {
      var end := Min(offset + batchSize, |e|);
      DriftLeftLength(e[..offset] + e[end..], offset + batchSize, batchSize);
    }
  }

  /** More eligible rows than one batch: the pass leaves some of them behind. */
  lemma {:induction false} ProcessedFallsShort(n: nat, batchSize: nat)
    requires 0 < batchSize < n
    ensures Processed(n, 0, batchSize) < n
  {
    var rest := Processed(n - batchSize, batchSize, batchSize);
    assert Processed(n, 0, batchSize) == batchSize + rest;
    if batchSize <= n - batchSize {
      assert rest + batchSize <= n - batchSize || rest <= batchSize;
    }
  }

  /** The as-written generator over more eligible rows than one batch ends
      with rows still unembedded, even when nothing fails. */
  lemma {:induction false} PassSkipsRows(t: seq<Row>, batchSize: nat,
                      encode: seq<Option<string>> -> Option<seq<seq<real>>>,
                      updateOk: Update -> bool)
    requires 0 < batchSize < |Eligible(t)| && IdsAscending(t)
    requires EncoderTotal(encode) && forall u :: updateOk(u)
    ensures !Pass(t, 0, batchSize, encode, updateOk).failed
    ensures Eligible(Pass(t, 0, batchSize, encode, updateOk).table) != []
  {
    PassLeavesDrift(t, 0, batchSize, encode, updateOk);
    DriftLeftLength(Eligible(t), 0, batchSize);
    ProcessedFallsShort(|Eligible(t)|, batchSize);
  }

  /** 250 eligible rows with batches of 100: ranks 1-100 and 201-250 are
      embedded, 150 in all, and ranks 101-200 are left behind. */
  lemma {:induction false} DriftExample(e: seq<Row>)
    requires |e| == 250
    ensures DriftLeft(e, 0, 100) == e[100..200]
    ensures Processed(250, 0, 100) == 150
  {
    var e1 := e[..0] + e[100..];
    assert e1 == e[100..];
    var e2 := e1[..100] + e1[150..];
    assert e2 == e[100..200];
    assert DriftLeft(e2, 200, 100) == e2;
    assert DriftLeft(e1, 100, 100) == DriftLeft(e2, 200, 100);
    assert Processed(150, 100, 100) == 50 + Processed(100, 200, 100);
  }

  // -------------------------------------------------------- a keyset pass

  /** Rows with id above `k`, in order. */
  function Above(t: seq<Row>, k: int): seq<Row> {
    Where(t, (r: Row) => r.id > k)
  }

  lemma {:induction false} AboveSameIds(t: seq<Row>, u: seq<Row>, k: int)
    requires |u| == |t| && forall i :: 0 <= i < |t| ==> u[i].id == t[i].id
    ensures |Above(u, k)| == |Above(t, k)|
  {
    if t != [] {
      assert forall i :: 0 <= i < |t| - 1 ==> t[1..][i] == t[i + 1] && u[1..][i] == u[i + 1];
      AboveSameIds(t[1..], u[1..], k);
    }
  }

  /** Raising the bound past a row's id strictly shrinks the rows above it. */
  lemma {:induction false} AboveShrinks(t: seq<Row>, k: int, k': int, x: Row)
    requires k <= k' && x in t && k < x.id <= k'
    ensures |Above(t, k')| < |Above(t, k)|
  {
    AboveMonotone(t[1..], k, k');
    if t[0] != x {
      AboveShrinks(t[1..], k, k', x);
    }
  }

  lemma {:induction false} AboveMonotone(t: seq<Row>, k: int, k': int)
    requires k <= k'
    ensures |Above(t, k')| <= |Above(t, k)|
  {
    if t != [] { AboveMonotone(t[1..], k, k'); }
  }

  /** A row of a keyset batch is a row of the table. */
  lemma {:induction false} BatchRowInTable(t: seq<Row>, last: int, x: Row)
    requires x in Above(Eligible(t), last)
    ensures x in t && x.id > last
  {
    WhereSubset(Eligible(t), (r: Row) => r.id > last);
    WhereSubset(t, (r: Row) => r.embedding.None?);
  }

  /** An eligible row above the bound is a candidate of the keyset query. */
  lemma {:induction false} EligibleRowAbove(t: seq<Row>, last: int, i: nat)
    requires i < |t| && t[i].embedding.None? && t[i].id > last
    ensures t[i] in Above(Eligible(t), last)
  {
    WhereComplete(t, (r: Row) => r.embedding.None?);
    WhereComplete(Eligible(t), (r: Row) => r.id > last);
  }

  lemma {:induction false} AscendingIndexBound(a: seq<Row>, j: nat, k: nat)
    requires IdsAscending(a) && j < |a| && k < |a| && a[j].id <= a[k].id
    ensures j <= k
  {
  }

  /** A keyset batch holds every eligible id between the bound and its last id. */
  lemma {:induction false} KeysetBatchCovers(t: seq<Row>, last: int, batchSize: nat, x: int)
    requires batchSize > 0 && IdsAscending(t)
    requires Page(Above(Eligible(t), last), 0, batchSize) != []
    requires x in EligibleIds(t)
    ensures var b := Page(Above(Eligible(t), last), 0, batchSize);
            last < x <= b[|b| - 1].id ==> x in IdSet(b)
  {
    var a := Above(Eligible(t), last);
    var b := Page(a, 0, batchSize);
    var m := |b|;
    if last < x <= b[m - 1].id {
      var i :| 0 <= i < |t| && t[i].embedding.None? && t[i].id == x;
      EligibleRowAbove(t, last, i);
      var j :| 0 <= j < |a| && a[j] == t[i];
      WhereAscending(t, (r: Row) => r.embedding.None?);
      WhereAscending(Eligible(t), (r: Row) => r.id > last);
      assert b == a[..m];
      AscendingIndexBound(a, j, m - 1);
      assert b[j] == t[i];
    }
  }

  /** The corrected generator: `WHERE embedding_vector IS NULL AND article_id
      > last ORDER BY article_id LIMIT n`, with `last` the final id of the
      previous batch. Rows leaving the filter no longer shift later rows out
      of reach. */
  function KeysetPass(t: seq<Row>, last: int, batchSize: nat,
                      encode: seq<Option<string>> -> Option<seq<seq<real>>>,
                      updateOk: Update -> bool): (o: Outcome)
    requires batchSize > 0 && IdsAscending(t)
    ensures o.table == ApplyBatches(t, o.committed)
    ensures |o.table| == |t| && EligibleIds(o.table) <= EligibleIds(t)
    decreases |Above(t, last)|
  {
    var a := Above(Eligible(t), last);
    var b := Page(a, 0, batchSize);
    if b == [] then Outcome(t, [], false)
    else match encode(Contents(b))
      case None => Outcome(t, [], true)
      case Some(vs) =>
        var ps := Pairs(Ids(b), vs);
        if !AllOk(ps, updateOk) then Outcome(t, [], true)
        else
          var t' := ApplyUpdates(t, ps);
          var last' := b[|b| - 1].id;
          assert IdsAscending(t') by {
            forall i, j | 0 <= i < j < |t'| ensures t'[i].id < t'[j].id {
              assert t'[i].id == t[i].id && t'[j].id == t[j].id;
            }
          }
          BatchRowInTable(t, last, b[|b| - 1]);
          AboveSameIds(t, t', last');
          AboveShrinks(t, last, last', b[|b| - 1]);
          EligibleIdsAfterUpdates(t, ps);
          var o := KeysetPass(t', last', batchSize, encode, updateOk);
          Outcome(o.table, [ps] + o.committed, o.failed)
  }

  /** With a total encoder and no failing statement, the keyset pass embeds
      every row above its starting bound: none is left eligible. */
  lemma {:induction false} KeysetPassComplete(t: seq<Row>, last: int, batchSize: nat,
                                              encode: seq<Option<string>> -> Option<seq<seq<real>>>,
                                              updateOk: Update -> bool)
    requires batchSize > 0 && IdsAscending(t)
    requires EncoderTotal(encode) && forall u :: updateOk(u)
    ensures !KeysetPass(t, last, batchSize, encode, updateOk).failed
    ensures forall x :: x in EligibleIds(KeysetPass(t, last, batchSize, encode, updateOk).table) ==> x <= last
    decreases |Above(t, last)|
  {
    var e := Eligible(t);
    var a := Above(e, last);
    var b := Page(a, 0, batchSize);
    var final := KeysetPass(t, last, batchSize, encode, updateOk).table;
    if b == [] {
      forall x | x in EligibleIds(final) ensures x <= last {
        var i :| 0 <= i < |t| && t[i].embedding.None? && t[i].id == x;
        if x > last { EligibleRowAbove(t, last, i); }
      }
    } else {
      var vs := encode(Contents(b)).value;
      var ps := Pairs(Ids(b), vs);
      var t' := ApplyUpdates(t, ps);
      var m := |b|;
      var last' := b[m - 1].id;
      assert IdsAscending(t') by {
        forall i, j | 0 <= i < j < |t'| ensures t'[i].id < t'[j].id {
          assert t'[i].id == t[i].id && t'[j].id == t[j].id;
        }
      }
      BatchRowInTable(t, last, b[m - 1]);
      AboveSameIds(t, t', last');
      AboveShrinks(t, last, last', b[m - 1]);
      KeysetPassComplete(t', last', batchSize, encode, updateOk);
      KeysOfBatch(b, vs);
      EligibleIdsAfterUpdates(t, ps);
      forall x | x in EligibleIds(final) ensures x <= last {
        KeysetBatchCovers(t, last, batchSize, x);
      }
    }
  }
}

=== FILE: filename_date.dfy ===
/** The day/month/year search both loaders run on a file name:
    `re.search(r'(\d{1,2})\s+([A-Za-z]+)\s+(\d{4})', filename)`
    (TOC_HYPERLINK_GET.py and 4_segmented_to_db.py).

    At a given start the pattern has only one way to match: `\d{1,2}` takes
    two digits when the second character is a digit (one digit would leave a
    digit where `\s+` needs whitespace), and each `\s+` and `[A-Za-z]+` run
    is maximal for the same reason; `\d{4}` takes the next four digits
    whatever follows them. `re.search` returns the match at the leftmost
    start that has one. */
module FilenameDate {
  import opened Wrappers
  import opened Text

  /** The three groups: day digits, month letters, year digits. */
  datatype DateMatch = DateMatch(day: string, month: string, year: string)

  /** What the groups can hold: one or two digits, a run of letters, four digits. */
  predicate WellFormed(m: DateMatch) {
    1 <= |m.day| <= 2 && AllDigits(m.day) && IsAlphaWord(m.month) && |m.year| == 4 && AllDigits(m.year)
  }

  /** The match starting at index `i`, if the pattern matches there. */
  function MatchAt(s: string, i: nat): (r: Option<DateMatch>)
    ensures r.Some? ==> WellFormed(r.value) && At(s, i, r.value.day)
    ensures i >= |s| ==> r.None?
  {
    if i >= |s| || !IsDigit(s[i]) then None
    else MatchAfterDay(s, i, if i + 1 < |s| && IsDigit(s[i + 1]) then i + 2 else i + 1)
  }

  /** The rest of a match whose day digits are `s[i..a]`: whitespace, the
      month letters, whitespace, four digits. */
  function MatchAfterDay(s: string, i: nat, a: nat): (r: Option<DateMatch>)
    requires i < a <= i + 2 && a <= |s| && AllDigits(s[i..a])
    ensures r.Some? ==> WellFormed(r.value) && At(s, i, r.value.day)
  {
    var b := a + Run(s, a, IsSpace);
    var c := b + Run(s, b, IsAlpha);
    var e := c + Run(s, c, IsSpace);
    if a < b && b < c && c < e && e + 4 <= |s| && AllDigits(s[e..e + 4]) then
      var m := DateMatch(s[i..a], s[b..c], s[e..e + 4]);
      assert IsAlphaWord(m.month) by {
        RunSpan(s, b, IsAlpha);
        forall k | 0 <= k < c - b ensures IsAlpha(m.month[k]) {
          assert m.month[k] == s[b + k];
        }
      }
      Some(m)
    else None
  }

  /** `re.search`: the start and groups of the leftmost match. */
  function Search(s: string): (r: Option<(nat, DateMatch)>)
    ensures r.Some? ==> MatchAt(s, r.value.0) == Some(r.value.1) && WellFormed(r.value.1)
    ensures r.Some? ==> forall j :: 0 <= j < r.value.0 ==> MatchAt(s, j).None?
    ensures r.None? ==> forall j :: 0 <= j < |s| ==> MatchAt(s, j).None?
  {
    var at: nat -> Option<DateMatch> := (j: nat) => MatchAt(s, j);
    var r := FirstMatch(|s|, at, 0);
    assert forall j :: 0 <= j < |s| ==> at(j) == MatchAt(s, j);
    r
  }

  /** A single space before a non-space character is a whitespace run of one. */
  lemma {:induction false} OneSpace(s: string, a: nat)
    requires a + 1 < |s| && s[a] == ' ' && !IsSpace(s[a + 1])
    ensures Run(s, a, IsSpace) == 1
  {
    RunOf(s, a, 1, IsSpace);
  }

  /** A letter word followed by a non-letter is a letter run of its length. */
  lemma {:induction false} WordRun(s: string, b: nat, w: string)
    requires IsAlphaWord(w) && b + |w| < |s| && s[b..b + |w|] == w && !IsAlpha(s[b + |w|])
    ensures Run(s, b, IsAlpha) == |w|
  {
    forall k | b <= k < b + |w| ensures IsAlpha(s[k]) {
      assert s[k] == w[k - b];
    }
    RunOf(s, b, |w|, IsAlpha);
  }

  /** The remainder of a match, read off from the lengths of its three runs. */
  lemma {:induction false} MatchAfterDayRuns(s: string, i: nat, a: nat, b: nat, c: nat, e: nat)
    requires i < a <= i + 2 && a <= |s| && AllDigits(s[i..a])
    requires a < b <= c && Run(s, a, IsSpace) == b - a && Run(s, b, IsAlpha) == c - b
    requires c < |s| && Run(s, c, IsSpace) == e - c
    requires b < c < e && e + 4 <= |s| && AllDigits(s[e..e + 4])
    ensures MatchAfterDay(s, i, a) == Some(DateMatch(s[i..a], s[b..c], s[e..e + 4]))
  {
  }

  /** Where the groups sit in a text laid out as day, one space, month, one
      space, year: the pattern matches there with exactly those groups. */
  lemma {:induction false} MatchAtParts(s: string, i: nat, day: string, month: string, year: string)
    requires WellFormed(DateMatch(day, month, year))
    requires i + |day| + |month| + 6 <= |s|
    requires s[i..i + |day|] == day && s[i + |day|] == ' '
    requires s[i + |day| + 1..i + |day| + 1 + |month|] == month && s[i + |day| + 1 + |month|] == ' '
    requires s[i + |day| + 2 + |month|..i + |day| + 6 + |month|] == year
    ensures MatchAt(s, i) == Some(DateMatch(day, month, year))
  {
    hide MatchAfterDay, Run;
    var a := i + |day|;
    var b := a + 1;
    var c := b + |month|;
    var e := c + 1;
    assert MatchAt(s, i) == MatchAfterDay(s, i, a) by {
      assert s[i] == day[0];
      if |day| == 2 {
        assert s[i + 1] == day[1];
      }
    }
    assert s[b] == month[0];
    OneSpace(s, a);
    WordRun(s, b, month);
    assert s[e] == year[0];
    OneSpace(s, c);
    MatchAfterDayRuns(s, i, a, b, c, e);
  }

  /** A file name whose first digit starts a day, then one space, a month
      word, one space and four year digits, is found with exactly those
      groups, whatever follows. */
  lemma {:induction false} SearchFinds(s: string, prefix: string, day: string, month: string, year: string, suffix: string)
    requires WellFormed(DateMatch(day, month, year))
    requires forall k :: 0 <= k < |prefix| ==> !IsDigit(prefix[k])
    requires s == prefix + (day + (" " + (month + (" " + (year + suffix)))))
    ensures Search(s) == Some((|prefix|, DateMatch(day, month, year)))
  {
    var i := |prefix|;
    assert s[i..i + |day|] == day;
    assert s[i + |day|] == ' ';
    assert s[i + |day| + 1..i + |day| + 1 + |month|] == month;
    assert s[i + |day| + 1 + |month|] == ' ';
    assert s[i + |day| + 2 + |month|..i + |day| + 6 + |month|] == year;
    MatchAtParts(s, i, day, month, year);
    forall j | 0 <= j < i ensures MatchAt(s, j).None? {
      assert s[j] == prefix[j];
    }
    var r := Search(s);
    assert r.Some? && r.value.0 == i;
  }
}

=== FILE: geo.dfy ===
/** The geocoding stage (10_GEO_to_DB.py): fetch the place-name entities,
    geocode each one, and insert a location row for every result whose
    latitude and longitude are both truthy; one commit after the loop.
    The geocoder is a parameter: `None` when it finds nothing, and a
    separate predicate says on which names it raises. */
module Geo {
  import opened Wrappers
  import opened Tables

  /** A row of `entities` as the fetch sees it. */
  datatype Entity = Entity(id: int, entityType: string, value: string)

  /** What the geocoder returns for a place it finds. */
  datatype Location = Location(latitude: real, longitude: real, displayName: Option<string>)

  /** The triple `geocode_entity` returns; each part may be Python's `None`. */
  datatype GeoResult = GeoResult(latitude: Option<real>, longitude: Option<real>, source: Option<string>)

  /** A row of `geocoded_locations`, keyed by `entity_id`. */
  datatype GeoRow = GeoRow(latitude: real, longitude: real, source: Option<string>)

  const Gpe: string := "GPE"

  /** `fetch_entities`: `(entity_id, entity_value)` of the entities whose type
      is exactly `GPE`, in scan order. */
  function FetchEntities(es: seq<Entity>): (r: seq<(int, string)>)
    ensures |r| <= |es|
    ensures forall j :: 0 <= j < |es| && es[j].entityType == Gpe ==> (es[j].id, es[j].value) in r
  {
    if es == [] then []
    else
      var tail := FetchEntities(es[1..]);
      assert forall j :: 1 <= j < |es| ==> es[j] == es[1..][j - 1];
      if es[0].entityType == Gpe then [(es[0].id, es[0].value)] + tail else tail
  }

  /** Entity `j` is a `GPE` entity and `x` is its fetched pair. */
  predicate FromGpe(es: seq<Entity>, j: int, x: (int, string)) {
    0 <= j < |es| && es[j].entityType == Gpe && x == (es[j].id, es[j].value)
  }

  /** `x` is the fetched pair of some `GPE` entity. */
  ghost predicate Fetched(es: seq<Entity>, x: (int, string)) {
    exists j :: FromGpe(es, j, x)
  }

  /** Every fetched pair comes from a `GPE` entity. */
  lemma {:induction false} FetchEntitiesSound(es: seq<Entity>)
    ensures forall i :: 0 <= i < |FetchEntities(es)| ==> Fetched(es, FetchEntities(es)[i])
  {
    if es != [] {
      FetchEntitiesSound(es[1..]);
      var tail := FetchEntities(es[1..]);
      var r := FetchEntities(es);
      forall i | 0 <= i < |r|
        ensures Fetched(es, r[i])
      {
        if es[0].entityType == Gpe && i == 0 {
          assert FromGpe(es, 0, r[i]);
        } else {
          var k := if es[0].entityType == Gpe then i - 1 else i;
          assert r[i] == tail[k];
          assert Fetched(es[1..], tail[k]);
          var j :| FromGpe(es[1..], j, tail[k]);
          assert es[1..][j] == es[j + 1];
          assert FromGpe(es, j + 1, r[i]);
        }
      }
    } else {
      assert FetchEntities(es) == [];
    }
  }

  /** `geocode_entity`: the geocoder's hit as (latitude, longitude,
      display name), or three `None`s when it finds nothing. */
  function GeocodeEntity(value: string, geocode: string -> Option<Location>): (r: GeoResult)
    ensures geocode(value).None? <==> r.latitude.None?
    ensures geocode(value).None? ==> r == GeoResult(None, None, None)
    ensures geocode(value).Some? ==>
              r.latitude == Some(geocode(value).value.latitude) && r.longitude == Some(geocode(value).value.longitude) &&
              r.source == geocode(value).value.displayName
  {
    match geocode(value)
    case None => GeoResult(None, None, None)
    case Some(loc) => GeoResult(Some(loc.latitude), Some(loc.longitude), loc.displayName)
  }

  /** Python truthiness of an optional float: `None` and `0.0` are false. */
  predicate Truthy(x: Option<real>) {
    x.Some? && x.value != 0.0
  }

  /** The store gate `if latitude and longitude`. */
  predicate Stored(g: GeoResult) {
    Truthy(g.latitude) && Truthy(g.longitude)
  }

  /** The row stored for a result that passes the gate. */
  function RowOf(g: GeoResult): GeoRow
    requires Stored(g)
  {
    GeoRow(g.latitude.value, g.longitude.value, g.source)
  }

  /** The rows the loop inserts, in order: one per fetched entity whose
      geocoding passes the gate, carrying that entity's result. */
  function Inserts(items: seq<(int, string)>, geocode: string -> Option<Location>): (w: seq<(int, GeoRow)>)
    ensures |w| <= |items|
  {
    if items == [] then []
    else
      var g := GeocodeEntity(items[0].1, geocode);
      var rest := Inserts(items[1..], geocode);
      if Stored(g) then [(items[0].0, RowOf(g))] + rest else rest
  }

  /** Item `i` passes the gate and `x` is its row. */
  predicate Writes(items: seq<(int, string)>, geocode: string -> Option<Location>, i: int, x: (int, GeoRow)) {
    0 <= i < |items| && Stored(GeocodeEntity(items[i].1, geocode)) && x == (items[i].0, RowOf(GeocodeEntity(items[i].1, geocode)))
  }

  /** Every entity whose result passes the gate gets its row written. */
  lemma {:induction false} InsertsComplete(items: seq<(int, string)>, geocode: string -> Option<Location>, i: nat)
    requires i < |items| && Stored(GeocodeEntity(items[i].1, geocode))
    ensures (items[i].0, RowOf(GeocodeEntity(items[i].1, geocode))) in Inserts(items, geocode)
    decreases |items|
  {
    if i > 0 {
      assert items[1..][i - 1] == items[i];
      InsertsComplete(items[1..], geocode, i - 1);
    }
  }

  /** Every written row belongs to a fetched entity whose result passes the
      gate, and carries that result. */
  lemma {:induction false} InsertsSound(items: seq<(int, string)>, geocode: string -> Option<Location>)
    ensures forall x :: x in Inserts(items, geocode) ==> exists i :: Writes(items, geocode, i, x)
    decreases |items|
  {
    if items != [] {
      InsertsSound(items[1..], geocode);
      forall x | x in Inserts(items, geocode)
        ensures exists i :: Writes(items, geocode, i, x)
      {
        if x !in Inserts(items[1..], geocode) {
          assert Writes(items, geocode, 0, x);
        } else {
          var i :| Writes(items[1..], geocode, i, x);
          assert items[1..][i] == items[i + 1];
          assert Writes(items, geocode, i + 1, x);
        }
      }
    }
  }

  /** Entity ids are the primary key of `entities`. */
  predicate DistinctIds(es: seq<Entity>) {
    forall i, j :: 0 <= i < j < |es| ==> es[i].id != es[j].id
  }

  lemma {:induction false} FetchEntitiesDistinct(es: seq<Entity>)
    requires DistinctIds(es)
    ensures DistinctKeys(FetchEntities(es))
  {
    if es != [] {
      FetchEntitiesDistinct(es[1..]);
      FetchEntitiesSound(es[1..]);
      var tail := FetchEntities(es[1..]);
      forall i | 0 <= i < |tail| ensures tail[i].0 != es[0].id {
        assert Fetched(es[1..], tail[i]);
        var j :| FromGpe(es[1..], j, tail[i]);
        assert es[1..][j] == es[j + 1];
      }
    }
  }

  lemma {:induction false} InsertsDistinct(items: seq<(int, string)>, geocode: string -> Option<Location>)
    requires DistinctKeys(items)
    ensures DistinctKeys(Inserts(items, geocode))
  {
    if items != [] {
      assert DistinctKeys(items[1..]) by {
        forall i, j | 0 <= i < j < |items[1..]| ensures items[1..][i].0 != items[1..][j].0 {
          assert items[1..][i] == items[i + 1] && items[1..][j] == items[j + 1];
        }
      }
      InsertsDistinct(items[1..], geocode);
      InsertsSound(items[1..], geocode);
      var tail := Inserts(items[1..], geocode);
      forall i | 0 <= i < |tail| ensures tail[i].0 != items[0].0 {
        assert tail[i] in tail;
        var k :| Writes(items[1..], geocode, k, tail[i]);
        assert items[1..][k] == items[k + 1];
      }
    }
  }

  /** `NUMERIC(9, 6)` holds three digits before the point: a value that
      rounds, to six decimals, to 1000 or more in size is refused. */
  predicate FitsNumeric96(x: real) {
    -999.9999995 < x < 999.9999995
  }

  /** The declared length of `source`. */
  const NameLength: nat := 255

  /** `VARCHAR(255)` refuses a longer value only when a character past the
      255th is not a space. */
  predicate NameTooLong(s: string) {
    exists k :: NameLength <= k < |s| && s[k] != ' '
  }

  /** The value `VARCHAR(255)` stores for a name it accepts: a longer one
      (space-padded past the limit) is cut to 255 characters. */
  function Fit(s: string): (r: string)
    ensures |r| == if |s| <= NameLength then |s| else NameLength
    ensures r == s[..|r|]
    ensures !NameTooLong(s) ==> forall k :: |r| <= k < |s| ==> s[k] == ' '
  {
    if |s| <= NameLength then s else s[..NameLength]
  }

  /** The row as the table holds it once accepted. */
  function StoredRow(row: GeoRow): GeoRow {
    row.(source := if row.source.Some? then Some(Fit(row.source.value)) else None)
  }

  /** The rows as the table holds them, key by key. */
  function StoredRows(w: seq<(int, GeoRow)>): (r: seq<(int, GeoRow)>)
    ensures |r| == |w|
    ensures forall i :: 0 <= i < |w| ==> r[i] == (w[i].0, StoredRow(w[i].1))
  {
    seq(|w|, i requires 0 <= i < |w| => (w[i].0, StoredRow(w[i].1)))
  }

  /** `geocoded_locations` refuses the row: a display name too long for
      `VARCHAR(255)`, or a coordinate too large for `NUMERIC(9, 6)`. */
  predicate Refused(row: GeoRow) {
    (row.source.Some? && NameTooLong(row.source.value)) || !FitsNumeric96(row.latitude) || !FitsNumeric96(row.longitude)
  }

  /** The pass raises before its commit: the geocoder raises on a fetched
      name (`raises`), or the table refuses a row the loop inserts. */
  predicate Aborts(items: seq<(int, string)>, geocode: string -> Option<Location>, raises: string -> bool) {
    (exists i :: 0 <= i < |items| && raises(items[i].1)) ||
    (exists i :: 0 <= i < |Inserts(items, geocode)| && Refused(Inserts(items, geocode)[i].1))
  }

  /** `run_geo_pipeline`: fetch, geocode and insert entity by entity, then
      commit. Nothing in the loop is caught: a geocoder error, a refused row
      or a primary-key clash raises out of it before the commit, so the
      table is left as it was. */
  function Run(table: map<int, GeoRow>, es: seq<Entity>, geocode: string -> Option<Location>, raises: string -> bool): (r: map<int, GeoRow>)
    ensures Aborts(FetchEntities(es), geocode, raises) ==> r == table
    ensures r != table ==> forall k :: k in table ==> k in r && r[k] == table[k]
  {
    var items := FetchEntities(es);
    if Aborts(items, geocode, raises) then table
    else
      match InsertAll(table, StoredRows(Inserts(items, geocode)))
      case None => table
      case Some(m) =>
        InsertAllContents(table, StoredRows(Inserts(items, geocode)));
        m
  }

  /** The entity passes the type filter and its result passes the gate. */
  predicate Geocoded(e: Entity, geocode: string -> Option<Location>) {
    e.entityType == Gpe && Stored(GeocodeEntity(e.value, geocode))
  }

  /** The geocoder answers for every `GPE` entity and the table accepts every
      row the gate lets through. */
  predicate Accepted(es: seq<Entity>, geocode: string -> Option<Location>, raises: string -> bool) {
    (forall j :: 0 <= j < |es| && es[j].entityType == Gpe ==> !raises(es[j].value)) &&
    (forall j :: 0 <= j < |es| && Geocoded(es[j], geocode) ==> !Refused(RowOf(GeocodeEntity(es[j].value, geocode))))
  }

  /** With every answer and row accepted, the pass does not abort. */
  lemma {:induction false} AcceptedRuns(es: seq<Entity>, geocode: string -> Option<Location>, raises: string -> bool)
    requires Accepted(es, geocode, raises)
    ensures !Aborts(FetchEntities(es), geocode, raises)
  {
    var items := FetchEntities(es);
    var w := Inserts(items, geocode);
    FetchEntitiesSound(es);
    InsertsSound(items, geocode);
    forall i | 0 <= i < |items| ensures !raises(items[i].1) {
      assert Fetched(es, items[i]);
      var j :| FromGpe(es, j, items[i]);
    }
    forall n | 0 <= n < |w| ensures !Refused(w[n].1) {
      assert w[n] in w;
      var i :| Writes(items, geocode, i, w[n]);
      assert Fetched(es, items[i]);
      var j :| FromGpe(es, j, items[i]);
      assert Geocoded(es[j], geocode);
    }
  }

  /** A geocoder error on any `GPE` entity's name leaves the table as it was. */
  lemma {:induction false} RunGeocoderRaises(table: map<int, GeoRow>, es: seq<Entity>, geocode: string -> Option<Location>,
                                             raises: string -> bool, j: nat)
    requires j < |es| && es[j].entityType == Gpe && raises(es[j].value)
    ensures Run(table, es, geocode, raises) == table
  {
    var items := FetchEntities(es);
    var i :| 0 <= i < |items| && items[i] == (es[j].id, es[j].value);
    assert raises(items[i].1);
  }

  /** A row the table refuses, for any geocoded entity, leaves the table as
      it was. */
  lemma {:induction false} RunRefused(table: map<int, GeoRow>, es: seq<Entity>, geocode: string -> Option<Location>,
                                      raises: string -> bool, j: nat)
    requires j < |es| && Geocoded(es[j], geocode) && Refused(RowOf(GeocodeEntity(es[j].value, geocode)))
    ensures Run(table, es, geocode, raises) == table
  {
    var items := FetchEntities(es);
    var w := Inserts(items, geocode);
    var i :| 0 <= i < |items| && items[i] == (es[j].id, es[j].value);
    InsertsComplete(items, geocode, i);
    var n :| 0 <= n < |w| && w[n] == (es[j].id, RowOf(GeocodeEntity(es[j].value, geocode)));
    assert Refused(w[n].1);
  }

  /** A display name of 256 characters whose last is not a space does not
      fit `VARCHAR(255)`. */
  lemma {:induction false} LongNameRefused(lat: real, lon: real, name: string)
    requires |name| == 256 && name[255] != ' '
    ensures Refused(GeoRow(lat, lon, Some(name)))
  {
    assert NameLength <= 255 < |name| && name[255] != ' ';
  }

  /** A display name with only spaces past the 255th character is accepted
      and stored cut to its first 255 characters (whole when shorter). */
  lemma {:induction false} SpacePaddedNameStored(lat: real, lon: real, name: string)
    requires FitsNumeric96(lat) && FitsNumeric96(lon)
    requires forall k :: NameLength <= k < |name| ==> name[k] == ' '
    ensures !Refused(GeoRow(lat, lon, Some(name)))
    ensures StoredRow(GeoRow(lat, lon, Some(name))).source == Some(if |name| <= 255 then name else name[..255])
  {
  }

  /** When the pass is accepted and no geocoded entity already has a row,
      it commits: each geocoded entity gets the row of its own result, every
      other entity gets none, and the old rows stay. */
  lemma {:induction false} RunStores(table: map<int, GeoRow>, es: seq<Entity>, geocode: string -> Option<Location>,
                                     raises: string -> bool)
    requires DistinctIds(es) && Accepted(es, geocode, raises)
    requires forall j :: 0 <= j < |es| && Geocoded(es[j], geocode) ==> es[j].id !in table
    ensures forall k :: k in table ==> k in Run(table, es, geocode, raises) && Run(table, es, geocode, raises)[k] == table[k]
    ensures forall j :: 0 <= j < |es| && Geocoded(es[j], geocode) ==>
              es[j].id in Run(table, es, geocode, raises) &&
              Run(table, es, geocode, raises)[es[j].id] == StoredRow(RowOf(GeocodeEntity(es[j].value, geocode)))
    ensures forall k :: k in Run(table, es, geocode, raises) ==>
              k in table || exists j :: 0 <= j < |es| && Geocoded(es[j], geocode) && es[j].id == k
  {
    hide Aborts, Inserts, FetchEntities;
    var items := FetchEntities(es);
    var w := Inserts(items, geocode);
    AcceptedRuns(es, geocode, raises);
    FetchEntitiesDistinct(es);
    FetchEntitiesSound(es);
    InsertsDistinct(items, geocode);
    InsertsSound(items, geocode);
    var c := StoredRows(w);
    forall i | 0 <= i < |c| ensures c[i].0 !in table {
      assert w[i] in w;
      var k :| Writes(items, geocode, k, w[i]);
      assert Fetched(es, items[k]);
      var j :| FromGpe(es, j, items[k]);
      assert Geocoded(es[j], geocode);
    }
    assert DistinctKeys(c) by {
      forall i, j | 0 <= i < j < |c| ensures c[i].0 != c[j].0 {
        assert c[i].0 == w[i].0 && c[j].0 == w[j].0;
      }
    }
    InsertAllOk(table, c);
    InsertAllContents(table, c);
    var r := InsertAll(table, c).value;
    assert Run(table, es, geocode, raises) == r;
    forall j | 0 <= j < |es| && Geocoded(es[j], geocode)
      ensures es[j].id in r && r[es[j].id] == StoredRow(RowOf(GeocodeEntity(es[j].value, geocode)))
    {
      var i :| 0 <= i < |items| && items[i] == (es[j].id, es[j].value);
      InsertsComplete(items, geocode, i);
      var x := (es[j].id, RowOf(GeocodeEntity(es[j].value, geocode)));
      var n :| 0 <= n < |w| && w[n] == x;
      assert c[n] == (es[j].id, StoredRow(x.1));
    }
    forall k | k in r ensures k in table || exists j :: 0 <= j < |es| && Geocoded(es[j], geocode) && es[j].id == k {
      if k !in table {
        var n :| 0 <= n < |c| && c[n].0 == k;
        assert w[n] in w;
        var i :| Writes(items, geocode, i, w[n]);
        assert Fetched(es, items[i]);
        var j :| FromGpe(es, j, items[i]);
        assert Geocoded(es[j], geocode);
      }
    }
  }

  /** A result at latitude or longitude exactly 0 is dropped by the gate: no
      row is written for that entity. */
  lemma {:induction false} ZeroDropped(table: map<int, GeoRow>, es: seq<Entity>, geocode: string -> Option<Location>,
                                       raises: string -> bool, j: nat)
    requires DistinctIds(es) && j < |es| && es[j].id !in table
    requires geocode(es[j].value).Some?
    requires geocode(es[j].value).value.latitude == 0.0 || geocode(es[j].value).value.longitude == 0.0
    ensures es[j].id !in Run(table, es, geocode, raises)
  {
    var items := FetchEntities(es);
    var w := Inserts(items, geocode);
    var c := StoredRows(w);
    if !Aborts(items, geocode, raises) {
      match InsertAll(table, c)
      case None =>
      case Some(r) =>
        InsertAllContents(table, c);
        InsertsSound(items, geocode);
        FetchEntitiesSound(es);
        assert !Geocoded(es[j], geocode);
        forall n | 0 <= n < |c| ensures c[n].0 != es[j].id {
          assert w[n] in w;
          var i :| Writes(items, geocode, i, w[n]);
          assert Fetched(es, items[i]);
          var j' :| FromGpe(es, j', items[i]);
          assert Geocoded(es[j'], geocode) && j' != j;
        }
    }
  }

  /** The insert has no conflict clause: when a geocoded entity already has
      a row, the pass raises before its commit and the table is unchanged. */
  lemma {:induction false} RunConflict(table: map<int, GeoRow>, es: seq<Entity>, geocode: string -> Option<Location>,
                                       raises: string -> bool, j: nat)
    requires j < |es| && Geocoded(es[j], geocode) && es[j].id in table
    ensures Run(table, es, geocode, raises) == table
  {
    var items := FetchEntities(es);
    var w := Inserts(items, geocode);
    var i :| 0 <= i < |items| && items[i] == (es[j].id, es[j].value);
    InsertsComplete(items, geocode, i);
    var n :| 0 <= n < |w| && w[n] == (es[j].id, RowOf(GeocodeEntity(es[j].value, geocode)));
    InsertAllOk(table, StoredRows(w));
    assert StoredRows(w)[n].0 == es[j].id;
  }

  /** Re-running the stage after a pass that stored anything hits the
      primary key of `geocoded_locations` and changes nothing. */
  lemma {:induction false} RunTwice(table: map<int, GeoRow>, es: seq<Entity>, geocode: string -> Option<Location>,
                                    raises: string -> bool, j: nat)
    requires DistinctIds(es) && Accepted(es, geocode, raises)
    requires forall k :: 0 <= k < |es| && Geocoded(es[k], geocode) ==> es[k].id !in table
    requires j < |es| && Geocoded(es[j], geocode)
    ensures Run(Run(table, es, geocode, raises), es, geocode, raises) == Run(table, es, geocode, raises)
  {
    RunStores(table, es, geocode, raises);
    RunConflict(Run(table, es, geocode, raises), es, geocode, raises, j);
  }
}

=== FILE: lda_articles.dfy ===
/** The article topic stage (7_LDA_to_DB.py): tokenize every article, and
    store each document's topic distribution in `topics` keyed by
    (article_id, topic_id), overwriting on conflict, with one commit after
    all writes. The trained topic model is a parameter: `dist(i)` is the
    distribution it gives the `i`-th document. */
module LdaArticles {
  import opened Wrappers
  import opened Tables
  import opened Tokenize

  /** A row of `articles` as fetched: id and content (NULL allowed). */
  datatype Article = Article(id: int, content: Option<string>)

  /** One document: article id and tokens. */
  type Doc = (int, seq<string>)

  /** A topic distribution: (topic_id, weight) pairs. */
  type Dist = seq<(int, real)>

  /** The key of `topics`: (article_id, topic_id). */
  type Key = (int, int)

  predicate AllContent(articles: seq<Article>) {
    forall i :: 0 <= i < |articles| ==> articles[i].content.Some?
  }

  /** `preprocess_articles`: one document per fetched article, in fetch order.
      A NULL content makes `text.split()` raise, and the stage stops before
      writing anything. */
  function PreprocessArticles(articles: seq<Article>, stop: set<string>): (r: Option<seq<Doc>>)
    ensures r.Some? <==> AllContent(articles)
    ensures r.Some? ==> |r.value| == |articles|
    ensures r.Some? ==> forall i :: 0 <= i < |articles| ==>
              r.value[i].0 == articles[i].id && r.value[i].1 == PlainTokens(articles[i].content.value, stop)
  {
    if !AllContent(articles) then None
    else Some(seq(|articles|, i requires 0 <= i < |articles| => (articles[i].id, PlainTokens(articles[i].content.value, stop))))
  }

  /** Preprocessing two fetched lists is preprocessing their concatenation. */
  lemma {:induction false} PreprocessAppend(xs: seq<Article>, ys: seq<Article>, stop: set<string>)
    requires AllContent(xs) && AllContent(ys)
    ensures PreprocessArticles(xs + ys, stop) == Some(PreprocessArticles(xs, stop).value + PreprocessArticles(ys, stop).value)
  {
    assert AllContent(xs + ys) by {
      forall i | 0 <= i < |xs + ys| ensures (xs + ys)[i].content.Some? {
        if i >= |xs| { assert (xs + ys)[i] == ys[i - |xs|]; }
      }
    }
    var a, b := PreprocessArticles(xs, stop).value, PreprocessArticles(ys, stop).value;
    var c := PreprocessArticles(xs + ys, stop).value;
    forall i | 0 <= i < |c| ensures c[i] == (a + b)[i] {
      if i < |xs| { assert (xs + ys)[i] == xs[i]; } else { assert (xs + ys)[i] == ys[i - |xs|]; }
    }
    assert c == a + b;
  }

  /** The writes for one document: one per topic of its distribution, in order. */
  function DocWrites(id: int, d: Dist): (w: seq<(Key, real)>)
    ensures |w| == |d|
  {
    seq(|d|, j requires 0 <= j < |d| => ((id, d[j].0), d[j].1))
  }

  /** A document's writes touch exactly its article's keys for the topics of
      its distribution, and each holds the topic's last weight. */
  lemma {:induction false} DocWritesLast(id: int, d: Dist, t: int)
    ensures (id, t) in KeysOf(DocWrites(id, d)) <==> t in KeysOf(d)
    ensures t in KeysOf(d) ==> LastFor(DocWrites(id, d), (id, t)) == LastFor(d, t)
    decreases |d|
  {
    var w := DocWrites(id, d);
    if d != [] {
      var n := |d| - 1;
      assert w[..n] == DocWrites(id, d[..n]);
      DocWritesLast(id, d[..n], t);
      KeysOfAppend(d[..n], [d[n]]);
      KeysOfAppend(w[..n], [w[n]]);
      assert d[..n] + [d[n]] == d;
      assert w[..n] + [w[n]] == w;
    }
  }

  lemma {:induction false} DocWritesKeys(id: int, d: Dist, k: Key)
    ensures k in KeysOf(DocWrites(id, d)) ==> k.0 == id && k.1 in KeysOf(d)
  {
    if k in KeysOf(DocWrites(id, d)) {
      var j :| 0 <= j < |d| && DocWrites(id, d)[j].0 == k;
      assert d[j].0 == k.1;
    }
  }

  /** The writes of `store_lda_topics`: document by document, topic by topic. */
  function Writes(docs: seq<Doc>, dist: nat -> Dist, i: nat): seq<(Key, real)>
    decreases |docs|
  {
    if docs == [] then [] else DocWrites(docs[0].0, dist(i)) + Writes(docs[1..], dist, i + 1)
  }

  /** Document `i` (counting from `base`) has its topics written under its own article id. */
  predicate WrittenFor(docs: seq<Doc>, dist: nat -> Dist, base: nat, k: Key) {
    exists i :: 0 <= i < |docs| && docs[i].0 == k.0 && k.1 in KeysOf(dist(base + i))
  }

  predicate DistinctIds(docs: seq<Doc>) {
    forall a, b :: 0 <= a < b < |docs| ==> docs[a].0 != docs[b].0
  }

  /** Every key written is (article id of some document `i`, a topic of `dist(i)`). */
  lemma {:induction false} WritesKeysSound(docs: seq<Doc>, dist: nat -> Dist, base: nat, k: Key)
    requires k in KeysOf(Writes(docs, dist, base))
    ensures WrittenFor(docs, dist, base, k)
    decreases |docs|
  {
    var head := DocWrites(docs[0].0, dist(base));
    KeysOfAppend(head, Writes(docs[1..], dist, base + 1));
    if k in KeysOf(head) {
      DocWritesKeys(docs[0].0, dist(base), k);
      assert docs[0].0 == k.0 && k.1 in KeysOf(dist(base + 0));
    } else {
      WritesKeysSound(docs[1..], dist, base + 1, k);
      var i :| 0 <= i < |docs[1..]| && docs[1..][i].0 == k.0 && k.1 in KeysOf(dist(base + 1 + i));
      assert docs[i + 1] == docs[1..][i];
      assert docs[i + 1].0 == k.0 && k.1 in KeysOf(dist(base + (i + 1)));
    }
  }

  /** Every topic of every document is written under that document's article id. */
  lemma {:induction false} WritesKeysComplete(docs: seq<Doc>, dist: nat -> Dist, base: nat, i: nat, t: int)
    requires i < |docs| && t in KeysOf(dist(base + i))
    ensures (docs[i].0, t) in KeysOf(Writes(docs, dist, base))
    decreases |docs|
  {
    var head := DocWrites(docs[0].0, dist(base));
    KeysOfAppend(head, Writes(docs[1..], dist, base + 1));
    if i == 0 {
      DocWritesLast(docs[0].0, dist(base), t);
    } else {
      assert docs[1..][i - 1] == docs[i];
      WritesKeysComplete(docs[1..], dist, base + 1, i - 1, t);
    }
  }

  lemma {:induction false} WritesKeys(docs: seq<Doc>, dist: nat -> Dist, base: nat, k: Key)
    ensures k in KeysOf(Writes(docs, dist, base)) <==> WrittenFor(docs, dist, base, k)
  {
    if k in KeysOf(Writes(docs, dist, base)) {
      WritesKeysSound(docs, dist, base, k);
    }
    if WrittenFor(docs, dist, base, k) {
      var i :| 0 <= i < |docs| && docs[i].0 == k.0 && k.1 in KeysOf(dist(base + i));
      WritesKeysComplete(docs, dist, base, i, k.1);
    }
  }

  /** The first document's article id is nobody else's. */
  lemma {:induction false} HeadIdUnique(docs: seq<Doc>)
    requires docs != [] && DistinctIds(docs)
    ensures forall j :: 0 <= j < |docs[1..]| ==> docs[1..][j].0 != docs[0].0
  {
    forall j | 0 <= j < |docs[1..]| ensures docs[1..][j].0 != docs[0].0 {
      assert docs[1..][j] == docs[j + 1];
    }
  }

  /** With distinct article ids, the weight last written for (article id of
      document `i`, topic `t`) is the last weight `dist(i)` gives `t`: each
      document's topics land under its own article. */
  lemma {:induction false} WritesWeight(docs: seq<Doc>, dist: nat -> Dist, base: nat, i: nat, t: int)
    requires DistinctIds(docs)
    requires i < |docs| && t in KeysOf(dist(base + i))
    ensures (docs[i].0, t) in KeysOf(Writes(docs, dist, base))
    ensures LastFor(Writes(docs, dist, base), (docs[i].0, t)) == LastFor(dist(base + i), t)
    decreases |docs|
  {
    var k := (docs[i].0, t);
    var head := DocWrites(docs[0].0, dist(base));
    var tail := Writes(docs[1..], dist, base + 1);
    DocWritesLast(docs[0].0, dist(base), t);
    if i == 0 {
      WritesKeys(docs[1..], dist, base + 1, k);
      HeadIdUnique(docs);
      LastForAppend(head, tail, k);
    } else {
      assert docs[1..][i - 1] == docs[i];
      WritesWeight(docs[1..], dist, base + 1, i - 1, t);
      LastForAppend(head, tail, k);
    }
  }

  /** Every write of document `i` succeeded. */
  predicate AllWritesOk(n: nat, ok: nat -> bool) {
    forall j :: 0 <= j < n ==> ok(j)
  }

  /** `store_lda_topics`: the upserts, then one commit. `ok(j)` says whether
      the `j`-th statement succeeds; there is no handler, so a failing
      statement ends the stage before the commit and nothing is kept. */
  function StoreLdaTopics(table: map<Key, real>, docs: seq<Doc>, dist: nat -> Dist, ok: nat -> bool): (r: map<Key, real>)
    ensures !AllWritesOk(|Writes(docs, dist, 0)|, ok) ==> r == table
    ensures AllWritesOk(|Writes(docs, dist, 0)|, ok) ==>
              forall k :: k in r <==> k in table || WrittenFor(docs, dist, 0, k)
    ensures AllWritesOk(|Writes(docs, dist, 0)|, ok) ==>
              forall k :: k in table && !WrittenFor(docs, dist, 0, k) ==> r[k] == table[k]
    ensures AllWritesOk(|Writes(docs, dist, 0)|, ok) && DistinctIds(docs) ==>
              forall i, t :: 0 <= i < |docs| && t in KeysOf(dist(i)) ==>
                (docs[i].0, t) in r && r[(docs[i].0, t)] == LastFor(dist(i), t)
  {
    var w := Writes(docs, dist, 0);
    if !AllWritesOk(|w|, ok) then table
    else
      var r := Upsert(table, w);
      assert forall k :: k in KeysOf(w) <==> WrittenFor(docs, dist, 0, k) by {
        forall k ensures k in KeysOf(w) <==> WrittenFor(docs, dist, 0, k) { WritesKeys(docs, dist, 0, k); }
      }
      assert DistinctIds(docs) ==> forall i, t :: 0 <= i < |docs| && t in KeysOf(dist(i)) ==>
                (docs[i].0, t) in r && r[(docs[i].0, t)] == LastFor(dist(i), t) by {
        if DistinctIds(docs) {
          forall i, t | 0 <= i < |docs| && t in KeysOf(dist(i))
            ensures (docs[i].0, t) in r && r[(docs[i].0, t)] == LastFor(dist(i), t)
          {
            WritesWeight(docs, dist, 0, i, t);
          }
        }
      }
      r
  }

  /** Storing the same distributions again, with nothing failing, leaves the
      table as it is. */
  lemma {:induction false} StoreTwice(table: map<Key, real>, docs: seq<Doc>, dist: nat -> Dist, ok: nat -> bool)
    requires AllWritesOk(|Writes(docs, dist, 0)|, ok)
    ensures StoreLdaTopics(StoreLdaTopics(table, docs, dist, ok), docs, dist, ok) == StoreLdaTopics(table, docs, dist, ok)
  {
    UpsertIdempotent(table, Writes(docs, dist, 0));
  }

  /** `run_lda_pipeline` after the model is trained: preprocess, then store. */
  function RunLda(table: map<Key, real>, articles: seq<Article>, stop: set<string>, dist: nat -> Dist, ok: nat -> bool): (r: map<Key, real>)
    ensures !AllContent(articles) ==> r == table
    ensures forall k :: k in table ==> k in r
  {
    match PreprocessArticles(articles, stop)
    case None => table
    case Some(docs) => StoreLdaTopics(table, docs, dist, ok)
  }

  /** When the article ids are distinct and every content is present, each
      article's topics are stored under that article. */
  lemma {:induction false} RunLdaStoresUnderArticle(table: map<Key, real>, articles: seq<Article>, stop: set<string>,
                                 dist: nat -> Dist, ok: nat -> bool, i: nat, t: int)
    requires AllContent(articles)
    requires forall a, b :: 0 <= a < b < |articles| ==> articles[a].id != articles[b].id
    requires AllWritesOk(|Writes(PreprocessArticles(articles, stop).value, dist, 0)|, ok)
    requires i < |articles| && t in KeysOf(dist(i))
    ensures (articles[i].id, t) in RunLda(table, articles, stop, dist, ok)
    ensures RunLda(table, articles, stop, dist, ok)[(articles[i].id, t)] == LastFor(dist(i), t)
  {
    var docs := PreprocessArticles(articles, stop).value;
    assert DistinctIds(docs);
  }
}

=== FILE: lda_summaries.dfy ===
/** The summary topic stage (20.1_LDA_to_DB_SUMMARIES.py): page through the
    non-NULL summaries, tokenize and lemmatize them, add bigrams, and write
    each document's topic list as a string into `summary_topics`, committing
    once after all updates and rolling back all of them on a database error.
    The lemmatizer, the bigram phraser, the trained topic model (`dist(i)` is
    the distribution of the `i`-th document) and the `{score:.4f}` float
    format are parameters. */
module LdaSummaries {
  import opened Wrappers
  import opened Text
  import opened Tables
  import opened Tokenize
  import opened SummaryRows

  /** One document: article id and tokens. */
  type Doc = (int, seq<string>)

  predicate DistinctIds(docs: seq<Doc>) {
    forall a, b :: 0 <= a < b < |docs| ==> docs[a].0 != docs[b].0
  }

  /** `preprocess_text` of this stage: the lemmatizer is the final step. */
  function SummaryTokens(text: string, stop: set<string>, lemmatize: string -> string): seq<string> {
    Tokens(text, stop, lemmatize)
  }

  /** The documents of one page, in page order. */
  function DocsOf(page: seq<(int, string)>, stop: set<string>, lemmatize: string -> string): (docs: seq<Doc>)
    ensures |docs| == |page|
    ensures forall i :: 0 <= i < |page| ==> docs[i] == (page[i].0, SummaryTokens(page[i].1, stop, lemmatize))
  {
    if page == [] then []
    else [(page[0].0, SummaryTokens(page[0].1, stop, lemmatize))] + DocsOf(page[1..], stop, lemmatize)
  }

  lemma {:induction false} DocsOfAppend(x: seq<(int, string)>, y: seq<(int, string)>, stop: set<string>, lemmatize: string -> string)
    ensures DocsOf(x + y, stop, lemmatize) == DocsOf(x, stop, lemmatize) + DocsOf(y, stop, lemmatize)
  {
    hide DocsOf, SummaryTokens;
    var l, a, b := DocsOf(x + y, stop, lemmatize), DocsOf(x, stop, lemmatize), DocsOf(y, stop, lemmatize);
    forall i | 0 <= i < |l| ensures l[i] == (a + b)[i] {
      if i < |x| { assert (x + y)[i] == x[i]; } else { assert (x + y)[i] == y[i - |x|]; }
    }
  }

  /** The loop of `preprocess_summaries`: each fetched page's documents are
      appended in order. */
  function DocsOfPages(pages: seq<seq<(int, string)>>, stop: set<string>, lemmatize: string -> string): seq<Doc> {
    if pages == [] then [] else DocsOf(pages[0], stop, lemmatize) + DocsOfPages(pages[1..], stop, lemmatize)
  }

  lemma {:induction false} DocsOfPagesFlatten(pages: seq<seq<(int, string)>>, stop: set<string>, lemmatize: string -> string)
    ensures DocsOfPages(pages, stop, lemmatize) == DocsOf(Flatten(pages), stop, lemmatize)
  {
    if pages != [] {
      DocsOfPagesFlatten(pages[1..], stop, lemmatize);
      DocsOfAppend(pages[0], Flatten(pages[1..]), stop, lemmatize);
    }
  }

  /** `preprocess_summaries`: pages of 100 at offsets 0, 100, 200, ... until
      the first empty page. Nothing is written while it runs. */
  function PreprocessSummaries(t: seq<Article>, stop: set<string>, lemmatize: string -> string): seq<Doc> {
    DocsOfPages(EmptyStopPager(Fetchable(t), PageSize, 0), stop, lemmatize)
  }

  /** The pages visit each non-NULL summary once, in table order: the
      documents are one per fetchable row, with its id and tokens. */
  lemma {:induction false} PreprocessSummariesCovers(t: seq<Article>, stop: set<string>, lemmatize: string -> string)
    ensures |PreprocessSummaries(t, stop, lemmatize)| == |Fetchable(t)|
    ensures forall i :: 0 <= i < |Fetchable(t)| ==>
              PreprocessSummaries(t, stop, lemmatize)[i] == (Fetchable(t)[i].0, SummaryTokens(Fetchable(t)[i].1, stop, lemmatize))
  {
    EmptyStopPagerCovers(Fetchable(t), PageSize, 0);
    DocsOfPagesFlatten(EmptyStopPager(Fetchable(t), PageSize, 0), stop, lemmatize);
  }

  /** `create_bigrams`: the token lists are taken out, each run through the
      phraser, and zipped back with the ids by index. */
  function CreateBigrams(docs: seq<Doc>, phraser: seq<string> -> seq<string>): (r: seq<Doc>)
    ensures |r| == |docs|
    ensures forall i :: 0 <= i < |docs| ==> r[i].0 == docs[i].0 && r[i].1 == phraser(docs[i].1)
  {
    var texts := seq(|docs|, i requires 0 <= i < |docs| => docs[i].1);
    var bigrams := seq(|texts|, i requires 0 <= i < |texts| => phraser(texts[i]));
    seq(|docs|, i requires 0 <= i < |docs| => (docs[i].0, bigrams[i]))
  }

  // ------------------------------------------------------- topic strings

  /** `f"Topic {topic_id}: {score:.4f}"`, with the float format a parameter. */
  function Entry(topic: (nat, real), fmt: real -> string): (e: string)
    ensures StartsWith(e, "Topic ")
  {
    var e := "Topic " + NatToString(topic.0) + ": " + fmt(topic.1);
    assert e[..6] == "Topic ";
    e
  }

  /** `", ".join(...)` of the entries. */
  function TopicString(topics: seq<(nat, real)>, fmt: real -> string): (s: string)
    ensures s == [] <==> topics == []
    ensures topics != [] ==> StartsWith(s, "Topic ")
  {
    var entries := seq(|topics|, i requires 0 <= i < |topics| => Entry(topics[i], fmt));
    JoinStart(entries, ", ", "Topic ");
    Join(entries, ", ")
  }

  /** Joining non-empty strings that share a prefix starts with that prefix,
      and is empty exactly when there is nothing to join. */
  lemma {:induction false} JoinStart(ws: seq<string>, sep: string, p: string)
    requires |p| > 0 && forall i :: 0 <= i < |ws| ==> StartsWith(ws[i], p)
    ensures Join(ws, sep) == [] <==> ws == []
    ensures ws != [] ==> StartsWith(Join(ws, sep), p)
  {
    if |ws| > 1 {
      var j := Join(ws, sep);
      assert j == ws[0] + (sep + Join(ws[1..], sep));
      assert j[..|p|] == ws[0][..|p|];
    }
  }

  /** With a float format that never prints a comma, the stored string has
      exactly one comma between consecutive topics, so the entries can be
      told apart. */
  lemma {:induction false} TopicStringCommas(topics: seq<(nat, real)>, fmt: real -> string)
    requires forall x :: ',' !in fmt(x)
    requires topics != []
    ensures Count(TopicString(topics, fmt), ',') == |topics| - 1
    decreases |topics|
  {
    hide TopicString, Entry, Count;
    var e := Entry(topics[0], fmt);
    var score: real := topics[0].1;
    assert ',' !in fmt(score);
    EntryNoComma(topics[0], fmt);
    TopicStringStep(topics, fmt);
    if |topics| > 1 {
      TopicStringCommas(topics[1..], fmt);
      CountAppend(e, ", " + TopicString(topics[1..], fmt), ',');
      CountAppend(", ", TopicString(topics[1..], fmt), ',');
      SeparatorComma();
    }
  }

  lemma SeparatorComma()
    ensures Count(", ", ',') == 1
  {
    assert ", "[1..] == " ";
  }

  /** An entry whose score text has no comma has no comma. */
  lemma {:induction false} EntryNoComma(topic: (nat, real), fmt: real -> string)
    requires ',' !in fmt(topic.1)
    ensures Count(Entry(topic, fmt), ',') == 0
  {
    var n := NatToString(topic.0);
    CountAbsent("Topic ", ',');
    CountAbsent(n, ',');
    CountAbsent(": ", ',');
    CountAbsent(fmt(topic.1), ',');
    CountAppend("Topic ", n, ',');
    CountAppend("Topic " + n, ": ", ',');
    CountAppend("Topic " + n + ": ", fmt(topic.1), ',');
  }

  /** The topic string: the first entry, then `", "` and the rest's. */
  lemma {:induction false} TopicStringStep(topics: seq<(nat, real)>, fmt: real -> string)
    requires topics != []
    ensures |topics| == 1 ==> TopicString(topics, fmt) == Entry(topics[0], fmt)
    ensures |topics| > 1 ==> TopicString(topics, fmt) == Entry(topics[0], fmt) + (", " + TopicString(topics[1..], fmt))
  {
    var entries := seq(|topics|, i requires 0 <= i < |topics| => Entry(topics[i], fmt));
    if |topics| == 1 {
      assert entries == [Entry(topics[0], fmt)];
    } else {
      var rest := seq(|topics| - 1, i requires 0 <= i < |topics| - 1 => Entry(topics[1..][i], fmt));
      assert entries[1..] == rest;
    }
  }

  // ------------------------------------------------------------- storing

  function SetTopics(a: Article, s: string): Article {
    a.(summaryTopics := Some(s))
  }

  function ArticleId(a: Article): int { a.id }

  /** The updates of `store_summary_lda_topics`: document `i`'s topic string
      for document `i`'s article. */
  function TopicUpdates(docs: seq<Doc>, dist: nat -> seq<(nat, real)>, fmt: real -> string): (u: seq<(int, string)>)
    ensures |u| == |docs|
    ensures forall i :: 0 <= i < |docs| ==> u[i].0 == docs[i].0
  {
    seq(|docs|, i requires 0 <= i < |docs| => (docs[i].0, TopicString(dist(i), fmt)))
  }

  predicate AllUpdatesOk(n: nat, ok: nat -> bool) {
    forall j :: 0 <= j < n ==> ok(j)
  }

  /** `store_summary_lda_topics`: the updates, then one commit; `ok(j)` says
      whether the `j`-th update succeeds. A database error rolls back every
      update of the stage. With distinct document ids, the row of document
      `i`'s article holds document `i`'s topic string; every other row, and
      every other column, is untouched. */
  function StoreSummaryTopics(t: seq<Article>, docs: seq<Doc>, dist: nat -> seq<(nat, real)>,
                              fmt: real -> string, ok: nat -> bool): (r: seq<Article>)
    ensures |r| == |t|
    ensures !AllUpdatesOk(|docs|, ok) ==> r == t
    ensures forall j :: 0 <= j < |t| ==> r[j].id == t[j].id && r[j].summary == t[j].summary
    ensures forall j :: 0 <= j < |t| && (forall i :: 0 <= i < |docs| ==> docs[i].0 != t[j].id) ==> r[j] == t[j]
    ensures AllUpdatesOk(|docs|, ok) && DistinctIds(docs) ==>
              forall i, j :: 0 <= i < |docs| && 0 <= j < |t| && t[j].id == docs[i].0 ==>
                r[j].summaryTopics == Some(TopicString(dist(i), fmt))
  {
    var u := TopicUpdates(docs, dist, fmt);
    if !AllUpdatesOk(|docs|, ok) then t
    else
      UpdateEachRows(t, u, ArticleId, SetTopics);
      var r := UpdateEach(t, u, ArticleId, SetTopics);
      assert forall j :: 0 <= j < |t| && t[j].id !in KeysOf(u) ==> r[j] == t[j];
      assert forall j :: 0 <= j < |t| && (forall i :: 0 <= i < |docs| ==> docs[i].0 != t[j].id) ==> t[j].id !in KeysOf(u);
      assert DistinctIds(docs) ==> forall i, j :: 0 <= i < |docs| && 0 <= j < |t| && t[j].id == docs[i].0 ==>
                r[j].summaryTopics == Some(TopicString(dist(i), fmt)) by {
        if DistinctIds(docs) {
          forall i, j | 0 <= i < |docs| && 0 <= j < |t| && t[j].id == docs[i].0
            ensures r[j].summaryTopics == Some(TopicString(dist(i), fmt))
          {
            LastForDistinct(u, i);
          }
        }
      }
      r
  }

  /** `run_lda_pipeline_on_summaries` after the model is trained. */
  function RunOnSummaries(t: seq<Article>, stop: set<string>, lemmatize: string -> string,
                          phraser: seq<string> -> seq<string>, dist: nat -> seq<(nat, real)>,
                          fmt: real -> string, ok: nat -> bool): (r: seq<Article>)
    ensures |r| == |t|
    ensures forall j :: 0 <= j < |t| ==> r[j].id == t[j].id && r[j].summary == t[j].summary
  {
    var docs := CreateBigrams(PreprocessSummaries(t, stop, lemmatize), phraser);
    StoreSummaryTopics(t, docs, dist, fmt, ok)
  }

  /** With distinct article ids and no database error, the `i`-th non-NULL
      summary's row receives the topic string of the `i`-th document, and
      rows with a NULL summary are untouched. */
  lemma {:induction false} RunOnSummariesStores(t: seq<Article>, stop: set<string>, lemmatize: string -> string,
                             phraser: seq<string> -> seq<string>, dist: nat -> seq<(nat, real)>,
                             fmt: real -> string, ok: nat -> bool)
    requires DistinctRowIds(t)
    requires AllUpdatesOk(|Fetchable(t)|, ok)
    ensures forall i, j :: 0 <= i < |Fetchable(t)| && 0 <= j < |t| && t[j].id == Fetchable(t)[i].0 ==>
              RunOnSummaries(t, stop, lemmatize, phraser, dist, fmt, ok)[j].summaryTopics == Some(TopicString(dist(i), fmt))
    ensures forall j :: 0 <= j < |t| && t[j].summary.None? ==> RunOnSummaries(t, stop, lemmatize, phraser, dist, fmt, ok)[j] == t[j]
  {
    PreprocessSummariesCovers(t, stop, lemmatize);
    FetchableDistinct(t);
    var docs := CreateBigrams(PreprocessSummaries(t, stop, lemmatize), phraser);
    assert DistinctIds(docs);
    forall j | 0 <= j < |t| && t[j].summary.None?
      ensures forall i :: 0 <= i < |docs| ==> docs[i].0 != t[j].id
    {
      forall i | 0 <= i < |docs| ensures docs[i].0 != t[j].id {
        FetchableSound(t, Fetchable(t)[i]);
        var k :| 0 <= k < |t| && t[k].id == Fetchable(t)[i].0 && t[k].summary == Some(Fetchable(t)[i].1);
        assert k != j;
      }
    }
  }
}

=== FILE: ner_entities.dfy ===
/** The entity stage over article bodies (6_NER_to_database.py): text
    cleaning, the greedy merge of adjacent same-label tokens, the
    one-character filter, the count-bounded article pager and the
    per-article commit loop. The NER model is a parameter. */
module NerEntities {
  import opened Wrappers
  import opened Text
  import opened Tables

  // ------------------------------------------------------------- cleaning

  predicate KeptByClean(c: char) { IsLower(c) || IsSpace(c) }

  /** Lower-case, drop everything but `a`-`z` and whitespace, collapse each
      whitespace run to one space, strip. */
  function CleanText(s: string): (r: string)
    ensures LowerOrBlank(r)
    ensures NoEdgeSpace(r) && SingleSpaced(r)
  {
    var kept := Keep(LowerStr(s), KeptByClean);
    var collapsed := CollapseSpace(kept);
    assert LowerOrBlank(collapsed) by {
      forall i | 0 <= i < |collapsed| ensures IsLower(collapsed[i]) || collapsed[i] == ' ' {
        if !IsSpace(collapsed[i]) {
          var j :| 0 <= j < |kept| && kept[j] == collapsed[i];
        }
      }
    }
    var a := LeadingSpaces(collapsed);
    var r := Strip(collapsed);
    SubstringKeepsSingleSpaced(collapsed, a, a + |r|);
    SubstringKeepsLowerOrBlank(collapsed, a, a + |r|);
    r
  }

  /** Only `a`-`z` and plain spaces. */
  predicate LowerOrBlank(s: string) {
    forall i :: 0 <= i < |s| ==> IsLower(s[i]) || s[i] == ' '
  }

  lemma {:induction false} SubstringKeepsLowerOrBlank(s: string, a: nat, b: nat)
    requires a <= b <= |s| && LowerOrBlank(s)
    ensures LowerOrBlank(s[a..b])
  {
    forall i | 0 <= i < b - a ensures IsLower(s[a..b][i]) || s[a..b][i] == ' ' {
      assert s[a..b][i] == s[a + i];
    }
  }

  /** Cleaning cleaned text changes nothing. */
  lemma {:induction false} CleanTextIdempotent(s: string)
    ensures CleanText(CleanText(s)) == CleanText(s)
  {
    var y := CleanText(s);
    assert LowerStr(y) == y;
    assert Keep(y, KeptByClean) == y;
    assert PlainSpaces(y);
    CollapseSpaceFixpoint(y);
  }

  // ---------------------------------------------------------------- merge

  /** One token of the NER model's output: label, surface text and span. */
  datatype Token = Token(entity: string, word: string, start: int, end: int)

  /** `next` continues `cur`: same label, and it starts one past `cur`'s end. */
  predicate Continues(cur: Token, next: Token) {
    next.entity == cur.entity && next.start == cur.end + 1
  }

  function Extend(cur: Token, next: Token): Token {
    Token(cur.entity, cur.word + " " + next.word, cur.start, next.end)
  }

  /** No entity in `ts` is continued by the one after it. */
  predicate NoContinuation(ts: seq<Token>) {
    forall i :: 0 <= i < |ts| - 1 ==> !Continues(ts[i], ts[i + 1])
  }

  /** The merge loop with `cur` as the entity being extended. */
  function CombineFrom(cur: Token, rest: seq<Token>): (r: seq<Token>)
    ensures 1 <= |r| <= 1 + |rest|
    ensures r[0].entity == cur.entity && r[0].start == cur.start
    ensures NoContinuation(r)
    decreases |rest|
  {
    if rest == [] then [cur]
    else if Continues(cur, rest[0]) then CombineFrom(Extend(cur, rest[0]), rest[1..])
    else [cur] + CombineFrom(rest[0], rest[1..])
  }

  /** `combine_entities`: greedily merge each token into the entity before it
      while it continues that entity. */
  function CombineEntities(ts: seq<Token>): (r: seq<Token>)
    ensures r == [] <==> ts == []
    ensures |r| <= |ts|
    ensures NoContinuation(r)
  {
    if ts == [] then [] else CombineFrom(ts[0], ts[1..])
  }

  /** Merging output that has nothing left to merge returns it unchanged. */
  lemma {:induction false} CombineFromFixpoint(cur: Token, rest: seq<Token>)
    requires NoContinuation([cur] + rest)
    ensures CombineFrom(cur, rest) == [cur] + rest
    decreases |rest|
  {
    if rest != [] {
      assert ([cur] + rest)[0] == cur && ([cur] + rest)[1] == rest[0];
      assert !Continues(cur, rest[0]);
      assert [rest[0]] + rest[1..] == rest;
      forall i | 0 <= i < |rest| - 1 ensures !Continues(rest[i], rest[i + 1]) {
        assert ([cur] + rest)[i + 1] == rest[i] && ([cur] + rest)[i + 2] == rest[i + 1];
      }
      CombineFromFixpoint(rest[0], rest[1..]);
    }
  }

  /** Merging twice is merging once. */
  lemma {:induction false} CombineEntitiesIdempotent(ts: seq<Token>)
    ensures CombineEntities(CombineEntities(ts)) == CombineEntities(ts)
  {
    var r := CombineEntities(ts);
    if r != [] {
      assert [r[0]] + r[1..] == r;
      CombineFromFixpoint(r[0], r[1..]);
    }
  }

  /** The worked example: "New" at 0..3 and "York" at 4..8, both LOC, become
      one LOC entity "New York" at 0..8. */
  lemma {:induction false} CombineNewYork()
    ensures CombineEntities([Token("LOC", "New", 0, 3), Token("LOC", "York", 4, 8)])
         == [Token("LOC", "New York", 0, 8)]
  {
    assert Continues(Token("LOC", "New", 0, 3), Token("LOC", "York", 4, 8));
    assert "New" + " " + "York" == "New York";
  }

  // ------------------------------------------------ runs: the reference view

  /** Each token of `run` continues the one before it. */
  predicate Chain(run: seq<Token>) {
    forall i :: 0 <= i < |run| - 1 ==> Continues(run[i], run[i + 1])
  }

  /** One merged entity for a run: first label and start, last end, the words
      joined by single spaces. */
  function MergeRun(run: seq<Token>): (t: Token)
    requires |run| > 0
    ensures t.entity == run[0].entity && t.start == run[0].start && t.end == run[|run| - 1].end
  {
    if |run| == 1 then run[0] else Extend(MergeRun(run[..|run| - 1]), run[|run| - 1])
  }

  function MergeRuns(runs: seq<seq<Token>>): (r: seq<Token>)
    requires forall i :: 0 <= i < |runs| ==> |runs[i]| > 0
    ensures |r| == |runs|
    ensures forall i :: 0 <= i < |runs| ==>
              r[i].entity == runs[i][0].entity && r[i].start == runs[i][0].start && r[i].end == runs[i][|runs[i]| - 1].end
  {
    if runs == [] then [] else [MergeRun(runs[0])] + MergeRuns(runs[1..])
  }

  /** How many leading tokens of `rest` extend the chain ending in `p`. */
  function ChainLen(p: Token, rest: seq<Token>): (n: nat)
    ensures n <= |rest|
    decreases |rest|
  {
    if rest != [] && Continues(p, rest[0]) then 1 + ChainLen(rest[0], rest[1..]) else 0
  }

  /** The input cut into its maximal chains, in order. */
  function Runs(ts: seq<Token>): (runs: seq<seq<Token>>)
    ensures forall i :: 0 <= i < |runs| ==> |runs[i]| > 0
    decreases |ts|
  {
    if ts == [] then []
    else
      var k := 1 + ChainLen(ts[0], ts[1..]);
      [ts[..k]] + Runs(ts[k..])
  }

  lemma {:induction false} ChainSameLabel(run: seq<Token>)
    requires |run| > 0 && Chain(run)
    ensures run[|run| - 1].entity == run[0].entity
    decreases |run|
  {
    if |run| > 1 {
      ChainSameLabel(run[..|run| - 1]);
    }
  }

  /** The first `1 + ChainLen(p, rest)` tokens of `[p] + rest` form a chain
      that the next token, if any, does not continue. */
  lemma {:induction false} ChainLenIsMaximalChain(p: Token, rest: seq<Token>)
    ensures Chain(([p] + rest)[..1 + ChainLen(p, rest)])
    ensures ChainLen(p, rest) < |rest| ==> !Continues(([p] + rest)[ChainLen(p, rest)], rest[ChainLen(p, rest)])
    decreases |rest|
  {
    if rest != [] && Continues(p, rest[0]) {
      ChainLenIsMaximalChain(rest[0], rest[1..]);
      var k := ChainLen(rest[0], rest[1..]);
      assert ([p] + rest)[..2 + k] == [p] + ([rest[0]] + rest[1..])[..1 + k];
      assert [rest[0]] + rest[1..] == rest;
    }
  }

  /** The runs, concatenated in order, give back the input. */
  lemma {:induction false} RunsFlatten(ts: seq<Token>)
    ensures Flatten(Runs(ts)) == ts
    decreases |ts|
  {
    hide Runs, Flatten, ChainLen;
    if ts != [] {
      var k := 1 + ChainLen(ts[0], ts[1..]);
      RunsFlatten(ts[k..]);
      RunsStep(ts);
      FlattenCons(ts[..k], Runs(ts[k..]));
      assert ts[..k] + ts[k..] == ts;
    } else {
      RunsStep(ts);
      FlattenCons<Token>([], []);
    }
  }

  lemma RunsStep(ts: seq<Token>)
    ensures ts == [] ==> Runs(ts) == []
    ensures ts != [] ==> var k := 1 + ChainLen(ts[0], ts[1..]); Runs(ts) == [ts[..k]] + Runs(ts[k..])
  {
  }

  /** Each run is a chain. */
  lemma {:induction false} RunsAreChains(ts: seq<Token>)
    ensures forall i :: 0 <= i < |Runs(ts)| ==> Chain(Runs(ts)[i])
    decreases |ts|
  {
    if ts != [] {
      var k := 1 + ChainLen(ts[0], ts[1..]);
      assert [ts[0]] + ts[1..] == ts;
      ChainLenIsMaximalChain(ts[0], ts[1..]);
      RunsAreChains(ts[k..]);
      var runs := Runs(ts);
      assert runs == [ts[..k]] + Runs(ts[k..]);
      forall i | 0 <= i < |runs| ensures Chain(runs[i]) {
        if i > 0 { assert runs[i] == Runs(ts[k..])[i - 1]; }
      }
    }
  }

  /** Runs are maximal: no run's last token is continued by the first token of
      the next run. */
  lemma {:induction false} RunsAreMaximal(ts: seq<Token>)
    ensures forall i :: 0 <= i < |Runs(ts)| - 1 ==>
              !Continues(Runs(ts)[i][|Runs(ts)[i]| - 1], Runs(ts)[i + 1][0])
    decreases |ts|
  {
    if ts != [] {
      var k := 1 + ChainLen(ts[0], ts[1..]);
      assert [ts[0]] + ts[1..] == ts;
      ChainLenIsMaximalChain(ts[0], ts[1..]);
      RunsAreMaximal(ts[k..]);
      var runs := Runs(ts);
      var tail := Runs(ts[k..]);
      assert runs == [ts[..k]] + tail;
      forall i | 0 <= i < |runs| - 1 ensures !Continues(runs[i][|runs[i]| - 1], runs[i + 1][0]) {
        if i == 0 {
          assert tail[0] == ts[k..][..1 + ChainLen(ts[k], ts[k + 1..])];
          assert runs[1][0] == ts[k];
        } else {
          assert runs[i] == tail[i - 1] && runs[i + 1] == tail[i];
        }
      }
    }
  }

  lemma {:induction false} MergeRunSingle(t: Token)
    ensures MergeRun([t]) == t
  {
  }

  /** A merged chain is continued by exactly the tokens that continue its last token. */
  lemma {:induction false} MergeRunContinues(pre: seq<Token>, x: Token)
    requires |pre| > 0 && Chain(pre)
    ensures Continues(MergeRun(pre), x) <==> Continues(pre[|pre| - 1], x)
  {
    ChainSameLabel(pre);
  }

  /** Appending a continuing token keeps a chain a chain and extends its merge. */
  lemma {:induction false} ChainSnoc(pre: seq<Token>, x: Token)
    requires |pre| > 0 && Chain(pre) && Continues(pre[|pre| - 1], x)
    ensures Chain(pre + [x])
    ensures MergeRun(pre + [x]) == Extend(MergeRun(pre), x)
  {
    var p := pre + [x];
    forall i | 0 <= i < |p| - 1 ensures Continues(p[i], p[i + 1]) {
      if i < |pre| - 1 {
        assert p[i] == pre[i] && p[i + 1] == pre[i + 1];
      } else {
        assert p[i] == pre[|pre| - 1] && p[i + 1] == x;
      }
    }
    assert p[..|p| - 1] == pre;
    assert p[|p| - 1] == x;
  }

  /** Merging the runs of `[x] + tail`. */
  lemma {:induction false} MergeRunsOfRuns(x: Token, tail: seq<Token>)
    ensures var k := ChainLen(x, tail);
            MergeRuns(Runs([x] + tail)) == [MergeRun([x] + tail[..k])] + MergeRuns(Runs(tail[k..]))
  {
    var ts := [x] + tail;
    var k := ChainLen(x, tail);
    assert ts[0] == x && ts[1..] == tail;
    assert ts[..1 + k] == [x] + tail[..k];
    assert ts[1 + k..] == tail[k..];
  }

  /** The merge loop, entered with a merged chain `pre`, yields the merge of
      `pre` extended by the tokens of `rest` that continue it, then the merges
      of the remaining runs. */
  predicate MergesRunsFrom(pre: seq<Token>, rest: seq<Token>)
    requires |pre| > 0 && Chain(pre)
  {
    var k := ChainLen(pre[|pre| - 1], rest);
    CombineFrom(MergeRun(pre), rest) == [MergeRun(pre + rest[..k])] + MergeRuns(Runs(rest[k..]))
  }

  /** Inductive step when the next token continues the chain. */
  lemma {:induction false} MergesRunsFromExtend(pre: seq<Token>, rest: seq<Token>)
    requires |pre| > 0 && Chain(pre) && rest != [] && Continues(pre[|pre| - 1], rest[0])
    requires Chain(pre + [rest[0]]) && MergesRunsFrom(pre + [rest[0]], rest[1..])
    ensures MergesRunsFrom(pre, rest)
  {
    var pre' := pre + [rest[0]];
    MergeRunContinues(pre, rest[0]);
    ChainSnoc(pre, rest[0]);
    var k' := ChainLen(rest[0], rest[1..]);
    assert pre'[|pre'| - 1] == rest[0];
    assert pre' + rest[1..][..k'] == pre + rest[..1 + k'];
    assert rest[1..][k'..] == rest[1 + k'..];
  }

  /** Inductive step when the next token starts a new run. */
  lemma {:induction false} MergesRunsFromBreak(pre: seq<Token>, rest: seq<Token>)
    requires |pre| > 0 && Chain(pre) && rest != [] && !Continues(pre[|pre| - 1], rest[0])
    requires MergesRunsFrom([rest[0]], rest[1..])
    ensures MergesRunsFrom(pre, rest)
  {
    MergeRunContinues(pre, rest[0]);
    assert pre + rest[..0] == pre;
    assert rest[0..] == rest;
    MergeRunSingle(rest[0]);
    MergeRunsOfRuns(rest[0], rest[1..]);
    assert [rest[0]] + rest[1..] == rest;
  }

  lemma {:induction false} CombineFromRuns(pre: seq<Token>, rest: seq<Token>)
    requires |pre| > 0 && Chain(pre)
    ensures MergesRunsFrom(pre, rest)
    decreases |rest|
  {
    if rest == [] {
      assert pre + rest[..0] == pre;
    } else if Continues(pre[|pre| - 1], rest[0]) {
      ChainSnoc(pre, rest[0]);
      CombineFromRuns(pre + [rest[0]], rest[1..]);
      MergesRunsFromExtend(pre, rest);
    } else {
      CombineFromRuns([rest[0]], rest[1..]);
      MergesRunsFromBreak(pre, rest);
    }
  }

  /** `combine_entities` equals merging each maximal chain of the input: it
      never reorders, drops or duplicates tokens. */
  lemma {:induction false} CombineEntitiesMergesRuns(ts: seq<Token>)
    ensures CombineEntities(ts) == MergeRuns(Runs(ts))
  {
    if ts != [] {
      MergeRunSingle(ts[0]);
      CombineFromRuns([ts[0]], ts[1..]);
      var k := ChainLen(ts[0], ts[1..]);
      assert [ts[0]] + ts[1..][..k] == ts[..1 + k];
      assert ts[1..][k..] == ts[1 + k..];
    }
  }

  // ---------------------------------------------------------------- store

  /** A row of the `entities` table as inserted: (article_id, entity_type,
      entity_value, start_pos, end_pos). */
  datatype EntityRow = EntityRow(articleId: int, entityType: string, entityValue: string, startPos: int, endPos: int)

  function RowOf(articleId: int, t: Token): EntityRow {
    EntityRow(articleId, t.entity, t.word, t.start, t.end)
  }

  /** `store_entities`: one row per entity whose word is longer than one
      character, in list order. */
  function StoreEntities(articleId: int, ents: seq<Token>): (rows: seq<EntityRow>)
    ensures |rows| <= |ents|
    ensures forall i :: 0 <= i < |rows| ==> rows[i].articleId == articleId && |rows[i].entityValue| > 1
    ensures forall t :: t in ents && |t.word| > 1 ==> RowOf(articleId, t) in rows
    ensures forall i :: 0 <= i < |rows| ==> rows[i] in LongRows(articleId, ents)
  {
    if ents == [] then []
    else
      var tail := StoreEntities(articleId, ents[1..]);
      assert LongRows(articleId, ents[1..]) <= LongRows(articleId, ents);
      if |ents[0].word| > 1 then [RowOf(articleId, ents[0])] + tail else tail
  }

  /** The rows of the entities longer than one character. */
  function LongRows(articleId: int, ents: seq<Token>): set<EntityRow> {
    set t | t in ents && |t.word| > 1 :: RowOf(articleId, t)
  }

  /** Storing a list is storing its parts one after the other: the rows keep
      the list order. */
  lemma {:induction false} StoreEntitiesAppend(articleId: int, xs: seq<Token>, ys: seq<Token>)
    ensures StoreEntities(articleId, xs + ys) == StoreEntities(articleId, xs) + StoreEntities(articleId, ys)
  {
    hide StoreEntities, LongRows;
    if xs != [] {
      assert (xs + ys)[0] == xs[0] && (xs + ys)[1..] == xs[1..] + ys;
      StoreEntitiesAppend(articleId, xs[1..], ys);
      StoreStep(articleId, xs);
      StoreStep(articleId, xs + ys);
    } else {
      assert xs + ys == ys;
      StoreEmpty(articleId);
    }
  }

  lemma StoreEmpty(articleId: int)
    ensures StoreEntities(articleId, []) == []
  {
  }

  /** One step of `store_entities`: the first entity's row, if kept, then
      the rest. */
  lemma StoreStep(articleId: int, ents: seq<Token>)
    requires ents != []
    ensures StoreEntities(articleId, ents) ==
            (if |ents[0].word| > 1 then [RowOf(articleId, ents[0])] else []) + StoreEntities(articleId, ents[1..])
  {
  }

  // ------------------------------------------------------------- fetching

  /** A row of `articles` as fetched: id and content (NULL allowed). */
  datatype Article = Article(id: int, content: Option<string>)

  /** Pages from offset `offset` up to `total`; a failing page query ends the
      pass with one empty page. */
  function FetchFrom(rows: seq<Article>, total: nat, size: nat, offset: nat, pageOk: nat -> bool): (pages: seq<seq<Article>>)
    requires size > 0
    ensures forall i :: 0 <= i < |pages| ==> |pages[i]| <= size
    decreases total - offset
  {
    if offset >= total then []
    else if !pageOk(offset) then [[]]
    else [Page(rows, offset, size)] + FetchFrom(rows, total, size, offset + size, pageOk)
  }

  /** `fetch_articles`: count once, then page up to the count. A failing count
      query yields one empty page. */
  function FetchArticles(rows: seq<Article>, size: nat, countOk: bool, pageOk: nat -> bool): (pages: seq<seq<Article>>)
    requires size > 0
    ensures forall i :: 0 <= i < |pages| ==> |pages[i]| <= size
  {
    if !countOk then [[]] else FetchFrom(rows, |rows|, size, 0, pageOk)
  }

  /** With failing queries the fetched articles are a prefix of the rows from
      `offset` on: a failure only cuts the pass short. */
  lemma {:induction false} FetchFromPrefix(rows: seq<Article>, size: nat, offset: nat, pageOk: nat -> bool)
    requires size > 0 && offset <= |rows|
    ensures var fetched := Flatten(FetchFrom(rows, |rows|, size, offset, pageOk));
            |fetched| <= |rows| - offset && fetched == rows[offset..offset + |fetched|]
    decreases |rows| - offset
  {
    hide FetchFrom, Flatten;
    if offset < |rows| && pageOk(offset) {
      var next := Min(offset + size, |rows|);
      FetchFromPrefix(rows, size, next, pageOk);
      FetchStep(rows, size, offset, pageOk);
      if offset + size > |rows| {
        FetchEnd(rows, size, offset + size, pageOk);
        FetchEnd(rows, size, next, pageOk);
      }
      var tail := Flatten(FetchFrom(rows, |rows|, size, next, pageOk));
      assert Flatten(FetchFrom(rows, |rows|, size, offset, pageOk)) == rows[offset..next] + tail;
      SliceJoin(rows, offset, next, next + |tail|);
    } else if offset < |rows| {
      FetchFails(rows, size, offset, pageOk);
    } else {
      FetchEnd(rows, size, offset, pageOk);
    }
  }

  lemma FetchEnd(rows: seq<Article>, size: nat, offset: nat, pageOk: nat -> bool)
    requires size > 0 && offset >= |rows|
    ensures Flatten(FetchFrom(rows, |rows|, size, offset, pageOk)) == []
  {
  }

  lemma FetchFails(rows: seq<Article>, size: nat, offset: nat, pageOk: nat -> bool)
    requires size > 0 && offset < |rows| && !pageOk(offset)
    ensures Flatten(FetchFrom(rows, |rows|, size, offset, pageOk)) == []
  {
    var empty: seq<seq<Article>> := [[]];
    assert Flatten(empty) == [];
  }

  /** One page of a pass that has not failed: that page's rows, then the
      rest of the pass. */
  lemma FetchStep(rows: seq<Article>, size: nat, offset: nat, pageOk: nat -> bool)
    requires size > 0 && offset < |rows| && pageOk(offset)
    ensures Flatten(FetchFrom(rows, |rows|, size, offset, pageOk)) ==
            rows[offset..Min(offset + size, |rows|)] + Flatten(FetchFrom(rows, |rows|, size, offset + size, pageOk))
  {
    var rest := FetchFrom(rows, |rows|, size, offset + size, pageOk);
    var pages := [Page(rows, offset, size)] + rest;
    assert pages[0] == Page(rows, offset, size) && pages[1..] == rest;
  }

  /** Without failures the pages are exactly the count-bounded pages. */
  lemma {:induction false} FetchFromAllOk(rows: seq<Article>, size: nat, offset: nat, pageOk: nat -> bool)
    requires size > 0 && offset <= |rows|
    requires forall o :: pageOk(o)
    ensures FetchFrom(rows, |rows|, size, offset, pageOk) == CountPager(rows, |rows|, size, offset)
    decreases |rows| - offset
  {
    if offset < |rows| {
      if offset + size > |rows| {
        assert FetchFrom(rows, |rows|, size, offset + size, pageOk) == [];
        assert CountPager(rows, |rows|, size, offset + size) == [];
      } else {
        FetchFromAllOk(rows, size, offset + size, pageOk);
      }
    }
  }

  /** Over an unchanged table with no failing query, the pass fetches every
      article exactly once, in scan order. */
  lemma {:induction false} FetchArticlesCovers(rows: seq<Article>, size: nat, pageOk: nat -> bool)
    requires size > 0
    requires forall o :: pageOk(o)
    ensures Flatten(FetchArticles(rows, size, true, pageOk)) == rows
  {
    FetchFromAllOk(rows, size, 0, pageOk);
    CountPagerCovers(rows, size, 0);
  }

  // ------------------------------------------------------------ processing

  /** PostgreSQL accepts the row: both text columns fit `VARCHAR(255)` and both
      offsets fit `INT`. */
  predicate Fits(row: EntityRow) {
    |row.entityType| <= 255 && |row.entityValue| <= 255
    && -0x8000_0000 <= row.startPos < 0x8000_0000 && -0x8000_0000 <= row.endPos < 0x8000_0000
  }

  /** The rows one article contributes: none when its content is NULL (the
      cleaner raises) or the model raises; otherwise the stored rows, kept only
      if every insert succeeds, since a failed insert aborts the transaction and
      the following commit rolls the article back. */
  function ArticleRows(a: Article, ner: string -> Option<seq<Token>>): (rows: seq<EntityRow>)
    ensures forall i :: 0 <= i < |rows| ==> rows[i].articleId == a.id && |rows[i].entityValue| > 1 && Fits(rows[i])
  {
    if a.content.None? then []
    else match ner(CleanText(a.content.value))
      case None => []
      case Some(tokens) =>
        var rows := StoreEntities(a.id, CombineEntities(tokens));
        if forall i :: 0 <= i < |rows| ==> Fits(rows[i]) then rows else []
  }

  /** The ids of a list of articles. */
  function IdsOf(articles: seq<Article>): set<int> {
    set i | 0 <= i < |articles| :: articles[i].id
  }

  /** The rows the articles contribute, in article order. */
  function NewRows(articles: seq<Article>, ner: string -> Option<seq<Token>>): (rows: seq<EntityRow>)
    ensures forall i :: 0 <= i < |rows| ==> rows[i].articleId in IdsOf(articles)
    ensures forall i :: 0 <= i < |rows| ==> |rows[i].entityValue| > 1 && Fits(rows[i])
  {
    if articles == [] then []
    else
      var head := ArticleRows(articles[0], ner);
      var tail := NewRows(articles[1..], ner);
      IdsOfCons(articles);
      head + tail
  }

  /** The ids of a non-empty list: the first one and those of the rest. */
  lemma {:induction false} IdsOfCons(articles: seq<Article>)
    requires articles != []
    ensures IdsOf(articles) == {articles[0].id} + IdsOf(articles[1..])
  {
    forall x | x in IdsOf(articles) ensures x in {articles[0].id} + IdsOf(articles[1..]) {
      var i :| 0 <= i < |articles| && articles[i].id == x;
      if i > 0 {
        assert articles[1..][i - 1] == articles[i];
      }
    }
    forall x | x in IdsOf(articles[1..]) ensures x in IdsOf(articles) {
      var i :| 0 <= i < |articles[1..]| && articles[1..][i].id == x;
      assert articles[i + 1] == articles[1..][i];
    }
  }

  /** `process_articles`: each fetched article in page order, committed one by
      one; the entity table only grows, by whole articles. */
  function ProcessArticles(table: seq<EntityRow>, articles: seq<Article>, ner: string -> Option<seq<Token>>): (r: seq<EntityRow>)
    ensures r == table + NewRows(articles, ner)
    decreases |articles|
  {
    if articles == [] then table
    else
      var head := ArticleRows(articles[0], ner);
      var r := ProcessArticles(table + head, articles[1..], ner);
      assert NewRows(articles, ner) == head + NewRows(articles[1..], ner);
      AppendAssoc(table, head, NewRows(articles[1..], ner));
      r
  }

  /** Processing the articles in two parts is processing them in one pass: the
      rows of the pages are appended page after page. */
  lemma {:induction false} ProcessArticlesAppend(table: seq<EntityRow>, xs: seq<Article>, ys: seq<Article>, ner: string -> Option<seq<Token>>)
    ensures ProcessArticles(table, xs + ys, ner) == ProcessArticles(ProcessArticles(table, xs, ner), ys, ner)
    decreases |xs|
  {
    if xs != [] {
      assert (xs + ys)[0] == xs[0] && (xs + ys)[1..] == xs[1..] + ys;
      ProcessArticlesAppend(table + ArticleRows(xs[0], ner), xs[1..], ys, ner);
    } else {
      assert xs + ys == ys;
    }
  }

  /** The whole stage: an article is stored as a unit, and an article whose
      model call and inserts succeed contributes exactly its stored rows. */
  lemma {:induction false} ProcessOneArticle(table: seq<EntityRow>, a: Article, ner: string -> Option<seq<Token>>)
    ensures a.content.Some? && ner(CleanText(a.content.value)).Some? ==>
            var rows := StoreEntities(a.id, CombineEntities(ner(CleanText(a.content.value)).value));
            ProcessArticles(table, [a], ner)
              == if forall i :: 0 <= i < |rows| ==> Fits(rows[i]) then table + rows else table
  {
  }
}

=== FILE: ner_summary.dfy ===
/** The summary entity stage (11_NER_TO_SUMMARY.py): page through the
    non-NULL summaries, run the entity model on each, and overwrite the row's
    `summary_ner_entities` with the projected entity list; one commit after
    the whole pass. The entity model is a parameter (`None` when it raises);
    nothing catches its failure, so the pass then ends without a commit. */
module NerSummary {
  import opened Wrappers
  import opened Tables
  import opened SummaryRows

  /** An entity as the grouped model returns it. */
  datatype ModelEntity = ModelEntity(entityGroup: string, word: string, score: real, start: int, end: int)

  function Group(e: ModelEntity): Grouped {
    Grouped(e.entityGroup, e.word)
  }

  /** `grouped_entities`: one stored entity per model entity, same order. */
  function Project(ents: seq<ModelEntity>): (g: seq<Grouped>)
    ensures |g| == |ents|
    ensures forall i :: 0 <= i < |ents| ==> g[i].entityType == ents[i].entityGroup && g[i].entityValue == ents[i].word
  {
    if ents == [] then [] else [Group(ents[0])] + Project(ents[1..])
  }

  /** The projection keeps the model's order: it distributes over concatenation. */
  lemma {:induction false} ProjectAppend(a: seq<ModelEntity>, b: seq<ModelEntity>)
    ensures Project(a + b) == Project(a) + Project(b)
  {
    hide Project;
    var l, p, q := Project(a + b), Project(a), Project(b);
    forall i | 0 <= i < |l| ensures l[i] == (p + q)[i] {
      if i < |a| { assert (a + b)[i] == a[i]; } else { assert (a + b)[i] == b[i - |a|]; }
    }
  }

  function SetNer(a: Article, g: seq<Grouped>): Article {
    a.(summaryNerEntities := Some(g))
  }

  function ArticleId(a: Article): int { a.id }

  /** The model succeeded on every summary of `items`. */
  predicate AllNerOk(items: seq<(int, string)>, ner: string -> Option<seq<ModelEntity>>) {
    forall i :: 0 <= i < |items| ==> ner(items[i].1).Some?
  }

  /** The inner loop over one page: model call, projection, `UPDATE ... WHERE
      article_id = %s`, summary by summary. */
  function ProcessItems(t: seq<Article>, items: seq<(int, string)>, ner: string -> Option<seq<ModelEntity>>): (r: Option<seq<Article>>)
    ensures r.Some? ==> |r.value| == |t|
    decreases |items|
  {
    if items == [] then Some(t)
    else
      match ner(items[0].1)
      case None => None
      case Some(ents) => ProcessItems(UpdateKey(t, ArticleId, SetNer, items[0].0, Project(ents)), items[1..], ner)
  }

  /** The inner loop fails exactly when some model call fails. */
  lemma {:induction false} ProcessItemsOk(t: seq<Article>, items: seq<(int, string)>, ner: string -> Option<seq<ModelEntity>>)
    ensures ProcessItems(t, items, ner).Some? <==> AllNerOk(items, ner)
    decreases |items|
  {
    if items != [] {
      assert forall i :: 1 <= i < |items| ==> items[i] == items[1..][i - 1];
      match ner(items[0].1)
      case None =>
      case Some(ents) => ProcessItemsOk(UpdateKey(t, ArticleId, SetNer, items[0].0, Project(ents)), items[1..], ner);
    }
  }

  /** The inner loop writes only `summary_ner_entities`: ids and summaries stay. */
  lemma {:induction false} ProcessItemsKeeps(t: seq<Article>, items: seq<(int, string)>, ner: string -> Option<seq<ModelEntity>>)
    requires ProcessItems(t, items, ner).Some?
    ensures forall j :: 0 <= j < |t| ==>
              ProcessItems(t, items, ner).value[j].id == t[j].id && ProcessItems(t, items, ner).value[j].summary == t[j].summary
    decreases |items|
  {
    if items != [] {
      var u := UpdateKey(t, ArticleId, SetNer, items[0].0, Project(ner(items[0].1).value));
      ProcessItemsKeeps(u, items[1..], ner);
    }
  }

  lemma {:induction false} ProcessItemsAppend(t: seq<Article>, a: seq<(int, string)>, b: seq<(int, string)>,
                                              ner: string -> Option<seq<ModelEntity>>)
    ensures ProcessItems(t, a, ner).None? ==> ProcessItems(t, a + b, ner).None?
    ensures ProcessItems(t, a, ner).Some? ==> ProcessItems(t, a + b, ner) == ProcessItems(ProcessItems(t, a, ner).value, b, ner)
    decreases |a|
  {
    if a != [] {
      assert (a + b)[0] == a[0] && (a + b)[1..] == a[1..] + b;
      match ner(a[0].1)
      case None =>
      case Some(ents) =>
        var u := UpdateKey(t, ArticleId, SetNer, a[0].0, Project(ents));
        ProcessItemsAppend(u, a[1..], b, ner);
    } else {
      assert a + b == b;
    }
  }

  /** The writes of a page whose model calls all succeed. */
  function NerWrites(items: seq<(int, string)>, ner: string -> Option<seq<ModelEntity>>): (w: seq<(int, seq<Grouped>)>)
    requires AllNerOk(items, ner)
    ensures |w| == |items|
    ensures forall i :: 0 <= i < |items| ==> w[i].0 == items[i].0
  {
    seq(|items|, i requires 0 <= i < |items| => (items[i].0, Project(ner(items[i].1).value)))
  }

  /** With every model call succeeding, the inner loop is the sequence of
      per-id overwrites. */
  lemma {:induction false} ProcessItemsWrites(t: seq<Article>, items: seq<(int, string)>, ner: string -> Option<seq<ModelEntity>>)
    requires AllNerOk(items, ner)
    ensures ProcessItems(t, items, ner) == Some(UpdateEach(t, NerWrites(items, ner), ArticleId, SetNer))
    decreases |items|
  {
    if items != [] {
      var w := NerWrites(items, ner);
      assert forall i :: 0 <= i < |items| - 1 ==> items[1..][i] == items[i + 1];
      assert NerWrites(items[1..], ner) == w[1..];
      var u := UpdateKey(t, ArticleId, SetNer, items[0].0, Project(ner(items[0].1).value));
      ProcessItemsWrites(u, items[1..], ner);
    }
  }

  /** The inner loop does not move the paging filter: the written column
      is outside `summary IS NOT NULL`. */
  lemma {:induction false} ProcessItemsFetchable(t: seq<Article>, items: seq<(int, string)>, ner: string -> Option<seq<ModelEntity>>)
    requires ProcessItems(t, items, ner).Some?
    ensures Fetchable(ProcessItems(t, items, ner).value) == Fetchable(t)
  {
    ProcessItemsKeeps(t, items, ner);
    FetchableUnchanged(t, ProcessItems(t, items, ner).value);
  }

  /** `process_ner_summaries_in_batches`: pages at offsets 0, bs, 2bs, ... of
      the current table until the first empty page; the second component is
      `total_summaries`. `f` is the result of the fetch query; each page
      re-reads it from the current table, and `ProcessItemsFetchable` shows
      that the pages written so far leave it as it was, so the pass reads
      every page of the same list. */
  function Loop(t: seq<Article>, f: seq<(int, string)>, batchSize: nat, offset: nat,
                ner: string -> Option<seq<ModelEntity>>): (r: Option<(seq<Article>, nat)>)
    requires batchSize > 0
    ensures r.Some? ==> |r.value.0| == |t|
    ensures r.Some? ==> forall j :: 0 <= j < |t| ==> r.value.0[j].id == t[j].id && r.value.0[j].summary == t[j].summary
    decreases |f| - offset
  {
    var page := Page(f, offset, batchSize);
    if page == [] then Some((t, 0))
    else
      var p := ProcessItems(t, page, ner);
      if p.None? then None
      else
        ProcessItemsKeeps(t, page, ner);
        var rest := Loop(p.value, f, batchSize, offset + batchSize, ner);
        if rest.None? then None else Some((rest.value.0, |page| + rest.value.1))
  }

  /** The inner loop over `items` from table `t`, with the number of items. */
  function Sequential(t: seq<Article>, items: seq<(int, string)>, ner: string -> Option<seq<ModelEntity>>): Option<(seq<Article>, nat)> {
    var p := ProcessItems(t, items, ner);
    if p.None? then None else Some((p.value, |items|))
  }

  /** Processing a page and then the rest is processing both in one go. */
  lemma {:induction false} SequentialStep(t: seq<Article>, t': seq<Article>, page: seq<(int, string)>, rest: seq<(int, string)>,
                       ner: string -> Option<seq<ModelEntity>>, tail: Option<(seq<Article>, nat)>)
    requires ProcessItems(t, page, ner) == Some(t')
    requires tail == Sequential(t', rest, ner)
    ensures Sequential(t, page + rest, ner) == if tail.None? then None else Some((tail.value.0, |page| + tail.value.1))
  {
    ProcessItemsAppend(t, page, rest, ner);
  }

  /** One step of the paged loop: a non-empty page that processes is
      followed by the rest of the pass from the next offset. */
  lemma {:induction false} LoopStep(t: seq<Article>, t': seq<Article>, f: seq<(int, string)>, page: seq<(int, string)>,
                 batchSize: nat, offset: nat, ner: string -> Option<seq<ModelEntity>>)
    requires batchSize > 0
    requires page == Page(f, offset, batchSize) && page != []
    requires ProcessItems(t, page, ner) == Some(t')
    ensures var tail := Loop(t', f, batchSize, offset + batchSize, ner);
            Loop(t, f, batchSize, offset, ner) == if tail.None? then None else Some((tail.value.0, |page| + tail.value.1))
  {
  }

  /** An empty page ends the loop with nothing processed, as an empty list
      of items does. */
  lemma LoopEnds(t: seq<Article>, f: seq<(int, string)>, batchSize: nat, offset: nat,
                 ner: string -> Option<seq<ModelEntity>>)
    requires batchSize > 0 && Page(f, offset, batchSize) == []
    ensures Loop(t, f, batchSize, offset, ner) == Some((t, 0)) == Sequential(t, [], ner)
  {
  }

  /** A page whose processing fails fails the loop and any list starting
      with that page. */
  lemma LoopFails(t: seq<Article>, f: seq<(int, string)>, batchSize: nat, offset: nat,
                  ner: string -> Option<seq<ModelEntity>>)
    requires batchSize > 0 && Page(f, offset, batchSize) != []
    requires ProcessItems(t, Page(f, offset, batchSize), ner).None?
    ensures Loop(t, f, batchSize, offset, ner).None?
    ensures forall rest :: ProcessItems(t, Page(f, offset, batchSize) + rest, ner).None? ==>
              Sequential(t, Page(f, offset, batchSize) + rest, ner).None?
  {
  }

  /** The paged loop processes the fetched list from `offset` on, in order,
      as one sequence of items. */
  lemma {:induction false} LoopIsSequential(t: seq<Article>, f: seq<(int, string)>, batchSize: nat, offset: nat,
                                            ner: string -> Option<seq<ModelEntity>>)
    requires batchSize > 0 && offset <= |f|
    ensures Loop(t, f, batchSize, offset, ner) == Sequential(t, f[offset..], ner)
    decreases |f| - offset
  {
    hide Loop, Sequential, ProcessItems;
    var page := Page(f, offset, batchSize);
    var next := Min(offset + batchSize, |f|);
    if page == [] {
      assert f[offset..] == [];
      LoopEnds(t, f, batchSize, offset, ner);
    } else {
      SliceJoin(f, offset, next, |f|);
      assert f[offset..] == page + f[next..];
      var p := ProcessItems(t, page, ner);
      if p.None? {
        ProcessItemsAppend(t, page, f[next..], ner);
        LoopFails(t, f, batchSize, offset, ner);
      } else {
        var t' := p.value;
        LoopStep(t, t', f, page, batchSize, offset, ner);
        var tail := Loop(t', f, batchSize, offset + batchSize, ner);
        if offset + batchSize > |f| {
          assert f[next..] == [];
          LoopEnds(t', f, batchSize, offset + batchSize, ner);
        } else {
          LoopIsSequential(t', f, batchSize, offset + batchSize, ner);
        }
        SequentialStep(t, t', page, f[next..], ner, tail);
      }
    }
  }

  /** `run_ner_summaries_pipeline`: the pass, then one commit; if the model
      raises, nothing is committed. */
  function Run(t: seq<Article>, batchSize: nat, ner: string -> Option<seq<ModelEntity>>): (r: seq<Article>)
    requires batchSize > 0
    ensures |r| == |t|
    ensures forall j :: 0 <= j < |t| ==> r[j].id == t[j].id && r[j].summary == t[j].summary
  {
    match Loop(t, Fetchable(t), batchSize, 0, ner)
    case None => t
    case Some((u, _)) => u
  }

  /** One model failure anywhere keeps the whole table as it was; otherwise
      the pass ends normally with `total_summaries` equal to the number of
      non-NULL summaries. */
  lemma {:induction false} RunErrorPath(t: seq<Article>, batchSize: nat, ner: string -> Option<seq<ModelEntity>>)
    requires batchSize > 0
    ensures !AllNerOk(Fetchable(t), ner) ==> Run(t, batchSize, ner) == t
    ensures AllNerOk(Fetchable(t), ner) ==>
              Loop(t, Fetchable(t), batchSize, 0, ner).Some? && Loop(t, Fetchable(t), batchSize, 0, ner).value.1 == |Fetchable(t)|
  {
    LoopIsSequential(t, Fetchable(t), batchSize, 0, ner);
    assert Fetchable(t)[0..] == Fetchable(t);
    ProcessItemsOk(t, Fetchable(t), ner);
  }

  /** With every model call succeeding, the pass is one round of updates
      keyed by article id, one per fetched summary, in fetch order. */
  lemma {:induction false} RunIsUpdateEach(t: seq<Article>, batchSize: nat, ner: string -> Option<seq<ModelEntity>>)
    requires batchSize > 0 && AllNerOk(Fetchable(t), ner)
    ensures Run(t, batchSize, ner) == UpdateEach(t, NerWrites(Fetchable(t), ner), ArticleId, SetNer)
  {
    var f := Fetchable(t);
    LoopIsSequential(t, Fetchable(t), batchSize, 0, ner);
    assert f[0..] == f;
    ProcessItemsWrites(t, f, ner);
  }

  /** With distinct ids and every model call succeeding, each row with a
      summary holds the projection of the model's entities for that summary,
      and each row without one is untouched. */
  lemma {:induction false} RunStores(t: seq<Article>, batchSize: nat, ner: string -> Option<seq<ModelEntity>>)
    requires batchSize > 0 && DistinctRowIds(t) && AllNerOk(Fetchable(t), ner)
    ensures |Run(t, batchSize, ner)| == |t|
    ensures forall j :: 0 <= j < |t| && t[j].summary.Some? ==>
              ner(t[j].summary.value).Some? &&
              Run(t, batchSize, ner)[j] == SetNer(t[j], Project(ner(t[j].summary.value).value))
    ensures forall j :: 0 <= j < |t| && t[j].summary.None? ==> Run(t, batchSize, ner)[j] == t[j]
  {
    var f := Fetchable(t);
    var w := NerWrites(f, ner);
    RunIsUpdateEach(t, batchSize, ner);
    UpdateEachRows(t, w, ArticleId, SetNer);
    FetchableDistinct(t);
    forall j | 0 <= j < |t| && t[j].summary.Some?
      ensures ner(t[j].summary.value).Some? && Run(t, batchSize, ner)[j] == SetNer(t[j], Project(ner(t[j].summary.value).value))
    {
      FetchableComplete(t, j);
      var i :| 0 <= i < |f| && f[i] == (t[j].id, t[j].summary.value);
      LastForDistinct(w, i);
    }
    forall j | 0 <= j < |t| && t[j].summary.None?
      ensures Run(t, batchSize, ner)[j] == t[j]
    {
      if t[j].id in KeysOf(w) {
        var i :| 0 <= i < |w| && w[i].0 == t[j].id;
        FetchedRow(t, i, j);
      }
    }
  }

  /** Running the stage again with the same model output leaves every column
      as the first run wrote it. */
  lemma {:induction false} RunTwice(t: seq<Article>, batchSize: nat, ner: string -> Option<seq<ModelEntity>>)
    requires batchSize > 0 && DistinctRowIds(t) && AllNerOk(Fetchable(t), ner)
    ensures Run(Run(t, batchSize, ner), batchSize, ner) == Run(t, batchSize, ner)
  {
    var u := Run(t, batchSize, ner);
    RunStores(t, batchSize, ner);
    FetchableUnchanged(t, u);
    assert DistinctRowIds(u);
    RunStores(u, batchSize, ner);
  }
}

=== FILE: query.dfy ===
/** The query tool (QUERYTOOL1.py): pick the first recognised entity of the
    question, look a location up only for a `LOC` entity, search the vector
    index, format a vector as a Postgres array literal, build the sentiment
    query string, and gate each leg of the federated query on its inputs.

    The entity model, the embedder, the FAISS ranking, the database queries
    and float printing are parameters. */
module Query {
  import opened Wrappers
  import opened Text
  import VectorIndex
  import Geo

  type Vector = seq<real>

  /** One token of the entity model's output. */
  datatype NerToken = NerToken(word: string, entity: string)

  /** `extract_entity`: (word, label) of the first recognised entity, or two
      `None`s when the model recognises nothing. */
  function ExtractEntity(tokens: seq<NerToken>): (r: (Option<string>, Option<string>))
    ensures tokens == [] <==> r == (None, None)
    ensures tokens != [] ==> r == (Some(tokens[0].word), Some(tokens[0].entity))
  {
    if tokens == [] then (None, None) else (Some(tokens[0].word), Some(tokens[0].entity))
  }

  /** `extract_location_from_db`: the first matching row's (lat, lon); two
      `None`s when there is no row or the query raises (`None` from `lookup`). */
  function LocationFromDb(name: string, lookup: string -> Option<seq<(real, real)>>): (r: (Option<real>, Option<real>))
    ensures r.0.Some? <==> r.1.Some?
    ensures r.0.Some? <==> lookup(name).Some? && lookup(name).value != []
    ensures r.0.Some? ==> (r.0.value, r.1.value) == lookup(name).value[0]
  {
    match lookup(name)
    case None => (None, None)
    case Some(rows) => if rows == [] then (None, None) else (Some(rows[0].0), Some(rows[0].1))
  }

  /** `extract_location`: the database is asked only when the first entity's
      label is exactly `LOC`. */
  function ExtractLocation(tokens: seq<NerToken>, lookup: string -> Option<seq<(real, real)>>): (r: (Option<real>, Option<real>))
    ensures r.0.Some? ==> tokens != [] && tokens[0].entity == "LOC"
    ensures tokens != [] && tokens[0].entity == "LOC" ==> r == LocationFromDb(tokens[0].word, lookup)
  {
    var e := ExtractEntity(tokens);
    if e.1 == Some("LOC") then LocationFromDb(e.0.value, lookup) else (None, None)
  }

  /** A `faiss_vector` value as the driver hands it over: text, the bytes
      of a `BYTEA` column (a `memoryview`), or NULL. */
  datatype Stored = Text(s: string) | Bytes(b: seq<bv8>) | Null

  /** `get_faiss_vectors_from_db`: ids and parsed vectors as parallel arrays
      in row order. Only text has `strip`; bytes or a NULL raise (`None`). */
  function FaissVectors(rows: seq<(int, Stored)>, num: string -> Option<real>): (r: Option<(seq<int>, seq<Vector>)>)
    ensures r.None? <==> exists i :: 0 <= i < |rows| && !rows[i].1.Text?
    ensures r.Some? ==> |r.value.0| == |rows| && |r.value.1| == |rows|
    ensures r.Some? ==> forall i :: 0 <= i < |rows| ==>
              r.value.0[i] == rows[i].0 && r.value.1[i] == VectorIndex.ParseVector(VectorIndex.Unbracket(rows[i].1.s), num)
  {
    if exists i :: 0 <= i < |rows| && !rows[i].1.Text? then None
    else
      Some((seq(|rows|, i requires 0 <= i < |rows| => rows[i].0),
            seq(|rows|, i requires 0 <= i < |rows| => VectorIndex.ParseVector(VectorIndex.Unbracket(rows[i].1.s), num))))
  }

  /** Rows holding vectors printed as `[x1,x2,...]` read back as the printed
      numbers, row by row, up to the first field that does not read. */
  lemma {:induction false} FaissVectorsBracketed(rows: seq<(int, Stored)>, printed: seq<seq<string>>, num: string -> Option<real>)
    requires |printed| == |rows|
    requires forall i :: 0 <= i < |rows| ==>
               VectorIndex.PlainFields(printed[i]) && rows[i].1 == Text("[" + Join(printed[i], ",") + "]")
    ensures FaissVectors(rows, num).Some?
    ensures forall i :: 0 <= i < |rows| ==>
              var v := FaissVectors(rows, num).value.1[i];
              |v| <= |printed[i]| && (forall k :: 0 <= k < |v| ==> num(printed[i][k]) == Some(v[k])) &&
              (|v| == |printed[i]| <==> forall k :: 0 <= k < |printed[i]| ==> num(printed[i][k]).Some?)
  {
    hide VectorIndex.ParseVector, VectorIndex.Unbracket;
    forall i | 0 <= i < |rows|
      ensures var v := FaissVectors(rows, num).value.1[i];
              |v| <= |printed[i]| && (forall k :: 0 <= k < |v| ==> num(printed[i][k]) == Some(v[k])) &&
              (|v| == |printed[i]| <==> forall k :: 0 <= k < |printed[i]| ==> num(printed[i][k]).Some?)
    {
      VectorIndex.ParseBracketed(printed[i], num);
    }
  }

  /** The `faiss_index` table declares `faiss_vector` as `BYTEA`: a single
      stored row makes the fetch raise. */
  lemma {:induction false} FaissVectorsBytea(id: int, bytes: seq<bv8>, rows: seq<(int, Stored)>, num: string -> Option<real>)
    ensures FaissVectors(rows + [(id, Bytes(bytes))], num).None?
  {
    var all := rows + [(id, Bytes(bytes))];
    assert !all[|rows|].1.Text?;
  }

  /** The number of neighbours `search_faiss_index` asks for. */
  const K: nat := 5

  /** Python's `a[p]` for a position FAISS returns: a negative position
      counts from the end; one outside `-n .. n-1` raises. */
  function PyIndex<T>(a: seq<T>, p: int): Option<T> {
    if 0 <= p < |a| then Some(a[p])
    else if -|a| <= p < 0 then Some(a[|a| + p])
    else None
  }

  /** The ids at the returned positions, as written: `article_ids[idx]` for
      each position, padding `-1`s included. */
  function MapPositionsAsWritten(ids: seq<int>, positions: seq<int>): (r: Option<seq<int>>)
    ensures r.Some? ==> |r.value| == |positions|
    ensures r.Some? ==> forall i :: 0 <= i < |positions| ==> PyIndex(ids, positions[i]) == Some(r.value[i])
    ensures r.None? <==> exists i :: 0 <= i < |positions| && PyIndex(ids, positions[i]).None?
  {
    if positions == [] then Some([])
    else
      var rest := MapPositionsAsWritten(ids, positions[1..]);
      assert forall i :: 1 <= i < |positions| ==> positions[i] == positions[1..][i - 1];
      match PyIndex(ids, positions[0])
      case None => None
      case Some(x) => if rest.None? then None else Some([x] + rest.value)
  }

  /** The ids at the returned positions, with FAISS's `-1` padding (fewer
      stored vectors than `k`) dropped. */
  function MapPositions(ids: seq<int>, positions: seq<int>): (r: seq<int>)
    ensures |r| <= |positions|
    ensures forall x :: x in r ==> x in ids
    ensures (forall i :: 0 <= i < |positions| ==> 0 <= positions[i] < |ids|) ==> |r| == |positions|
  {
    if positions == [] then []
    else
      var rest := MapPositions(ids, positions[1..]);
      assert forall i :: 1 <= i < |positions| ==> positions[i] == positions[1..][i - 1];
      if 0 <= positions[0] < |ids| then [ids[positions[0]]] + rest else rest
  }

  /** When every position is a real neighbour, the written mapping and the
      corrected one agree. */
  lemma {:induction false} MapPositionsAgree(ids: seq<int>, positions: seq<int>)
    requires forall i :: 0 <= i < |positions| ==> 0 <= positions[i] < |ids|
    ensures MapPositionsAsWritten(ids, positions) == Some(MapPositions(ids, positions))
  {
    if positions != [] {
      assert forall i :: 0 <= i < |positions| - 1 ==> positions[1..][i] == positions[i + 1];
      MapPositionsAgree(ids, positions[1..]);
    }
  }

  /** One stored vector: FAISS returns its position and four `-1`s, and the
      written mapping reports the one id five times, where the corrected one
      reports it once. */
  lemma {:induction false} PaddingRepeatsLastId(id: int)
    ensures MapPositionsAsWritten([id], [0, -1, -1, -1, -1]) == Some([id, id, id, id, id])
    ensures MapPositions([id], [0, -1, -1, -1, -1]) == [id]
  {
    var ps: seq<int> := [0, -1, -1, -1, -1];
    assert forall i :: 0 <= i < |ps| ==> PyIndex([id], ps[i]) == Some(id);
    var r := MapPositionsAsWritten([id], ps);
    assert r.Some?;
    assert r.value == [id, id, id, id, id];
    assert ps[1..] == [-1, -1, -1, -1];
    PaddingDropped([id], ps[1..]);
  }

  /** Positions that are all padding map to no id. */
  lemma {:induction false} PaddingDropped(ids: seq<int>, positions: seq<int>)
    requires forall i :: 0 <= i < |positions| ==> positions[i] < 0
    ensures MapPositions(ids, positions) == []
  {
    if positions != [] {
      assert forall i :: 0 <= i < |positions| - 1 ==> positions[1..][i] == positions[i + 1];
      PaddingDropped(ids, positions[1..]);
    }
  }

  /** The stored vectors form the matrix FAISS indexes and the question's
      embedding has its width. Ragged vectors do not convert to a
      `float32` matrix, and the Python wrapper of `index.search` asserts
      that the query's width is the index's dimension. */
  predicate Searchable(vectors: seq<Vector>, embedding: Vector) {
    |vectors| > 0 && (forall i :: 0 <= i < |vectors| ==> |vectors[i]| == |vectors[0]|) &&
    |embedding| == |vectors[0]|
  }

  /** `search_faiss_index` as written: a fetch that raises raises; nothing
      when no vector is stored; a matrix FAISS cannot take or a question of
      another width raises; otherwise ask the ranking `search` for `K`
      neighbours and read every returned position as an index into the id
      array, the `-1` padding included. */
  function SearchFaiss(rows: seq<(int, Stored)>, embedding: Vector, num: string -> Option<real>,
                       search: (seq<Vector>, Vector, nat) -> seq<int>): (r: Option<seq<int>>)
    ensures rows == [] ==> r == Some([])
    ensures (exists i :: 0 <= i < |rows| && !rows[i].1.Text?) ==> r.None?
    ensures r.Some? ==> forall x :: x in r.value ==> exists i :: 0 <= i < |rows| && rows[i].0 == x
    ensures FaissVectors(rows, num).Some? && rows != [] ==>
              var ids := FaissVectors(rows, num).value.0;
              var vectors := FaissVectors(rows, num).value.1;
              var positions := search(vectors, embedding, K);
              (r.Some? <==> Searchable(vectors, embedding) &&
                            forall i :: 0 <= i < |positions| ==> PyIndex(ids, positions[i]).Some?) &&
              (r.Some? ==> |r.value| == |positions| &&
                           forall i :: 0 <= i < |positions| ==> PyIndex(ids, positions[i]) == Some(r.value[i]))
  {
    match FaissVectors(rows, num)
    case None => None
    case Some((ids, vectors)) =>
      if |vectors| == 0 then Some([])
      else if !Searchable(vectors, embedding) then None
      else
        var found := MapPositionsAsWritten(ids, search(vectors, embedding, K));
        assert found.Some? ==> forall x :: x in found.value ==> x in ids by {
          if found.Some? {
            forall x | x in found.value ensures x in ids {
              var k :| 0 <= k < |found.value| && found.value[k] == x;
              assert PyIndex(ids, search(vectors, embedding, K)[k]) == Some(x);
            }
          }
        }
        found
  }

  /** The search with FAISS's padding dropped: the same failures, and only
      real neighbours reported. */
  function SearchFaissCorrected(rows: seq<(int, Stored)>, embedding: Vector, num: string -> Option<real>,
                                search: (seq<Vector>, Vector, nat) -> seq<int>): (r: Option<seq<int>>)
    ensures r.None? <==> FaissVectors(rows, num).None? ||
                         (rows != [] && !Searchable(FaissVectors(rows, num).value.1, embedding))
    ensures r.Some? ==> forall x :: x in r.value ==> exists i :: 0 <= i < |rows| && rows[i].0 == x
    ensures r.Some? && rows != [] ==>
              var ids := FaissVectors(rows, num).value.0;
              var positions := search(FaissVectors(rows, num).value.1, embedding, K);
              |r.value| <= |positions| &&
              ((forall i :: 0 <= i < |positions| ==> 0 <= positions[i] < |ids|) ==> |r.value| == |positions|)
  {
    match FaissVectors(rows, num)
    case None => None
    case Some((ids, vectors)) =>
      if |vectors| == 0 then Some([])
      else if !Searchable(vectors, embedding) then None
      else Some(MapPositions(ids, search(vectors, embedding, K)))
  }

  /** When FAISS returns only real neighbours (at least `K` vectors are
      stored), the search as written and the corrected one agree. */
  lemma {:induction false} SearchFaissAgree(rows: seq<(int, Stored)>, embedding: Vector, num: string -> Option<real>,
                                            search: (seq<Vector>, Vector, nat) -> seq<int>)
    requires FaissVectors(rows, num).Some? ==>
               var positions := search(FaissVectors(rows, num).value.1, embedding, K);
               forall i :: 0 <= i < |positions| ==> 0 <= positions[i] < |rows|
    ensures SearchFaiss(rows, embedding, num, search) == SearchFaissCorrected(rows, embedding, num, search)
  {
    hide MapPositions, MapPositionsAsWritten;
    match FaissVectors(rows, num)
    case None =>
    case Some((ids, vectors)) =>
      if |vectors| > 0 && Searchable(vectors, embedding) {
        MapPositionsAgree(ids, search(vectors, embedding, K));
      }
  }

  /** One stored vector and a question of its width: FAISS returns its
      position and four `-1`s, the search as written reports the one id five
      times, and the corrected search reports it once. */
  lemma {:induction false} SearchFaissPads(rows: seq<(int, Stored)>, embedding: Vector, num: string -> Option<real>,
                                           search: (seq<Vector>, Vector, nat) -> seq<int>, id: int, v: Vector)
    requires FaissVectors(rows, num) == Some(([id], [v])) && |embedding| == |v|
    requires search([v], embedding, K) == [0, -1, -1, -1, -1]
    ensures SearchFaiss(rows, embedding, num, search) == Some([id, id, id, id, id])
    ensures SearchFaissCorrected(rows, embedding, num, search) == Some([id])
  {
    hide FaissVectors, MapPositions, MapPositionsAsWritten;
    assert Searchable([v], embedding);
    PaddingRepeatsLastId(id);
  }

  /** `numpy_array_to_postgres_vector`: the elements printed by `show` and
      joined by commas, in braces. */
  function PostgresVector(v: Vector, show: real -> string): (r: string)
    ensures |r| >= 2 && r[0] == '{' && r[|r| - 1] == '}'
    ensures v == [] ==> r == "{}"
  {
    var parts := seq(|v|, i requires 0 <= i < |v| => show(v[i]));
    "{" + Join(parts, ",") + "}"
  }

  /** With a printer that never writes a comma, the literal holds `n - 1`
      commas for `n` elements, and the text between the braces splits back
      into the printed elements. */
  lemma {:induction false} PostgresVectorFields(v: Vector, show: real -> string)
    requires |v| > 0 && forall x: real :: ',' !in show(x)
    ensures var r := PostgresVector(v, show);
            Count(r, ',') == |v| - 1 &&
            SplitOn(r[1..|r| - 1], ',') == seq(|v|, i requires 0 <= i < |v| => show(v[i]))
  {
    var parts := seq(|v|, i requires 0 <= i < |v| => show(v[i]));
    forall i | 0 <= i < |parts| ensures ',' !in parts[i] {
      var x: real := v[i];
      assert ',' !in show(x);
    }
    var j := Join(parts, ",");
    var r := PostgresVector(v, show);
    assert r == "{" + j + "}";
    assert r[1..|r| - 1] == j;
    JoinCount(parts, ',');
    CountAppend("{" + j, "}", ',');
    CountAppend("{", j, ',');
    SplitOnJoin(parts, ',');
  }

  /** The base text of `search_by_sentiment`. */
  const SentimentBase: string := "SELECT * FROM entity_sentiments WHERE entity_id = %s"

  /** The threshold conditions, positive first, each only when given. */
  function SentimentConditions(minPos: Option<real>, minNeg: Option<real>, show: real -> string): (cs: seq<string>)
    ensures |cs| == (if minPos.Some? then 1 else 0) + (if minNeg.Some? then 1 else 0)
    ensures minPos.Some? ==> cs[0] == "sentiment_pos >= " + show(minPos.value)
    ensures minNeg.Some? ==> cs[|cs| - 1] == "sentiment_neg >= " + show(minNeg.value)
  {
    (if minPos.Some? then ["sentiment_pos >= " + show(minPos.value)] else []) +
    (if minNeg.Some? then ["sentiment_neg >= " + show(minNeg.value)] else [])
  }

  /** The query string as written: the conditions joined by " AND " and
      appended straight after the base text. */
  function SentimentQueryAsWritten(minPos: Option<real>, minNeg: Option<real>, show: real -> string): (q: string)
    ensures minPos.None? && minNeg.None? ==> q == SentimentBase
  {
    SentimentBase + Join(SentimentConditions(minPos, minNeg, show), " AND ")
  }

  /** A positive threshold lands directly after the `%s` placeholder, with
      no connector: the text reads `... = %ssentiment_pos >= ...`. */
  lemma {:induction false} SentimentMissingConnector(minPos: real, minNeg: Option<real>, show: real -> string)
    ensures var q := SentimentQueryAsWritten(Some(minPos), minNeg, show);
            At(q, |SentimentBase| - 2, "%ssentiment_pos") && !At(q, |SentimentBase|, " AND ")
  {
    hide Join, At;
    var j := Join(SentimentConditions(Some(minPos), minNeg, show), " AND ");
    ConditionsStartPositive(minPos, minNeg, show);
    BaseEndsInPlaceholder();
    NoConnector(SentimentBase, j, "%s", "sentiment_pos", " AND ");
    assert "%s" + "sentiment_pos" == "%ssentiment_pos";
  }

  /** The base text ends with the entity-id placeholder. */
  lemma {:induction false} BaseEndsInPlaceholder()
    ensures |SentimentBase| >= 2 && SentimentBase[|SentimentBase| - 2..] == "%s"
  {
  }

  /** With a positive threshold the joined conditions start with its column. */
  lemma {:induction false} ConditionsStartPositive(minPos: real, minNeg: Option<real>, show: real -> string)
    ensures var j := Join(SentimentConditions(Some(minPos), minNeg, show), " AND ");
            |j| >= 13 && j[..13] == "sentiment_pos"
  {
    hide SentimentConditions, Join;
    var cs := SentimentConditions(Some(minPos), minNeg, show);
    var j := Join(cs, " AND ");
    JoinEdges(cs, " AND ");
    assert cs[0] == "sentiment_pos" + (" >= " + show(minPos));
    PrefixOfPrefix(j, cs[0], "sentiment_pos");
  }

  /** Text ending in `pre` followed by text starting with `w` holds `pre + w`
      where `pre` begins, and no `conn` where `w` begins when the two start
      differently. */
  lemma {:induction false} NoConnector(b: string, j: string, pre: string, w: string, conn: string)
    requires |pre| <= |b| && b[|b| - |pre|..] == pre
    requires 0 < |w| <= |j| && j[..|w|] == w
    requires conn != [] && conn[0] != w[0]
    ensures At(b + j, |b| - |pre|, pre + w) && !At(b + j, |b|, conn)
  {
    Adjacent(b, j, pre, w);
    assert (b + j)[|b|] == j[0] == w[0];
  }

  /** A prefix of a prefix is a prefix. */
  lemma {:induction false} PrefixOfPrefix(j: string, c: string, w: string)
    requires |c| <= |j| && j[..|c|] == c
    requires |w| <= |c| && exists rest :: c == w + rest
    ensures |w| <= |j| && j[..|w|] == w
  {
    var rest :| c == w + rest;
    assert c[..|w|] == w;
    assert j[..|w|] == j[..|c|][..|w|];
  }

  /** Text ending in `pre` followed by text starting with `w` holds `pre + w`
      where `pre` begins. */
  lemma {:induction false} Adjacent(b: string, j: string, pre: string, w: string)
    requires |pre| <= |b| && b[|b| - |pre|..] == pre
    requires |w| <= |j| && j[..|w|] == w
    ensures At(b + j, |b| - |pre|, pre + w)
  {
    var q := b + j;
    var s := q[|b| - |pre|..|b| + |w|];
    assert s[..|pre|] == b[|b| - |pre|..];
    assert s[|pre|..] == j[..|w|];
    assert s == s[..|pre|] + s[|pre|..];
  }

  /** Each condition, with its leading connector. */
  function Connected(cs: seq<string>, conn: string): string {
    if cs == [] then [] else conn + cs[0] + Connected(cs[1..], conn)
  }

  /** The query string as evidently intended: the base text, then each
      given condition preceded by " AND "; the base alone when none is given. */
  function SentimentQuery(minPos: Option<real>, minNeg: Option<real>, show: real -> string): (q: string)
    ensures minPos.None? && minNeg.None? ==> q == SentimentBase
  {
    var cs := SentimentConditions(minPos, minNeg, show);
    if cs == [] then SentimentBase else SentimentBase + " AND " + Join(cs, " AND ")
  }

  /** The intended query puts " AND " before every condition, in order. */
  lemma {:induction false} SentimentQueryConnected(minPos: Option<real>, minNeg: Option<real>, show: real -> string)
    ensures SentimentQuery(minPos, minNeg, show) == SentimentBase + Connected(SentimentConditions(minPos, minNeg, show), " AND ")
  {
    var cs := SentimentConditions(minPos, minNeg, show);
    if cs != [] {
      JoinConnected(cs, " AND ");
    }
  }

  lemma {:induction false} JoinConnected(cs: seq<string>, conn: string)
    requires cs != []
    ensures conn + Join(cs, conn) == Connected(cs, conn)
  {
    if |cs| > 1 {
      JoinConnected(cs[1..], conn);
      assert Join(cs, conn) == cs[0] + conn + Join(cs[1..], conn);
    } else {
      assert Connected(cs[1..], conn) == [];
    }
  }

  /** The five result lists of `query_all_indices`. */
  datatype Results<R> = Results(faiss: seq<int>, ner: seq<R>, geospatial: seq<R>, sentences: seq<R>, sentiments: seq<R>)

  /** Python truthiness of an optional string. */
  predicate TruthyText(x: Option<string>) {
    x.Some? && x.value != []
  }

  /** The location lookup runs and raises. `extract_location_from_db`
      catches the error and returns no coordinates, but does not roll back:
      the connection's transaction is left aborted, and every later
      statement on it raises. */
  predicate LookupAborts(tokens: seq<NerToken>, lookup: string -> Option<seq<(real, real)>>) {
    tokens != [] && tokens[0].entity == "LOC" && lookup(tokens[0].word).None?
  }

  /** The entity leg: searched only for a non-empty word and label. */
  function EntityLeg<R>(tokens: seq<NerToken>, byEntity: (string, string) -> Option<seq<R>>): (r: Option<seq<R>>)
    ensures tokens != [] && tokens[0].word != [] && tokens[0].entity != [] ==>
              r == byEntity(tokens[0].word, tokens[0].entity)
    ensures tokens == [] || tokens[0].word == [] || tokens[0].entity == [] ==> r == Some([])
  {
    var e := ExtractEntity(tokens);
    if TruthyText(e.0) && TruthyText(e.1) then byEntity(e.0.value, e.1.value) else Some([])
  }

  /** The geospatial leg: searched only when both coordinates are truthy. */
  function GeoLeg<R>(tokens: seq<NerToken>, lookup: string -> Option<seq<(real, real)>>,
                     nearby: (real, real) -> Option<seq<R>>): (r: Option<seq<R>>)
    ensures r != Some([]) ==>
              tokens != [] && tokens[0].entity == "LOC" &&
              lookup(tokens[0].word).Some? && lookup(tokens[0].word).value != [] &&
              lookup(tokens[0].word).value[0].0 != 0.0 && lookup(tokens[0].word).value[0].1 != 0.0 &&
              r == nearby(lookup(tokens[0].word).value[0].0, lookup(tokens[0].word).value[0].1)
    ensures LookupAborts(tokens, lookup) ==> r == Some([])
  {
    var loc := ExtractLocation(tokens, lookup);
    if Geo.Truthy(loc.0) && Geo.Truthy(loc.1) then nearby(loc.0.value, loc.1.value) else Some([])
  }

  /** `query_all_indices`, on one connection: the FAISS leg as written
      (padding included), the entity leg, the location lookup and
      geospatial leg, the sentence-similarity query (given the embedding as
      a Postgres array literal) and the sentiment leg, in that order. Each database leg returns `None` when its
      statement raises; an error that escapes ends the call (`None`). The
      entity id is `None` when it cannot be obtained (the helper the source
      calls is not defined anywhere in it). */
  function QueryAll<R>(tokens: seq<NerToken>, rows: seq<(int, Stored)>, embedding: Vector, num: string -> Option<real>,
                       search: (seq<Vector>, Vector, nat) -> seq<int>,
                       lookup: string -> Option<seq<(real, real)>>,
                       byEntity: (string, string) -> Option<seq<R>>, nearby: (real, real) -> Option<seq<R>>,
                       show: real -> string, similar: string -> Option<seq<R>>,
                       entityId: Option<int>, sentiment: (string, int) -> Option<seq<R>>): (r: Option<Results<R>>)
    ensures r.Some? <==>
              SearchFaiss(rows, embedding, num, search).Some? && EntityLeg(tokens, byEntity).Some? &&
              GeoLeg(tokens, lookup, nearby).Some? && !LookupAborts(tokens, lookup) &&
              similar(PostgresVector(embedding, show)).Some? &&
              entityId.Some? && sentiment(SentimentBase, entityId.value).Some?
    ensures r.Some? ==>
              r.value.faiss == SearchFaiss(rows, embedding, num, search).value &&
              r.value.ner == EntityLeg(tokens, byEntity).value &&
              r.value.geospatial == GeoLeg(tokens, lookup, nearby).value &&
              r.value.sentences == similar(PostgresVector(embedding, show)).value &&
              r.value.sentiments == sentiment(SentimentBase, entityId.value).value
  {
    match SearchFaiss(rows, embedding, num, search)
    case None => None
    case Some(faiss) =>
      match EntityLeg(tokens, byEntity)
      case None => None
      case Some(ner) =>
        match GeoLeg(tokens, lookup, nearby)
        case None => None
        case Some(geo) =>
          if LookupAborts(tokens, lookup) then None
          else
            match similar(PostgresVector(embedding, show))
            case None => None
            case Some(sentences) =>
              match entityId
              case None => None
              case Some(id) =>
                match sentiment(SentimentBase, id)
                case None => None
                case Some(sentiments) => Some(Results(faiss, ner, geo, sentences, sentiments))
  }

  /** A `LOC` question whose location lookup raises never gets an answer:
      the caught error leaves the transaction aborted, and the similarity
      query after it raises whatever its own oracle would say. */
  lemma {:induction false} QueryAllLookupRaises<R>(tokens: seq<NerToken>, rows: seq<(int, Stored)>, embedding: Vector,
                                                   num: string -> Option<real>, search: (seq<Vector>, Vector, nat) -> seq<int>,
                                                   lookup: string -> Option<seq<(real, real)>>,
                                                   byEntity: (string, string) -> Option<seq<R>>,
                                                   nearby: (real, real) -> Option<seq<R>>,
                                                   show: real -> string, similar: string -> Option<seq<R>>,
                                                   entityId: Option<int>, sentiment: (string, int) -> Option<seq<R>>)
    requires tokens != [] && tokens[0].entity == "LOC" && lookup(tokens[0].word).None?
    ensures ExtractLocation(tokens, lookup) == (None, None)
    ensures QueryAll(tokens, rows, embedding, num, search, lookup, byEntity, nearby, show, similar, entityId, sentiment).None?
  {
    hide SearchFaiss, EntityLeg, GeoLeg;
  }

  /** A question embedded at another width than the stored vectors never
      gets an answer: FAISS's dimension assertion raises in the first leg. */
  lemma {:induction false} QueryAllDimensionRaises<R>(tokens: seq<NerToken>, rows: seq<(int, Stored)>, embedding: Vector,
                                                      num: string -> Option<real>, search: (seq<Vector>, Vector, nat) -> seq<int>,
                                                      lookup: string -> Option<seq<(real, real)>>,
                                                      byEntity: (string, string) -> Option<seq<R>>,
                                                      nearby: (real, real) -> Option<seq<R>>,
                                                      show: real -> string, similar: string -> Option<seq<R>>,
                                                      entityId: Option<int>, sentiment: (string, int) -> Option<seq<R>>)
    requires FaissVectors(rows, num).Some? && rows != []
    requires |embedding| != |FaissVectors(rows, num).value.1[0]|
    ensures SearchFaiss(rows, embedding, num, search).None?
    ensures QueryAll(tokens, rows, embedding, num, search, lookup, byEntity, nearby, show, similar, entityId, sentiment).None?
  {
    hide FaissVectors, EntityLeg, GeoLeg, MapPositionsAsWritten;
    assert !Searchable(FaissVectors(rows, num).value.1, embedding);
  }

  /** With the `BYTEA` column the schema declares, any stored FAISS vector
      makes the whole query raise. */
  lemma {:induction false} QueryAllByteaRaises<R>(tokens: seq<NerToken>, rows: seq<(int, Stored)>, embedding: Vector,
                                                  num: string -> Option<real>, search: (seq<Vector>, Vector, nat) -> seq<int>,
                                                  lookup: string -> Option<seq<(real, real)>>,
                                                  byEntity: (string, string) -> Option<seq<R>>,
                                                  nearby: (real, real) -> Option<seq<R>>,
                                                  show: real -> string, similar: string -> Option<seq<R>>,
                                                  entityId: Option<int>, sentiment: (string, int) -> Option<seq<R>>,
                                                  i: nat)
    requires i < |rows| && rows[i].1.Bytes?
    ensures QueryAll(tokens, rows, embedding, num, search, lookup, byEntity, nearby, show, similar, entityId, sentiment).None?
  {
    hide FaissVectors, EntityLeg, GeoLeg;
    assert !rows[i].1.Text?;
  }
}

=== FILE: segmented.dfy ===
/** The article loader (4_segmented_to_db.py): for every `.txt` file whose
    name carries a day, month and year, get or insert the newspaper row for
    that date, split the file into its Title/Body articles and insert each
    one under the newspaper's id; one commit after all files.

    How the database reads a date text such as "12 May 1999" into a DATE
    (or refuses it) is a parameter. Every statement after a refused one
    runs inside an aborted transaction and fails, and a commit of an
    aborted transaction rolls it back. */
module Segmented {
  import opened Wrappers
  import opened Text
  import FilenameDate
  import Toc
  import Tables

  /** A row of `newspapers`: its serial id, title and publication date. */
  datatype Newspaper = Newspaper(id: nat, title: string, date: Toc.Date)

  /** A row of `articles`. */
  datatype Article = Article(title: string, content: string, newspaperId: nat)

  /** The two tables and the next value of the `newspaper_id` sequence. */
  datatype Db = Db(newspapers: seq<Newspaper>, articles: seq<Article>, nextId: nat)

  /** The open transaction: the database as it sees it, and whether a failed
      statement has aborted it. */
  datatype Tx = Tx(db: Db, aborted: bool)

  /** `SERIAL` ids start at 1 and every id is below the next one. */
  predicate ValidDb(db: Db) {
    db.nextId >= 1 && forall k :: 0 <= k < |db.newspapers| ==> 1 <= db.newspapers[k].id < db.nextId
  }

  // ------------------------------------------------------------- newspaper

  predicate Keyed(p: Newspaper, title: string, date: Toc.Date) {
    p.title == title && p.date == date
  }

  /** `SELECT newspaper_id ... WHERE title = %s AND publication_date = %s`
      with `fetchone()`: the id of the first row in scan order with that key. */
  function Lookup(ps: seq<Newspaper>, title: string, date: Toc.Date): (r: Option<nat>)
    ensures r.None? <==> forall k :: 0 <= k < |ps| ==> !Keyed(ps[k], title, date)
    ensures r.Some? ==> exists k :: 0 <= k < |ps| && Keyed(ps[k], title, date) && ps[k].id == r.value
  {
    if ps == [] then None
    else if Keyed(ps[0], title, date) then Some(ps[0].id)
    else
      var r := Lookup(ps[1..], title, date);
      assert forall k :: 1 <= k < |ps| ==> ps[k] == ps[1..][k - 1];
      assert r.Some? ==> exists k :: 0 <= k < |ps| && Keyed(ps[k], title, date) && ps[k].id == r.value by {
        if r.Some? {
          var k :| 0 <= k < |ps| - 1 && Keyed(ps[1..][k], title, date) && ps[1..][k].id == r.value;
          assert Keyed(ps[k + 1], title, date) && ps[k + 1].id == r.value;
        }
      }
      r
  }

  /** A row appended to the table is found only when no earlier row has its key. */
  lemma {:induction false} LookupAppend(ps: seq<Newspaper>, p: Newspaper, title: string, date: Toc.Date)
    ensures Lookup(ps + [p], title, date) ==
              if Lookup(ps, title, date).Some? then Lookup(ps, title, date)
              else if Keyed(p, title, date) then Some(p.id)
              else None
  {
    if ps != [] {
      assert (ps + [p])[1..] == ps[1..] + [p];
      LookupAppend(ps[1..], p, title, date);
    }
  }

  /** `get_or_insert_newspaper`: the id of the row with this title and date,
      inserting one with the next serial id when there is none. A database
      error is caught and gives `None`, but leaves the transaction aborted;
      in an aborted transaction every statement fails. */
  function GetOrInsert(tx: Tx, title: string, text: string, pgDate: string -> Option<Toc.Date>): (r: (Tx, Option<nat>))
    ensures r.1.None? <==> tx.aborted || pgDate(text).None?
    ensures r.1.None? ==> r.0 == tx.(aborted := true)
    ensures |tx.db.newspapers| <= |r.0.db.newspapers| &&
            r.0.db.nextId == tx.db.nextId + (|r.0.db.newspapers| - |tx.db.newspapers|)
    ensures r.1.Some? ==>
              !r.0.aborted && r.0.db.articles == tx.db.articles &&
              Lookup(r.0.db.newspapers, title, pgDate(text).value) == r.1
  {
    if tx.aborted then (tx, None)
    else
      match pgDate(text)
      case None => (tx.(aborted := true), None)
      case Some(d) =>
        match Lookup(tx.db.newspapers, title, d)
        case Some(id) => (tx, Some(id))
        case None =>
          var id := tx.db.nextId;
          var row := Newspaper(id, title, d);
          LookupAppend(tx.db.newspapers, row, title, d);
          (Tx(tx.db.(newspapers := tx.db.newspapers + [row], nextId := id + 1), false), Some(id))
  }

  /** An existing row's id is returned and nothing is inserted. */
  lemma {:induction false} GetOrInsertExisting(tx: Tx, title: string, text: string, pgDate: string -> Option<Toc.Date>)
    requires !tx.aborted && pgDate(text).Some?
    requires Lookup(tx.db.newspapers, title, pgDate(text).value).Some?
    ensures GetOrInsert(tx, title, text, pgDate) == (tx, Lookup(tx.db.newspapers, title, pgDate(text).value))
  {
  }

  /** Without a row for the key, exactly one row is appended, with the next
      serial id, and that id is returned. */
  lemma {:induction false} GetOrInsertNew(tx: Tx, title: string, text: string, pgDate: string -> Option<Toc.Date>)
    requires !tx.aborted && pgDate(text).Some?
    requires Lookup(tx.db.newspapers, title, pgDate(text).value).None?
    ensures var r := GetOrInsert(tx, title, text, pgDate);
            r.1 == Some(tx.db.nextId) && r.0.db.nextId == tx.db.nextId + 1 &&
            r.0.db.newspapers == tx.db.newspapers + [Newspaper(tx.db.nextId, title, pgDate(text).value)]
  {
  }

  /** A second call with the same key returns the same answer and changes nothing. */
  lemma {:induction false} GetOrInsertTwice(tx: Tx, title: string, text: string, pgDate: string -> Option<Toc.Date>)
    ensures var r := GetOrInsert(tx, title, text, pgDate);
            GetOrInsert(r.0, title, text, pgDate) == r
  {
  }

  /** Returned ids are at least 1, so `if not newspaper_id` skips exactly the
      failures; the table keeps its serial invariant. */
  lemma {:induction false} GetOrInsertValid(tx: Tx, title: string, text: string, pgDate: string -> Option<Toc.Date>)
    requires ValidDb(tx.db)
    ensures var r := GetOrInsert(tx, title, text, pgDate);
            ValidDb(r.0.db) && (r.1.Some? ==> r.1.value >= 1)
  {
    var r := GetOrInsert(tx, title, text, pgDate);
    if r.1.Some? {
      var ps := r.0.db.newspapers;
      var k :| 0 <= k < |ps| && Keyed(ps[k], title, pgDate(text).value) && ps[k].id == r.1.value;
    }
  }

  // ------------------------------------------------------------------ date

  /** `f"{day} {month} {year}"` after `int()` on the day and year groups. */
  function DateText(m: FilenameDate.DateMatch): string
    requires FilenameDate.WellFormed(m)
  {
    NatToString(DigitsValue(m.day)) + " " + m.month + " " + NatToString(DigitsValue(m.year))
  }

  /** The stored text reads back, by the same pattern, as the same day, month
      and year, with the day re-printed without a leading zero. */
  lemma {:induction false} DateTextRereads(m: FilenameDate.DateMatch)
    requires FilenameDate.WellFormed(m) && DigitsValue(m.year) >= 1000
    ensures FilenameDate.Search(DateText(m)) ==
              Some((0, FilenameDate.DateMatch(NatToString(DigitsValue(m.day)), m.month, NatToString(DigitsValue(m.year)))))
    ensures DateText(m)[0] == '0' ==> DigitsValue(m.day) == 0
  {
    var d := NatToString(DigitsValue(m.day));
    var y := NatToString(DigitsValue(m.year));
    DigitsValueBound(m.day);
    DigitsValueBound(m.year);
    assert Pow10(2) == 100 && Pow10(4) == 10000;
    NatToStringLength(DigitsValue(m.day));
    NatToStringLength(DigitsValue(m.year));
    assert DateText(m) == [] + (d + (" " + (m.month + (" " + (y + [])))));
    FilenameDate.SearchFinds(DateText(m), [], d, m.month, y, []);
  }

  // -------------------------------------------------------------- articles

  /** One match of `Title:\s*(.*?)\s*Body:\s*(.*?)(?=\nTitle:|\Z)` with its
      two groups stripped, and the index where the match ends. */
  datatype Piece = Piece(title: string, body: string, end: nat)

  /** The first match at or after `from`:
      - it starts at the first "Title:";
      - the title runs to the first "Body:" after it (the lazy group stops
        there, and the whitespace around it is stripped anyway);
      - the body starts after the whitespace run that follows "Body:" and
        runs to the first "\nTitle:" at or after that point, or to the end;
      - without a "Title:" followed by a "Body:" there is no match. */
  function PieceFrom(s: string, from: nat): (r: Option<Piece>)
    requires from <= |s|
    ensures r.Some? ==> from < r.value.end <= |s|
    ensures r.Some? ==> NoEdgeSpace(r.value.title) && NoEdgeSpace(r.value.body)
  {
    match Find(s, "Title:", from)
    case None => None
    case Some(i) => PieceAt(s, i)
  }

  /** The match whose "Title:" is at `i`. */
  function PieceAt(s: string, i: nat): (r: Option<Piece>)
    requires i + 6 <= |s|
    ensures r.Some? ==> i < r.value.end <= |s|
    ensures r.Some? ==> NoEdgeSpace(r.value.title) && NoEdgeSpace(r.value.body)
  {
    match Find(s, "Body:", i + 6)
    case None => None
    case Some(b) => Some(Piece(Strip(s[i + 6..b]), BodyText(s, BodyStart(s, b)), BodyEnd(s, BodyStart(s, b))))
  }

  /** Where the body starts: after "Body:" at `b` and the whitespace after it. */
  function BodyStart(s: string, b: nat): (h: nat)
    requires b + 5 <= |s|
    ensures b + 5 <= h <= |s|
  {
    b + 5 + LeadingSpaces(s[b + 5..])
  }

  /** The stripped body that starts at `h`. */
  function BodyText(s: string, h: nat): (r: string)
    requires h <= |s|
    ensures NoEdgeSpace(r)
  {
    Strip(s[h..BodyEnd(s, h)])
  }

  /** Where a body that starts at `h` ends: at the next "\nTitle:", or at the
      end of the text. */
  function BodyEnd(s: string, h: nat): (q: nat)
    requires h <= |s|
    ensures h <= q <= |s|
  {
    match Find(s, "\nTitle:", h) case None => |s| case Some(q) => q
  }

  /** `article_pattern.findall(content)` from index `from`, the groups
      stripped: each match, then the matches after where it ends. */
  function SplitArticles(s: string, from: nat): (r: seq<(string, string)>)
    requires from <= |s|
    ensures |r| <= |s| - from
    decreases |s| - from
  {
    match PieceFrom(s, from)
    case None => []
    case Some(p) => [(p.title, p.body)] + (if p.end < |s| then SplitArticles(s, p.end) else [])
  }

  /** Every split title and body has no whitespace at either end. */
  lemma {:induction false} SplitStripped(s: string, from: nat)
    requires from <= |s|
    ensures forall a :: a in SplitArticles(s, from) ==> NoEdgeSpace(a.0) && NoEdgeSpace(a.1)
    decreases |s| - from
  {
    match PieceFrom(s, from)
    case None =>
    case Some(p) =>
      if p.end < |s| {
        SplitStripped(s, p.end);
      }
  }

  /** A character that does not start "Title:" is passed over. */
  lemma {:induction false} SplitSkip(s: string, from: nat)
    requires from < |s| && !At(s, from, "Title:")
    ensures SplitArticles(s, from) == SplitArticles(s, from + 1)
  {
    assert Find(s, "Title:", from) == Find(s, "Title:", from + 1);
  }

  /** The text `"Title: " + t + "\nBody: " + b` of one article. */
  function Block(t: string, b: string): string {
    "Title: " + t + "\nBody: " + b
  }

  lemma {:induction false} BlockLength(t: string, b: string)
    ensures |Block(t, b)| == |t| + |b| + 14
  {
  }

  /** What an article may hold and still be read back: no whitespace at the
      ends, no "Body:" in the title, and a non-empty body without "\nTitle:".
      (After an empty body, `\s*` also swallows the newline of the next
      "\nTitle:", and the body runs on into the next article.) */
  predicate Fits(t: string, b: string) {
    NoEdgeSpace(t) && NoEdgeSpace(b) && !Contains(t, "Body:") && b != [] && !Contains(b, "\nTitle:")
  }

  /** The pieces of the heading "Title: " + t + "\nBody:". */
  lemma {:induction false} HeadingPieces(t: string)
    ensures var w := "Title: " + t + "\nBody:";
            |w| == |t| + 13 && w[..6] == "Title:" && w[6..|t| + 8] == " " + t + "\n" && w[|t| + 8..] == "Body:"
  {
  }

  /** After "Title: " + t + "\n" at `n`, the first "Body:" is the one that follows. */
  lemma {:induction false} BodyFound(s: string, n: nat, t: string)
    requires n + |t| + 13 <= |s| && s[n..n + |t| + 13] == "Title: " + t + "\nBody:"
    requires !Contains(t, "Body:")
    ensures Find(s, "Body:", n + 6) == Some(n + |t| + 8)
  {
    hide Find;
    var p := s[..n + |t| + 8];
    var w := "Title: " + t + "\nBody:";
    HeadingPieces(t);
    assert s[..|p| + 5] == p + "Body:" by {
      SliceOfCopy(s, n, w, |t| + 8, |t| + 13);
      assert s[n + |t| + 8..n + |t| + 13] == "Body:";
    }
    assert p[n + 6..] == " " + t + "\n" by {
      SliceOfCopy(s, n, w, 6, |t| + 8);
    }
    NoOccurrencePadded(' ', t, "Body:");
    NoOccurrencePadded('\n', " " + t, "Body:");
    assert "Body:"[..4] == "Body";
    NoStraddle(" " + t + "\n", "Body:");
    FindFirst(s, p, "Body:", n + 6);
  }

  /** A body that stops at the end of the text or at a "\nTitle:" ends there. */
  lemma {:induction false} BodyStops(s: string, h: nat, b: string)
    requires h + |b| <= |s| && s[h..h + |b|] == b && !Contains(b, "\nTitle:")
    requires h + |b| == |s| || At(s, h + |b|, "\nTitle:")
    ensures BodyEnd(s, h) == h + |b|
  {
    if h + |b| == |s| {
      assert s[h..] == b;
      FindNone(s, "\nTitle:", h);
    } else {
      var p := s[..h + |b|];
      assert s[..|p| + 7] == p + "\nTitle:";
      assert p[h..] == b;
      assert "\nTitle:"[..6] == "\nTitle";
      NoStraddle(b, "\nTitle:");
      FindFirst(s, p, "\nTitle:", h);
    }
  }

  /** The pieces of a copy of one article's text at `n`. */
  lemma {:induction false} BlockPieces(s: string, n: nat, t: string, b: string)
    requires n + |Block(t, b)| <= |s| && s[n..n + |Block(t, b)|] == Block(t, b)
    ensures s[n..n + 6] == "Title:"
    ensures s[n..n + |t| + 13] == "Title: " + t + "\nBody:"
    ensures s[n + |t| + 13] == ' '
    ensures s[n + |t| + 14..n + |Block(t, b)|] == b
  {
    var blk := Block(t, b);
    assert blk[..6] == "Title:";
    assert blk[..|t| + 13] == "Title: " + t + "\nBody:";
    assert blk[|t| + 14..] == b;
    SliceOfCopy(s, n, blk, 0, 6);
    SliceOfCopy(s, n, blk, 0, |t| + 13);
    SliceOfCopy(s, n, blk, |t| + 14, |blk|);
    assert s[n + |t| + 13] == blk[|t| + 13];
  }

  /** The stripped title between "Title:" and "\nBody:". */
  lemma {:induction false} TitleOf(s: string, n: nat, t: string)
    requires n + |t| + 13 <= |s| && s[n..n + |t| + 13] == "Title: " + t + "\nBody:"
    requires NoEdgeSpace(t)
    ensures Strip(s[n + 6..n + |t| + 8]) == t
  {
    HeadingPieces(t);
    SliceOfCopy(s, n, "Title: " + t + "\nBody:", 6, |t| + 8);
    StripPadded(s[n + 6..n + |t| + 8], " ", t, "\n");
  }

  /** One space after "Body:" and then a non-space: the body starts after it. */
  lemma {:induction false} BodyStartAt(s: string, p: nat, b: string)
    requires p + 6 + |b| <= |s| && s[p + 5] == ' ' && s[p + 6..p + 6 + |b|] == b
    requires b != [] && !IsSpace(b[0])
    ensures BodyStart(s, p) == p + 6
  {
    var u := s[p + 5..];
    assert u[0] == ' ' && u[1] == s[p + 6..p + 6 + |b|][0];
    LeadingSpacesOf(u, 1);
  }

  lemma {:induction false} BodyTextIs(s: string, h: nat, b: string)
    requires h + |b| <= |s| && BodyEnd(s, h) == h + |b| && s[h..h + |b|] == b && NoEdgeSpace(b)
    ensures BodyText(s, h) == b
  {
    assert s[h..BodyEnd(s, h)] == b;
  }

  /** The match at `n` from the positions the searches find. */
  lemma {:induction false} PieceFromIs(s: string, n: nat, p: nat, h: nat, e: nat, t: string, b: string)
    requires n + 6 <= |s| && Find(s, "Title:", n) == Some(n)
    requires Find(s, "Body:", n + 6) == Some(p) && Strip(s[n + 6..p]) == t
    requires BodyStart(s, p) == h && BodyEnd(s, h) == e && BodyText(s, h) == b
    ensures PieceFrom(s, n) == Some(Piece(t, b, e))
  {
    assert PieceFrom(s, n) == PieceAt(s, n);
  }

  /** Where the searches for "Title:" and "Body:" stop in one article's
      text at `n`, and the title they leave. */
  lemma {:induction false} TitleFacts(s: string, n: nat, t: string)
    requires n + |t| + 13 <= |s| && s[n..n + |t| + 13] == "Title: " + t + "\nBody:"
    requires NoEdgeSpace(t) && !Contains(t, "Body:")
    ensures Find(s, "Title:", n) == Some(n)
    ensures Find(s, "Body:", n + 6) == Some(n + |t| + 8) && Strip(s[n + 6..n + |t| + 8]) == t
  {
    assert ("Title: " + t + "\nBody:")[0..6] == "Title:";
    SliceOfCopy(s, n, "Title: " + t + "\nBody:", 0, 6);
    FindAt(s, "Title:", n, n);
    BodyFound(s, n, t);
    TitleOf(s, n, t);
  }

  /** Where the body after "Body:" at `p` starts and stops, and the text it
      leaves. */
  lemma {:induction false} BodyFacts(s: string, p: nat, b: string)
    requires p + 6 + |b| <= |s| && s[p + 5] == ' ' && s[p + 6..p + 6 + |b|] == b
    requires b != [] && NoEdgeSpace(b) && !Contains(b, "\nTitle:")
    requires p + 6 + |b| == |s| || At(s, p + 6 + |b|, "\nTitle:")
    ensures BodyStart(s, p) == p + 6
    ensures BodyEnd(s, p + 6) == p + 6 + |b| && BodyText(s, p + 6) == b
  {
    hide BodyStart, BodyEnd, BodyText, Find, Strip, LeadingSpaces, Contains;
    BodyStartAt(s, p, b);
    BodyStops(s, p + 6, b);
    BodyTextIs(s, p + 6, b);
  }

  /** Where the searches stop in one article's text at `n`, followed by the
      end or by "\nTitle:". */
  lemma {:induction false} BlockFacts(s: string, n: nat, t: string, b: string)
    requires Fits(t, b)
    requires n + |Block(t, b)| <= |s| && s[n..n + |Block(t, b)|] == Block(t, b)
    requires n + |Block(t, b)| == |s| || At(s, n + |Block(t, b)|, "\nTitle:")
    ensures n + |t| + 14 + |b| <= |s|
    ensures Find(s, "Title:", n) == Some(n)
    ensures Find(s, "Body:", n + 6) == Some(n + |t| + 8) && Strip(s[n + 6..n + |t| + 8]) == t
    ensures BodyStart(s, n + |t| + 8) == n + |t| + 14
    ensures BodyEnd(s, n + |t| + 14) == n + |t| + 14 + |b| && BodyText(s, n + |t| + 14) == b
  {
    hide Block, Find, Strip, BodyStart, BodyEnd, BodyText, LeadingSpaces, Contains;
    BlockLength(t, b);
    BlockPieces(s, n, t, b);
    TitleFacts(s, n, t);
    BodyFacts(s, n + |t| + 8, b);
  }

  /** The splitter's step: a match, then the matches after where it ends. */
  lemma {:induction false} SplitUnfold(s: string, n: nat, p: Piece)
    requires n <= |s| && PieceFrom(s, n) == Some(p)
    ensures SplitArticles(s, n) == [(p.title, p.body)] + (if p.end < |s| then SplitArticles(s, p.end) else [])
  {
  }

  /** Articles written one after another as Title/Body blocks joined by
      newlines. */
  function Render(arts: seq<(string, string)>): string {
    Join(Blocks(arts), "\n")
  }

  function Blocks(arts: seq<(string, string)>): seq<string> {
    seq(|arts|, k requires 0 <= k < |arts| => Block(arts[k].0, arts[k].1))
  }

  /** The first block and the rest of a rendering. */
  lemma {:induction false} RenderCons(arts: seq<(string, string)>)
    requires |arts| > 1
    ensures Render(arts) == Block(arts[0].0, arts[0].1) + "\n" + Render(arts[1..])
    ensures Render(arts[1..])[..6] == "Title:"
  {
    assert Blocks(arts) == [Blocks(arts)[0]] + Blocks(arts[1..]);
    JoinCons(Blocks(arts)[0], Blocks(arts[1..]), "\n");
    JoinEdges(Blocks(arts[1..]), "\n");
  }

  /** A rendering of one article is its block. */
  lemma {:induction false} RenderOne(arts: seq<(string, string)>)
    requires |arts| == 1
    ensures Render(arts) == Block(arts[0].0, arts[0].1)
  {
  }

  /** Where a rendering at `n` puts its first article's block, and what
      follows it: the end of the text, or a newline and the rest. */
  lemma {:induction false} RenderAt(s: string, n: nat, arts: seq<(string, string)>)
    requires arts != []
    requires n <= |s| && s[n..] == Render(arts)
    ensures var blk := Block(arts[0].0, arts[0].1);
            n + |blk| <= |s| && s[n..n + |blk|] == blk &&
            (|arts| == 1 ==> n + |blk| == |s|) &&
            (|arts| > 1 ==> At(s, n + |blk|, "\nTitle:") && !At(s, n + |blk|, "Title:") &&
                            s[n + |blk| + 1..] == Render(arts[1..]))
  {
    var blk := Block(arts[0].0, arts[0].1);
    if |arts| == 1 {
      RenderOne(arts);
      assert s[n..n + |blk|] == s[n..];
    } else {
      RenderCons(arts);
      RenderTail(s, n, n + |blk|, blk, Render(arts[1..]));
    }
  }

  /** The parts of `s[n..] == blk + "\n" + rest`. */
  lemma {:induction false} RenderTail(s: string, n: nat, e: nat, blk: string, rest: string)
    requires n <= |s| && s[n..] == blk + "\n" + rest && e == n + |blk|
    requires |rest| >= 6 && rest[..6] == "Title:"
    ensures e < |s| && s[n..e] == blk && s[e + 1..] == rest
    ensures s[e..e + 7] == "\nTitle:" && !At(s, e, "Title:")
  {
    assert s[n..e] == (blk + "\n" + rest)[..|blk|];
    assert s[e + 1..] == (blk + "\n" + rest)[|blk| + 1..];
    assert s[e..e + 7] == (blk + "\n" + rest)[|blk|..|blk| + 7];
    assert s[e] == '\n';
  }

  /** From `n` on, the splitter's matches are the articles `arts`, each
      ending where the next one's newline starts. */
  predicate Laid(s: string, n: nat, arts: seq<(string, string)>)
    decreases |arts|
  {
    n <= |s| &&
    if arts == [] then PieceFrom(s, n).None?
    else
      var e := n + |arts[0].0| + 14 + |arts[0].1|;
      PieceFrom(s, n) == Some(Piece(arts[0].0, arts[0].1, e)) &&
      if |arts| == 1 then e == |s| else e < |s| && !At(s, e, "Title:") && Laid(s, e + 1, arts[1..])
  }

  /** A rendering lays its articles out for the splitter. */
  lemma {:induction false} RenderLaid(s: string, n: nat, arts: seq<(string, string)>)
    requires forall a :: a in arts ==> Fits(a.0, a.1)
    requires n <= |s| && s[n..] == Render(arts)
    ensures Laid(s, n, arts)
    decreases |arts|
  {
    hide Render, Block, Blocks, Join, Fits, At, Contains, PieceFrom, PieceAt, Find, Strip, BodyText, BodyStart, BodyEnd, LeadingSpaces;
    if arts == [] {
      RenderNone(s, n);
    } else {
      assert arts[0] in arts;
      var t := arts[0].0;
      var b := arts[0].1;
      var e := n + |t| + 14 + |b|;
      RenderAt(s, n, arts);
      BlockFacts(s, n, t, b);
      BlockLength(t, b);
      PieceFromIs(s, n, n + |t| + 8, n + |t| + 14, e, t, b);
      if |arts| > 1 {
        assert forall a :: a in arts[1..] ==> a in arts;
        RenderLaid(s, e + 1, arts[1..]);
      }
    }
  }

  /** Nothing follows the rendering of no articles. */
  lemma {:induction false} RenderNone(s: string, n: nat)
    requires n <= |s| && s[n..] == Render([])
    ensures PieceFrom(s, n).None?
  {
    assert s[n..] == [];
    FindNone(s, "Title:", n);
  }

  /** The splitter reads back the articles laid out from `n`. */
  lemma {:induction false} SplitLaid(s: string, n: nat, arts: seq<(string, string)>)
    requires Laid(s, n, arts)
    ensures SplitArticles(s, n) == arts
    decreases |arts|
  {
    hide SplitArticles, PieceFrom;
    if arts == [] {
      SplitNone(s, n);
    } else {
      var e := n + |arts[0].0| + 14 + |arts[0].1|;
      SplitUnfold(s, n, Piece(arts[0].0, arts[0].1, e));
      if |arts| > 1 {
        SplitSkip(s, e);
        SplitLaid(s, e + 1, arts[1..]);
      }
    }
  }

  /** Without a match there is nothing to split. */
  lemma {:induction false} SplitNone(s: string, n: nat)
    requires n <= |s| && PieceFrom(s, n).None?
    ensures SplitArticles(s, n) == []
  {
  }

  /** Splitting the written articles gives them back, in order. */
  lemma {:induction false} SplitRender(arts: seq<(string, string)>)
    requires forall a :: a in arts ==> Fits(a.0, a.1)
    ensures SplitArticles(Render(arts), 0) == arts
  {
    RenderLaid(Render(arts), 0, arts);
    SplitLaid(Render(arts), 0, arts);
  }

  // ---------------------------------------------------------------- loader

  /** A file of the directory: its name and its UTF-8 text. */
  datatype File = File(name: string, content: string)

  /** `filename.endswith('.txt')` and the date pattern found in the name. */
  predicate Dated(name: string) {
    EndsWith(name, ".txt") && FilenameDate.Search(name).Some?
  }

  /** The publication date text built from a dated file name. */
  function NameDate(name: string): string
    requires Dated(name)
  {
    DateText(FilenameDate.Search(name).value.1)
  }

  /** A dated file whose date text the database refuses. */
  predicate Refused(f: File, pgDate: string -> Option<Toc.Date>) {
    Dated(f.name) && pgDate(NameDate(f.name)).None?
  }

  /** The article rows for the split pairs, all under one newspaper id. */
  function ArticleRows(pairs: seq<(string, string)>, id: nat): (r: seq<Article>)
    ensures |r| == |pairs|
    ensures forall k :: 0 <= k < |r| ==> r[k] == Article(pairs[k].0, pairs[k].1, id)
  {
    seq(|pairs|, k requires 0 <= k < |pairs| => Article(pairs[k].0, pairs[k].1, id))
  }

  /** The (title, content) columns of article rows. */
  function Pairs(arts: seq<Article>): (r: seq<(string, string)>)
    ensures |r| == |arts|
    ensures forall k :: 0 <= k < |r| ==> r[k] == (arts[k].title, arts[k].content)
  {
    seq(|arts|, k requires 0 <= k < |arts| => (arts[k].title, arts[k].content))
  }

  /** Appending rows for some pairs appends exactly those pairs. */
  lemma {:induction false} PairsRows(arts: seq<Article>, pairs: seq<(string, string)>, id: nat)
    ensures Pairs(arts + ArticleRows(pairs, id)) == Pairs(arts) + pairs
  {
  }

  /** One pass of the file loop. `isolated` selects the corrected loader, in
      which a refused date is skipped without aborting the transaction (a
      savepoint around the newspaper statement). */
  function ProcessFile(tx: Tx, f: File, pgDate: string -> Option<Toc.Date>, isolated: bool): (r: Tx)
    ensures |tx.db.articles| <= |r.db.articles| && r.db.articles[..|tx.db.articles|] == tx.db.articles
    ensures |tx.db.newspapers| <= |r.db.newspapers| &&
            r.db.nextId == tx.db.nextId + (|r.db.newspapers| - |tx.db.newspapers|)
    ensures isolated ==> r.aborted == tx.aborted
  {
    if !Dated(f.name) then tx
    else
      var got :=
        if isolated && pgDate(NameDate(f.name)).None? then (tx, None)
        else GetOrInsert(tx, Toc.JournalTitle, NameDate(f.name), pgDate);
      match got.1
      case None => got.0
      case Some(id) =>
        if id == 0 then got.0
        else got.0.(db := got.0.db.(articles := got.0.db.articles + ArticleRows(SplitArticles(f.content, 0), id)))
  }

  /** The files in listing order, each processed in the same transaction. */
  function Loop(tx: Tx, files: seq<File>, pgDate: string -> Option<Toc.Date>, isolated: bool): (r: Tx)
    ensures |tx.db.articles| <= |r.db.articles| && r.db.articles[..|tx.db.articles|] == tx.db.articles
    ensures |tx.db.newspapers| <= |r.db.newspapers| &&
            r.db.nextId == tx.db.nextId + (|r.db.newspapers| - |tx.db.newspapers|)
    ensures isolated ==> r.aborted == tx.aborted
  {
    if files == [] then tx
    else ProcessFile(Loop(tx, files[..|files| - 1], pgDate, isolated), files[|files| - 1], pgDate, isolated)
  }

  /** `process_files_in_directory` as written: the loop, then one
      `conn.commit()`, which rolls back an aborted transaction. A rollback
      does not give back the values the `newspaper_id` sequence handed out:
      `nextval` is never undone, so the sequence keeps its advance. */
  function Run(db: Db, files: seq<File>, pgDate: string -> Option<Toc.Date>): (r: Db)
    ensures |db.articles| <= |r.articles| && r.articles[..|db.articles|] == db.articles
    ensures db.nextId <= r.nextId
  {
    var end := Loop(Tx(db, false), files, pgDate, false);
    if end.aborted then db.(nextId := end.db.nextId) else end.db
  }

  /** The corrected loader: a refused date skips only its own file. */
  function RunIsolated(db: Db, files: seq<File>, pgDate: string -> Option<Toc.Date>): (r: Db)
    ensures |db.articles| <= |r.articles| && r.articles[..|db.articles|] == db.articles
  {
    Loop(Tx(db, false), files, pgDate, true).db
  }

  /** The files whose date the database accepts, or that carry no date. */
  function Accepted(files: seq<File>, pgDate: string -> Option<Toc.Date>): (r: seq<File>)
    ensures forall f :: f in r <==> f in files && !Refused(f, pgDate)
  {
    if files == [] then []
    else
      var last := files[|files| - 1];
      assert files == files[..|files| - 1] + [last];
      Accepted(files[..|files| - 1], pgDate) + (if Refused(last, pgDate) then [] else [last])
  }

  /** The articles a run stores: for each dated file in order, its split pairs. */
  function DatedArticles(files: seq<File>): seq<(string, string)> {
    if files == [] then []
    else
      var last := files[|files| - 1];
      DatedArticles(files[..|files| - 1]) + (if Dated(last.name) then SplitArticles(last.content, 0) else [])
  }

  /** A file without `.txt` or without a date in its name changes nothing. */
  lemma {:induction false} SkipsUndated(tx: Tx, f: File, pgDate: string -> Option<Toc.Date>, isolated: bool)
    requires !Dated(f.name)
    ensures ProcessFile(tx, f, pgDate, isolated) == tx
  {
  }

  /** In an aborted transaction every file is a no-op. */
  lemma {:induction false} AbortedProcess(tx: Tx, f: File, pgDate: string -> Option<Toc.Date>, isolated: bool)
    requires tx.aborted
    ensures ProcessFile(tx, f, pgDate, isolated) == tx
  {
  }

  /** A refused date aborts the transaction as written, and is passed over
      by the corrected loader. */
  lemma {:induction false} RefusedFile(tx: Tx, f: File, pgDate: string -> Option<Toc.Date>, isolated: bool)
    requires Refused(f, pgDate)
    ensures ProcessFile(tx, f, pgDate, isolated) == if isolated then tx else tx.(aborted := true)
  {
  }

  /** A dated file with an accepted date, in a live transaction: the
      newspaper row for its date exists afterwards (inserted with the next
      serial id when it was missing, the table untouched otherwise), and the
      file's articles are appended under that row's id. */
  lemma {:induction false} StoresDated(tx: Tx, f: File, pgDate: string -> Option<Toc.Date>, isolated: bool)
    requires ValidDb(tx.db) && !tx.aborted && Dated(f.name) && !Refused(f, pgDate)
    ensures var r := ProcessFile(tx, f, pgDate, isolated);
            var d := pgDate(NameDate(f.name)).value;
            var id := Lookup(r.db.newspapers, Toc.JournalTitle, d);
            !r.aborted && ValidDb(r.db) && id.Some? && id.value >= 1 &&
            r.db.articles == tx.db.articles + ArticleRows(SplitArticles(f.content, 0), id.value) &&
            (Lookup(tx.db.newspapers, Toc.JournalTitle, d).Some? ==> r.db.newspapers == tx.db.newspapers) &&
            (Lookup(tx.db.newspapers, Toc.JournalTitle, d).None? ==>
               r.db.newspapers == tx.db.newspapers + [Newspaper(tx.db.nextId, Toc.JournalTitle, d)])
  {
    hide SplitArticles, FilenameDate.Search, DateText;
    var text := NameDate(f.name);
    GetOrInsertValid(tx, Toc.JournalTitle, text, pgDate);
    if Lookup(tx.db.newspapers, Toc.JournalTitle, pgDate(text).value).Some? {
      GetOrInsertExisting(tx, Toc.JournalTitle, text, pgDate);
    } else {
      GetOrInsertNew(tx, Toc.JournalTitle, text, pgDate);
    }
  }

  /** The two loaders differ only on a refused date. */
  lemma {:induction false} SameMode(tx: Tx, f: File, pgDate: string -> Option<Toc.Date>)
    requires !Refused(f, pgDate)
    ensures ProcessFile(tx, f, pgDate, true) == ProcessFile(tx, f, pgDate, false)
  {
  }

  /** Once aborted, the transaction stays as it was for the rest of the files. */
  lemma {:induction false} AbortedLoop(tx: Tx, files: seq<File>, pgDate: string -> Option<Toc.Date>, isolated: bool)
    requires tx.aborted
    ensures Loop(tx, files, pgDate, isolated) == tx
  {
    if files != [] {
      AbortedLoop(tx, files[..|files| - 1], pgDate, isolated);
      AbortedProcess(tx, files[|files| - 1], pgDate, isolated);
    }
  }

  /** As written, one refused file anywhere leaves the transaction aborted. */
  lemma {:induction false} RefusedAborts(tx: Tx, files: seq<File>, pgDate: string -> Option<Toc.Date>)
    requires exists k :: 0 <= k < |files| && Refused(files[k], pgDate)
    ensures Loop(tx, files, pgDate, false).aborted
  {
    hide ProcessFile, Refused;
    var front := files[..|files| - 1];
    var last := files[|files| - 1];
    var before := Loop(tx, front, pgDate, false);
    if Refused(last, pgDate) {
      RefusedFile(before, last, pgDate, false);
    } else {
      var k :| 0 <= k < |files| && Refused(files[k], pgDate);
      assert front[k] == files[k];
      RefusedAborts(tx, front, pgDate);
      AbortedProcess(before, last, pgDate, false);
    }
  }

  /** As written, a single refused date loses the whole run: the final
      commit rolls back every newspaper and article of every other file,
      while each rolled-back newspaper insert has still used up its serial
      id. */
  lemma {:induction false} RefusedDateLosesRun(db: Db, files: seq<File>, pgDate: string -> Option<Toc.Date>)
    requires exists k :: 0 <= k < |files| && Refused(files[k], pgDate)
    ensures var r := Run(db, files, pgDate);
            r.newspapers == db.newspapers && r.articles == db.articles
    ensures var attempted := Loop(Tx(db, false), files, pgDate, false).db.newspapers;
            Run(db, files, pgDate).nextId == db.nextId + (|attempted| - |db.newspapers|)
  {
    RefusedAborts(Tx(db, false), files, pgDate);
  }

  /** A first file that inserts a new newspaper, then a file with a refused
      date: the run stores nothing, yet the next newspaper inserted later
      gets an id one higher than it would have. */
  lemma {:induction false} RolledBackInsertUsesId(db: Db, a: File, b: File, pgDate: string -> Option<Toc.Date>)
    requires ValidDb(db) && Dated(a.name) && !Refused(a, pgDate) && Refused(b, pgDate)
    requires Lookup(db.newspapers, Toc.JournalTitle, pgDate(NameDate(a.name)).value).None?
    ensures Run(db, [a, b], pgDate) == db.(nextId := db.nextId + 1)
  {
    hide ProcessFile, Refused, Dated;
    var tx := Tx(db, false);
    assert [a, b][..1] == [a] && [a][..0] == [];
    var mid := ProcessFile(tx, a, pgDate, false);
    assert Loop(tx, [a], pgDate, false) == mid;
    StoresDated(tx, a, pgDate, false);
    RefusedFile(mid, b, pgDate, false);
    assert Loop(tx, [a, b], pgDate, false) == mid.(aborted := true);
  }

  /** The corrected loader stores the same as it would with the refused
      files removed from the directory. */
  lemma {:induction false} IsolatedIgnoresRefused(tx: Tx, files: seq<File>, pgDate: string -> Option<Toc.Date>)
    ensures Loop(tx, files, pgDate, true) == Loop(tx, Accepted(files, pgDate), pgDate, true)
  {
    if files != [] {
      var front := files[..|files| - 1];
      var last := files[|files| - 1];
      IsolatedIgnoresRefused(tx, front, pgDate);
      var acc := Accepted(front, pgDate);
      if Refused(last, pgDate) {
        RefusedFile(Loop(tx, front, pgDate, true), last, pgDate, true);
        assert Accepted(files, pgDate) == acc;
      } else {
        assert Accepted(files, pgDate) == acc + [last];
        assert (acc + [last])[..|acc|] == acc;
      }
    }
  }

  lemma {:induction false} RunIsolatedIgnoresRefused(db: Db, files: seq<File>, pgDate: string -> Option<Toc.Date>)
    ensures RunIsolated(db, files, pgDate) == RunIsolated(db, Accepted(files, pgDate), pgDate)
  {
    IsolatedIgnoresRefused(Tx(db, false), files, pgDate);
  }

  /** One file with no refused date, in a live transaction: both loaders
      take the same step, which keeps the serial invariant and appends the
      file's articles when its name is dated. */
  lemma {:induction false} FileStores(tx: Tx, f: File, pgDate: string -> Option<Toc.Date>, isolated: bool)
    requires ValidDb(tx.db) && !tx.aborted && !Refused(f, pgDate)
    ensures var r := ProcessFile(tx, f, pgDate, isolated);
            r == ProcessFile(tx, f, pgDate, !isolated) && !r.aborted && ValidDb(r.db) &&
            Pairs(r.db.articles) == Pairs(tx.db.articles) + (if Dated(f.name) then SplitArticles(f.content, 0) else [])
  {
    hide ProcessFile, SplitArticles, PieceFrom, FilenameDate.Search, DateText;
    SameMode(tx, f, pgDate);
    if Dated(f.name) {
      StoresDated(tx, f, pgDate, isolated);
      var r := ProcessFile(tx, f, pgDate, isolated);
      var id := Lookup(r.db.newspapers, Toc.JournalTitle, pgDate(NameDate(f.name)).value).value;
      PairsRows(tx.db.articles, SplitArticles(f.content, 0), id);
    } else {
      SkipsUndated(tx, f, pgDate, isolated);
    }
  }

  /** With no refused file, both loaders take the same steps, never abort,
      keep the serial invariant and append exactly the dated files' articles
      in listing order. */
  lemma {:induction false} LoopStores(tx: Tx, files: seq<File>, pgDate: string -> Option<Toc.Date>, isolated: bool)
    requires ValidDb(tx.db) && !tx.aborted
    requires forall k :: 0 <= k < |files| ==> !Refused(files[k], pgDate)
    ensures var r := Loop(tx, files, pgDate, isolated);
            r == Loop(tx, files, pgDate, !isolated) && !r.aborted && ValidDb(r.db) &&
            Pairs(r.db.articles) == Pairs(tx.db.articles) + DatedArticles(files)
  {
    hide ProcessFile, SplitArticles, Refused, Dated, Pairs, ValidDb;
    if files != [] {
      var front := files[..|files| - 1];
      var last := files[|files| - 1];
      assert forall k :: 0 <= k < |front| ==> front[k] == files[k];
      LoopStores(tx, front, pgDate, isolated);
      var before := Loop(tx, front, pgDate, isolated);
      FileStores(before, last, pgDate, isolated);
      Tables.AppendAssoc(Pairs(tx.db.articles), DatedArticles(front),
                         if Dated(last.name) then SplitArticles(last.content, 0) else []);
    }
  }

  /** With every date accepted, the run as written commits what the
      corrected loader commits. */
  lemma {:induction false} RunAgrees(db: Db, files: seq<File>, pgDate: string -> Option<Toc.Date>)
    requires ValidDb(db)
    requires forall k :: 0 <= k < |files| ==> !Refused(files[k], pgDate)
    ensures Run(db, files, pgDate) == RunIsolated(db, files, pgDate)
  {
    LoopStores(Tx(db, false), files, pgDate, false);
  }

  /** The corrected loader keeps the serial invariant and adds, after the
      existing articles, exactly the articles of the files whose dates were
      accepted, file by file in listing order. */
  lemma {:induction false} RunIsolatedStores(db: Db, files: seq<File>, pgDate: string -> Option<Toc.Date>)
    requires ValidDb(db)
    ensures var r := RunIsolated(db, files, pgDate);
            ValidDb(r) && Pairs(r.articles) == Pairs(db.articles) + DatedArticles(Accepted(files, pgDate))
  {
    var acc := Accepted(files, pgDate);
    RunIsolatedIgnoresRefused(db, files, pgDate);
    assert forall k :: 0 <= k < |acc| ==> !Refused(acc[k], pgDate) by {
      forall k | 0 <= k < |acc| ensures !Refused(acc[k], pgDate) {
        assert acc[k] in acc;
      }
    }
    LoopStores(Tx(db, false), acc, pgDate, true);
  }
}

=== FILE: sentiment.dfy ===
/** The sentiment stage (8_sentiment_analysis_to_DB.py): the count-bounded
    article pager, the label-to-scores mapping, the per-article skip on a
    failing model call, and the conflict-ignoring insert committed once per
    batch. The sentiment model and the insert's failure are parameters. */
module Sentiment {
  import opened Wrappers
  import opened Tables

  /** The model reads at most this many characters of an article. */
  const MaxChars: nat := 512

  /** One result of the sentiment model: label and score. */
  datatype Prediction = Prediction(labelText: string, score: real)

  /** The four score columns of `entity_sentiments`. */
  datatype Scores = Scores(pos: real, neg: real, neu: real, compound: real)

  /** A row of `articles` as fetched: id and summary (NULL allowed). */
  datatype Article = Article(id: int, summary: Option<string>)

  /** `content[:512]`. */
  function Truncate(s: string): (r: string)
    ensures |r| == Min(|s|, MaxChars)
    ensures r == s[..|r|]
  {
    if |s| <= MaxChars then s else s[..MaxChars]
  }

  /** The label mapping: the score goes to the positive, negative or neutral
      column by label, and always to the compound column. */
  function ScoresOf(r: Prediction): (s: Scores)
    ensures s.compound == r.score
    ensures s.pos + s.neg + s.neu == s.compound
    ensures r.labelText == "POSITIVE" ==> s.pos == r.score && s.neg == 0.0 && s.neu == 0.0
    ensures r.labelText == "NEGATIVE" ==> s.pos == 0.0 && s.neg == r.score && s.neu == 0.0
    ensures r.labelText != "POSITIVE" && r.labelText != "NEGATIVE" ==> s.pos == 0.0 && s.neg == 0.0 && s.neu == r.score
  {
    if r.labelText == "POSITIVE" then Scores(r.score, 0.0, 0.0, r.score)
    else if r.labelText == "NEGATIVE" then Scores(0.0, r.score, 0.0, r.score)
    else Scores(0.0, 0.0, r.score, r.score)
  }

  /** Exactly one of the three label columns can be non-zero. */
  lemma {:induction false} OneColumnCarriesScore(r: Prediction)
    ensures var s := ScoresOf(r);
            (s.pos != 0.0 ==> s.neg == 0.0 && s.neu == 0.0)
            && (s.neg != 0.0 ==> s.pos == 0.0 && s.neu == 0.0)
            && (s.neu != 0.0 ==> s.pos == 0.0 && s.neg == 0.0)
  {
  }

  /** The rows one article adds to the batch: one per model result, none when
      the summary is NULL (slicing raises) or the model raises. */
  function ArticleData(a: Article, model: string -> Option<seq<Prediction>>): (rows: seq<(int, Scores)>)
    ensures forall i :: 0 <= i < |rows| ==> rows[i].0 == a.id
    ensures a.summary.None? ==> rows == []
    ensures a.summary.Some? && model(Truncate(a.summary.value)).Some? ==>
              |rows| == |model(Truncate(a.summary.value)).value|
              && forall i :: 0 <= i < |rows| ==> rows[i].1 == ScoresOf(model(Truncate(a.summary.value)).value[i])
  {
    if a.summary.None? then []
    else match model(Truncate(a.summary.value))
      case None => []
      case Some(results) => seq(|results|, i requires 0 <= i < |results| => (a.id, ScoresOf(results[i])))
  }

  /** `entity_data` of one batch: the articles' rows in batch order; a failing
      article is skipped and the others still contribute. */
  function BatchData(batch: seq<Article>, model: string -> Option<seq<Prediction>>): (rows: seq<(int, Scores)>)
    ensures forall i :: 0 <= i < |rows| ==> exists j :: 0 <= j < |batch| && rows[i].0 == batch[j].id
  {
    if batch == [] then []
    else
      var head := ArticleData(batch[0], model);
      var tail := BatchData(batch[1..], model);
      assert forall i :: 0 <= i < |tail| ==> (head + tail)[|head| + i] == tail[i];
      assert forall i :: 0 <= i < |tail| ==> exists j :: 0 <= j < |batch| && tail[i].0 == batch[j].id by {
        forall i | 0 <= i < |tail| ensures exists j :: 0 <= j < |batch| && tail[i].0 == batch[j].id {
          var j :| 0 <= j < |batch| - 1 && tail[i].0 == batch[1..][j].id;
          assert batch[1..][j] == batch[j + 1];
        }
      }
      head + tail
  }

  lemma {:induction false} BatchDataAppend(xs: seq<Article>, ys: seq<Article>, model: string -> Option<seq<Prediction>>)
    ensures BatchData(xs + ys, model) == BatchData(xs, model) + BatchData(ys, model)
  {
    hide BatchData, ArticleData;
    if xs != [] {
      assert (xs + ys)[0] == xs[0] && (xs + ys)[1..] == xs[1..] + ys;
      BatchDataAppend(xs[1..], ys, model);
      BatchDataStep(xs, model);
      BatchDataStep(xs + ys, model);
      AppendAssoc(ArticleData(xs[0], model), BatchData(xs[1..], model), BatchData(ys, model));
    } else {
      assert xs + ys == ys;
      BatchDataStep(xs, model);
    }
  }

  /** A batch's rows: the first article's, then the rest's. */
  lemma BatchDataStep(batch: seq<Article>, model: string -> Option<seq<Prediction>>)
    ensures batch == [] ==> BatchData(batch, model) == []
    ensures batch != [] ==> BatchData(batch, model) == ArticleData(batch[0], model) + BatchData(batch[1..], model)
  {
  }

  /** `process_sentiment_analysis` over the fetched pages: each page's rows
      are inserted with `ON CONFLICT (entity_id) DO NOTHING` and committed; a
      failing insert leaves the transaction aborted, so that page's commit
      keeps none of its rows. `insertOk(k)` says whether page `k`'s inserts
      succeed. */
  function Run(table: map<int, Scores>, pages: seq<seq<Article>>, model: string -> Option<seq<Prediction>>,
               insertOk: nat -> bool, k: nat): (r: map<int, Scores>)
    ensures forall id :: id in table ==> id in r && r[id] == table[id]
    ensures forall id :: id in r && id !in table ==> exists p :: 0 <= p < |pages| && id in KeysOf(BatchData(pages[p], model))
    decreases |pages|
  {
    if pages == [] then table
    else
      var next := if insertOk(k) then InsertIfAbsent(table, BatchData(pages[0], model)) else table;
      var r := Run(next, pages[1..], model, insertOk, k + 1);
      assert forall id :: id in r && id !in table ==> exists p :: 0 <= p < |pages| && id in KeysOf(BatchData(pages[p], model)) by {
        forall id | id in r && id !in table
          ensures exists p :: 0 <= p < |pages| && id in KeysOf(BatchData(pages[p], model))
        {
          if id !in next {
            var p :| 0 <= p < |pages| - 1 && id in KeysOf(BatchData(pages[1..][p], model));
            assert pages[1..][p] == pages[p + 1];
          } else {
            assert id in KeysOf(BatchData(pages[0], model));
          }
        }
      }
      r
  }

  /** Inserting the pages one after another with nothing failing is inserting
      all their rows at once. */
  lemma {:induction false} InsertIfAbsentAppend(m: map<int, Scores>, xs: seq<(int, Scores)>, ys: seq<(int, Scores)>)
    ensures InsertIfAbsent(m, xs + ys) == InsertIfAbsent(InsertIfAbsent(m, xs), ys)
    decreases |xs|
  {
    if xs != [] {
      assert (xs + ys)[0] == xs[0] && (xs + ys)[1..] == xs[1..] + ys;
      var (k, v) := xs[0];
      InsertIfAbsentAppend(if k in m then m else m[k := v], xs[1..], ys);
    } else {
      assert xs + ys == ys;
    }
  }

  /** The rows of all pages, in page order. */
  function AllData(pages: seq<seq<Article>>, model: string -> Option<seq<Prediction>>): seq<(int, Scores)> {
    if pages == [] then [] else BatchData(pages[0], model) + AllData(pages[1..], model)
  }

  lemma {:induction false} RunAllOk(table: map<int, Scores>, pages: seq<seq<Article>>, model: string -> Option<seq<Prediction>>,
                                    insertOk: nat -> bool, k: nat)
    requires forall j :: insertOk(j)
    ensures Run(table, pages, model, insertOk, k) == InsertIfAbsent(table, AllData(pages, model))
    decreases |pages|
  {
    if pages != [] {
      var next := InsertIfAbsent(table, BatchData(pages[0], model));
      RunAllOk(next, pages[1..], model, insertOk, k + 1);
      InsertIfAbsentAppend(table, BatchData(pages[0], model), AllData(pages[1..], model));
    }
  }

  /** Running the stage again over the same pages with nothing failing adds
      and changes nothing. */
  lemma {:induction false} RunTwiceIsRunOnce(table: map<int, Scores>, pages: seq<seq<Article>>, model: string -> Option<seq<Prediction>>,
                          insertOk: nat -> bool)
    requires forall j :: insertOk(j)
    ensures Run(Run(table, pages, model, insertOk, 0), pages, model, insertOk, 0) == Run(table, pages, model, insertOk, 0)
  {
    var w := AllData(pages, model);
    RunAllOk(table, pages, model, insertOk, 0);
    RunAllOk(InsertIfAbsent(table, w), pages, model, insertOk, 0);
    InsertIfAbsentIdempotent(table, w);
  }

  /** With the count read once and the table unchanged, the pages visit every
      article exactly once, and every inserted row is keyed by a visited
      article. */
  lemma {:induction false} AllDataOfCountPager(rows: seq<Article>, batchSize: nat, model: string -> Option<seq<Prediction>>)
    requires batchSize > 0
    ensures AllData(CountPager(rows, |rows|, batchSize, 0), model) == BatchData(rows, model)
  {
    CountPagerCovers(rows, batchSize, 0);
    AllDataFlatten(CountPager(rows, |rows|, batchSize, 0), model);
  }

  lemma {:induction false} AllDataFlatten(pages: seq<seq<Article>>, model: string -> Option<seq<Prediction>>)
    ensures AllData(pages, model) == BatchData(Flatten(pages), model)
  {
    if pages != [] {
      AllDataFlatten(pages[1..], model);
      BatchDataAppend(pages[0], Flatten(pages[1..]), model);
    }
  }
}

=== FILE: summary_rows.dfy ===
/** The `articles` columns read and written by the two summary stages
    (11_NER_TO_SUMMARY.py and 20.1_LDA_to_DB_SUMMARIES.py), and the query
    both page through: the id and summary of every row whose summary is not
    NULL, in table order. */
module SummaryRows {
  import opened Wrappers

  /** One stored entity of `summary_ner_entities`: `entity_group` and `word`
      of a model entity, renamed. */
  datatype Grouped = Grouped(entityType: string, entityValue: string)

  /** A row of `articles`, with the summary columns. */
  datatype Article = Article(id: int, summary: Option<string>, summaryTopics: Option<string>,
                             summaryNerEntities: Option<seq<Grouped>>)

  /** The `batch_size` both stages page with. */
  const PageSize: nat := 100

  /** `SELECT article_id, summary FROM articles WHERE summary IS NOT NULL`,
      in table order. */
  function Fetchable(t: seq<Article>): (r: seq<(int, string)>)
    ensures |r| <= |t|
    ensures (forall j :: 0 <= j < |t| ==> t[j].summary.None?) ==> r == []
  {
    if t == [] then []
    else
      var tail := Fetchable(t[1..]);
      assert forall j :: 1 <= j < |t| ==> t[j] == t[1..][j - 1];
      if t[0].summary.Some? then [(t[0].id, t[0].summary.value)] + tail else tail
  }

  /** Every row with a summary is fetched. */
  lemma {:induction false} FetchableComplete(t: seq<Article>, j: nat)
    requires j < |t| && t[j].summary.Some?
    ensures (t[j].id, t[j].summary.value) in Fetchable(t)
  {
    if j > 0 {
      assert t[1..][j - 1] == t[j];
      FetchableComplete(t[1..], j - 1);
    }
  }

  /** Every fetched pair is the id and summary of some row. */
  lemma {:induction false} FetchableSound(t: seq<Article>, x: (int, string))
    requires x in Fetchable(t)
    ensures exists j :: 0 <= j < |t| && t[j].id == x.0 && t[j].summary == Some(x.1)
  {
    if t[0].summary.Some? && x == (t[0].id, t[0].summary.value) {
      assert t[0].id == x.0 && t[0].summary == Some(x.1);
    } else {
      FetchableSound(t[1..], x);
      var j :| 0 <= j < |t[1..]| && t[1..][j].id == x.0 && t[1..][j].summary == Some(x.1);
      assert t[j + 1] == t[1..][j];
    }
  }

  predicate DistinctRowIds(t: seq<Article>) {
    forall a, b :: 0 <= a < b < |t| ==> t[a].id != t[b].id
  }

  /** Distinct row ids give distinct fetched ids. */
  lemma {:induction false} FetchableDistinct(t: seq<Article>)
    requires DistinctRowIds(t)
    ensures forall a, b :: 0 <= a < b < |Fetchable(t)| ==> Fetchable(t)[a].0 != Fetchable(t)[b].0
  {
    if t != [] {
      assert DistinctRowIds(t[1..]) by {
        forall a, b | 0 <= a < b < |t[1..]| ensures t[1..][a].id != t[1..][b].id {
          assert t[1..][a] == t[a + 1] && t[1..][b] == t[b + 1];
        }
      }
      var tail := Fetchable(t[1..]);
      FetchableDistinct(t[1..]);
      if t[0].summary.Some? {
        forall b | 0 <= b < |tail| ensures tail[b].0 != t[0].id {
          FetchableSound(t[1..], tail[b]);
          var j :| 0 <= j < |t[1..]| && t[1..][j].id == tail[b].0 && t[1..][j].summary == Some(tail[b].1);
          assert t[1..][j] == t[j + 1];
        }
        var r := Fetchable(t);
        forall a, b | 0 <= a < b < |r| ensures r[a].0 != r[b].0 {
          assert r[b] == tail[b - 1];
          if a > 0 { assert r[a] == tail[a - 1]; }
        }
      }
    }
  }


  /** Two tables agreeing on ids and summaries row by row fetch the same
      pairs: writing the other columns does not move the filter. */
  lemma {:induction false} FetchableUnchanged(t: seq<Article>, u: seq<Article>)
    requires |t| == |u| && forall j :: 0 <= j < |t| ==> t[j].id == u[j].id && t[j].summary == u[j].summary
    ensures Fetchable(t) == Fetchable(u)
  {
    if t != [] {
      assert forall j :: 0 <= j < |t| - 1 ==> t[1..][j] == t[j + 1] && u[1..][j] == u[j + 1];
      FetchableUnchanged(t[1..], u[1..]);
    }
  }

  /** With distinct row ids, a fetched id names exactly one row, and the
      fetched summary is that row's. */
  lemma {:induction false} FetchedRow(t: seq<Article>, i: nat, j: nat)
    requires DistinctRowIds(t)
    requires i < |Fetchable(t)| && j < |t| && t[j].id == Fetchable(t)[i].0
    ensures t[j].summary == Some(Fetchable(t)[i].1)
  {
    FetchableSound(t, Fetchable(t)[i]);
  }
}

=== FILE: tables.dfy ===
/** Abstract tables, the write disciplines the stages use on them, and the
    LIMIT/OFFSET pagers the stages read them with.

    A keyed table is a `map` from its key to its row; a table read without
    `ORDER BY` is an ordered `seq` of rows, in the order the scan returns
    them. */
module Tables {
  import opened Wrappers


  function Min(a: int, b: int): int { if a <= b then a else b }

  /** The rows of consecutive pages, in page order. */
  function Flatten<R>(pages: seq<seq<R>>): seq<R> {
    if pages == [] then [] else pages[0] + Flatten(pages[1..])
  }

  /** Flattening a first page and the rest; and no pages are no rows. */
  lemma FlattenCons<R>(p: seq<R>, rest: seq<seq<R>>)
    ensures Flatten([p] + rest) == p + Flatten(rest)
    ensures Flatten<R>([]) == []
  {
    assert ([p] + rest)[1..] == rest;
  }

  lemma {:induction false} FlattenAppend<R>(a: seq<seq<R>>, b: seq<seq<R>>)
    ensures Flatten(a + b) == Flatten(a) + Flatten(b)
  {
    if a != [] {
      assert (a + b)[0] == a[0] && (a + b)[1..] == a[1..] + b;
      FlattenAppend(a[1..], b);
      assert Flatten(a + b) == a[0] + Flatten(a[1..] + b);
      assert Flatten(a) == a[0] + Flatten(a[1..]);
    } else {
      assert a + b == b;
    }
  }

  lemma {:induction false} AppendAssoc<T>(a: seq<T>, b: seq<T>, c: seq<T>)
    ensures (a + b) + c == a + (b + c)
  {
  }

  lemma {:induction false} SliceJoin<T>(s: seq<T>, a: nat, b: nat, c: nat)
    requires a <= b <= c <= |s|
    ensures s[a..b] + s[b..c] == s[a..c]
  {
  }

  lemma {:induction false} Split3<T>(s: seq<T>, a: nat, b: nat)
    requires a <= b <= |s|
    ensures s[..a] + s[a..b] + s[b..] == s
  {
  }

  // ------------------------------------------------------------- paging

  /** `SELECT ... LIMIT limit OFFSET offset` over rows in scan order. */
  function Page<R>(rows: seq<R>, offset: nat, limit: nat): (p: seq<R>)
    ensures |p| <= limit
    ensures p == [] <==> offset >= |rows| || limit == 0
    ensures offset < |rows| ==> p == rows[offset..Min(offset + limit, |rows|)]
  {
    if offset >= |rows| then [] else rows[offset..Min(offset + limit, |rows|)]
  }

  /** Pages at offsets `offset`, `offset + size`, ... while the offset is below
      `total`, a row count read once before the first page. */
  function CountPager<R>(rows: seq<R>, total: nat, size: nat, offset: nat): (pages: seq<seq<R>>)
    requires size > 0
    ensures forall i :: 0 <= i < |pages| ==> |pages[i]| <= size
    decreases total - offset
  {
    if offset >= total then [] else [Page(rows, offset, size)] + CountPager(rows, total, size, offset + size)
  }

  /** Over a table that does not change during the pass, counting first and
      paging up to the count returns every row exactly once, in scan order. */
  lemma {:induction false} CountPagerCovers<R>(rows: seq<R>, size: nat, offset: nat)
    requires size > 0 && offset <= |rows|
    ensures Flatten(CountPager(rows, |rows|, size, offset)) == rows[offset..]
    decreases |rows| - offset
  {
    if offset < |rows| {
      var next := Min(offset + size, |rows|);
      CountPagerCovers(rows, size, next);
      if offset + size > |rows| {
        assert CountPager(rows, |rows|, size, offset + size) == [];
      }
    }
  }

  /** Pages at offsets `offset`, `offset + size`, ... until the first empty page. */
  function EmptyStopPager<R>(rows: seq<R>, size: nat, offset: nat): (pages: seq<seq<R>>)
    requires size > 0
    ensures forall i :: 0 <= i < |pages| ==> 0 < |pages[i]| <= size
    decreases |rows| - offset
  {
    var p := Page(rows, offset, size);
    if p == [] then [] else [p] + EmptyStopPager(rows, size, offset + size)
  }

  /** Over a table that does not change during the pass, paging until the first
      empty page returns every row exactly once, in scan order. */
  lemma {:induction false} EmptyStopPagerCovers<R>(rows: seq<R>, size: nat, offset: nat)
    requires size > 0 && offset <= |rows|
    ensures Flatten(EmptyStopPager(rows, size, offset)) == rows[offset..]
    decreases |rows| - offset
  {
    if offset < |rows| {
      EmptyStopPagerCovers(rows, size, Min(offset + size, |rows|));
      if offset + size > |rows| {
        assert Page(rows, offset + size, size) == [];
      }
    }
  }

  // ------------------------------------------------------------- writes

  /** The keys a sequence of writes touches. */
  function KeysOf<K(==), V>(writes: seq<(K, V)>): set<K> {
    set i | 0 <= i < |writes| :: writes[i].0
  }

  /** The value of the first write to key `k`. */
  function FirstFor<K(==), V>(writes: seq<(K, V)>, k: K): V
    requires k in KeysOf(writes)
  {
    if writes[0].0 == k then writes[0].1
    else
      assert k in KeysOf(writes[1..]) by {
        var i :| 0 <= i < |writes| && writes[i].0 == k;
        assert writes[1..][i - 1] == writes[i];
      }
      FirstFor(writes[1..], k)
  }

  /** The value of the last write to key `k`. */
  function LastFor<K(==), V>(writes: seq<(K, V)>, k: K): V
    requires k in KeysOf(writes)
  {
    var n := |writes| - 1;
    if writes[n].0 == k then writes[n].1
    else
      assert k in KeysOf(writes[..n]) by {
        var i :| 0 <= i < |writes| && writes[i].0 == k;
        assert writes[..n][i] == writes[i];
      }
      LastFor(writes[..n], k)
  }

  lemma {:induction false} KeysOfCons<K, V>(writes: seq<(K, V)>)
    requires writes != []
    ensures KeysOf(writes) == {writes[0].0} + KeysOf(writes[1..])
  {
    forall k | k in KeysOf(writes) ensures k in {writes[0].0} + KeysOf(writes[1..]) {
      var i :| 0 <= i < |writes| && writes[i].0 == k;
      if i > 0 { assert writes[1..][i - 1] == writes[i]; }
    }
    forall k | k in KeysOf(writes[1..]) ensures k in KeysOf(writes) {
      var i :| 0 <= i < |writes[1..]| && writes[1..][i].0 == k;
      assert writes[i + 1] == writes[1..][i];
    }
  }

  /** The last write to `k` in `writes` is the last one in its tail when the
      tail writes `k` at all, and the head write otherwise. */
  lemma {:induction false} LastForCons<K, V>(writes: seq<(K, V)>, k: K)
    requires writes != [] && k in KeysOf(writes)
    ensures k in KeysOf(writes[1..]) ==> LastFor(writes, k) == LastFor(writes[1..], k)
    ensures k !in KeysOf(writes[1..]) ==> writes[0].0 == k && LastFor(writes, k) == writes[0].1
    decreases |writes|
  {
    KeysOfCons(writes);
    var n := |writes| - 1;
    if n > 0 {
      if writes[n].0 != k {
        assert writes[..n][1..] == writes[1..][..n - 1];
        assert k in KeysOf(writes[..n]) by {
          var i :| 0 <= i < |writes| && writes[i].0 == k;
          assert writes[..n][i] == writes[i];
        }
        LastForCons(writes[..n], k);
        KeysOfCons(writes[..n]);
        if k in KeysOf(writes[1..]) {
          assert k in KeysOf(writes[..n][1..]) by {
            var i :| 0 <= i < |writes[1..]| && writes[1..][i].0 == k;
            assert i != n - 1;
            assert writes[..n][1..][i] == writes[1..][i];
          }
        }
      } else {
        assert writes[1..][n - 1] == writes[n];
      }
    }
  }

  lemma {:induction false} KeysOfAppend<K, V>(xs: seq<(K, V)>, ys: seq<(K, V)>)
    ensures KeysOf(xs + ys) == KeysOf(xs) + KeysOf(ys)
  {
    forall k | k in KeysOf(xs + ys) ensures k in KeysOf(xs) + KeysOf(ys) {
      var i :| 0 <= i < |xs + ys| && (xs + ys)[i].0 == k;
      if i >= |xs| { assert ys[i - |xs|] == (xs + ys)[i]; }
    }
    forall k | k in KeysOf(ys) ensures k in KeysOf(xs + ys) {
      var i :| 0 <= i < |ys| && ys[i].0 == k;
      assert (xs + ys)[|xs| + i] == ys[i];
    }
    forall k | k in KeysOf(xs) ensures k in KeysOf(xs + ys) {
      var i :| 0 <= i < |xs| && xs[i].0 == k;
      assert (xs + ys)[i] == xs[i];
    }
  }

  /** The last write to `k` in `xs + ys` is its last write in `ys` when `ys`
      writes it, and its last write in `xs` otherwise. */
  lemma {:induction false} LastForAppend<K, V>(xs: seq<(K, V)>, ys: seq<(K, V)>, k: K)
    requires k in KeysOf(xs) + KeysOf(ys)
    ensures k in KeysOf(xs + ys)
    ensures k in KeysOf(ys) ==> LastFor(xs + ys, k) == LastFor(ys, k)
    ensures k !in KeysOf(ys) ==> LastFor(xs + ys, k) == LastFor(xs, k)
    decreases |ys|
  {
    KeysOfAppend(xs, ys);
    if ys == [] {
      assert xs + ys == xs;
    } else {
      var n := |ys| - 1;
      assert (xs + ys)[..|xs + ys| - 1] == xs + ys[..n];
      assert (xs + ys)[|xs + ys| - 1] == ys[n];
      if ys[n].0 != k {
        assert KeysOf(ys) == KeysOf(ys[..n]) + {ys[n].0} by {
          KeysOfAppend(ys[..n], [ys[n]]);
          assert ys[..n] + [ys[n]] == ys;
        }
        LastForAppend(xs, ys[..n], k);
      }
    }
  }

  /** `INSERT ... ON CONFLICT (key) DO NOTHING`, one write after another. */
  function InsertIfAbsent<K(==), V>(m: map<K, V>, writes: seq<(K, V)>): (r: map<K, V>)
    ensures r.Keys == m.Keys + KeysOf(writes)
    ensures forall k :: k in m ==> r[k] == m[k]
    ensures forall k :: k in r && k !in m ==> k in KeysOf(writes) && r[k] == FirstFor(writes, k)
    decreases |writes|
  {
    if writes == [] then m
    else
      KeysOfCons(writes);
      var (k, v) := writes[0];
      InsertIfAbsent(if k in m then m else m[k := v], writes[1..])
  }

  /** `INSERT ... ON CONFLICT (key) DO UPDATE` (and `UPDATE` of a present key),
      one write after another. */
  function Upsert<K(==), V>(m: map<K, V>, writes: seq<(K, V)>): (r: map<K, V>)
    ensures r.Keys == m.Keys + KeysOf(writes)
    ensures forall k :: k in KeysOf(writes) ==> r[k] == LastFor(writes, k)
    ensures forall k :: k in m && k !in KeysOf(writes) ==> r[k] == m[k]
    decreases |writes|
  {
    if writes == [] then m
    else
      KeysOfCons(writes);
      var (k, v) := writes[0];
      var r := Upsert(m[k := v], writes[1..]);
      assert forall j :: j in KeysOf(writes) ==> r[j] == LastFor(writes, j) by {
        forall j | j in KeysOf(writes) ensures r[j] == LastFor(writes, j) {
          LastForCons(writes, j);
        }
      }
      r
  }

  /** Doing the same conflict-ignoring inserts again adds and changes nothing. */
  lemma {:induction false} InsertIfAbsentIdempotent<K, V>(m: map<K, V>, writes: seq<(K, V)>)
    ensures InsertIfAbsent(InsertIfAbsent(m, writes), writes) == InsertIfAbsent(m, writes)
  {
  }

  /** Doing the same upserts again leaves the table as it is. */
  lemma {:induction false} UpsertIdempotent<K, V>(m: map<K, V>, writes: seq<(K, V)>)
    ensures Upsert(Upsert(m, writes), writes) == Upsert(m, writes)
  {
  }

  /** No key is written twice. */
  predicate DistinctKeys<K(==), V>(writes: seq<(K, V)>) {
    forall i, j :: 0 <= i < j < |writes| ==> writes[i].0 != writes[j].0
  }

  /** Plain `INSERT` into a table keyed by its primary key, one write after
      another in one transaction: a key already present, in the table or
      earlier in the same transaction, raises, and the uncommitted
      transaction is lost (`None`). */
  function InsertAll<K(==), V>(m: map<K, V>, writes: seq<(K, V)>): (r: Option<map<K, V>>)
    ensures r.Some? ==> forall k :: k in m ==> k in r.value && r.value[k] == m[k]
    ensures writes != [] && writes[0].0 in m ==> r.None?
    decreases |writes|
  {
    if writes == [] then Some(m)
    else if writes[0].0 in m then None
    else InsertAll(m[writes[0].0 := writes[0].1], writes[1..])
  }

  /** The inserts go through exactly when every key is new to the table and
      written once. */
  lemma {:induction false} InsertAllOk<K, V>(m: map<K, V>, writes: seq<(K, V)>)
    ensures InsertAll(m, writes).Some? <==>
              DistinctKeys(writes) && forall i :: 0 <= i < |writes| ==> writes[i].0 !in m
    decreases |writes|
  {
    if writes != [] {
      var m' := m[writes[0].0 := writes[0].1];
      InsertAllOk(m', writes[1..]);
      assert forall i :: 1 <= i < |writes| ==> writes[i] == writes[1..][i - 1];
      if writes[0].0 !in m && InsertAll(m', writes[1..]).Some? {
        assert DistinctKeys(writes) by {
          forall i, j | 0 <= i < j < |writes| ensures writes[i].0 != writes[j].0 {
            if i == 0 {
              assert writes[1..][j - 1].0 !in m';
            } else {
              assert writes[1..][i - 1].0 != writes[1..][j - 1].0;
            }
          }
        }
      }
    }
  }

  /** A successful run of inserts keeps every old row and adds exactly the
      written rows. */
  lemma {:induction false} InsertAllContents<K, V>(m: map<K, V>, writes: seq<(K, V)>)
    requires InsertAll(m, writes).Some?
    ensures InsertAll(m, writes).value.Keys == m.Keys + KeysOf(writes)
    ensures forall k :: k in m ==> InsertAll(m, writes).value[k] == m[k]
    ensures forall i :: 0 <= i < |writes| ==> InsertAll(m, writes).value[writes[i].0] == writes[i].1
    decreases |writes|
  {
    if writes != [] {
      var m' := m[writes[0].0 := writes[0].1];
      InsertAllContents(m', writes[1..]);
      KeysOfCons(writes);
      InsertAllOk(m', writes[1..]);
      var r := InsertAll(m, writes).value;
      forall i | 0 <= i < |writes| ensures r[writes[i].0] == writes[i].1 {
        if i > 0 {
          assert writes[i] == writes[1..][i - 1];
        }
      }
    }
  }

  /** Running the same non-empty inserts again hits the primary key and
      loses the transaction. */
  lemma {:induction false} InsertAllAgain<K, V>(m: map<K, V>, writes: seq<(K, V)>)
    requires InsertAll(m, writes).Some? && writes != []
    ensures InsertAll(InsertAll(m, writes).value, writes).None?
  {
    InsertAllContents(m, writes);
  }

  /** `UPDATE ... SET ... WHERE key = k` over a table kept as a row
      sequence: the rows with key `k` get value `v`, every other row stays. */
  function UpdateKey<R, V>(rows: seq<R>, key: R -> int, put: (R, V) -> R, k: int, v: V): (r: seq<R>)
    ensures |r| == |rows|
    ensures forall i :: 0 <= i < |rows| ==> r[i] == (if key(rows[i]) == k then put(rows[i], v) else rows[i])
  {
    seq(|rows|, i requires 0 <= i < |rows| => if key(rows[i]) == k then put(rows[i], v) else rows[i])
  }

  /** `UPDATE ... SET ... WHERE key = k`, one statement per write, in order. */
  function UpdateEach<R, V>(rows: seq<R>, writes: seq<(int, V)>, key: R -> int, put: (R, V) -> R): (r: seq<R>)
    ensures |r| == |rows|
    decreases |writes|
  {
    if writes == [] then rows
    else UpdateEach(UpdateKey(rows, key, put, writes[0].0, writes[0].1), writes[1..], key, put)
  }

  /** When a write keeps the key and a later write overrides an earlier one,
      each row whose key was written holds the last value written for it, and
      every other row is unchanged. */
  lemma {:induction false} UpdateEachRows<R, V>(rows: seq<R>, writes: seq<(int, V)>, key: R -> int, put: (R, V) -> R)
    requires forall x, v :: key(put(x, v)) == key(x)
    requires forall x, v, w :: put(put(x, v), w) == put(x, w)
    ensures forall i :: 0 <= i < |rows| ==>
              UpdateEach(rows, writes, key, put)[i]
                == if key(rows[i]) in KeysOf(writes) then put(rows[i], LastFor(writes, key(rows[i]))) else rows[i]
    decreases |writes|
  {
    if writes != [] {
      var u := UpdateKey(rows, key, put, writes[0].0, writes[0].1);
      UpdateEachRows(u, writes[1..], key, put);
      KeysOfCons(writes);
      forall i | 0 <= i < |rows|
        ensures UpdateEach(rows, writes, key, put)[i]
                  == if key(rows[i]) in KeysOf(writes) then put(rows[i], LastFor(writes, key(rows[i]))) else rows[i]
      {
        assert key(u[i]) == key(rows[i]);
        if key(rows[i]) in KeysOf(writes) { LastForCons(writes, key(rows[i])); }
      }
    }
  }

  /** Writes with pairwise distinct keys: the value at position `j` is the
      last one written for its key. */
  lemma {:induction false} LastForDistinct<V>(ws: seq<(int, V)>, j: nat)
    requires j < |ws|
    requires forall a, b :: 0 <= a < b < |ws| ==> ws[a].0 != ws[b].0
    ensures ws[j].0 in KeysOf(ws) && LastFor(ws, ws[j].0) == ws[j].1
    decreases |ws|
  {
    var n := |ws| - 1;
    if j < n {
      assert ws[..n][j] == ws[j];
      LastForDistinct(ws[..n], j);
    }
  }
}

=== FILE: text.dfy ===
/** Character classes and string helpers shared by every stage.

    Characters are modelled over ASCII: Python's Unicode-aware `\w`, `\s`,
    `\d`, `str.isalpha`, `str.lower`, `str.split()` and `str.strip()` are
    given their ASCII behaviour here. */
module Text {
  import opened Wrappers

  predicate IsUpper(c: char) { 'A' <= c <= 'Z' }
  predicate IsLower(c: char) { 'a' <= c <= 'z' }
  predicate IsAlpha(c: char) { IsUpper(c) || IsLower(c) }
  predicate IsDigit(c: char) { '0' <= c <= '9' }

  /** `\w` of Python's `re`. */
  predicate IsWordChar(c: char) { IsAlpha(c) || IsDigit(c) || c == '_' }

  /** `\s` of Python's `re`, and the separators of `str.split()` and `str.strip()`. */
  predicate IsSpace(c: char) {
    c == ' ' || c == '\t' || c == '\n' || c == '\r' || c == '\U{0B}' || c == '\U{0C}'
    || ('\U{1C}' <= c <= '\U{1F}')
  }

  /** `str.isalpha()`: non-empty and every character a letter. */
  predicate IsAlphaWord(w: string) {
    |w| > 0 && forall i :: 0 <= i < |w| ==> IsAlpha(w[i])
  }

  predicate NoSpace(s: string) { forall i :: 0 <= i < |s| ==> !IsSpace(s[i]) }
  predicate AllSpace(s: string) { forall i :: 0 <= i < |s| ==> IsSpace(s[i]) }

  /** No whitespace at either end. */
  predicate NoEdgeSpace(s: string) {
    s == [] || (!IsSpace(s[0]) && !IsSpace(s[|s| - 1]))
  }

  /** No two whitespace characters next to each other. */
  predicate SingleSpaced(s: string) {
    forall i :: 0 <= i < |s| - 1 && IsSpace(s[i]) ==> !IsSpace(s[i + 1])
  }

  /** Every whitespace character is a plain space. */
  predicate PlainSpaces(s: string) {
    forall i :: 0 <= i < |s| && IsSpace(s[i]) ==> s[i] == ' '
  }

  function Lower(c: char): char {
    if IsUpper(c) then (c as int + 32) as char else c
  }

  /** `str.lower()`. */
  function LowerStr(s: string): (r: string)
    ensures |r| == |s|
  {
    seq(|s|, i requires 0 <= i < |s| => Lower(s[i]))
  }

  /** Keeps, in order, the characters satisfying `keep` (a negated character
      class removed by `re.sub(..., '', s)`). */
  function Keep(s: string, keep: char -> bool): (r: string)
    ensures |r| <= |s|
    ensures forall i :: 0 <= i < |r| ==> keep(r[i]) && r[i] in s
    ensures (forall i :: 0 <= i < |s| ==> keep(s[i])) ==> r == s
  {
    if s == [] then []
    else if keep(s[0]) then [s[0]] + Keep(s[1..], keep)
    else Keep(s[1..], keep)
  }

  lemma {:induction false} KeepAppend(a: string, b: string, keep: char -> bool)
    ensures Keep(a + b, keep) == Keep(a, keep) + Keep(b, keep)
  {
    if a != [] {
      assert (a + b)[1..] == a[1..] + b;
      KeepAppend(a[1..], b, keep);
    } else {
      assert a + b == b;
    }
  }

  // ---------------------------------------------------------------- strip

  /** Length of the leading whitespace run. */
  function LeadingSpaces(s: string): (n: nat)
    ensures n <= |s|
    ensures forall i :: 0 <= i < n ==> IsSpace(s[i])
    ensures n < |s| ==> !IsSpace(s[n])
  {
    if s == [] || !IsSpace(s[0]) then 0 else 1 + LeadingSpaces(s[1..])
  }

  /** Length of the trailing whitespace run. */
  function TrailingSpaces(s: string): (n: nat)
    ensures n <= |s|
    ensures forall i :: |s| - n <= i < |s| ==> IsSpace(s[i])
    ensures n < |s| ==> !IsSpace(s[|s| - n - 1])
  {
    if s == [] || !IsSpace(s[|s| - 1]) then 0 else 1 + TrailingSpaces(s[..|s| - 1])
  }

  /** `str.lstrip()`. */
  function LStrip(s: string): string {
    s[LeadingSpaces(s)..]
  }

  /** `str.strip()`: the text between the leading and the trailing whitespace. */
  function Strip(s: string): (r: string)
    ensures NoEdgeSpace(r)
    ensures LeadingSpaces(s) + |r| <= |s| && r == s[LeadingSpaces(s)..LeadingSpaces(s) + |r|]
    ensures r == [] <==> AllSpace(s)
    ensures NoEdgeSpace(s) ==> r == s
  {
    var t := LStrip(s);
    var r := t[..|t| - TrailingSpaces(t)];
    r
  }

  /** A whitespace run of length `n` followed by a non-space is the leading run. */
  lemma {:induction false} LeadingSpacesOf(s: string, n: nat)
    requires n < |s| && !IsSpace(s[n]) && forall k :: 0 <= k < n ==> IsSpace(s[k])
    ensures LeadingSpaces(s) == n
  {
    if n > 0 {
      LeadingSpacesOf(s[1..], n - 1);
    }
  }

  /** A non-space followed by a whitespace run of length `n` is the trailing run. */
  lemma {:induction false} TrailingSpacesOf(s: string, n: nat)
    requires n < |s| && !IsSpace(s[|s| - n - 1]) && forall k :: |s| - n <= k < |s| ==> IsSpace(s[k])
    ensures TrailingSpaces(s) == n
  {
    if n > 0 {
      TrailingSpacesOf(s[..|s| - 1], n - 1);
    }
  }

  /** Stripping removes exactly the whitespace padding around a text with no
      whitespace at its ends. */
  lemma {:induction false} StripPadded(s: string, pad1: string, t: string, pad2: string)
    requires AllSpace(pad1) && AllSpace(pad2) && NoEdgeSpace(t)
    requires s == pad1 + t + pad2
    ensures Strip(s) == t
  {
    if t == [] {
      assert AllSpace(s) by {
        assert s == pad1 + pad2;
        forall k | 0 <= k < |s| ensures IsSpace(s[k]) {
          if k < |pad1| { assert s[k] == pad1[k]; } else { assert s[k] == pad2[k - |pad1|]; }
        }
      }
    } else {
      assert s[|pad1|] == t[0];
      assert forall k :: 0 <= k < |pad1| ==> s[k] == pad1[k];
      LeadingSpacesOf(s, |pad1|);
      var u := LStrip(s);
      assert u == t + pad2;
      assert u[|u| - |pad2| - 1] == t[|t| - 1];
      assert forall k :: |u| - |pad2| <= k < |u| ==> u[k] == pad2[k - |t|];
      TrailingSpacesOf(u, |pad2|);
      assert u[..|u| - |pad2|] == t;
    }
  }

  lemma {:induction false} SubstringKeepsSingleSpaced(s: string, a: nat, b: nat)
    requires a <= b <= |s| && SingleSpaced(s)
    ensures SingleSpaced(s[a..b])
  {
    forall i | 0 <= i < b - a - 1 && IsSpace(s[a..b][i]) ensures !IsSpace(s[a..b][i + 1]) {
      assert s[a..b][i] == s[a + i] && s[a..b][i + 1] == s[a + i + 1];
    }
  }

  lemma {:induction false} SubstringKeepsPlainSpaces(s: string, a: nat, b: nat)
    requires a <= b <= |s| && PlainSpaces(s)
    ensures PlainSpaces(s[a..b])
  {
    forall i | 0 <= i < b - a && IsSpace(s[a..b][i]) ensures s[a..b][i] == ' ' {
      assert s[a..b][i] == s[a + i];
    }
  }

  // ------------------------------------------------------------- collapse

  /** `re.sub(r'\s+', ' ', s)`: each maximal whitespace run becomes one space. */
  function CollapseSpace(s: string): (r: string)
    ensures |r| <= |s|
    ensures PlainSpaces(r) && SingleSpaced(r)
    ensures forall i :: 0 <= i < |r| && !IsSpace(r[i]) ==> r[i] in s
    ensures |s| > 0 ==> |r| > 0 && (IsSpace(r[0]) <==> IsSpace(s[0]))
    ensures |s| > 0 ==> (IsSpace(r[|r| - 1]) <==> IsSpace(s[|s| - 1]))
    decreases |s|
  {
    if s == [] then []
    else if IsSpace(s[0]) then
      var t := LStrip(s);
      [' '] + CollapseSpace(t)
    else
      [s[0]] + CollapseSpace(s[1..])
  }

  /** Text that is already single-spaced with plain spaces is a fixpoint of `CollapseSpace`. */
  lemma {:induction false} CollapseSpaceFixpoint(s: string)
    requires PlainSpaces(s) && SingleSpaced(s)
    ensures CollapseSpace(s) == s
    decreases |s|
  {
    if s != [] {
      SubstringKeepsSingleSpaced(s, 1, |s|);
      SubstringKeepsPlainSpaces(s, 1, |s|);
      if IsSpace(s[0]) {
        assert LStrip(s) == s[1..] by {
          if |s| > 1 { assert !IsSpace(s[1]); }
        }
      }
      CollapseSpaceFixpoint(s[1..]);
    }
  }

  predicate NotSpace(c: char) { !IsSpace(c) }

  /** Text with nothing worth keeping keeps nothing. */
  lemma {:induction false} KeepNone(s: string, keep: char -> bool)
    requires forall i :: 0 <= i < |s| ==> !keep(s[i])
    ensures Keep(s, keep) == []
    decreases |s|
  {
    if s != [] {
      KeepNone(s[1..], keep);
    }
  }

  lemma KeepCons(c: char, t: string, keep: char -> bool)
    ensures Keep([c] + t, keep) == if keep(c) then [c] + Keep(t, keep) else Keep(t, keep)
  {
    assert ([c] + t)[1..] == t;
  }

  lemma CollapseSpaceEmpty()
    ensures CollapseSpace([]) == []
  {
  }

  lemma CollapseSpaceStep(s: string)
    requires s != []
    ensures CollapseSpace(s) == if IsSpace(s[0]) then [' '] + CollapseSpace(LStrip(s)) else [s[0]] + CollapseSpace(s[1..])
  {
  }

  /** Leading whitespace keeps nothing. */
  lemma KeepLeadingSpaces(s: string)
    ensures Keep(s, NotSpace) == Keep(LStrip(s), NotSpace)
  {
    hide Keep;
    var n := LeadingSpaces(s);
    assert s == s[..n] + LStrip(s);
    KeepAppend(s[..n], LStrip(s), NotSpace);
    KeepNone(s[..n], NotSpace);
  }

  /** Collapsing whitespace keeps every other character, in order: only the
      whitespace runs change. */
  lemma {:induction false} CollapseSpaceKeeps(s: string)
    ensures Keep(CollapseSpace(s), NotSpace) == Keep(s, NotSpace)
    decreases |s|
  {
    hide Keep, CollapseSpace;
    if s == [] {
      CollapseSpaceEmpty();
    } else {
      CollapseSpaceStep(s);
      if IsSpace(s[0]) {
        var t := LStrip(s);
        CollapseSpaceKeeps(t);
        KeepCons(' ', CollapseSpace(t), NotSpace);
        KeepLeadingSpaces(s);
      } else {
        CollapseSpaceKeeps(s[1..]);
        KeepCons(s[0], CollapseSpace(s[1..]), NotSpace);
        KeepCons(s[0], s[1..], NotSpace);
        assert [s[0]] + s[1..] == s;
      }
    }
  }

  // ---------------------------------------------------------------- split

  /** Length of the leading run of non-whitespace characters. */
  function TokenLen(s: string): (n: nat)
    ensures n <= |s|
    ensures forall i :: 0 <= i < n ==> !IsSpace(s[i])
    ensures n < |s| ==> IsSpace(s[n])
  {
    if s == [] || IsSpace(s[0]) then 0 else 1 + TokenLen(s[1..])
  }

  /** `str.split()` with no argument: the maximal runs of non-whitespace, in order. */
  function Words(s: string): (ws: seq<string>)
    ensures forall i :: 0 <= i < |ws| ==> |ws[i]| > 0 && NoSpace(ws[i])
    decreases |s|
  {
    var t := LStrip(s);
    if t == [] then []
    else
      var n := TokenLen(t);
      [t[..n]] + Words(t[n..])
  }

  /** A text splits into no words exactly when it is all whitespace. */
  lemma {:induction false} WordsEmpty(s: string)
    ensures Words(s) == [] <==> AllSpace(s)
  {
  }

  /** A leading space does not change the words. */
  lemma {:induction false} WordsAfterSpace(r: string)
    ensures Words([' '] + r) == Words(r)
  {
    var s := [' '] + r;
    assert s[1..] == r;
    assert LeadingSpaces(s) == 1 + LeadingSpaces(r);
    assert LStrip(s) == LStrip(r);
  }

  /** The leading token of `w + tail` is `w` when `w` has no whitespace and
      `tail` is empty or starts with whitespace. */
  lemma {:induction false} TokenLenOf(w: string, tail: string)
    requires NoSpace(w)
    requires tail == [] || IsSpace(tail[0])
    ensures TokenLen(w + tail) == |w|
  {
    if w != [] {
      assert (w + tail)[1..] == w[1..] + tail;
      TokenLenOf(w[1..], tail);
    } else {
      assert w + tail == tail;
    }
  }

  /** A word followed by nothing or by whitespace is the first word. */
  lemma {:induction false} WordsCons(w: string, tail: string)
    requires |w| > 0 && NoSpace(w)
    requires tail == [] || IsSpace(tail[0])
    ensures Words(w + tail) == [w] + Words(tail)
  {
    var s := w + tail;
    assert s[0] == w[0];
    assert LeadingSpaces(s) == 0;
    assert LStrip(s) == s;
    TokenLenOf(w, tail);
    assert s[..|w|] == w && s[|w|..] == tail;
  }

  /** Splitting words joined by single spaces gives the words back:
      `' '.join(ws).split() == ws`. */
  lemma {:induction false} WordsJoin(ws: seq<string>)
    requires forall i :: 0 <= i < |ws| ==> |ws[i]| > 0 && NoSpace(ws[i])
    ensures Words(Join(ws, " ")) == ws
  {
    if ws == [] {
      assert Join(ws, " ") == [];
      WordsEmpty([]);
    } else {
      var w := ws[0];
      var tail := if |ws| == 1 then [] else [' '] + Join(ws[1..], " ");
      assert Join(ws, " ") == w + tail;
      WordsCons(w, tail);
      if |ws| == 1 {
        WordsEmpty([]);
      } else {
        WordsAfterSpace(Join(ws[1..], " "));
        WordsJoin(ws[1..]);
      }
    }
  }

  /** Words joined by single spaces have no whitespace at either end. */
  lemma {:induction false} JoinWordsNoEdgeSpace(ws: seq<string>)
    requires forall i :: 0 <= i < |ws| ==> |ws[i]| > 0 && NoSpace(ws[i])
    ensures NoEdgeSpace(Join(ws, " "))
    ensures ws != [] ==> Join(ws, " ") != []
  {
    if ws != [] {
      JoinEdges(ws, " ");
      var j := Join(ws, " ");
      var last := ws[|ws| - 1];
      assert j[0] == ws[0][0];
      assert j[|j| - 1] == last[|last| - 1] by {
        assert j[|j| - |last|..][|last| - 1] == j[|j| - 1];
      }
    }
  }

  /** `sep.join(ws)`. */
  function Join(ws: seq<string>, sep: string): string {
    if ws == [] then []
    else if |ws| == 1 then ws[0]
    else ws[0] + sep + Join(ws[1..], sep)
  }

  /** A join starts with its first piece and ends with its last. */
  lemma {:induction false} JoinEdges(ws: seq<string>, sep: string)
    requires |ws| > 0
    ensures |Join(ws, sep)| >= |ws[0]| && Join(ws, sep)[..|ws[0]|] == ws[0]
    ensures |Join(ws, sep)| >= |ws[|ws| - 1]| && Join(ws, sep)[|Join(ws, sep)| - |ws[|ws| - 1]|..] == ws[|ws| - 1]
  {
    if |ws| > 1 {
      JoinEdges(ws[1..], sep);
      var j := Join(ws, sep);
      var rest := Join(ws[1..], sep);
      assert j == ws[0] + sep + rest;
      assert j[|j| - |rest|..] == rest;
      assert ws[1..][|ws[1..]| - 1] == ws[|ws| - 1];
    }
  }

  /** Joining a list with a piece in front. */
  lemma {:induction false} JoinCons(w: string, ws: seq<string>, sep: string)
    requires ws != []
    ensures Join([w] + ws, sep) == w + sep + Join(ws, sep)
  {
    assert ([w] + ws)[1..] == ws;
  }

  /** `''.join(ws)`. */
  function Concat(ws: seq<string>): string {
    if ws == [] then [] else ws[0] + Concat(ws[1..])
  }

  /** A concatenation is all whitespace exactly when every piece is. */
  lemma {:induction false} ConcatAllSpace(ws: seq<string>)
    ensures AllSpace(Concat(ws)) <==> forall i :: 0 <= i < |ws| ==> AllSpace(ws[i])
  {
    if ws != [] {
      ConcatAllSpace(ws[1..]);
      var c := Concat(ws);
      var rest := Concat(ws[1..]);
      assert c == ws[0] + rest;
      if AllSpace(c) {
        assert forall k :: 0 <= k < |ws[0]| ==> c[k] == ws[0][k];
        assert forall k :: 0 <= k < |rest| ==> c[|ws[0]| + k] == rest[k];
        forall i | 0 <= i < |ws| ensures AllSpace(ws[i]) {
          if i > 0 { assert ws[i] == ws[1..][i - 1]; }
        }
      }
      if forall i :: 0 <= i < |ws| ==> AllSpace(ws[i]) {
        assert AllSpace(ws[0]);
        assert forall i :: 0 <= i < |ws| - 1 ==> ws[1..][i] == ws[i + 1];
        forall k | 0 <= k < |c| ensures IsSpace(c[k]) {
          if k >= |ws[0]| { assert c[k] == rest[k - |ws[0]|]; }
        }
      }
    }
  }

  /** `s.split(c)` for a one-character separator: the pieces between the
      occurrences of `c`, empty pieces included; always at least one piece. */
  function SplitOn(s: string, c: char): (ws: seq<string>)
    ensures |ws| > 0
    ensures forall i :: 0 <= i < |ws| ==> c !in ws[i]
    decreases |s|
  {
    if c !in s then [s]
    else
      var k := IndexOf(s, c);
      [s[..k]] + SplitOn(s[k + 1..], c)
  }

  /** The position of the first `c` in `s`. */
  function IndexOf(s: string, c: char): (k: nat)
    requires c in s
    ensures k < |s| && s[k] == c && c !in s[..k]
  {
    if s[0] == c then 0
    else
      assert c in s[1..] by {
        var i :| 0 <= i < |s| && s[i] == c;
        assert s[1..][i - 1] == s[i];
      }
      var k := 1 + IndexOf(s[1..], c);
      assert s[..k] == [s[0]] + s[1..][..k - 1];
      k
  }

  /** The first `c` after a `c`-free prefix is right after the prefix. */
  lemma {:induction false} IndexOfAfter(a: string, c: char, b: string)
    requires c !in a
    ensures c in a + [c] + b && IndexOf(a + [c] + b, c) == |a|
  {
    var s := a + [c] + b;
    assert s[|a|] == c;
    if a != [] {
      assert s[1..] == a[1..] + [c] + b;
      IndexOfAfter(a[1..], c, b);
    }
  }

  /** Joining the pieces back with the separator gives the text:
      `c.join(s.split(c)) == s`. */
  lemma {:induction false} JoinSplitOn(s: string, c: char)
    ensures Join(SplitOn(s, c), [c]) == s
    decreases |s|
  {
    if c in s {
      var k := IndexOf(s, c);
      JoinSplitOn(s[k + 1..], c);
      var ws := SplitOn(s, c);
      assert ws[1..] == SplitOn(s[k + 1..], c);
      assert s == s[..k] + [c] + s[k + 1..];
    }
  }

  /** Splitting a join of separator-free pieces gives the pieces back:
      `sep.join(ws).split(sep) == ws` for a non-empty list. */
  lemma {:induction false} SplitOnJoin(ws: seq<string>, c: char)
    requires |ws| > 0 && forall i :: 0 <= i < |ws| ==> c !in ws[i]
    ensures SplitOn(Join(ws, [c]), c) == ws
  {
    if |ws| > 1 {
      var s := Join(ws, [c]);
      var rest := Join(ws[1..], [c]);
      assert s == ws[0] + [c] + rest;
      assert s[|ws[0]|] == c;
      assert s[..|ws[0]|] == ws[0];
      IndexOfAfter(ws[0], c, rest);
      assert s[|ws[0]| + 1..] == rest;
      SplitOnJoin(ws[1..], c);
    } else {
      assert Join(ws, [c]) == ws[0];
    }
  }

  /** Number of occurrences of `c` in `s`. */
  function Count(s: string, c: char): nat {
    if s == [] then 0 else (if s[0] == c then 1 else 0) + Count(s[1..], c)
  }

  lemma {:induction false} CountAppend(a: string, b: string, c: char)
    ensures Count(a + b, c) == Count(a, c) + Count(b, c)
  {
    if a != [] {
      assert (a + b)[1..] == a[1..] + b;
      CountAppend(a[1..], b, c);
    } else {
      assert a + b == b;
    }
  }

  lemma {:induction false} CountAbsent(s: string, c: char)
    requires c !in s
    ensures Count(s, c) == 0
  {
    if s != [] {
      assert forall i :: 0 <= i < |s| - 1 ==> s[1..][i] == s[i + 1];
      CountAbsent(s[1..], c);
    }
  }

  /** Joining `n` separator-free pieces with `c` puts `n - 1` copies of `c`
      in the text. */
  lemma {:induction false} JoinCount(ws: seq<string>, c: char)
    requires |ws| > 0 && forall i :: 0 <= i < |ws| ==> c !in ws[i]
    ensures Count(Join(ws, [c]), c) == |ws| - 1
  {
    if |ws| > 1 {
      JoinCount(ws[1..], c);
      CountAppend(ws[0] + [c], Join(ws[1..], [c]), c);
      CountAppend(ws[0], [c], c);
      CountAbsent(ws[0], c);
    } else {
      CountAbsent(ws[0], c);
    }
  }

  /** `s.strip(chars)`: drop every leading and trailing character that is in
      `cs`. */
  function StripChars(s: string, cs: set<char>): (r: string)
    ensures |r| <= |s|
    ensures r != [] ==> r[0] !in cs && r[|r| - 1] !in cs
    ensures (s == [] || (s[0] !in cs && s[|s| - 1] !in cs)) ==> r == s
    decreases |s|
  {
    if s == [] then s
    else if s[0] in cs then StripChars(s[1..], cs)
    else if s[|s| - 1] in cs then StripChars(s[..|s| - 1], cs)
    else s
  }

  lemma StripCharsStep(s: string, cs: set<char>)
    ensures StripChars(s, cs) ==
              if s == [] then s
              else if s[0] in cs then StripChars(s[1..], cs)
              else if s[|s| - 1] in cs then StripChars(s[..|s| - 1], cs)
              else s
  {
  }

  /** `r` is `s[a..b]`, and everything outside that slice is in `cs`. */
  predicate TrimmedSlice(s: string, r: string, cs: set<char>, a: nat, b: nat) {
    a <= b <= |s| && r == s[a..b] &&
    (forall i :: 0 <= i < a ==> s[i] in cs) && (forall i :: b <= i < |s| ==> s[i] in cs)
  }

  lemma TrimmedWhole(s: string, cs: set<char>)
    ensures TrimmedSlice(s, s, cs, 0, |s|)
  {
    assert s[0..|s|] == s;
  }

  lemma {:induction false} TrimmedFront(s: string, r: string, cs: set<char>, a: nat, b: nat)
    requires s != [] && s[0] in cs && TrimmedSlice(s[1..], r, cs, a, b)
    ensures TrimmedSlice(s, r, cs, a + 1, b + 1)
  {
    assert s[1..][a..b] == s[a + 1..b + 1];
    forall i | 0 <= i < a + 1 ensures s[i] in cs {
      if i > 0 { assert s[i] == s[1..][i - 1]; }
    }
    forall i | b + 1 <= i < |s| ensures s[i] in cs {
      assert s[i] == s[1..][i - 1];
    }
  }

  lemma {:induction false} TrimmedBack(s: string, r: string, cs: set<char>, a: nat, b: nat)
    requires s != [] && s[|s| - 1] in cs && TrimmedSlice(s[..|s| - 1], r, cs, a, b)
    ensures TrimmedSlice(s, r, cs, a, b)
  {
    var p := s[..|s| - 1];
    assert p[a..b] == s[a..b];
    forall i | 0 <= i < a ensures s[i] in cs {
      assert s[i] == p[i];
    }
    forall i | b <= i < |s| ensures s[i] in cs {
      if i < |p| { assert s[i] == p[i]; }
    }
  }

  /** The stripped text is one slice of the input: everything before it and
      everything after it is in `cs`. */
  lemma {:induction false} StripCharsSlice(s: string, cs: set<char>)
    ensures exists a: nat, b: nat :: TrimmedSlice(s, StripChars(s, cs), cs, a, b)
    decreases |s|
  {
    hide StripChars, TrimmedSlice;
    StripCharsStep(s, cs);
    var r := StripChars(s, cs);
    if s == [] || (s[0] !in cs && s[|s| - 1] !in cs) {
      TrimmedWhole(s, cs);
    } else if s[0] in cs {
      StripCharsSlice(s[1..], cs);
      var a: nat, b: nat :| TrimmedSlice(s[1..], r, cs, a, b);
      TrimmedFront(s, r, cs, a, b);
    } else {
      StripCharsSlice(s[..|s| - 1], cs);
      var a: nat, b: nat :| TrimmedSlice(s[..|s| - 1], r, cs, a, b);
      TrimmedBack(s, r, cs, a, b);
    }
  }

  /** Stripping twice is stripping once. */
  lemma {:induction false} StripCharsIdempotent(s: string, cs: set<char>)
    ensures StripChars(StripChars(s, cs), cs) == StripChars(s, cs)
  {
  }

  // --------------------------------------------------------------- search

  /** `pat` occurs in `s` starting at index `i`. */
  predicate At(s: string, i: nat, pat: string) {
    i + |pat| <= |s| && s[i..i + |pat|] == pat
  }

  /** `s.find(pat, from)`: the first occurrence of `pat` at or after `from`. */
  function Find(s: string, pat: string, from: nat): (r: Option<nat>)
    ensures r.Some? ==> from <= r.value && At(s, r.value, pat)
    ensures r.Some? ==> forall j :: from <= j < r.value ==> !At(s, j, pat)
    ensures r.None? ==> forall j: nat :: from <= j ==> !At(s, j, pat)
    decreases |s| - from
  {
    if from + |pat| > |s| then None
    else if At(s, from, pat) then Some(from)
    else Find(s, pat, from + 1)
  }

  /** A piece of a copy of `w` is the same piece of `w`. */
  lemma {:induction false} SliceOfCopy(s: string, n: nat, w: string, i: nat, j: nat)
    requires n + |w| <= |s| && s[n..n + |w|] == w && i <= j <= |w|
    ensures s[n + i..n + j] == w[i..j]
  {
    var a := s[n + i..n + j];
    var c := s[n..n + |w|];
    assert forall k :: 0 <= k < j - i ==> a[k] == c[i + k];
  }

  /** An occurrence of `pat` is also one of each of its prefixes. */
  lemma {:induction false} AtPrefix(s: string, i: nat, pat: string, k: nat)
    requires At(s, i, pat) && k <= |pat|
    ensures At(s, i, pat[..k])
  {
    assert s[i..i + k] == s[i..i + |pat|][..k];
  }

  /** No occurrence in a copy of a piece of `s` means none in that piece. */
  lemma {:induction false} CopyNoMatch(s: string, x: string, off: nat, pat: string, j: nat)
    requires off + |x| <= |s| && forall k :: 0 <= k < |x| ==> x[k] == s[off + k]
    requires off <= j && j + |pat| <= off + |x| && !At(x, j - off, pat)
    ensures !At(s, j, pat)
  {
    var xs := x[j - off..j - off + |pat|];
    var ss := s[j..j + |pat|];
    assert forall k :: 0 <= k < |pat| ==> xs[k] == ss[k];
    assert xs == ss;
  }

  /** `pre[from..] + pat[..|pat| - 1]` is a copy of `s` from `from` on. */
  lemma {:induction false} PrefixCopy(s: string, pre: string, pat: string, from: nat)
    requires pat != [] && from <= |pre| && |pre| + |pat| <= |s|
    requires s[..|pre| + |pat|] == pre + pat
    ensures var x := pre[from..] + pat[..|pat| - 1];
            from + |x| <= |s| && forall k :: 0 <= k < |x| ==> x[k] == s[from + k]
  {
    var x := pre[from..] + pat[..|pat| - 1];
    var t := s[..|pre| + |pat|];
    forall k | 0 <= k < |x| ensures x[k] == s[from + k] {
      assert s[from + k] == t[from + k];
      if k < |pre| - from {
        assert x[k] == pre[from + k];
      } else {
        assert x[k] == pat[k - (|pre| - from)];
      }
    }
  }

  /** `pat` is found at the end of `pre` when the text starts with `pre + pat`
      and no earlier occurrence starts inside `pre` from `from` on. */
  lemma {:induction false} FindFirst(s: string, pre: string, pat: string, from: nat)
    requires pat != [] && from <= |pre| && |pre| + |pat| <= |s|
    requires s[..|pre| + |pat|] == pre + pat
    requires Find(pre[from..] + pat[..|pat| - 1], pat, 0).None?
    ensures Find(s, pat, from) == Some(|pre|)
  {
    var x := pre[from..] + pat[..|pat| - 1];
    PrefixCopy(s, pre, pat, from);
    forall j | from <= j < |pre| ensures !At(s, j, pat) {
      assert !At(x, j - from, pat);
      CopyNoMatch(s, x, from, pat, j);
    }
    assert At(s, |pre|, pat) by {
      assert s[|pre|..|pre| + |pat|] == (pre + pat)[|pre|..];
    }
    FindAt(s, pat, from, |pre|);
  }

  /** Find returns the first occurrence. */
  lemma {:induction false} FindAt(s: string, pat: string, from: nat, i: nat)
    requires from <= i && At(s, i, pat)
    requires forall j :: from <= j < i ==> !At(s, j, pat)
    ensures Find(s, pat, from) == Some(i)
    decreases i - from
  {
    if from < i {
      FindAt(s, pat, from + 1, i);
    }
  }

  /** Searching a suffix finds the same occurrences, shifted. */
  lemma {:induction false} FindShift(s: string, d: nat, pat: string, k: nat)
    requires d <= |s|
    ensures Find(s, pat, d + k) == match Find(s[d..], pat, k) case None => None case Some(x) => Some(d + x)
    decreases |s| - d - k
  {
    var t := s[d..];
    if d + k + |pat| <= |s| {
      assert At(s, d + k, pat) <==> At(t, k, pat) by {
        assert t[k..k + |pat|] == s[d + k..d + k + |pat|];
      }
      if !At(s, d + k, pat) {
        FindShift(s, d, pat, k + 1);
        assert Find(s, pat, d + k) == Find(s, pat, d + k + 1);
        assert Find(t, pat, k) == Find(t, pat, k + 1);
      }
    }
  }

  /** Nothing is found from `from` on when the rest of the text holds no occurrence. */
  lemma {:induction false} FindNone(s: string, pat: string, from: nat)
    requires from <= |s| && Find(s[from..], pat, 0).None?
    ensures Find(s, pat, from).None?
  {
    FindShift(s, from, pat, 0);
  }

  /** A pattern whose first character occurs nowhere else in it cannot
      straddle the end of a text that does not contain it: appending all but
      its last character creates no occurrence. */
  lemma {:induction false} NoStraddle(a: string, pat: string)
    requires |pat| >= 1 && forall i :: 1 <= i < |pat| ==> pat[i] != pat[0]
    requires Find(a, pat, 0).None?
    ensures Find(a + pat[..|pat| - 1], pat, 0).None?
  {
    var x := a + pat[..|pat| - 1];
    forall j: nat | j + |pat| <= |x| ensures !At(x, j, pat) {
      var w := x[j..j + |pat|];
      if j + |pat| <= |a| {
        assert w == a[j..j + |pat|];
        assert !At(a, j, pat);
      } else {
        var m := |a| - j;
        assert w[m] == x[|a|] == pat[0] != pat[m];
      }
    }
  }

  /** A character outside the pattern, added in front, creates no occurrence. */
  lemma {:induction false} NoOccurrenceFront(c: char, t: string, pat: string)
    requires pat != [] && c !in pat && Find(t, pat, 0).None?
    ensures Find([c] + t, pat, 0).None?
  {
    var x := [c] + t;
    forall j: nat | j + |pat| <= |x| ensures !At(x, j, pat) {
      var v := x[j..j + |pat|];
      if j == 0 {
        assert v[0] == c != pat[0];
      } else {
        assert v == t[j - 1..j - 1 + |pat|];
        assert !At(t, j - 1, pat);
      }
    }
  }

  /** A character outside the pattern, added at the end, creates no occurrence. */
  lemma {:induction false} NoOccurrenceBack(c: char, t: string, pat: string)
    requires pat != [] && c !in pat && Find(t, pat, 0).None?
    ensures Find(t + [c], pat, 0).None?
  {
    var y := t + [c];
    forall j: nat | j + |pat| <= |y| ensures !At(y, j, pat) {
      var w := y[j..j + |pat|];
      if j + |pat| <= |t| {
        assert w == t[j..j + |pat|];
        assert !At(t, j, pat);
      } else {
        assert w[|pat| - 1] == y[|t|] == c != pat[|pat| - 1];
      }
    }
  }

  /** A character outside the pattern, added at either end, creates no occurrence. */
  lemma {:induction false} NoOccurrencePadded(c: char, t: string, pat: string)
    requires pat != [] && c !in pat && Find(t, pat, 0).None?
    ensures Find([c] + t, pat, 0).None? && Find(t + [c], pat, 0).None?
  {
    NoOccurrenceFront(c, t, pat);
    NoOccurrenceBack(c, t, pat);
  }

  /** `pat in s`. */
  predicate Contains(s: string, pat: string) {
    Find(s, pat, 0).Some?
  }

  /** `s.startswith(pat)`. */
  predicate StartsWith(s: string, pat: string) {
    At(s, 0, pat)
  }

  /** `s.endswith(pat)`. */
  predicate EndsWith(s: string, pat: string) {
    |pat| <= |s| && s[|s| - |pat|..] == pat
  }

  /** `s.replace(pat, "")`: every non-overlapping occurrence, scanned left to right, is removed. */
  function RemoveAll(s: string, pat: string): (r: string)
    ensures |r| <= |s|
    decreases |s|
  {
    if pat == [] || |s| < |pat| then s
    else if s[..|pat|] == pat then RemoveAll(s[|pat|..], pat)
    else [s[0]] + RemoveAll(s[1..], pat)
  }

  /** Past a position where the pattern does not start, it occurs in the
      text exactly when it occurs in the rest. */
  lemma {:induction false} ContainsTail(s: string, pat: string)
    requires pat != [] && s != [] && !At(s, 0, pat)
    ensures Contains(s, pat) <==> Contains(s[1..], pat)
  {
    FindShift(s, 1, pat, 0);
    assert Find(s, pat, 0) == Find(s, pat, 1);
  }

  lemma RemoveAllStep(s: string, pat: string)
    ensures RemoveAll(s, pat) ==
              if pat == [] || |s| < |pat| then s
              else if s[..|pat|] == pat then RemoveAll(s[|pat|..], pat)
              else [s[0]] + RemoveAll(s[1..], pat)
  {
  }

  /** `replace` changes the text exactly when the pattern is non-empty and
      occurs in it, and then makes it shorter. */
  lemma {:induction false} RemoveAllUnchanged(s: string, pat: string)
    ensures pat == [] || !Contains(s, pat) ==> RemoveAll(s, pat) == s
    ensures pat != [] && Contains(s, pat) ==> |RemoveAll(s, pat)| < |s|
    decreases |s|
  {
    hide Find, RemoveAll;
    RemoveAllStep(s, pat);
    if pat != [] {
      if |s| < |pat| {
        assert Find(s, pat, 0).None?;
      } else if s[..|pat|] == pat {
        assert At(s, 0, pat);
      } else {
        var t := s[1..];
        ContainsTail(s, pat);
        RemoveAllUnchanged(t, pat);
        if !Contains(s, pat) {
          assert [s[0]] + t == s;
        }
      }
    }
  }

  /** The leftmost position in `from .. n - 1` where `at` finds something:
      how `re.search` picks among the places a pattern could match. */
  function FirstMatch<T>(n: nat, at: nat -> Option<T>, from: nat): (r: Option<(nat, T)>)
    ensures r.Some? ==> from <= r.value.0 < n && at(r.value.0) == Some(r.value.1)
    ensures r.Some? ==> forall j :: from <= j < r.value.0 ==> at(j).None?
    ensures r.None? ==> forall j :: from <= j < n ==> at(j).None?
    decreases n - from
  {
    if from >= n then None
    else
      match at(from)
      case Some(x) => Some((from, x))
      case None => FirstMatch(n, at, from + 1)
  }

  /** Length of the run of characters satisfying `p` that starts at `i`. */
  function Run(s: string, i: nat, p: char -> bool): (n: nat)
    requires i <= |s|
    ensures i + n <= |s|
    decreases |s| - i
  {
    if i == |s| || !p(s[i]) then 0 else 1 + Run(s, i + 1, p)
  }

  /** Every character of the run satisfies `p`, and the one after it does not. */
  lemma {:induction false} RunSpan(s: string, i: nat, p: char -> bool)
    requires i <= |s|
    ensures forall k :: i <= k < i + Run(s, i, p) ==> p(s[k])
    ensures i + Run(s, i, p) < |s| ==> !p(s[i + Run(s, i, p)])
    decreases |s| - i
  {
    if i < |s| && p(s[i]) {
      RunSpan(s, i + 1, p);
    }
  }

  /** A run that stops where `p` fails or the text ends has its length. */
  lemma {:induction false} RunOf(s: string, i: nat, len: nat, p: char -> bool)
    requires i + len <= |s|
    requires forall k :: i <= k < i + len ==> p(s[k])
    requires i + len == |s| || !p(s[i + len])
    ensures Run(s, i, p) == len
    decreases len
  {
    if len > 0 {
      RunOf(s, i + 1, len - 1, p);
    }
  }

  // -------------------------------------------------------------- decimal

  function DigitChar(d: nat): char
    requires d < 10
  {
    ('0' as int + d) as char
  }

  /** `str(n)` for a natural number: decimal digits without leading zeros. */
  function NatToString(n: nat): (r: string)
    ensures |r| > 0 && forall i :: 0 <= i < |r| ==> IsDigit(r[i])
    ensures r[0] == '0' ==> n == 0
  {
    if n < 10 then [DigitChar(n)] else NatToString(n / 10) + [DigitChar(n % 10)]
  }

  predicate AllDigits(s: string) { forall i :: 0 <= i < |s| ==> IsDigit(s[i]) }

  /** `int(s)` for a string of decimal digits. */
  function DigitsValue(s: string): nat
    requires AllDigits(s)
  {
    if s == [] then 0 else 10 * DigitsValue(s[..|s| - 1]) + (s[|s| - 1] as int - '0' as int)
  }

  function Pow10(n: nat): (r: nat)
    ensures r >= 1
  {
    if n == 0 then 1 else 10 * Pow10(n - 1)
  }

  /** `n` digits read as a number stay below `10^n`. */
  lemma {:induction false} DigitsValueBound(s: string)
    requires AllDigits(s)
    ensures DigitsValue(s) < Pow10(|s|)
  {
    if s != [] {
      DigitsValueBound(s[..|s| - 1]);
    }
  }

  /** How many digits `str(n)` has, for numbers below 10000. */
  lemma {:induction false} NatToStringLength(n: nat)
    requires n < 10000
    ensures |NatToString(n)| == if n < 10 then 1 else if n < 100 then 2 else if n < 1000 then 3 else 4
  {
    if n >= 10 {
      NatToStringLength(n / 10);
    }
  }

  /** Printing a number and reading it back gives the number: `int(str(n)) == n`. */
  lemma {:induction false} DigitsValueOfNatToString(n: nat)
    ensures DigitsValue(NatToString(n)) == n
  {
    if n >= 10 {
      var r := NatToString(n);
      assert r[..|r| - 1] == NatToString(n / 10);
      DigitsValueOfNatToString(n / 10);
    }
  }
}

=== FILE: toc.dfy ===
/** The table-of-contents loader (TOC_HYPERLINK_GET.py): for every `.txt`
    file, a publication date from the file name (1900-01-01 when there is
    none or it is not a calendar date), the table of contents between
    "Masthead" and "Persistent Link", and the first web address; a
    newspaper row is inserted when both the contents and the address are
    non-empty.

    The server's refusal of a row is a parameter. Date parsing follows
    `datetime.strptime(..., '%d %B %Y')` in the English locale. */
module Toc {
  import opened Wrappers
  import opened Text
  import FilenameDate

  // ------------------------------------------------------------- calendar

  datatype Date = Date(year: nat, month: nat, day: nat)

  /** `datetime(1900, 1, 1)`, the date used when none can be read. */
  const Fallback: Date := Date(1900, 1, 1)

  /** The full English month names `%B` accepts, compared without case. */
  const MonthNames: seq<string> := ["january", "february", "march", "april", "may", "june",
                                    "july", "august", "september", "october", "november", "december"]

  predicate Leap(y: nat) {
    y % 4 == 0 && (y % 100 != 0 || y % 400 == 0)
  }

  function DaysIn(month: nat, year: nat): (n: nat)
    requires 1 <= month <= 12
    ensures 28 <= n <= 31
  {
    if month == 2 then (if Leap(year) then 29 else 28)
    else if month == 4 || month == 6 || month == 9 || month == 11 then 30
    else 31
  }

  /** A date `datetime.date` can hold. */
  predicate ValidDate(d: Date) {
    1 <= d.year <= 9999 && 1 <= d.month <= 12 && 1 <= d.day <= DaysIn(d.month, d.year)
  }

  /** The number of the first month whose name, from index `k` on, is `name`. */
  function MonthFrom(name: string, k: nat): (r: Option<nat>)
    requires k <= 12
    ensures r.Some? ==> k < r.value <= 12 && MonthNames[r.value - 1] == name
    ensures r.None? ==> forall j :: k <= j < 12 ==> MonthNames[j] != name
    decreases 12 - k
  {
    if k == 12 then None
    else if MonthNames[k] == name then Some(k + 1)
    else MonthFrom(name, k + 1)
  }

  /** `%B`: the month whose full name the word is, ignoring case. */
  function MonthNumber(word: string): (r: Option<nat>)
    ensures r.Some? ==> 1 <= r.value <= 12 && LowerStr(word) == MonthNames[r.value - 1]
    ensures r.None? ==> forall j :: 0 <= j < 12 ==> LowerStr(word) != MonthNames[j]
  {
    MonthFrom(LowerStr(word), 0)
  }

  /** A word that spells month `m` in any case is read as month `m`. */
  lemma {:induction false} MonthNumberOf(word: string, m: nat)
    requires 1 <= m <= 12 && LowerStr(word) == MonthNames[m - 1]
    ensures MonthNumber(word) == Some(m)
  {
    assert forall j, k :: 0 <= j < k < 12 ==> MonthNames[j] != MonthNames[k];
  }

  /** `strptime(f'{day} {month} {year}', '%d %B %Y')` on the groups of a
      file-name match: the day and year are re-printed as integers, so the
      day must lie in 1..31 (`%d`) and the year must print as four digits
      (`%Y`, so at least 1000); the month must be a full month name; and the
      day must exist in that month. Any failure is a `ValueError`. */
  function Parse(m: FilenameDate.DateMatch): (r: Option<Date>)
    requires FilenameDate.WellFormed(m)
    ensures r.Some? ==> ValidDate(r.value) && r.value.year >= 1000
    ensures r.Some? ==> r.value.day == DigitsValue(m.day) && r.value.year == DigitsValue(m.year)
    ensures r.Some? <==> MonthNumber(m.month).Some? && 1000 <= DigitsValue(m.year) &&
                         1 <= DigitsValue(m.day) <= DaysIn(MonthNumber(m.month).value, DigitsValue(m.year))
  {
    var day := DigitsValue(m.day);
    var year := DigitsValue(m.year);
    assert year < 10000 by { FourDigits(m.year); }
    match MonthNumber(m.month)
    case None => None
    case Some(month) =>
      if 1000 <= year && 1 <= day <= DaysIn(month, year) then Some(Date(year, month, day)) else None
  }

  /** Four digits read as a number below 10000. */
  lemma {:induction false} FourDigits(s: string)
    requires |s| == 4 && AllDigits(s)
    ensures DigitsValue(s) < 10000
  {
    DigitsValueBound(s);
  }

  /** The publication date of a file: the parsed file-name date, or the
      fallback when the name has no day/month/year or it does not parse. */
  function PublicationDate(name: string): (d: Date)
    ensures ValidDate(d)
    ensures FilenameDate.Search(name).None? ==> d == Fallback
  {
    match FilenameDate.Search(name)
    case None => Fallback
    case Some(found) =>
      match Parse(found.1)
      case None => Fallback
      case Some(d) => d
  }

  /** The file-name date of a name whose month word spells month `m`. */
  lemma {:induction false} PublicationDateIn(name: string, dm: FilenameDate.DateMatch, m: nat)
    requires FilenameDate.WellFormed(dm) && FilenameDate.Search(name).Some? && FilenameDate.Search(name).value.1 == dm
    requires 1 <= m <= 12 && LowerStr(dm.month) == MonthNames[m - 1]
    ensures PublicationDate(name) ==
              if 1000 <= DigitsValue(dm.year) && 1 <= DigitsValue(dm.day) <= DaysIn(m, DigitsValue(dm.year))
              then Date(DigitsValue(dm.year), m, DigitsValue(dm.day))
              else Fallback
  {
    MonthNumberOf(dm.month, m);
  }

  /** For a file name laid out as text without digits, a day, a month word,
      and a four-digit year, the publication date is that calendar date when
      it exists and the year has no leading zero, and the fallback otherwise. */
  lemma {:induction false} PublicationDateOf(name: string, prefix: string, day: string, month: string, year: string, suffix: string)
    requires FilenameDate.WellFormed(FilenameDate.DateMatch(day, month, year))
    requires forall k :: 0 <= k < |prefix| ==> !IsDigit(prefix[k])
    requires name == prefix + (day + (" " + (month + (" " + (year + suffix)))))
    ensures forall m :: 1 <= m <= 12 && LowerStr(month) == MonthNames[m - 1] ==>
              PublicationDate(name) ==
                if 1000 <= DigitsValue(year) && 1 <= DigitsValue(day) <= DaysIn(m, DigitsValue(year))
                then Date(DigitsValue(year), m, DigitsValue(day))
                else Fallback
    ensures (forall j :: 0 <= j < 12 ==> LowerStr(month) != MonthNames[j]) ==> PublicationDate(name) == Fallback
  {
    FilenameDate.SearchFinds(name, prefix, day, month, year, suffix);
    PublicationDateFound(name, FilenameDate.DateMatch(day, month, year));
  }

  /** The publication date read from a match, month by month. */
  lemma {:induction false} PublicationDateFound(name: string, dm: FilenameDate.DateMatch)
    requires FilenameDate.WellFormed(dm) && FilenameDate.Search(name).Some? && FilenameDate.Search(name).value.1 == dm
    ensures forall m :: 1 <= m <= 12 && LowerStr(dm.month) == MonthNames[m - 1] ==>
              PublicationDate(name) ==
                if 1000 <= DigitsValue(dm.year) && 1 <= DigitsValue(dm.day) <= DaysIn(m, DigitsValue(dm.year))
                then Date(DigitsValue(dm.year), m, DigitsValue(dm.day))
                else Fallback
    ensures (forall j :: 0 <= j < 12 ==> LowerStr(dm.month) != MonthNames[j]) ==> PublicationDate(name) == Fallback
  {
    forall m | 1 <= m <= 12 && LowerStr(dm.month) == MonthNames[m - 1]
      ensures PublicationDate(name) ==
                if 1000 <= DigitsValue(dm.year) && 1 <= DigitsValue(dm.day) <= DaysIn(m, DigitsValue(dm.year))
                then Date(DigitsValue(dm.year), m, DigitsValue(dm.day))
                else Fallback
    {
      PublicationDateIn(name, dm, m);
    }
  }

  // ------------------------------------------------------------ extraction

  /** Group 1 of `re.search(r'Masthead(.*?)Persistent Link', text, re.DOTALL)`:
      the text from the first "Masthead" to the first "Persistent Link" after
      it. A later "Masthead" cannot help when the first has no
      "Persistent Link" after it. */
  function TocSpan(text: string): (r: Option<string>)
    ensures r.Some? ==> Contains(text, "Masthead")
  {
    match Find(text, "Masthead", 0)
    case None => None
    case Some(i) =>
      match Find(text, "Persistent Link", i + 8)
      case None => None
      case Some(p) => Some(text[i + 8..p])
  }

  /** The table of contents: the span stripped and, when non-empty, with each
      whitespace run made one space; `None` when the markers are missing. */
  function Toc(text: string): (r: Option<string>)
    ensures r.Some? <==> TocSpan(text).Some?
    ensures r.Some? ==> NoEdgeSpace(r.value) && SingleSpaced(r.value) && PlainSpaces(r.value)
    ensures r.Some? ==> (r.value == [] <==> AllSpace(TocSpan(text).value))
  {
    match TocSpan(text)
    case None => None
    case Some(g) =>
      var t := Strip(g);
      Some(if t != [] then CollapseSpace(t) else t)
  }

  /** The span between a first "Masthead" and the first "Persistent Link"
      after it. */
  lemma {:induction false} TocSpanOf(text: string, prefix: string, mid: string, rest: string)
    requires !Contains(prefix, "Masthead") && !Contains(mid, "Persistent Link")
    requires text == prefix + "Masthead" + mid + "Persistent Link" + rest
    ensures TocSpan(text) == Some(mid)
  {
    hide Find;
    var i := |prefix|;
    assert text[..i + 8] == prefix + "Masthead";
    assert "Masthead"[..7] == "Masthea";
    NoStraddle(prefix, "Masthead");
    NoStraddle(mid, "Persistent Link");
    assert prefix[0..] == prefix;
    FindFirst(text, prefix, "Masthead", 0);
    var pre := prefix + "Masthead" + mid;
    assert text[..|pre| + 15] == pre + "Persistent Link";
    assert "Persistent Link"[..14] == "Persistent Lin";
    assert pre[i + 8..] == mid;
    FindFirst(text, pre, "Persistent Link", i + 8);
    assert text[i + 8..|pre|] == mid;
  }

  /** Contents written between the markers come back with their padding
      removed and each whitespace run made one space; already single-spaced
      contents come back unchanged. */
  lemma {:induction false} TocOf(text: string, prefix: string, pad1: string, toc: string, pad2: string, rest: string)
    requires !Contains(prefix, "Masthead") && !Contains(pad1 + toc + pad2, "Persistent Link")
    requires AllSpace(pad1) && AllSpace(pad2) && NoEdgeSpace(toc)
    requires text == prefix + "Masthead" + (pad1 + toc + pad2) + "Persistent Link" + rest
    ensures Toc(text) == Some(CollapseSpace(toc))
    ensures SingleSpaced(toc) && PlainSpaces(toc) ==> Toc(text) == Some(toc)
  {
    var mid := pad1 + toc + pad2;
    TocSpanOf(text, prefix, mid, rest);
    StripPadded(mid, pad1, toc, pad2);
    if SingleSpaced(toc) && PlainSpaces(toc) {
      CollapseSpaceFixpoint(toc);
    }
  }

  predicate NonSpace(c: char) { !IsSpace(c) }

  /** The match of `https?://\S+` starting at `i`: the scheme, then the
      longest non-empty run of non-whitespace. With "https://" at `i` the
      shorter scheme cannot match either ('s' is not ':'). */
  function LinkAt(s: string, i: nat): (r: Option<string>)
    ensures r.Some? ==> At(s, i, r.value) && (StartsWith(r.value, "https://") || StartsWith(r.value, "http://"))
  {
    if At(s, i, "https://") && i + 8 < |s| && !IsSpace(s[i + 8]) then
      var u := s[i..i + 8 + Run(s, i + 8, NonSpace)];
      assert u[..8] == s[i..i + 8];
      Some(u)
    else if At(s, i, "http://") && i + 7 < |s| && !IsSpace(s[i + 7]) then
      var u := s[i..i + 7 + Run(s, i + 7, NonSpace)];
      assert u[..7] == s[i..i + 7];
      Some(u)
    else None
  }

  /** Group 0 of `re.search(r'(https?://\S+)', text)`, stripped. */
  function Hyperlink(text: string): (r: Option<string>)
    ensures r.Some? ==> |r.value| > 7 && NoSpace(r.value) && (StartsWith(r.value, "https://") || StartsWith(r.value, "http://"))
    ensures r.None? <==> forall i :: 0 <= i < |text| ==> LinkAt(text, i).None?
  {
    var at: nat -> Option<string> := (i: nat) => LinkAt(text, i);
    assert forall i :: 0 <= i < |text| ==> at(i) == LinkAt(text, i);
    match FirstMatch(|text|, at, 0)
    case None => None
    case Some(found) =>
      var i := found.0;
      var n := if At(text, i, "https://") && i + 8 < |text| && !IsSpace(text[i + 8]) then 8 else 7;
      LinkSpan(text, i, n);
      Some(Strip(found.1))
  }

  /** The characters of a scheme are not whitespace. */
  lemma {:induction false} SchemeChars(s: string, i: nat, scheme: string)
    requires scheme == "https://" || scheme == "http://"
    requires At(s, i, scheme)
    ensures forall k :: i <= k < i + |scheme| ==> !IsSpace(s[k])
  {
    forall k | i <= k < i + |scheme| ensures !IsSpace(s[k]) {
      assert s[k] == s[i..i + |scheme|][k - i] == scheme[k - i];
    }
  }

  /** A piece of text whose every character is not whitespace. */
  lemma {:induction false} SliceNoSpace(s: string, i: nat, j: nat)
    requires i <= j <= |s| && forall k :: i <= k < j ==> !IsSpace(s[k])
    ensures NoSpace(s[i..j])
  {
    forall k | 0 <= k < j - i ensures !IsSpace(s[i..j][k]) {
      assert s[i..j][k] == s[i + k];
    }
  }

  /** A link found at `i` is the scheme and a non-empty run of non-whitespace. */
  lemma {:induction false} LinkSpan(s: string, i: nat, n: nat)
    requires LinkAt(s, i).Some?
    requires n == if At(s, i, "https://") && i + 8 < |s| && !IsSpace(s[i + 8]) then 8 else 7
    ensures |LinkAt(s, i).value| > n && NoSpace(LinkAt(s, i).value)
    ensures Strip(LinkAt(s, i).value) == LinkAt(s, i).value
  {
    var u := LinkAt(s, i).value;
    var scheme := if n == 8 then "https://" else "http://";
    assert At(s, i, scheme) && i + n < |s| && !IsSpace(s[i + n]);
    var r := Run(s, i + n, NonSpace);
    assert u == s[i..i + n + r];
    RunSpan(s, i + n, NonSpace);
    assert r > 0;
    SchemeChars(s, i, scheme);
    assert forall k :: i + n <= k < i + n + r ==> NonSpace(s[k]);
    SliceNoSpace(s, i, i + n + r);
  }

  /** The link at the start of a scheme followed by a non-empty run of
      non-whitespace that whitespace or the end of the text closes. */
  lemma {:induction false} LinkAtOf(text: string, i: nat, scheme: string, tail: string)
    requires scheme == "https://" || scheme == "http://"
    requires tail != [] && NoSpace(tail)
    requires i + |scheme| + |tail| <= |text| && text[i..i + |scheme| + |tail|] == scheme + tail
    requires i + |scheme| + |tail| == |text| || IsSpace(text[i + |scheme| + |tail|])
    ensures LinkAt(text, i) == Some(scheme + tail)
  {
    hide LinkAt, Run, At;
    SchemeTail(text, i, scheme, tail);
    if scheme == "http://" {
      HttpIsNotHttps(text, i);
      LinkAtScheme(text, i, 7);
    } else {
      LinkAtScheme(text, i, 8);
    }
  }

  /** A scheme followed by a non-empty run of non-whitespace that whitespace
      or the end closes: where the run starts and how long it is. */
  lemma {:induction false} SchemeTail(text: string, i: nat, scheme: string, tail: string)
    requires tail != [] && NoSpace(tail)
    requires i + |scheme| + |tail| <= |text| && text[i..i + |scheme| + |tail|] == scheme + tail
    requires i + |scheme| + |tail| == |text| || IsSpace(text[i + |scheme| + |tail|])
    ensures At(text, i, scheme) && i + |scheme| < |text| && !IsSpace(text[i + |scheme|])
    ensures Run(text, i + |scheme|, NonSpace) == |tail|
  {
    var url := scheme + tail;
    var n := |scheme|;
    assert text[i..i + n] == url[..n] == scheme;
    assert text[i + n] == url[n] == tail[0];
    forall k | i + n <= k < i + n + |tail| ensures NonSpace(text[k]) {
      assert text[k] == url[k - i] == tail[k - i - n];
    }
    RunOf(text, i + n, |tail|, NonSpace);
  }

  /** "http://" where "https://" would need an 's'. */
  lemma {:induction false} HttpIsNotHttps(text: string, i: nat)
    requires At(text, i, "http://")
    ensures !At(text, i, "https://")
  {
    assert text[i + 4] == text[i..i + 7][4] == ':';
  }

  /** The link where a scheme is followed by a non-space character. */
  lemma {:induction false} LinkAtScheme(s: string, i: nat, n: nat)
    requires n == 8 ==> At(s, i, "https://")
    requires n == 7 ==> At(s, i, "http://") && !At(s, i, "https://")
    requires (n == 7 || n == 8) && i + n < |s| && !IsSpace(s[i + n])
    ensures LinkAt(s, i) == Some(s[i..i + n + Run(s, i + n, NonSpace)])
  {
  }

  /** Every link starts with "http". */
  lemma {:induction false} LinkStartsHttp(s: string, j: nat)
    ensures LinkAt(s, j).Some? ==> At(s, j, "http")
  {
    if LinkAt(s, j).Some? {
      var u := LinkAt(s, j).value;
      if StartsWith(u, "https://") {
        assert u[..4] == u[..8][..4];
      } else {
        assert u[..4] == u[..7][..4];
      }
      AtPrefix(s, j, u, 4);
    }
  }

  /** No link starts inside a prefix that holds no "http" and is followed
      by "htt". */
  lemma {:induction false} NoLinkBefore(text: string, prefix: string)
    requires |prefix| + 3 <= |text| && text[..|prefix| + 3] == prefix + "htt"
    requires !Contains(prefix, "http")
    ensures forall j :: 0 <= j < |prefix| ==> LinkAt(text, j).None?
  {
    assert "http"[..3] == "htt";
    NoStraddle(prefix, "http");
    var x := prefix + "htt";
    forall j | 0 <= j < |prefix| ensures LinkAt(text, j).None? {
      assert x[j..j + 4] == text[j..j + 4];
      assert !At(x, j, "http");
      LinkStartsHttp(text, j);
    }
  }

  /** A web address whose scheme is not preceded by "http" is found whole
      when whitespace or the end of the text follows it. */
  lemma {:induction false} HyperlinkOf(text: string, prefix: string, scheme: string, tail: string, rest: string)
    requires scheme == "https://" || scheme == "http://"
    requires tail != [] && NoSpace(tail)
    requires rest == [] || IsSpace(rest[0])
    requires !Contains(prefix, "http")
    requires text == prefix + (scheme + tail) + rest
    ensures Hyperlink(text) == Some(scheme + tail)
  {
    var url := scheme + tail;
    AddressParts(text, prefix, url, rest);
    LinkAtOf(text, |prefix|, scheme, tail);
    NoLinkBefore(text, prefix);
    HyperlinkAt(text, |prefix|);
  }

  /** Where the address sits in `prefix + url + rest`. */
  lemma {:induction false} AddressParts(text: string, prefix: string, url: string, rest: string)
    requires |url| >= 3 && url[..3] == "htt" && (rest == [] || IsSpace(rest[0]))
    requires text == prefix + url + rest
    ensures |prefix| + |url| <= |text| && text[|prefix|..|prefix| + |url|] == url
    ensures |prefix| + |url| == |text| || IsSpace(text[|prefix| + |url|])
    ensures text[..|prefix| + 3] == prefix + "htt"
  {
    var i := |prefix|;
    if rest != [] {
      assert text[i + |url|] == rest[0];
    }
    assert text[..i + 3] == prefix + url[..3];
  }

  /** The leftmost link is the one `Hyperlink` returns. */
  lemma {:induction false} HyperlinkAt(text: string, i: nat)
    requires LinkAt(text, i).Some? && forall j :: 0 <= j < i ==> LinkAt(text, j).None?
    ensures Hyperlink(text) == LinkAt(text, i)
  {
    hide LinkAt, Strip;
    var at: nat -> Option<string> := (k: nat) => LinkAt(text, k);
    assert i < |text|;
    var n := if At(text, i, "https://") && i + 8 < |text| && !IsSpace(text[i + 8]) then 8 else 7;
    LinkSpan(text, i, n);
    var r := FirstMatch(|text|, at, 0);
    assert r.Some? && r.value.0 == i by {
      assert at(i).Some?;
      assert forall j :: 0 <= j < i ==> at(j).None?;
    }
  }

  // ---------------------------------------------------------------- loader

  /** A row of `Newspapers` as this loader fills it. */
  datatype NewspaperRow = NewspaperRow(title: string, date: Date, toc: string, hyperlink: string)

  const JournalTitle: string := "Trinity Journal"

  /** Python truthiness of an optional string. */
  predicate NonEmpty(x: Option<string>) {
    x.Some? && x.value != []
  }

  /** `filename.lower().endswith(".txt")`. */
  predicate IsTextFile(name: string) {
    EndsWith(LowerStr(name), ".txt")
  }

  /** The row the loader inserts for one file, if any: only text files whose
      contents and address are both non-empty get one. */
  function FileRow(name: string, text: string): (r: Option<NewspaperRow>)
    ensures r.Some? <==> IsTextFile(name) && NonEmpty(Toc(text)) && NonEmpty(Hyperlink(text))
    ensures r.Some? ==>
              r.value.title == JournalTitle && r.value.toc == Toc(text).value &&
              r.value.hyperlink == Hyperlink(text).value && r.value.date == PublicationDate(name) &&
              ValidDate(r.value.date) && NoSpace(r.value.hyperlink) && SingleSpaced(r.value.toc)
  {
    if !IsTextFile(name) then None
    else
      var toc := Toc(text);
      var link := Hyperlink(text);
      if NonEmpty(toc) && NonEmpty(link) then Some(NewspaperRow(JournalTitle, PublicationDate(name), toc.value, link.value))
      else None
  }

  /** The rows a run tries to insert, in file order. */
  function Rows(files: seq<(string, string)>): seq<NewspaperRow> {
    if files == [] then []
    else
      var last := files[|files| - 1];
      Rows(files[..|files| - 1]) + (match FileRow(last.0, last.1) case Some(row) => [row] case None => [])
  }

  /** The `Newspapers` table: its rows and the next value of the
      `newspaper_id` sequence. */
  datatype Store = Store(rows: seq<NewspaperRow>, nextId: nat)

  /** The connection: committed rows, rows inserted in the open transaction,
      whether a failed statement has aborted that transaction, and the next
      value of the `newspaper_id` sequence, which no rollback gives back. */
  datatype Session = Session(committed: seq<NewspaperRow>, pending: seq<NewspaperRow>, aborted: bool, nextId: nat)

  /** `insert_newspaper`: an accepted row takes the next serial id
      (`RETURNING newspaper_id`). The error is caught and printed, but the
      server has aborted the transaction, so every later statement fails as
      well. A refused row takes no id. */
  function Insert(s: Session, row: NewspaperRow, rejects: NewspaperRow -> bool): (r: Session)
    ensures r.committed == s.committed
    ensures r.aborted <==> s.aborted || rejects(row)
    ensures !r.aborted ==> r.pending == s.pending + [row] && r.nextId == s.nextId + 1
    ensures r.aborted ==> r.pending == s.pending && r.nextId == s.nextId
  {
    if s.aborted || rejects(row) then s.(aborted := true)
    else s.(pending := s.pending + [row], nextId := s.nextId + 1)
  }

  /** One file of the loop: the row it yields, if any, is inserted. */
  function FeedFile(s: Session, row: Option<NewspaperRow>, rejects: NewspaperRow -> bool): (r: Session)
    ensures r.committed == s.committed
    ensures s.aborted ==> r.aborted
    ensures |s.pending| <= |r.pending| <= |s.pending| + 1 && r.pending[..|s.pending|] == s.pending
    ensures r.nextId == s.nextId + (|r.pending| - |s.pending|)
  {
    match row
    case None => s
    case Some(x) => Insert(s, x, rejects)
  }

  /** The loop of `process_files` over the listed files, in order. */
  function Feed(s: Session, files: seq<(string, string)>, rejects: NewspaperRow -> bool): (r: Session)
    ensures r.committed == s.committed
    ensures s.aborted ==> r.aborted
    ensures |s.pending| <= |r.pending| && r.pending[..|s.pending|] == s.pending
    ensures r.nextId == s.nextId + (|r.pending| - |s.pending|)
  {
    if files == [] then s
    else
      var before := Feed(s, files[..|files| - 1], rejects);
      var last := files[|files| - 1];
      FeedFile(before, FileRow(last.0, last.1), rejects)
  }

  /** The transaction a run opens on a table. */
  function Open(table: Store): Session {
    Session(table.rows, [], false, table.nextId)
  }

  /** From a fresh transaction, the loop never commits; it stays healthy
      exactly when no attempted row is refused, and then holds every
      attempted row, in order, each having taken one serial id. */
  lemma {:induction false} FeedPending(table: Store, files: seq<(string, string)>, rejects: NewspaperRow -> bool)
    ensures Feed(Open(table), files, rejects).committed == table.rows
    ensures var s := Feed(Open(table), files, rejects);
            !s.aborted <==> forall row :: row in Rows(files) ==> !rejects(row)
    ensures var s := Feed(Open(table), files, rejects);
            !s.aborted ==> s.pending == Rows(files) && s.nextId == table.nextId + |Rows(files)|
  {
    if files != [] {
      var init := files[..|files| - 1];
      FeedPending(table, init, rejects);
    }
  }

  /** `process_files` as written: `conn.close()` with no commit, which rolls
      the transaction back; the ids the accepted inserts took stay taken. */
  function ProcessFilesAsWritten(table: Store, files: seq<(string, string)>, rejects: NewspaperRow -> bool): (r: Store)
    ensures r.rows == table.rows
    ensures r.nextId == table.nextId + |Feed(Open(table), files, rejects).pending|
  {
    var s := Feed(Open(table), files, rejects);
    Store(s.committed, s.nextId)
  }

  /** A commit: the pending rows persist unless the transaction was aborted,
      in which case the server rolls it back; either way the sequence keeps
      its advance. */
  function Commit(s: Session): (r: Store)
    ensures s.aborted ==> r.rows == s.committed
    ensures !s.aborted ==>
              |r.rows| == |s.committed| + |s.pending| && r.rows[..|s.committed|] == s.committed &&
              r.rows[|s.committed|..] == s.pending
    ensures r.nextId == s.nextId
  {
    Store(if s.aborted then s.committed else s.committed + s.pending, s.nextId)
  }

  /** `process_files` with the commit before `conn.close()` it needs. */
  function ProcessFiles(table: Store, files: seq<(string, string)>, rejects: NewspaperRow -> bool): (r: Store)
    ensures |table.rows| <= |r.rows| && r.rows[..|table.rows|] == table.rows
    ensures table.nextId <= r.nextId
  {
    Commit(Feed(Open(table), files, rejects))
  }

  /** As written, no run stores a row, even when rows were inserted and none
      was refused; with the commit those rows persist. Either way each
      accepted insert has used up one serial id. */
  lemma {:induction false} UncommittedRunLost(table: Store, files: seq<(string, string)>, rejects: NewspaperRow -> bool)
    ensures ProcessFilesAsWritten(table, files, rejects).rows == table.rows
    ensures (forall row :: row in Rows(files) ==> !rejects(row)) ==>
              ProcessFilesAsWritten(table, files, rejects).nextId == table.nextId + |Rows(files)|
    ensures Rows(files) != [] && (forall row :: row in Rows(files) ==> !rejects(row)) ==>
              ProcessFiles(table, files, rejects).rows != ProcessFilesAsWritten(table, files, rejects).rows
  {
    FeedPending(table, files, rejects);
  }

  /** With the commit, a run appends every row it attempted, in file order,
      when the server refuses none of them, and leaves the rows as they were
      otherwise. */
  lemma {:induction false} ProcessFilesStores(table: Store, files: seq<(string, string)>, rejects: NewspaperRow -> bool)
    ensures (forall row :: row in Rows(files) ==> !rejects(row)) ==>
              ProcessFiles(table, files, rejects) == Store(table.rows + Rows(files), table.nextId + |Rows(files)|)
    ensures (exists row :: row in Rows(files) && rejects(row)) ==>
              ProcessFiles(table, files, rejects).rows == table.rows
  {
    FeedPending(table, files, rejects);
  }
}

=== FILE: tokenize.dfy ===
/** The stop-word tokenizer of the two topic-model stages
    (7_LDA_to_DB.py and 20.1_LDA_to_DB_SUMMARIES.py): split on whitespace,
    keep the alphabetic words whose lower-case form is not a stop word, and
    map each kept word through a final step (nothing in the article stage,
    the WordNet lemmatizer in the summary stage). */
module Tokenize {
  import opened Text

  /** A word survives the filter: alphabetic, and not a stop word once lowered. */
  predicate Kept(w: string, stop: set<string>) {
    IsAlphaWord(w) && LowerStr(w) !in stop
  }

  /** A lower-case alphabetic word. */
  predicate IsLowerWord(w: string) {
    |w| > 0 && forall i :: 0 <= i < |w| ==> IsLower(w[i])
  }

  /** The comprehension over an already split list of words. */
  function TokensOf(ws: seq<string>, stop: set<string>, post: string -> string): (r: seq<string>)
    ensures |r| <= |ws|
    ensures forall j :: 0 <= j < |ws| && Kept(ws[j], stop) ==> post(LowerStr(ws[j])) in r
    ensures (forall j :: 0 <= j < |ws| ==> Kept(ws[j], stop)) ==> |r| == |ws|
  {
    if ws == [] then []
    else
      var tail := TokensOf(ws[1..], stop, post);
      assert forall j :: 1 <= j < |ws| ==> ws[j] == ws[1..][j - 1];
      if Kept(ws[0], stop) then [post(LowerStr(ws[0]))] + tail else tail
  }

  /** `preprocess_text`: the tokens of one document. */
  function Tokens(text: string, stop: set<string>, post: string -> string): (ts: seq<string>)
    ensures |ts| <= |Words(text)|
  {
    TokensOf(Words(text), stop, post)
  }

  /** Every token comes from a kept word. */
  lemma {:induction false} TokensOfSound(ws: seq<string>, stop: set<string>, post: string -> string)
    ensures forall i :: 0 <= i < |TokensOf(ws, stop, post)| ==>
              exists j :: 0 <= j < |ws| && Kept(ws[j], stop) && TokensOf(ws, stop, post)[i] == post(LowerStr(ws[j]))
  {
    if ws != [] {
      TokensOfSound(ws[1..], stop, post);
      var tail := TokensOf(ws[1..], stop, post);
      var r := TokensOf(ws, stop, post);
      forall i | 0 <= i < |r|
        ensures exists j :: 0 <= j < |ws| && Kept(ws[j], stop) && r[i] == post(LowerStr(ws[j]))
      {
        if Kept(ws[0], stop) && i == 0 {
          assert 0 < |ws| && Kept(ws[0], stop) && r[i] == post(LowerStr(ws[0]));
        } else {
          var k := if Kept(ws[0], stop) then i - 1 else i;
          assert r[i] == tail[k];
          var j :| 0 <= j < |ws[1..]| && Kept(ws[1..][j], stop) && tail[k] == post(LowerStr(ws[1..][j]));
          assert ws[1..][j] == ws[j + 1];
          assert 0 <= j + 1 < |ws| && Kept(ws[j + 1], stop) && r[i] == post(LowerStr(ws[j + 1]));
        }
      }
      assert forall i :: 0 <= i < |r| ==> exists j :: 0 <= j < |ws| && Kept(ws[j], stop) && r[i] == post(LowerStr(ws[j]));
    } else {
      assert TokensOf(ws, stop, post) == [];
    }
  }

  /** Tokenizing two lists of words one after the other is tokenizing their
      concatenation: the filter keeps the order of the words. */
  lemma {:induction false} TokensOfAppend(xs: seq<string>, ys: seq<string>, stop: set<string>, post: string -> string)
    ensures TokensOf(xs + ys, stop, post) == TokensOf(xs, stop, post) + TokensOf(ys, stop, post)
  {
    hide TokensOf;
    if xs != [] {
      assert (xs + ys)[0] == xs[0] && (xs + ys)[1..] == xs[1..] + ys;
      TokensOfAppend(xs[1..], ys, stop, post);
      TokensOfStep(xs, stop, post);
      TokensOfStep(xs + ys, stop, post);
    } else {
      assert xs + ys == ys;
      TokensOfStep(xs, stop, post);
    }
  }

  /** The tokens of a word list: the first word's token, if kept, then the
      rest's. */
  lemma TokensOfStep(ws: seq<string>, stop: set<string>, post: string -> string)
    ensures ws == [] ==> TokensOf(ws, stop, post) == []
    ensures ws != [] ==>
              TokensOf(ws, stop, post) ==
              (if Kept(ws[0], stop) then [post(LowerStr(ws[0]))] else []) + TokensOf(ws[1..], stop, post)
  {
  }

  lemma {:induction false} LowerStrOfAlpha(w: string)
    requires IsAlphaWord(w)
    ensures IsLowerWord(LowerStr(w))
  {
  }

  function Identity(w: string): string { w }

  /** The article stage's tokens: no final step. */
  function PlainTokens(text: string, stop: set<string>): seq<string> {
    Tokens(text, stop, Identity)
  }

  /** Every token of the article stage is a lower-case alphabetic word that
      is not a stop word. */
  lemma {:induction false} PlainTokensShape(text: string, stop: set<string>)
    ensures forall i :: 0 <= i < |PlainTokens(text, stop)| ==>
              IsLowerWord(PlainTokens(text, stop)[i]) && PlainTokens(text, stop)[i] !in stop
  {
    var ws := Words(text);
    TokensOfSound(ws, stop, Identity);
    forall i | 0 <= i < |TokensOf(ws, stop, Identity)|
      ensures IsLowerWord(TokensOf(ws, stop, Identity)[i]) && TokensOf(ws, stop, Identity)[i] !in stop
    {
      var j :| 0 <= j < |ws| && Kept(ws[j], stop) && TokensOf(ws, stop, Identity)[i] == Identity(LowerStr(ws[j]));
      LowerStrOfAlpha(ws[j]);
    }
  }
}

=== FILE: vector_index.dfy ===
/** The vector-index build (9_FAISS_to_DB.py): read every article's stored
    embedding, decode it as bracketed comma-separated text, collect ids and
    vectors in lockstep, check the width against the index dimension, then
    add all vectors to the index and write it to disk.

    The UTF-8 decoder and the number parser are parameters; the index is
    its dimension and the vectors added to it, in order (ranking is not
    part of this model). */
module VectorIndex {
  import opened Wrappers
  import opened Text

  type Vector = seq<real>

  /** A flat index: its dimension `d` and the vectors added so far. */
  datatype Index = Index(d: nat, vectors: seq<Vector>)

  /** Why a build stops before touching the index. */
  datatype BuildError =
    | NullVector(articleId: int)
    | NotUtf8(articleId: int)
    | NoRows
    | Ragged
    | WrongWidth(expected: nat, got: nat)

  /** The index and the file on disk after a build. */
  datatype Built = Built(index: Index, disk: Index)

  /** `d = 768`, the dimension the pipeline creates the index with. */
  const Dimension: nat := 768

  /** `embedding_str.strip('[]')`. */
  function Unbracket(s: string): string {
    StripChars(s, {'[', ']'})
  }

  /** The fields read as numbers, up to the first one `num` cannot read. */
  function ReadFields(fields: seq<string>, num: string -> Option<real>): (v: Vector)
    ensures |v| <= |fields|
    ensures forall i :: 0 <= i < |v| ==> num(fields[i]) == Some(v[i])
    ensures |v| < |fields| ==> num(fields[|v|]).None?
  {
    if fields == [] then []
    else
      match num(fields[0])
      case None => []
      case Some(x) =>
        var rest := ReadFields(fields[1..], num);
        assert forall i :: 1 <= i <= |rest| ==> fields[i] == fields[1..][i - 1];
        [x] + rest
  }

  /** `np.fromstring(text, sep=',')`: the comma-separated fields read as
      numbers, stopping (with a deprecation warning, not an error) at the
      first field that does not read as one; the empty text gives the
      empty vector. */
  function ParseVector(text: string, num: string -> Option<real>): (v: Vector)
    ensures text == [] ==> v == []
    ensures text != [] ==>
              var fields := SplitOn(text, ',');
              |v| <= |fields| &&
              (forall i :: 0 <= i < |v| ==> num(fields[i]) == Some(v[i])) &&
              (|v| < |fields| ==> num(fields[|v|]).None?)
  {
    if text == [] then [] else ReadFields(SplitOn(text, ','), num)
  }

  /** Every field reads: one number per field. A field that does not
      read: fewer numbers than fields. */
  lemma {:induction false} ReadFieldsAll(fields: seq<string>, num: string -> Option<real>)
    ensures |ReadFields(fields, num)| == |fields| <==> forall i :: 0 <= i < |fields| ==> num(fields[i]).Some?
  {
    var v := ReadFields(fields, num);
    if |v| == |fields| {
      forall i | 0 <= i < |fields| ensures num(fields[i]).Some? {
        assert num(fields[i]) == Some(v[i]);
      }
    }
  }

  /** Decoding one stored value: UTF-8, then the brackets, then the numbers.
      A NULL column (`None`) has no `tobytes` and raises, as does a value
      that is not UTF-8. */
  function DecodeVector(stored: Option<seq<bv8>>, utf8: seq<bv8> -> Option<string>, num: string -> Option<real>): (r: Option<Vector>)
    ensures stored.None? ==> r.None?
    ensures stored.Some? && utf8(stored.value).Some? <==> r.Some?
  {
    match stored
    case None => None
    case Some(bytes) =>
      match utf8(bytes)
      case None => None
      case Some(text) => Some(ParseVector(Unbracket(text), num))
  }

  /** Row `i` is the first whose value does not decode, and `e` is the
      error its decoding raises. */
  predicate FirstFailure(rows: seq<(int, Option<seq<bv8>>)>, utf8: seq<bv8> -> Option<string>, num: string -> Option<real>,
                         i: int, e: BuildError) {
    0 <= i < |rows| && DecodeVector(rows[i].1, utf8, num).None? &&
    (forall k :: 0 <= k < i ==> DecodeVector(rows[k].1, utf8, num).Some?) &&
    e == if rows[i].1.None? then NullVector(rows[i].0) else NotUtf8(rows[i].0)
  }

  /** A first failure past a row that decodes is the first failure of the
      longer list, one further on. */
  lemma FirstFailureCons(rows: seq<(int, Option<seq<bv8>>)>, utf8: seq<bv8> -> Option<string>, num: string -> Option<real>,
                         i: int, e: BuildError)
    requires rows != [] && DecodeVector(rows[0].1, utf8, num).Some? && FirstFailure(rows[1..], utf8, num, i, e)
    ensures FirstFailure(rows, utf8, num, i + 1, e)
  {
    assert forall k :: 1 <= k < |rows| ==> rows[k] == rows[1..][k - 1];
  }

  /** The fetch loop: `ids` and `embeddings` appended together, row by row;
      a NULL value or one that is not UTF-8 raises out of the loop. */
  function Collect(rows: seq<(int, Option<seq<bv8>>)>, utf8: seq<bv8> -> Option<string>, num: string -> Option<real>): (r: Result<(seq<int>, seq<Vector>), BuildError>)
    ensures r.Ok? ==> |r.value.0| == |rows| && |r.value.1| == |rows|
    ensures r.Ok? ==> forall i :: 0 <= i < |rows| ==>
              r.value.0[i] == rows[i].0 && DecodeVector(rows[i].1, utf8, num) == Some(r.value.1[i])
    ensures r.Err? <==> exists i :: 0 <= i < |rows| && DecodeVector(rows[i].1, utf8, num).None?
    ensures r.Err? ==> exists i :: FirstFailure(rows, utf8, num, i, r.error)
  {
    if rows == [] then Ok(([], []))
    else
      match DecodeVector(rows[0].1, utf8, num)
      case None =>
        var e := if rows[0].1.None? then NullVector(rows[0].0) else NotUtf8(rows[0].0);
        assert FirstFailure(rows, utf8, num, 0, e);
        Err(e)
      case Some(v) =>
        var rest := Collect(rows[1..], utf8, num);
        assert forall i :: 1 <= i < |rows| ==> rows[i] == rows[1..][i - 1];
        if rest.Err? then
          var i :| FirstFailure(rows[1..], utf8, num, i, rest.error);
          FirstFailureCons(rows, utf8, num, i, rest.error);
          rest
        else Ok(([rows[0].0] + rest.value.0, [v] + rest.value.1))
  }

  /** `np.array(embeddings).shape[1]`: the common width of the vectors; a
      build with no rows has no second axis, and vectors of different widths
      do not form a matrix. */
  function Width(vs: seq<Vector>): (r: Result<nat, BuildError>)
    ensures r.Ok? <==> vs != [] && forall i :: 0 <= i < |vs| ==> |vs[i]| == |vs[0]|
    ensures r.Ok? ==> r.value == |vs[0]|
  {
    if vs == [] then Err(NoRows)
    else if forall i :: 0 <= i < |vs| ==> |vs[i]| == |vs[0]| then Ok(|vs[0]|)
    else Err(Ragged)
  }

  /** `build_faiss_index`: collect, check the width against `index.d`, add,
      write. On failure neither the index nor the file changes; on success
      the index grows by exactly the fetched vectors, in fetch order, each
      the decoding of its row, and the file holds the grown index. */
  function Build(rows: seq<(int, Option<seq<bv8>>)>, index: Index, utf8: seq<bv8> -> Option<string>, num: string -> Option<real>): (r: Result<Built, BuildError>)
    ensures r.Ok? ==>
              r.value.disk == r.value.index && r.value.index.d == index.d &&
              |r.value.index.vectors| == |index.vectors| + |rows| &&
              r.value.index.vectors[..|index.vectors|] == index.vectors &&
              forall i :: 0 <= i < |rows| ==> Some(r.value.index.vectors[|index.vectors| + i]) == DecodeVector(rows[i].1, utf8, num)
  {
    match Collect(rows, utf8, num)
    case Err(e) => Err(e)
    case Ok((ids, vs)) =>
      match Width(vs)
      case Err(e) => Err(e)
      case Ok(w) =>
        if w != index.d then Err(WrongWidth(index.d, w))
        else
          var grown := index.(vectors := index.vectors + vs);
          Ok(Built(grown, grown))
  }

  /** The build succeeds exactly when there is at least one row, no value
      is NULL, every value is UTF-8, and every vector has the index's
      dimension; the guard runs before the add, so a failure leaves nothing
      added and nothing written. */
  lemma {:induction false} BuildGuard(rows: seq<(int, Option<seq<bv8>>)>, index: Index, utf8: seq<bv8> -> Option<string>, num: string -> Option<real>)
    ensures Build(rows, index, utf8, num).Ok? <==>
              rows != [] &&
              (forall i :: 0 <= i < |rows| ==> rows[i].1.Some?) &&
              (forall i :: 0 <= i < |rows| ==> utf8(rows[i].1.value).Some?) &&
              (forall i :: 0 <= i < |rows| ==> |DecodeVector(rows[i].1, utf8, num).value| == index.d)
  {
    var c := Collect(rows, utf8, num);
    if c.Ok? {
      var vs := c.value.1;
      if rows != [] && forall i :: 0 <= i < |rows| ==> |DecodeVector(rows[i].1, utf8, num).value| == index.d {
        assert forall i :: 0 <= i < |vs| ==> |vs[i]| == index.d;
      }
      if Build(rows, index, utf8, num).Ok? {
        assert forall i :: 0 <= i < |vs| ==> |vs[i]| == |vs[0]|;
      }
    }
  }

  /** A row printed with exactly the index's number of fields, one of which
      does not read as a number, yields a shorter vector, so the width
      assertion stops the build. */
  lemma {:induction false} UnreadableFieldFailsBuild(rows: seq<(int, Option<seq<bv8>>)>, index: Index,
                                                    utf8: seq<bv8> -> Option<string>, num: string -> Option<real>,
                                                    i: nat, fields: seq<string>, k: nat)
    requires i < |rows| && rows[i].1.Some? && utf8(rows[i].1.value) == Some("[" + Join(fields, ",") + "]")
    requires PlainFields(fields) && |fields| == index.d && k < |fields| && num(fields[k]).None?
    ensures Build(rows, index, utf8, num).Err?
  {
    hide Build, ParseVector, Unbracket;
    ParseBracketed(fields, num);
    BuildGuard(rows, index, utf8, num);
    assert |DecodeVector(rows[i].1, utf8, num).value| != index.d;
  }

  /** The pipeline's build: a fresh index of dimension 768, so exactly the
      rows whose vectors have 768 numbers can be indexed. */
  function RunPipeline(rows: seq<(int, Option<seq<bv8>>)>, utf8: seq<bv8> -> Option<string>, num: string -> Option<real>): (r: Result<Built, BuildError>)
    ensures r.Ok? ==> r.value.index.d == Dimension && r.value.disk == r.value.index && |r.value.index.vectors| == |rows|
  {
    Build(rows, Index(Dimension, []), utf8, num)
  }

  /** A successful pipeline run holds exactly the decoded vectors, all of
      width 768, in fetch order. */
  lemma {:induction false} RunPipelineIndex(rows: seq<(int, Option<seq<bv8>>)>, utf8: seq<bv8> -> Option<string>, num: string -> Option<real>)
    requires RunPipeline(rows, utf8, num).Ok?
    ensures var b := RunPipeline(rows, utf8, num).value;
            b.index.d == 768 && |b.index.vectors| == |rows| &&
            forall i :: 0 <= i < |rows| ==>
              Some(b.index.vectors[i]) == DecodeVector(rows[i].1, utf8, num) && |b.index.vectors[i]| == 768
  {
    BuildGuard(rows, Index(Dimension, []), utf8, num);
  }

  /** Printed numbers that survive `[`, `,` and `]` framing: at least one,
      none holding a comma, and no bracket at the outer edges. */
  predicate PlainFields(fields: seq<string>) {
    |fields| > 0 && (forall i :: 0 <= i < |fields| ==> ',' !in fields[i]) &&
    fields[0] != [] && fields[0][0] !in {'[', ']'} &&
    fields[|fields| - 1] != [] && fields[|fields| - 1][|fields[|fields| - 1]| - 1] !in {'[', ']'}
  }

  /** Text written as `[x1,x2,...]` with comma-free fields parses back to
      the fields read as numbers, one per field exactly when every field
      reads. */
  lemma {:induction false} ParseBracketed(fields: seq<string>, num: string -> Option<real>)
    requires PlainFields(fields)
    ensures var v := ParseVector(Unbracket("[" + Join(fields, ",") + "]"), num);
            |v| <= |fields| && (forall i :: 0 <= i < |v| ==> num(fields[i]) == Some(v[i])) &&
            (|v| == |fields| <==> forall i :: 0 <= i < |fields| ==> num(fields[i]).Some?)
  {
    var j := Join(fields, ",");
    JoinEdges(fields, ",");
    var s := "[" + j + "]";
    assert s[1..][..|s| - 2] == j;
    assert StripChars(s, {'[', ']'}) == StripChars(s[1..], {'[', ']'});
    assert s[1..] == j + "]";
    assert (j + "]")[..|j|] == j;
    assert StripChars(s[1..], {'[', ']'}) == StripChars(j, {'[', ']'});
    SplitOnJoin(fields, ',');
    ReadFieldsAll(fields, num);
  }
}

=== FILE: wrappers.dfy ===
/** Optional values and error-carrying results, standing for Python's `None`
    returns and raised exceptions. */
module Wrappers {

  datatype Option<+T> = None | Some(value: T) {
    function GetOr(default: T): T {
      match this
      case Some(v) => v
      case None => default
    }
  }

  datatype Result<+T, +E> = Ok(value: T) | Err(error: E)
}
